=== FILE: README.md ===
# Archy document core in Dafny

Archy is a text editor built on the ideas of the humane interface. There is one long document and no modes. You move through it by creeping one character at a time or by leaping to a typed target. Commands are executed on the selection, and every change can be undone. This project models the editor's core as pure Dafny functions over immutable values, and proves properties about them.

What is modelled:

- **Position arithmetic** (`Globals`). Clamping, range intersection and overlap, and how a position moves when text is added or deleted. Also the shift-key character maps.
- **The three parallel arrays of the document.**
  - The text array (`TextArrays`).
  - The style array with its interning pool of styles (`Styles`). Style id 0 is the default style.
  - The behavior array with its action and behavior pools (`Pools`, `Behaviors`). A behavior is a stack of actions, and each action has handler slots (`Handlers`). The stop-bit runs of the handlers give the blankable ranges (`Runs`).
- **Python list and string semantics** the source relies on (`PyList`, `PyStr`). This covers negative indices, clipped slices, slice insertion, `find`, `split` and `int()`.
- **The document** (`Documents`). The three arrays are kept in lock-step. The document also holds the cursor, the selection list (preselection, selection, then old selections) and the non-content memento.
- **The Boyer–Moore–Horspool search** behind LEAP (`BmhSearch`). A lowercase letter matches either case, and a symbol matches its shifted key.
- **The commands, as one interpreter** (`Commands`).
  - Text, style, behavior, lock, creep/leap and spellcheck commands.
  - Each execution returns the record its undo needs.
  - Handler chains re-enter the interpreter, and each re-entry spends one unit of `fuel`.
  - Per-command properties are proved in `TextEditing`, `StyleEditing`, `BehaviorEditing`, `Lock`, `Cursor` and `SpellcheckCommands`.
- **The command history** (`CommandEngine`): UNDO, REDO and CLEAR UNDO HISTORY, and the command registry. `Session` runs the history over the interpreter. Nested recordings of composite commands are in `Recording`.
- **The pure parts of saving** (`SaveLoad`): run-length coding, history capping, and the incremental-save change queue.
- **The journal** (`Journal`): every change is logged as it is made, and on load a saved batch is replayed into the session without being logged again.
- **Key bindings** (`Keys`): the binding table, the bounded recorder of recent key presses, and longest-suffix matching.
- **The text parsing of RUN** (`Run`): named documents, module registration, loose code, and traceback lines.

What is a parameter instead of behaviour of the program:

- The global `archyState` is an explicit state value.
- The name pygame gives a key code is a function parameter.
- The spell checker's dictionary is a set of words.
- File and screen I/O, the clock and the message display are not modelled.

## Model

| member | source | states |
|---|---|---|
| Globals.Bound | archy_globals.py:107-112 | a value inside `[lo, hi]` is returned unchanged, one below is raised to `lo`, one above is lowered to `hi`; the result lies in the interval whenever `lo <= hi` |
| Globals.BoundIdempotentAndNearest | archy_globals.py:107-112 | clamping twice is clamping once, and the clamped value is the point of the interval nearest to the input |
| Globals.Intersection | archy_globals.py:121-122 | a position lies in the intersection exactly when it lies in both ranges |
| Globals.DoRangesOverlap | archy_globals.py:126-139 | the range that starts first overlaps the other exactly when its end reaches the other's start |
| Globals.OverlapIffSharedPosition | archy_globals.py:126-139 | for non-empty ranges the overlap test holds exactly when some position lies in both, and it is symmetric |
| Globals.ApplyShift | archy_globals.py:157-161 | a lower-case letter becomes its upper-case letter, an unshifted symbol key its shifted symbol, anything else is unchanged |
| Globals.RemoveShift | archy_globals.py:163-167 | an upper-case letter becomes its lower-case letter, a shifted symbol its unshifted key, anything else is unchanged |
| Globals.UnshiftedKeysInvertible | archy_globals.py:153-155 | the two key tables are inverse: every unshifted key comes back from its shifted symbol |
| Globals.ShiftedKeysInvertible | archy_globals.py:153-155 | every shifted symbol comes back from its unshifted key |
| Globals.ShiftRoundTrip | archy_globals.py:153-167 | removing the shift after applying it gives back a lower-case letter or symbol key, and applying it after removing it gives back an upper-case letter or shifted symbol |
| Globals.UpdateOnAdd | archy_globals.py:233-236 | positions before the insertion point stay, positions at or after it move right by the inserted length |
| Globals.UpdateOnDelete | archy_globals.py:239-247 | positions before the deleted range stay, positions inside collapse onto its start, positions after move left by its length |
| Globals.AddThenDeleteRestoresPosition | archy_globals.py:231-247 | deleting exactly the block an insertion created puts every position back where it was |
| Globals.UpdatesAreMonotone | archy_globals.py:231-247 | both updates keep positions in order |
| Globals.UpdateOnAddFollowsCharacter | archy_globals.py:231-236 | after an insertion the updated position still holds the character it held before |
| Globals.UpdateOnDeleteFollowsCharacter | archy_globals.py:231-247 | after a deletion the updated position of a character outside the range still holds it; a position inside collapses onto the start |
| Globals.ClampDeletion | text_array.py:91-111 | the clamped range holds exactly the existing positions of the requested range, and exists whenever the request touches an existing position |
| Globals.DeleteRange | text_array.py:91-111 | nothing changes when the clamped range does not exist; otherwise exactly the clamped range is cut out |
| Globals.DeleteRangeKeepsOthers | text_array.py:91-111 | every element a deletion keeps ends up at the position `updateTextPositionOnDelete` gives it |
| Globals.CutInsertedBlock | text_array.py:73-111 | deleting the block an insertion produced gives back the array it was inserted into |
| Globals.ReinsertDeleted | text_array.py:73-111 | putting a deleted block back at the insertion point of its start restores the array |
| Globals.InsertPoint | text_array.py:73-76 | an insertion lands at an existing position given to it and at the end for any other position, negative ones included |
| TextArrays.Init | text_array.py:35-38 | a new text array holds exactly the given contents and is not touched |
| TextArrays.ClearText | text_array.py:40-41 | clearing leaves an empty, untouched array |
| TextArrays.AddText | text_array.py:73-87 | the value is spliced in at the insertion point, the length grows by its length, and the array is marked touched |
| TextArrays.AddTextKeepsCharacters | text_array.py:73-87 | the value sits at the insertion point and every old character is found at its updated position |
| TextArrays.DelText | text_array.py:91-111 | the clamped range is cut out, and the touched flag is set exactly when that range exists |
| TextArrays.WasTouched | text_array.py:115-120 | the flag is reported and cleared, the text is unchanged |
| TextArrays.GetChar | text_array.py:124-125 | one character for an existing position, nothing past the end or at -1, and Python's wrap-around for other negative positions |
| TextArrays.GetSubString | text_array.py:129-140 | empty when the range holds no existing position, otherwise exactly the characters of the clamped range |
| TextArrays.AddThenDeleteRestores | text_array.py:73-111 | inserting a value and deleting the range it occupies gives back the text |
| TextArrays.DeleteThenReinsertRestores | text_array.py:91-140 | deleting a range and inserting the deleted substring at its start gives back the text |
| TextArrays.Find | text_array.py:52-60 | forward: the leftmost match at or after `start`; backward: the rightmost match ending before `start`; -1 exactly when there is none, and always for an empty pattern |
| Pools.IndexOf | behavior.py:46-51 | -1 exactly when the element is absent, otherwise the index of its first occurrence |
| Pools.Intern | behavior.py:46-51 | a present element keeps the pool and gets its first index; an absent one is appended and gets the new last index |
| Pools.InternKeepsPool | behavior.py:46-51 | interning only ever appends, and a duplicate-free pool stays duplicate-free |
| Pools.InternInjective | behavior.py:46-51 | within one pool two elements get the same id exactly when they are equal |
| Pools.UniqueIndex | behavior.py:46-51 | in a duplicate-free pool the id of an entry is its index |
| Pools.InternIdempotent | behavior.py:46-51 | interning the same element again returns the same id and pool |
| PyList.MinusOneInsertsBeforeLast | style.py:256-264 | the slice assignment `a[-1:-1] = v` on a non-empty list inserts before the last element, not after it |
| Styles.DefaultStyle | style.py:56-67 | the default style has exactly the nine attributes, with Courier New at size 16, black on white |
| Styles.Get | style.py:73-76 | reading an attribute succeeds exactly when the style has it, and otherwise fails with the "is not a style attribute name" error |
| Styles.SetStyle | style.py:84-90 | succeeds exactly when every named attribute exists; the attribute set is unchanged and every value is the old one or one of the arguments; a failure names an unknown attribute |
| Styles.ApplyOverlay | style.py:155-162 | every attribute of the overlay takes the overlay's value and every other attribute keeps the style's |
| Styles.InitPool | style.py:108-113 | a fresh pool holds one style and no duplicates |
| Styles.FindStyle | style.py:177-181 | -1 exactly when the style is absent, otherwise the first index holding an equal style |
| Styles.NewStyle | style.py:115-137 | the id names the default style with the overlay applied; the pool only grows by at most that one style and stays duplicate-free |
| Styles.MergeStyleWithOverlay | style.py:155-175 | the id names the old style with the overlay applied; the pool only grows by at most that one style and stays duplicate-free |
| Styles.EmptyOverlayIsIdentity | style.py:155-175 | merging an empty overlay returns the same style id and pool |
| Styles.MergeIdempotent | style.py:155-175 | merging the same overlay twice gives what merging it once gave |
| Styles.NewDefaultStyleIsZero | style.py:108-137 | a new style with no attributes set is the default style, id 0 |
| Styles.Init | style.py:197-205 | a new style array has one entry per character, each the default style |
| Styles.Clear | style.py:207-214 | clearing refills one default-style entry per character of the text |
| Styles.SetStyleInRange | style.py:221-223 | for a range inside the array exactly its entries take the new style |
| Styles.SetDefaultStyle | style.py:228-232 | the default and every entry become the new style, the length unchanged |
| Styles.GetCharStyle | style.py:240-243 | the stored style at an existing position, the default style anywhere else |
| Styles.SetCharStyle | style.py:245-248 | only the given existing position changes; any other position changes nothing |
| Styles.GetSubString | style.py:250-251 | for a range inside the array, its entries in order |
| Styles.ReplaceStyles | style.py:253-254 | for a block inside the array exactly that block is overwritten |
| Styles.ReplaceSubStringRestores | style.py:250-254 | writing back a block read from the array changes nothing |
| Styles.InheritedStyle | style.py:258-263 | the style new text takes: the given one, else the style at the insertion point, else the default |
| Styles.AddText | style.py:256-264 | as written: inside the array the new entries go at the insertion point; for any other position they go before the last entry |
| Styles.AddTextAligned | style.py:256-264 | corrected: the new entries go at the insertion point the text array uses, so the style array stays aligned with the text |
| Styles.AlignedKeepsOldIds | style.py:256-264 | after an aligned insertion the new block holds the inherited style and every old entry sits at its updated position |
| Styles.AlignedAgreesInside | style.py:256-264 | the corrected insertion agrees with the original for positions inside the array and for an empty array |
| Styles.AppendMisalignsStyles | style.py:256-264 | appending one character to the array `[5]` gives `[0, 5]` as written, while the text array appends at the end, so the old character's style moves onto the new one |
| Styles.DelText | style.py:266-279 | the clamped range is cut out, with the same clamping as the text array |
| Styles.AddThenDeleteRestores | style.py:256-279 | deleting the block an aligned insertion created gives back the style array |
| Handlers.BehaviorName | commands/lock.py:30-102 | exactly the three plain editing commands have no behavior name; every lock and spellcheck handler names its behavior |
| Handlers.StopBitIffLock | commands/lock.py:86-101 | a handler stops its chain exactly when it belongs to one of the lock behaviors; every other command keeps the default stop bit 0 of `CommandObject` |
| Handlers.HardcodedStopBits | commands/lock.py:308-314 | in the registered behavior table every lock handler stops its chain and no spellcheck handler does, and the final-document-character lock has no add handler |
| Behaviors.Fresh | behavior.py:201-226 | the array before registration is well formed |
| Behaviors.RegisterBehavior | behavior.py:239-254 | registration succeeds exactly for a named behavior not yet registered and adds just that entry; a missing name and a duplicate name fail with their messages |
| Behaviors.RegisterAll | behavior.py:229-233 | registering a table changes only the registry |
| Behaviors.RegisterAllRegisters | behavior.py:229-254 | after registering a table every earlier entry is kept, every table entry is registered with its action, and nothing else is added |
| Behaviors.Init | behavior.py:201-233 | a new array holds the default behavior (id 0, the default action) at every position, the whole hard-coded table is registered and nothing else, and no equivalences are recorded |
| Behaviors.HardcodedRegistration | behavior.py:229-233 | registering the hard-coded behavior table never fails |
| Behaviors.RegisterAllSucceeds | behavior.py:239-254 | a table of distinct, unregistered names always registers |
| Behaviors.SetStorage | behavior.py:265-270 | the behavior's storage slot takes the instance; its equivalence list starts with the old form the first time and always gains the new form; nothing else changes |
| Behaviors.GetBehaviorEquivalence | behavior.py:272-276 | the recorded list of forms when there is one, otherwise nothing |
| Behaviors.SetStorageKeepsEquivConsistent | behavior.py:265-270 | after setting a storage the last recorded form of each behavior is its current form |
| Behaviors.GetActionID | behavior.py:46-71 | the id names the action; a known action leaves the pools unchanged, a new one is appended |
| Behaviors.GetBehaviorID | behavior.py:94-97 | the id names the behavior; a known behavior leaves the pool unchanged, a new one is appended |
| Behaviors.RemoveFirst | behavior.py:117-125 | `list.remove`: an absent element leaves the list, a present one loses exactly one occurrence |
| Behaviors.RemoveFirstAfterPush | behavior.py:102-125 | removing an action just pushed on the front gives back the list |
| Behaviors.Merge | behavior.py:102-105 | the new behavior is the old one with the action put in front; the pool only grows |
| Behaviors.Remove | behavior.py:117-125 | the new behavior is the old one with the first occurrence of the action removed, and is the old id when the action is absent |
| Behaviors.MergeThenRemove | behavior.py:102-125 | merging an action and removing it again gives back the old behavior id |
| Behaviors.AddActionAt | behavior.py:313-317 | the position's behavior gains the action in front; every other position is unchanged |
| Behaviors.AddActionFrom | behavior.py:313-317 | every existing position in the range gains the action in front; every other position is unchanged |
| Behaviors.AddActionInRange | behavior.py:313-317 | every existing position in `[startPos, endPos]` gains the action in front, positions outside the array are skipped, and every other position is unchanged |
| Behaviors.RemoveActionAt | behavior.py:319-323 | the position's behavior loses the first occurrence of the action; every other position is unchanged |
| Behaviors.RemoveActionFrom | behavior.py:319-323 | every existing position in the range loses the first occurrence of the action; every other position is unchanged |
| Behaviors.RemoveActionInRange | behavior.py:319-323 | every existing position in `[startPos, endPos]` loses the first occurrence of the action; every other position is unchanged |
| Behaviors.AddThenRemoveRestores | behavior.py:313-323 | adding an action over a range and removing it again gives back every position's behavior id |
| Behaviors.SlotsOfMembers | behavior.py:369-376 | a handler is among an action's slot contents exactly when one of the asked slots holds it |
| Behaviors.HandlersInMembers | behavior.py:369-376 | a handler is among a behavior's handlers exactly when one of its actions holds it in an asked slot |
| Behaviors.GetStorage | behavior.py:342-348 | the storage found belongs to the position's behavior and to the named behavior; nothing is found exactly when no storage there belongs to it |
| Behaviors.FirstOwned | behavior.py:342-348 | the first storage owned by the named behavior, or nothing when none is |
| Behaviors.ActionFlags | behavior.py:278-283 | one flag per position, set exactly when the position's behavior has a handler of the named behavior |
| Behaviors.ExtentStart | behavior.py:325-331 | on a flagged position the start of its maximal flagged run, and one past the position otherwise |
| Behaviors.ExtentEnd | behavior.py:333-340 | on a flagged position the end of its maximal flagged run, and one before the position otherwise |
| Behaviors.Extent | behavior.py:325-340 | the maximal run of flagged positions around the position, or an empty range at an unflagged one |
| Behaviors.FindActionExtent | behavior.py:325-340 | the maximal run of positions carrying the named behavior around the position |
| Behaviors.ExtentUnique | behavior.py:325-340 | the extent around a position is uniquely determined |
| Behaviors.OverrideFlags | behavior.py:285-295 | one flag per position of the range, set exactly when some handler in the asked slot stops its chain |
| Behaviors.BlankableRanges | behavior.py:414-434 | the ranges are exactly the maximal runs of non-overriding positions, in order |
| Behaviors.DefaultBehaviorIsBlankable | behavior.py:414-434 | on an array of default behaviors the whole range is one blankable range |
| Behaviors.AddText | behavior.py:442-443 | the default behavior is inserted once per new character at the slice bound of the insertion position |
| Behaviors.DelText | behavior.py:445-458 | the clamped range is cut out, with the same clamping as the text array |
| Behaviors.AddThenDeleteRestores | behavior.py:442-458 | deleting the block an insertion created gives back the behavior array |
| Behaviors.AddTextKeepsValid | behavior.py:442-443 | insertion keeps every position pointing at a behavior in the pool |
| Behaviors.DelTextKeepsValid | behavior.py:445-458 | deletion keeps every position pointing at a behavior in the pool |
| Behaviors.GetSubString | behavior.py:460-465 | the behavior ids of the range in order, with Python's negative indexing |
| Behaviors.ReplaceBehaviors | behavior.py:467-469 | for a non-negative start exactly the block is overwritten and the rest is unchanged |
| Behaviors.ReplaceKeepsValid | behavior.py:467-469 | writing pooled ids keeps the array well formed |
| Behaviors.SubStringRoundTrip | behavior.py:460-469 | writing back what was read from a range changes nothing |
| BmhSearch.MatchingChars | bmh_search.py:70-77 | a pattern character matches itself and its shifted form (upper case for a letter) |
| BmhSearch.MakePatternList | bmh_search.py:81-85 | one class of matching characters per pattern character, in order |
| BmhSearch.LiteralOccurrenceMatches | bmh_search.py:70-96 | every literal occurrence of the pattern is accepted by its pattern list |
| BmhSearch.ComparePattern | bmh_search.py:89-96 | reports a match exactly when every window character lies in its class |
| BmhSearch.ForwardSkipTable | bmh_search.py:104-111 | a character is in the table exactly when some class before the last holds it, and its skip is the distance from its last such class to the end, between 1 and length-1 |
| BmhSearch.BackwardSkipTable | bmh_search.py:115-122 | a character is in the table exactly when some class after the first holds it, and its skip is the index of its first such class, between 1 and length-1 |
| BmhSearch.ForwardSkipSafe | bmh_search.py:160-177 | no window skipped over by the forward skip can match |
| BmhSearch.ForwardStep | bmh_search.py:155-177 | one forward step moves right and keeps "no match from the start up to here" |
| BmhSearch.BackwardSkipSafe | bmh_search.py:224-241 | no window skipped over by the backward skip can match |
| BmhSearch.ScanForward | bmh_search.py:155-182 | the search loop returns the leftmost matching window inside the limit, or -1 when none matches |
| BmhSearch.ScanBackward | bmh_search.py:219-246 | the search loop returns the rightmost matching window inside the limit, or -1 when none matches |
| BmhSearch.SearchForward | bmh_search.py:132-188 | -1 for an empty pattern; otherwise the leftmost window from `startPos` that fits before `endPos` and matches, or -1 exactly when none does |
| BmhSearch.SearchBackward | bmh_search.py:198-253 | -1 for an empty pattern; otherwise the rightmost window from `startPos` that fits before `endPos` and matches, or -1 exactly when none does |
| Runs.ScanStep | behavior.py:418-432 | one step of the `blankableRanges` loop keeps the runs found so far maximal and covering |
| Runs.Scan | behavior.py:414-434 | the loop's result lists exactly the maximal runs of clear flags, in order |
| Runs.BlankRuns | behavior.py:414-434 | the ranges are exactly the maximal runs of positions whose flag is clear, in increasing order and separated |
| Runs.RunEnds | behavior.py:414-434 | a listed run starts on a clear flag, and consecutive runs have a set flag between them |
| Runs.AllClearIsOneRun | behavior.py:414-434 | when no position overrides, the whole range is one run |
| Runs.AllSetIsNoRun | behavior.py:414-434 | when every position overrides, there is no run |
| Documents.Init | text_abstract.py:241-249 | a new main text is empty and well formed, its cursor is settled, and it has four unset selections |
| Documents.SetCursor | text_abstract.py:214-225 | in a non-empty text the cursor becomes the position clamped to the text; in an empty text it is 0 for a position at most 0 and -1 otherwise; nothing else changes |
| Documents.ClampCursor | text_abstract.py:214-225 | in a non-empty text the clamped cursor is a position of the text, and an existing position is kept |
| Documents.MoveCursor | text_abstract.py:227-230 | the cursor moves by the offset, clamped to the text; nothing else changes |
| Documents.SetCursorSettles | text_abstract.py:214-225 | setting the cursor leaves it where setting it again keeps it, except in an empty text, where a positive position gives -1 and setting again gives 0 |
| Documents.AddText | text_abstract.py:114-132 | the new text is spliced in at the insertion point, the selection count is kept, and the cursor stays inside a non-empty text |
| Documents.DelText | text_abstract.py:137-142 | the clamped range is cut out of the text, the selection count is kept, and the cursor stays inside a non-empty text |
| Documents.AddTextKeepsValid | text_abstract.py:114-132 | an insertion keeps the text, style and behavior arrays in step |
| Documents.DelTextKeepsValid | text_abstract.py:137-142 | a deletion keeps the text, style and behavior arrays in step |
| Documents.AddTextKeepsCursorOnItsCharacter | text_abstract.py:185-191 | after an insertion the cursor still stands on the character it stood on |
| Documents.DelTextKeepsCursorOnItsCharacter | text_abstract.py:194-199 | after a deletion that spares the cursor's character the cursor still stands on it |
| Documents.AddThenDeleteRestores | text_abstract.py:114-142 | deleting exactly the block an insertion created restores the text, styles, behaviors, cursor and selections; only the text array's touched flag differs |
| Documents.StylePartRestored | text_abstract.py:114-142 | the style array comes back after deleting the block an insertion created |
| Documents.BehaviorPartRestored | text_abstract.py:114-142 | the behavior array comes back after deleting the block an insertion created |
| Documents.SelectionPartRestored | text_abstract.py:272-310 | the selections come back after deleting the block an insertion created |
| Documents.CursorPartRestored | text_abstract.py:185-199 | the cursor comes back after deleting the block an insertion created |
| Documents.SelectionsAddThenDelete | text_abstract.py:272-310 | shifting selections for an insertion and back for the matching deletion gives them back |
| Documents.AddTextCursor | text_abstract.py:185-191 | after an insertion the cursor is its updated position clamped to the new text |
| Documents.DelTextCursor | text_abstract.py:194-199 | after a deletion the cursor is its updated position clamped to the new text |
| Documents.CursorRoundTrip | text_abstract.py:185-199 | a settled cursor comes back after an insertion and the matching deletion |
| Documents.StylesAddThenDelete | text_abstract.py:114-142 | the style array comes back after an insertion with any style argument and the matching deletion |
| Documents.GetStyledText | text_abstract.py:85-88 | the characters and style ids of a range inside the text |
| Documents.SetStyle | text_abstract.py:152-158 | one style id sets every position of the range; a list of ids is written from the start position; nothing else changes |
| Documents.OverlayAt | text_abstract.py:160-166 | one position takes the style its old style becomes under the overlay; the pool only grows |
| Documents.SetStyleOverlay | text_abstract.py:160-166 | every position of the range takes the style its old style becomes under the overlay, every other position is unchanged, and the pool only grows; it fails only when a style id is not in the pool |
| Documents.OverlayThenRestoreStyles | text_abstract.py:152-166 | writing back the style ids copied before an overlay gives back the document |
| Documents.SetSelection | text_abstract.py:329-339 | a selection whose ends are both in the text is stored ordered and no other selection changes; otherwise nothing changes |
| Documents.GetSelection | text_abstract.py:341-342 | the selection read is one of the document's selections |
| Documents.SetSelectionReadBack | text_abstract.py:329-342 | a selection read back holds the two ends given, ordered, and setting it again changes nothing |
| Documents.SelectionExists | text_abstract.py:395-403 | a selection exists exactly when its index is valid and it is not `[-1, -1]` |
| Documents.SetSelectionList | text_abstract.py:265-268 | the selection list is replaced and nothing else changes |
| Documents.IsExtendedSelection | text_abstract.py:388-393 | the selection is extended exactly when it spans more than one character |
| Documents.KeepDisjoint | text_abstract.py:375-385 | exactly the old selections that do not overlap the range are kept, each as many times as it occurs |
| Documents.KeepDisjointAppend | text_abstract.py:375-385 | the kept selections stay in their order: filtering a concatenation is concatenating the filtered parts |
| Documents.RemoveOverlappingOldSelections | text_abstract.py:375-385 | the preselection and selection are kept, exactly the old selections that overlap the range are dropped, every other occurrence is kept, and the survivors are the order-keeping filter of the old selections |
| Documents.ClampedOrdered | text_abstract.py:347-352 | the two ends are clamped to the text and ordered |
| Documents.PlaceSelection | text_abstract.py:353-358 | the clamped range becomes the selection; an extended selection is pushed down to the first old selection, and the preselection is kept |
| Documents.CreateNewSelection | text_abstract.py:347-364 | the selection becomes the clamped, ordered range, the preselection is kept, and when the range is extended no old selection overlaps it |
| Documents.GetNonContentMemento | text_abstract.py:405-407 | the memento holds the cursor and the selection list |
| Documents.SetNonContentInformation | text_abstract.py:409-411 | the selection list is put back and the cursor set back, clamped to the text |
| Documents.MementoRestores | text_abstract.py:405-411 | putting back a memento on a text of the same length restores the cursor and selections |
| Cursor.Place | commands/cursor.py:80-87 | a creep's move sets the cursor and the selection list, and the anchor is the new cursor |
| Cursor.CreepLeft | commands/cursor.py:35-87 | with fewer than two selections it raises an index error; a reversed selection is refused; a cursor just right of a one-character selection steps back onto it; a one-character selection under the cursor moves one to the left with it, dragging the preselection end that sat at the cursor, except at position 0; a cursor elsewhere collapses the preselection and selection onto itself; an extended selection collapses to its start and is pushed down to the old selections; only the cursor and selections change |
| Cursor.CreepRight | commands/cursor.py:104-155 | the mirror of a left creep: a cursor just right of a one-character selection stays and the selection collapses onto it; a one-character selection under the cursor moves one to the right except on the last character; a cursor elsewhere collapses both selections onto itself; an extended selection collapses to its end |
| Cursor.CreepKeepsOldSelections | commands/cursor.py:46-155 | the selections from index 2 on come through a creep unchanged, shifted by one when an extended selection was pushed down |
| Cursor.UndoMove | commands/cursor.py:89-93 | undoing a move restores the saved cursor and selections, anchored at the saved cursor |
| Cursor.CreepUndoRestores | commands/cursor.py:89-93 | undoing a creep gives back the document it started from |
| Cursor.FirstMatch | bmh_search.py:132-188 | the leftmost occurrence in a window of positions, and no occurrence before it |
| Cursor.LastMatch | bmh_search.py:198-253 | the rightmost occurrence in a window of positions, and no occurrence after it |
| Cursor.SearchForward | text_array.py:52-60 | the forward search of the text array finds the first occurrence at or after the start |
| Cursor.SearchBackward | text_array.py:52-60 | the backward search of the text array finds the last occurrence that ends before the start |
| Cursor.IsTargetAllDocs | commands/cursor.py:263-270 | a target is all documents exactly when it is non-empty and made of document characters only |
| Cursor.UpdateSelections | commands/cursor.py:184-204 | the preselection spans from the old cursor to the new one, or from the new one to the old selection's end when leaping back; the selection collapses onto the new cursor; an extended old selection is pushed down |
| Cursor.Leap | commands/cursor.py:206-216 | a leap fails exactly when the target is not found, with status 0 for an empty target and -1 otherwise and a message naming the target; otherwise the selections are updated at the found position |
| Cursor.EmptyTargetFails | commands/cursor.py:206-216 | an empty target never leaps |
| Cursor.LeapForwardLands | commands/cursor.py:285-293 | a forward leap lands on the first occurrence past the selection, else wraps to the first occurrence in the text; it fails exactly when there is none, except that a target of document characters alone lands on the last character |
| Cursor.LeapBackwardLands | commands/cursor.py:304-314 | a backward leap lands on the last occurrence before the cursor, else wraps to the last occurrence before the final character; it fails exactly when there is none, except that a target of document characters alone lands on the first character |
| Cursor.LeapPastEndWraps | commands/cursor.py:285-294 | a forward leap from a selection ending at or past the end of the text finds nothing ahead of it and wraps to the first occurrence in the text, failing only when there is none |
| Cursor.LeapPastEndExample | commands/cursor.py:285-294 | with the text "ab" and the selection at 5, a forward leap to "a" succeeds and puts the cursor on 0 |
| Cursor.LeapUndoRestores | commands/cursor.py:218-222 | undoing a leap gives back the document it started from |
| Keys.AddKeybinding | key.py:158-161 | the key is bound to the given action, or to the null action when none is given, and every other binding is kept |
| Keys.RemoveKeybinding | key.py:163-165 | the key is unbound, every other binding is kept, and an absent key changes nothing |
| Keys.AddThenRemove | key.py:158-165 | binding a fresh key and removing it gives the table back; removing twice is removing once |
| Keys.TryKeybinding | key.py:204-210 | 1 and the bound action exactly when the key is bound, otherwise 0 and nothing runs |
| Keys.Record | key.py:611-614 | the new press is last and the buffer never grows past five presses |
| Keys.RecordKeepsLatest | key.py:611-614 | the buffer holds the last five presses recorded, in order |
| Keys.Notation | key.py:95-103 | the key's name followed by `/` for a release and a backslash for a press |
| Keys.NotationInjective | key.py:95-103 | distinct presses have distinct notations when distinct key codes have distinct names |
| Keys.Notations | key.py:624-629 | one notation per press of the suffix, in order |
| Keys.BuildMatchString | key.py:624-629 | the match string is the suffix's notations joined by single spaces |
| Keys.MatchKeybinding | key.py:616-638 | 1 exactly when some suffix of the recorded presses is bound, and then the action of the longest bound suffix runs; otherwise 0 and nothing runs |
| Recording.Start | commands/recording.py:35-36 | a new empty recording goes on top of the stack and the others are kept |
| Recording.Stop | commands/recording.py:46-47 | the top recording is popped and returned, the rest of the stack kept; with no recording open it fails |
| Recording.Record | commands/recording.py:51-53 | the command goes to the front of the innermost recording and nothing else changes; with no recording open it fails with an index error |
| Recording.StartThenStop | commands/recording.py:35-47 | starting and at once stopping gives back the stack and an empty recording |
| Recording.RecordAllReverses | commands/recording.py:51-53 | the innermost recording ends up holding the recorded commands latest first, in front of what it held; outer recordings are untouched |
| Recording.RedoOrderIsReverse | commands/recording.py:65-67 | redo walks the recorded list from its end back to its start |
| Recording.RecordedOrders | commands/recording.py:35-71 | a recording of some commands, once stopped, re-executes them in their original order on redo and undoes them latest first |
| SaveLoad.Compress | commands/save_and_load.py:99-111 | an empty list fails; otherwise the pairs have positive counts, neighbouring pairs hold different values, and the counts add up to the list's length |
| SaveLoad.CompressRuns | commands/save_and_load.py:102-110 | the loop produces well-formed pairs, the first holding the value being counted, that stand for all the elements seen and not yet seen |
| SaveLoad.CompressRoundTrip | commands/save_and_load.py:99-117 | decompressing a compressed list gives the list back |
| SaveLoad.DecompressRoundTrip | commands/save_and_load.py:99-117 | compressing the expansion of well-formed pairs gives the same pairs, so the coding is one-to-one on what compression produces |
| SaveLoad.CompressRunsDecompress | commands/save_and_load.py:99-117 | expanding what the loop produces gives the counted run followed by the unseen elements |
| SaveLoad.SaveHistory | commands/save_and_load.py:215-241 | a history within the limit is saved whole; a longer one is cut to at most the limit, still well formed, keeping the last executed command as the last executed one |
| SaveLoad.SaveHistoryWindow | commands/save_and_load.py:215-241 | beyond the limit the saved history holds the last executed commands the limit allows, then as many redoable ones as room is left for |
| SaveLoad.SavedUndoesAgree | commands/save_and_load.py:215-241 | undoing from the saved history walks back through the same commands as the live history, as far as the window reaches |
| SaveLoad.LogChange | commands/save_and_load.py:65-68 | the command joins the end of the change queue |
| SaveLoad.SaveChanges | commands/save_and_load.py:72-82 | the queue is written out exactly when it is not empty, what is written is the whole queue, and the queue is empty afterwards |
| SaveLoad.LogAllAppends | commands/save_and_load.py:65-68 | logging commands one by one queues them in order |
| SaveLoad.LoggedThenSaved | commands/save_and_load.py:65-82 | what a save writes is what was logged since the previous save, in order, and the queue is empty again |
| Journal.Execute | commands/__init__.py:337-339 | a change that raises is not logged; one that runs joins the end of the change queue, as `addToHistory` logs it (commands/__init__.py:310-313) |
| Journal.ApplyChanges | commands/save_and_load.py:86-95 | replaying a batch never touches the change queue, and when the first change of the batch raises, the replay stops with that error |
| Journal.StopsAtFailure | commands/save_and_load.py:86-95 | a change that raises at any point of the batch stops the replay with its error, after the changes before it have been replayed |
| Journal.ReplayedCommandsLast | commands/__init__.py:310-322 | replaying only commands keeps the history up to its index and appends one entry per command, in the order of the batch, so the index grows by the batch's length and nothing is left to redo |
| Journal.ReplayReproduces | commands/save_and_load.py:86-95 | the queue of a live session holds exactly the changes it made, and replaying them from the session it started in gives the session it ended in |
| Journal.SavedJournalReplays | commands/save_and_load.py:72-95 | the batch a save writes after a live session is that session's changes, and loading it into the starting session reproduces the live one |
| Spellcheck.StripPunctuation | commands/spellcheck.py:308-311 | a letter or apostrophe is kept and anything else becomes a space |
| Spellcheck.NextWord | commands/spellcheck.py:314-315 | the first position from the given one on that holds no space, every position skipped holding a space |
| Spellcheck.SplitIsSpans | commands/spellcheck.py:314-315 | splitting the filtered text at single spaces and dropping the empty pieces gives exactly its runs of non-space characters |
| Spellcheck.SpanIsRun | commands/spellcheck.py:314-315 | each run found is a maximal run of non-space characters |
| Spellcheck.SpansCover | commands/spellcheck.py:314-315 | every non-space character lies in one of the runs |
| Spellcheck.LocateFindsSpans | commands/spellcheck.py:319-325 | looking each word up by its first character from the end of the last one finds it where its run stands |
| Spellcheck.FindWordsAndRanges | commands/spellcheck.py:313-327 | one range per word |
| Spellcheck.FindWordsAndRangesIsRuns | commands/spellcheck.py:313-327 | the words and ranges are exactly the maximal runs of letters of the text, shifted by the offset, and what they hold |
| Spellcheck.WordStandsInRange | commands/spellcheck.py:313-327 | each range lies in the text and holds its word |
| Spellcheck.WordIsMaximal | commands/spellcheck.py:313-327 | a range covers only letters and the characters just outside it are not letters |
| Spellcheck.RangesIncrease | commands/spellcheck.py:313-327 | the ranges come left to right with at least one non-letter between neighbours |
| Spellcheck.LettersCovered | commands/spellcheck.py:313-327 | every letter of the text lies in one of the ranges |
| SpellcheckCommands.Flagged | commands/spellcheck.py:342-345 | the flagged words are among the words checked |
| SpellcheckCommands.FlagWordsRecords | commands/spellcheck.py:342-363 | the loop leaves two records per misspelled word and remembers where the first misspelled word starts |
| SpellcheckCommands.CleanWordsUnchanged | commands/spellcheck.py:342-363 | when the dictionary has every word the loop changes nothing and records nothing |
| SpellcheckCommands.SelectAgain | text_abstract.py:329-339 | setting an ordered selection inside the text to what it already is changes nothing |
| SpellcheckCommands.CleanSelectionUnchanged | commands/spellcheck.py:330-377 | a spellcheck that finds no misspelled word changes nothing, and its undo gives the document back |
| SpellcheckCommands.CheckSpellingRecord | commands/spellcheck.py:330-371 | the command records two entries per misspelled word of the selection, reversed, then puts the selection back, and sends the cursor to the first misspelled word |
| SpellcheckCommands.LatestUndoneFirst | commands/spellcheck.py:371-377 | the undo takes back the record made last before the others |
| SpellcheckCommands.UndoThenSelectIs | commands/spellcheck.py:374-377 | the undo undoes every record in list order and then puts the selection back |
| SpellcheckCommands.RemoveSpellcheckUndoOrder | commands/spellcheck.py:384-397 | removing the flags takes the behavior off and colours the selection plainly; the undo puts the colours back first and then the behavior |
| SpellcheckCommands.ReplaceUndoOrder | commands/spellcheck.py:266-301 | a replacement removes the flag, deletes the word and types the suggestion; its undo reverses the three in the opposite order |
| SpellcheckCommands.LearnUndo | commands/spellcheck.py:208-240 | learning a word takes the flag off its range and records only that removal, which is all its undo takes back |
| SpellcheckCommands.ModifyUndo | commands/spellcheck.py:79-93 | editing a flagged word takes the flag off the whole word, records only that removal, and puts the selection back |
| CommandEngine.Empty | commands/__init__.py:280-282 | a fresh history is empty, with nothing executed, and well formed |
| CommandEngine.Add | commands/__init__.py:310-329 | an unrecordable command leaves the history alone; any other one replaces the redoable tail and becomes the last executed entry, keeping the index inside the history |
| CommandEngine.UndoStep | commands/__init__.py:206-213 | undoing is possible exactly when some entry has been executed, and then the last executed entry is undone and the index moves back by one; otherwise nothing to undo |
| CommandEngine.RedoStep | commands/__init__.py:226-233 | redoing is possible exactly when some entry has been undone, and then the index moves on to it; otherwise nothing to redo |
| CommandEngine.Replace | commands/__init__.py:226-233 | the redone entry is stored in its place and every other entry and the index are kept |
| CommandEngine.UndoThenRedo | commands/__init__.py:206-233 | a redo after an undo gives back the history and redoes the entry just undone |
| CommandEngine.RedoThenUndo | commands/__init__.py:206-233 | an undo after a redo gives back the history and undoes the entry just redone |
| CommandEngine.AddDiscardsRedoable | commands/__init__.py:310-329 | after a command enters the history nothing is left to redo and the next undo takes back that command |
| CommandEngine.ClearAsWritten | commands/__init__.py:247-252 | clearing keeps only the last entry of the list, undone or not, and declares it executed; an empty history raises |
| CommandEngine.ClearAsWrittenUndoesTwice | commands/__init__.py:247-252 | with the last entry already undone, the cleared history offers that entry to the next undo again |
| CommandEngine.Clear | commands/__init__.py:247-252 | clearing keeps only the last executed entry, or nothing when everything has been undone |
| CommandEngine.ClearKeepsNextUndo | commands/__init__.py:247-252 | after clearing, the next undo takes back the same entry as before, nothing is left to redo, and clearing again changes nothing |
| CommandEngine.CommentedExample | commands/__init__.py:264-276 | four commands, three undos, a redo and a fifth command leave the fifth command after the first two, as the design comment describes |
| CommandEngine.RegisterCommand | commands/__init__.py:122-126 | registering under a taken name raises with the message naming it; otherwise the name maps to the command and its type |
| CommandEngine.UnregisterCommand | commands/__init__.py:128-131 | the name is removed, every other name is kept, and an absent name changes nothing |
| CommandEngine.RegisterUnregister | commands/__init__.py:122-131 | registering a fresh name and unregistering it gives back the map; a name just unregistered can be registered again |
| Session.ExecuteCommand | commands/__init__.py:337-339 | a command that fails never reaches the history; one that runs is added as the last executed entry after the kept prefix, leaving nothing to redo |
| Session.UndoCommand | commands/__init__.py:206-213 | with nothing executed the undo raises; a successful undo moves the index back by one and keeps every entry |
| Session.RedoCommand | commands/__init__.py:226-233 | with nothing undone the redo raises; a successful redo moves the index on to the redone entry, which holds the same command, and keeps every other entry |
| Session.UndoAfterExecute | commands/__init__.py:206-213 | an undo right after a command runs that command's undo and puts the index back |
| Session.RedoAfterUndo | commands/__init__.py:206-233 | a redo right after an undo executes the undone command again on the state the undo left |
| Session.SelectionListRoundTrip | commands/__init__.py:206-233 | setting the selection list, undoing and redoing gives back the state, then the new list, then the same history |
| Run.PiecesPartition | commands/run.py:105-112 | every piece lands in exactly one of the two selections, and each holds just the pieces of its kind |
| Run.NamedDocumentsAsWritten | commands/run.py:105-112 | one named document per backtick-separated segment that starts with the delimiter, named by the slice as written |
| Run.OneLineNameTruncated | commands/run.py:105-112 | a module document of a single line loses the last character of its name |
| Run.NameOf | commands/run.py:105-112 | the name is the text after the delimiter up to the first newline or the document's end, and holds no newline |
| Run.NamedDocuments | commands/run.py:105-112 | one named document per segment that starts with the delimiter, in order, each with its name |
| Run.NamedDocumentsAreSegments | commands/run.py:105-112 | each named document is a whole segment starting with the delimiter, every such segment is named, and the name follows the delimiter up to the line's end |
| Run.Register | commands/run.py:225-231 | every document's name is in the module map and every name in it comes from some document |
| Run.RegisterModules | commands/run.py:225-231 | the module map is rebuilt from the module documents alone, one name per module document |
| Run.RegisterLastWins | commands/run.py:225-231 | the module registered under a name is the last document of that name, with its first line commented out |
| Run.LooseCode | commands/run.py:234-257 | each segment that is not a module becomes loose code with a comment mark in front, in order |
| Run.ModulesAndLooseCodeSplitText | commands/run.py:225-257 | every segment is either a module or loose code, never both, and none is lost |
| Run.TracebackLine | commands/run.py:641-647 | a line is skipped exactly when it does not start like a frame line or has no second part; a line number that is not an integer raises a value error |
| Run.CollectLines | commands/run.py:638-649 | the lines are collected exactly when none of them raises, giving at most one entry per line |
| Run.FrameLineRoundTrip | commands/run.py:638-649 | a frame line printed for a file name without a comma reads back as that name and line number |
| Run.FrameLineParts | commands/run.py:642-646 | splitting a frame line at its separators gives the quoted name first and the line number second |
| Run.GoToPosition | commands/run.py:625-636 | a file name with none of the three prefixes is unrecognised; only selected text whose index is not an integer raises |
| Run.ModuleFilenameRoundTrip | commands/run.py:310-311 | the fake file name of a user-written module leads back to that module at the line given |
| Run.CommandFilenameRoundTrip | commands/run.py:555 | the fake file name of a user-written command leads back to that command at the line given |
| Run.SelectedTextFilenameRoundTrip | commands/run.py:206 | the fake file name of selected text leads back to its index at the line given |
| PyStr.Find | commands/run.py:107 | the first position from the start given on that holds the character, or -1 when there is none |
| PyStr.SplitJoin | commands/run.py:106 | joining the pieces of a split with the separator gives the string back, and no piece holds the separator |
| PyStr.FindStr | commands/run.py:642 | the first position from the start given on where the separator occurs, or -1 when there is none |
| PyStr.SplitStrFromJoin | commands/run.py:642 | joining the pieces of a string split with the separator gives the string back |
| PyStr.SplitStrHead | commands/run.py:642-643 | there are at least two pieces exactly when the separator occurs, and the first piece runs up to its first occurrence |
| PyStr.ParseInt | commands/run.py:646 | an integer parse either succeeds on a string with something besides whitespace or raises a value error |
| PyStr.ParseSigned | commands/run.py:646 | an optional minus sign followed by digits parses to its value |
| PyStr.ParseNeedsDigits | commands/run.py:646 | a string with no digit never parses |
| PyStr.ParseShowInt | commands/run.py:206 | an integer printed in decimal parses back to itself |
| Commands.WithDoc | commands/__init__.py:79-89 | a document whose behavior array is well formed gives a sound state, keeping the pool and the anchor |
| Commands.ExecSetCursor | commands/text_editing.py:444-447 | the cursor is set as the document sets it, nothing else changes, and the old cursor is kept for the undo |
| Commands.ExecSetSelection | commands/text_editing.py:425-428 | the command succeeds exactly when the selection index is valid in Python's sense; then the selection is set and the one it replaced is kept for the undo |
| Commands.ExecSetSelectionList | commands/text_editing.py:463-466 | the selection list becomes the given one, nothing else changes, and the old list is kept for the undo |
| Commands.ExecSelect | commands/text_editing.py:30-38 | with a preselection the preselection becomes a new selection and the cursor and the anchor go just past its end; the old cursor and selections are kept for the undo; without one it raises |
| Commands.ExecSimpleAddText | commands/text_editing.py:74-88 | the text goes in at the cursor as the document inserts it, the anchor moves past text of more than one character, and the insertion point, length and old selections are kept for the undo |
| Commands.ExecSimpleDeleteText | commands/text_editing.py:145-170 | the selection is cut out of the text, an extended selection moves the anchor to its start, and the deleted characters and their styles are kept for the undo |
| Commands.ExecSimpleStyle | commands/style_editing.py:34-46 | every position of the selection takes its style merged with the overlay, the pool only grows, and the old styles of the selection are kept for the undo |
| Commands.InternAll | commands/behavior_editing.py:32-34 | each storage variant is interned as an action of the pool, which only grows, in order |
| Commands.RemoveEach | commands/behavior_editing.py:59-64 | taking each action off the range leaves every position outside it alone and keeps the array well formed |
| Commands.ExecAction | commands/behavior_editing.py:26-64 | a behavior that is not registered raises a key error; otherwise the behaviors of the selection are kept for the undo, positions outside it keep theirs, the pools only grow, and adding stacks the action on every position of the selection; both commands intern every storage variant of the name in the action pool, removing as well as adding |
| Commands.ExecCreep | commands/cursor.py:46-93 | a creep succeeds exactly when there are two selections and the selection is not reversed; it moves as the cursor creep does and keeps the cursor and selections for the undo |
| Commands.ExecLeap | commands/cursor.py:206-222 | a leap that finds its target moves as the cursor leap does and keeps the cursor and selections for the undo; one that does not aborts with its message |
| Commands.SearchFlag | commands/spellcheck.py:223-237 | the first position from the cursor on, within 2000 positions and before the end of the text, that holds the named behavior, and no such position before it |
| Commands.GoToNextFlag | commands/spellcheck.py:223-237 | moving on to the next flagged word changes only the cursor and the selections |
| Commands.RestoreSelection | commands/text_editing.py:430-432 | the undo of setting a selection puts back the selection the command found, set or not, and nothing else |
| Commands.Exec | commands/__init__.py:79-83 | every command keeps the behavior array well formed |
| Commands.Undo | commands/__init__.py:85-89 | every undo keeps the behavior array well formed |
| Commands.ExecFinalLock | commands/lock.py:289-301 | with fewer than two selections it raises an index error, and without the final-character lock registered a key error; otherwise only the behaviors change, as adding that lock to the selection changes them |
| Commands.UndoAction | commands/behavior_editing.py:45-47 | the undo of an action command succeeds exactly when the kept behaviors fit in the array and name known behaviors, and then writes them back from the range's start |
| TextEditing.SetCursorUndoRestores | commands/text_editing.py:444-451 | setting the cursor always succeeds and its undo gives back the state when the cursor was settled |
| TextEditing.SetSelectionUndoRestores | commands/text_editing.py:425-432 | setting a selection by a valid index succeeds, and the corrected undo gives back the state whether or not the selection was set |
| TextEditing.SetSelectionUndoAsWritten | commands/text_editing.py:430-432 | the undo as written puts back an old selection that lies in the text and is ordered, and changes nothing when its start is outside the text |
| TextEditing.UnsetSelectionNotRestored | commands/text_editing.py:430-432 | when the selection was unset, the undo as written leaves the newly set selection in place |
| TextEditing.SetSelectionListUndoRestores | commands/text_editing.py:463-470 | setting the selection list succeeds, installs the list, and its undo gives back the state |
| TextEditing.SelectThenUndo | commands/text_editing.py:30-43 | selecting a preselection that lies in the text makes it the selection with the anchor just past it, and the undo gives back the cursor and selections but not the anchor |
| TextEditing.SimpleAddTextSelectsIt | commands/text_editing.py:74-88 | the typed text stands at the old cursor and becomes the selection |
| TextEditing.SimpleAddTextUndoRestores | commands/text_editing.py:74-98 | undoing a simple insertion deletes what it typed and gives back the state, apart from the text array's touched flag and the anchor |
| TextEditing.UndoOfInserted | commands/text_editing.py:91-98 | an insertion record is undone by deleting the typed block and putting the old selections back |
| TextEditing.SimpleAddTextInsertion | commands/text_editing.py:74-98 | a simple insertion leaves a record of where it typed, how much, and the old selections, and deleting that block gives back the document |
| TextEditing.DeleteWhatWasAdded | commands/text_editing.py:91-98 | deleting the block an insertion added, whatever the selections became, and putting the old ones back gives back the document |
| TextEditing.AddTextAtPlainPosition | commands/text_editing.py:116-129 | at a position whose only add handler is the plain one, the add command is the simple insertion under one more level of undo |
| TextEditing.ChainOfOne | commands/text_editing.py:116-129 | a chain of one handler that succeeds runs exactly that handler |
| TextEditing.UndoOne | commands/text_editing.py:131-133 | a record holding one part is undone by undoing that part |
| TextEditing.AddTextUndoRestores | commands/text_editing.py:116-133 | at a plain position, undoing the add command gives back the state it was typed into, apart from the touched flag and the anchor |
| TextEditing.PlainHandlers | behavior.py:359-392 | every position of a plain behavior array has the plain add, delete and style handlers only |
| TextEditing.DeleteTextInPlainDoc | commands/text_editing.py:191-213 | in a plain document the delete command is the simple deletion of the whole selection, followed by putting the selection back on undo |
| TextEditing.DeleteTextAtPlainPosition | commands/text_editing.py:191-213 | when the selection is one deletable stretch whose first character has only the plain delete handler, the delete command is the simple deletion of the selection |
| TextEditing.SimpleDeleteInPlainDoc | commands/text_editing.py:145-170 | a simple deletion in a plain document cuts the selection out of the text and records its characters and styles |
| TextEditing.UndoRemovedInPlainDoc | commands/text_editing.py:172-177 | undoing a deletion record in a plain document types the deleted text back where it started |
| TextEditing.UndoRemovedIs | commands/text_editing.py:172-177 | a deletion record is undone by setting the cursor where the deletion started and running a new add command with the deleted text and styles |
| TextEditing.UndoOneThenSelect | commands/text_editing.py:216-219 | a one-part record followed by the selection is undone by undoing the part and setting the selection |
| TextEditing.DeleteTextUndoRestoresText | commands/text_editing.py:191-219 | in a plain document whose selection stops short of the last character, undoing the delete command gives back the text and the selection |
| TextEditing.SimpleDeleteUndone | commands/text_editing.py:145-177 | undoing the record of a simple deletion in a plain document gives back the text and the selection |
| TextEditing.UndoDeletion | commands/text_editing.py:172-177 | undoing the record of a deletion from the state it left gives back the text and the selection |
| StyleEditing.SimpleStyleOverlays | commands/style_editing.py:34-46 | with the selection's styles in the pool, every selected character takes its style merged with the overlay, the others keep theirs, the text, behaviors and selections are untouched and the pool only grows |
| StyleEditing.SimpleStyleUndoRestores | commands/style_editing.py:34-51 | undoing a simple style command gives back the state, except that the pool keeps what the overlay added |
| StyleEditing.CopiedStylesRestore | commands/style_editing.py:34-51 | the record keeps the selection's start and its old style ids, and writing them back gives back the document |
| StyleEditing.RestoreCopied | commands/style_editing.py:48-51 | writing the copied ids back into a restyled document, wherever its cursor went, gives back the document |
| StyleEditing.UndoRestyled | commands/style_editing.py:48-51 | a restyle record is undone by writing the copied ids back from its start and resetting the cursor |
| StyleEditing.StyleAtPlainPosition | commands/style_editing.py:62-80 | when the selection is one styleable stretch and the cursor's only style handler is the simple one, the style command is that handler on the whole selection |
| StyleEditing.ExecStyleFrom | commands/style_editing.py:62-80 | the style command runs its loop over the styleable stretches, then puts the selection back, keeping the loop's records |
| StyleEditing.SimpleStyleOnlyRestyles | commands/style_editing.py:34-46 | a simple style command on styles in the pool succeeds and leaves the selections and behaviors alone |
| StyleEditing.StyleRangesSingle | commands/style_editing.py:68-78 | the loop over a single stretch that already is the selection runs the chain of style handlers once |
| StyleEditing.StyleInPlainDoc | commands/style_editing.py:62-80 | in a plain document the style command is the simple style command on the whole selection |
| StyleEditing.ExecIsStyle | commands/style_editing.py:93-104 | the style command runs the style loop |
| StyleEditing.SimpleStyleUndoKeepsBehaviors | commands/style_editing.py:48-51 | the undo of a simple style command brings the styles back whatever the behaviors became, and leaves the behaviors as they are |
| StyleEditing.StyleUndoRestores | commands/style_editing.py:62-85 | in a plain document, undoing the style command gives back the state, except that the pool keeps what the overlay added |
| BehaviorEditing.WriteBackRestores | commands/behavior_editing.py:39-47 | writing back the ids read from a range into an array that differs only inside it, and whose pools only grew, gives back the ids |
| BehaviorEditing.ActionSucceeds | commands/behavior_editing.py:26-43 | an action command on a selection inside the text succeeds when the behavior is registered |
| BehaviorEditing.UndoActionWas | commands/behavior_editing.py:45-47 | an action record is undone by writing the kept behaviors back from the range's start |
| BehaviorEditing.ActionUndoRestores | commands/behavior_editing.py:26-64 | undoing an add or remove action command gives back every behavior id; nothing but the behavior array differs, and its pools only grew |
| BehaviorEditing.AddThenRemoveAction | commands/behavior_editing.py:51-64 | removing a behavior without storage variants right after adding it to the same selection gives back every behavior id |
| BehaviorEditing.RemoveRegistered | commands/behavior_editing.py:58-64 | removing a behavior without storage variants takes its registered action off the selection |
| Lock.UndoTwo | commands/lock.py:117-119 | a record of two parts is undone by undoing the first, then the second |
| Lock.UndoThree | commands/lock.py:141-144 | a record of three parts is undone in list order |
| Lock.LockUndoOrder | commands/lock.py:107-119 | the lock colours go on, then the lock behavior; the undo takes the behavior off first and the colours second |
| Lock.UnlockUndoOrder | commands/lock.py:128-144 | the lock comes off, then the form lock, then the plain colours go on; the undo reverses the three |
| Lock.SystemUnlockUndoOrder | commands/lock.py:191-203 | the system lock comes off and the plain colours go on; the undo puts the colours back, then the lock |
| Lock.UndoThenCursor | commands/lock.py:80-84 | a record ending by putting the cursor back undoes its parts in order, then sets the cursor |
| Lock.RelockRecord | commands/lock.py:62-68 | the relock records itself in front of the parts already done, with the cursor to go back to |
| Lock.LockAddAtStartUndoOrder | commands/lock.py:34-84 | typing at the start of a locked stretch leaves four parts, undone latest first with the unlock last, then puts the cursor back |
| Lock.TypeAfterUndo | commands/lock.py:70-84 | typing inside a locked stretch goes just after it, and the undo removes the text and puts the cursor back |
| Lock.LockOnStyled | commands/lock.py:107-115 | once the lock colours are on, the lock behavior goes on the coloured selection and the record lists it before the colours |
| Lock.ExecIsAddAction | commands/behavior_editing.py:51-54 | an add-action command runs the action command, given fuel |
| Lock.LockRecordUndone | commands/lock.py:117-119 | undoing the lock's record takes the behavior off and then brings the styles back; only the pools keep what was added |
| Lock.LockUndoRestores | commands/lock.py:103-119 | on a plain selection, undoing the lock gives back every behavior id and style, the behavior pools only grew and the style pool keeps the lock colours |
| Lock.LockStyledInPlainDoc | commands/lock.py:109-111 | on a plain selection the lock colours go on as one simple style command |
| Lock.FinalLockUndoFails | commands/lock.py:289-301 | the final-character lock goes on, and its undo takes it off again and then fails, asking for a style record the command never made |
| Lock.UndoOfFinalLockWas | commands/lock.py:299-301 | the final-character lock's record is undone by undoing the action and then failing with an attribute error |
| Behaviors.ReplaceFromReadBack | behavior.py:467-469 | writing back the ids just read from a position leaves the array as it was |
| Documents.TextPartRestored | text_abstract.py:114-142 | the text comes back after deleting the block an insertion created |
| Documents.OverlayFrom | text_abstract.py:160-166 | with every style of the range in the pool the overlay succeeds; each position of the range takes its style merged with the overlay, the others keep theirs, and the pool only grows |
| Documents.KeepDisjointNoOverlap | text_abstract.py:375-385 | old selections that all miss the range are all kept |
| TextArrays.GetSubStringIsSlice | text_array.py:129-140 | a clamped substring is the slice of the contents between the clamped ends |

## Left out

- Documents.AddText: the style array is grown with `Styles.AddTextAligned`, not with `Styles.AddText` (style.py:256-264 as written). An add at the end of the document therefore keeps every old character's style, which the program does not do (see Findings). Every text-adding command inherits this substitution.
- Commands.Undo: the undo of a set-selection command puts the old selection back through `Commands.RestoreSelection`, which also restores an unset `[-1, -1]` selection. The program calls `setSelection` with the old ends, and `setSelection` ignores them (commands/text_editing.py:430-432; see Findings). `TextEditing.SetSelectionUndoAsWritten` is the program's behaviour.
- Run.RegisterModules: registers each module under `Run.NameOf`, the whole first line after the delimiter. The program slices up to `find('\n')`, which is -1 for a one-line document and drops the name's last character (commands/run.py:105-112; see Findings). `Run.NamedDocumentsAsWritten` is the program's behaviour.
- CommandEngine.Clear: keeps the last executed entry, not `_history[-1]` (see Findings). `CommandEngine.ClearAsWritten` is the program's behaviour, including the IndexError on an empty history.
- Globals.ApplyShift and Globals.RemoveShift: upper- and lower-casing cover ASCII letters only. Python's `upper()`/`lower()` also map non-ASCII letters.
- Spellcheck.Lower and Spellcheck.Title: no rows above, because they only compute. Spellcheck.IsLetter is the membership test of `alpha` (commands/spellcheck.py:309), so the words checked hold only ASCII letters and the apostrophe, and on such words Lower and Title agree with Python's `lower()` and `title()`.
- Spellcheck.Misspelled: the aspell checker of `getSpellChecker()` is a fixed set of correct words. A word is misspelled when neither its lower-case nor its title-case form is in the set. aspell's suggestions and its own case rules are not modelled.
- TextArrays.Find, BmhSearch.SearchForward, BmhSearch.SearchBackward, Cursor.SearchForward and Cursor.SearchBackward: require `0 <= start`, and the search ends within the text. With a negative start Python would index from the end of the list. Commands.ExecLeap refuses such a selection before it searches.
- Behaviors.FindActionExtent: requires a position inside the array. The program indexes its list at any position and wraps negative ones.
- Commands.ExecSimpleDeleteText: does not run the `DeletionsDocAdd` step (commands/text_editing.py:163-170) that copies deleted text into the deletions document. The deletions document is not modelled.
- Commands.Exec: a Python exception raised part-way through a command is a `Failure`, and the state changes made before the exception are dropped. The program keeps them.
- Commands.Exec: running out of `fuel` (`OutOfFuel`) stands for Python's recursion limit. A handler called with another slot's arguments (`WrongSlot`) is an error the program's duck typing cannot express.
- Commands.ExecAddText, Commands.ExecChain, Commands.ExecHandler, Commands.ExecLockAdd, Commands.ExecTypeAtLockStart, Commands.ExecRelock, Commands.ExecTypeAfter, Commands.ExecFormLockAdd, Commands.ExecSpellcheckModify, Commands.ExecDeleteText, Commands.DeleteRanges, Commands.ExecStyle, Commands.StyleRanges, Commands.ExecLock, Commands.ExecUnlock, Commands.ExecSystemUnlock, Commands.ExecRemoveSpellcheck, Commands.ExecCheckSpelling, Commands.GoToWord, Commands.FlagWords, Commands.ExecReplaceWord, Commands.ExecLearn, Commands.UndoAll and Commands.UndoRemoved: their own contracts state only that the behavior array stays well formed. What they do is stated by the lemmas of `TextEditing`, `StyleEditing`, `Lock` and `SpellcheckCommands` listed above.
- TextEditing.AddTextUndoRestores: proved only when the cursor's behavior has the plain add handler as its only add handler. Undo after an add through a lock handler is stated only as an undo order (`Lock.LockAddAtStartUndoOrder`, `Lock.TypeAfterUndo`), not as a restored document.
- TextEditing.DeleteTextUndoRestoresText: proved only for a document whose behaviors are all plain (`TextEditing.Plain`), and for a selection that does not end at the last character. When it does, the program's `setCursor` after the undo lands one character early.
- Lock.LockUndoRestores: proved only for a plain document. On a document with locks it is stated as an undo order (`Lock.LockUndoOrder`).
- StyleEditing.StyleUndoRestores: proved only for a plain document. Where a lock's stop bit blocks the style handler, only the blankable ranges are restyled and restored. That case is not proved.
- Lock.FinalLockUndoFails: the undo of the final-character lock fails as the program's does (AttributeError on `theStyle`). The undo of the action that ran before the error is dropped with the failure.
- Session: the session does not hold the change queue. `Journal.Execute` runs a change as the session does and logs it.
- CommandEngine.Add: the history does not record `_lastLeapTarget`, which `addToHistory` sets for a LEAP (commands/__init__.py:321-328). Only the repeat-leap commands read it, and they are not part of this model.
- Session.RedoCommand: a redo whose command raises is a Failure here, and the session keeps its old history. In Python the index has already moved on to that entry (commands/__init__.py:230-231), so after a failed REDO it points one entry further on.
- Commands.ExecLeap: a selection ending below -1 is an index error here. Python would start the search at a negative index and compare characters counted from the end of the text. A backward leap from a selection ending more than one past the text is also an index error here. Python raises only when a comparison reads past the text, and it makes none when the target is longer than the stretch it searches. A forward leap from a selection at or past the end wraps, as in Python.
- SaveLoad.SaveHistory: only the capping of the history is modelled. Pickling and writing the file are left out as file I/O, and so is the part of `loadState` that reads the saved state and the logged batches back. Replaying a batch that was read back is Journal.ApplyChanges.
- Recording.Stop: `rollback_recording` (stop followed by undo of the recorded list) is not a separate member. Its undo is the interpreter's `Commands.UndoAll` over the list that `Recording.Stop` returns.
- Keys.TryKeybinding: the bound action is returned, not run. Key repeat, quasimode timing and pygame's event loop are left out.
- Run.GoToPosition: only the parsing of the traceback line and the position it yields are modelled. Compiling and executing the RUN code, and the messages the program shows, are left out.
- The deletions document, the drawing and viewer code, messages, audio, email, the tutorial and the platform-specific code are outside this model.

## Findings

| source | as written | input that shows it | evidently intended | confidence | as-written member | corrected member |
|---|---|---|---|---|---|---|
| style.py:256-264 | an `insertPos` past the end becomes slice index -1, which inserts the new ids before the last entry, and the inherited style is read at -1 through `getCharStyle`, giving the default | style ids `[5]`, one character appended at position 1 with no style: the ids become `[0, 5]`, so the old character loses its style | the new ids go at the end, `[5, 0]`, so each id stays with its character | not executed | `Styles.AddText` / `Styles.AppendMisalignsStyles` | `Styles.AddTextAligned` |
| commands/__init__.py:247-252 | CLEAR UNDO HISTORY keeps `_history[-1]`, the last entry even if it was undone, and sets the index to 0 | history `[1, 2]` with index 0 (2 undone): after the clear, UNDO undoes 2, which is already undone; an empty history raises IndexError | keep the last executed entry, `history[lastCommandIndex]`, or nothing when everything is undone | not executed | `CommandEngine.ClearAsWritten` / `CommandEngine.ClearAsWrittenUndoesTwice` | `CommandEngine.Clear` |
| commands/text_editing.py:425-432 | undo calls `setSelection` with the saved ends, and `setSelection` ignores ends outside the document | a 3-character document whose selection is unset `[-1, -1]`: set it to `(0, 1)` and undo; it stays `(0, 1)` | undo gives back the selection found before the command | not executed | `TextEditing.SetSelectionUndoAsWritten` / `TextEditing.UnsetSelectionNotRestored` | `Commands.RestoreSelection` |
| commands/run.py:105-112 | the name is `doc[len(delimiter):first_cr]`, and `first_cr` is -1 when the document has no newline | `"module foo"`: the module is registered as `"fo"` | the name is the rest of the first line, `"foo"` | not executed | `Run.NamedDocumentsAsWritten` / `Run.OneLineNameTruncated` | `Run.NameOf` / `Run.NamedDocuments` |

=== FILE: archy_globals.dfy ===
/** Pure helpers of the editor's global module: clamping, ranges, the
    shift-key character tables and the rules that keep a text position on
    the same character while text is inserted or deleted around it. */
module Globals {
  import opened Wrappers

  /** A closed range `[start, end]` of document positions, the two-element
      lists the program passes around as selections. A range with
      `start > end` is empty. */
  datatype Range = Range(start: int, end: int)

  predicate Contains(r: Range, p: int) {
    r.start <= p <= r.end
  }

  /** `bound(value, lo, hi)`: the lower bound is tested first, so an inverted
      interval yields `lo` for small values and `hi` otherwise. */
  function Bound(value: int, lo: int, hi: int): (r: int)
    ensures lo <= hi ==> lo <= r <= hi
    ensures lo <= value <= hi ==> r == value
    ensures value < lo ==> r == lo
    ensures lo <= value && hi < value ==> r == hi
  {
    if value < lo then lo
    else if hi < value then hi
    else value
  }

  /** Clamping twice changes nothing, and the result is the point of the
      interval nearest to the value. */
  lemma BoundIdempotentAndNearest(value: int, lo: int, hi: int)
    requires lo <= hi
    ensures Bound(Bound(value, lo, hi), lo, hi) == Bound(value, lo, hi)
    ensures forall q :: lo <= q <= hi ==>
              Dist(Bound(value, lo, hi), value) <= Dist(q, value)
  {
  }

  function Dist(a: int, b: int): nat {
    if a <= b then b - a else a - b
  }

  /** `intersection`: the range of positions lying in both arguments; it is
      empty (start past end) when they share no position. */
  function Intersection(a: Range, b: Range): (r: Range)
    ensures forall p :: Contains(r, p) <==> Contains(a, p) && Contains(b, p)
  {
    Range(if a.start < b.start then b.start else a.start,
          if a.end < b.end then a.end else b.end)
  }

  /** `doRangesOverlap`: the range that starts first overlaps the other when
      it reaches the other's start. The source answers 1 or 0. */
  function DoRangesOverlap(a: Range, b: Range): (r: bool)
    ensures a.start < b.start ==> (r <==> a.end >= b.start)
    ensures a.start >= b.start ==> (r <==> b.end >= a.start)
  {
    var (minRange, maxRange) := if a.start < b.start then (a, b) else (b, a);
    minRange.end >= maxRange.start
  }

  /** For non-empty ranges the overlap test is exactly "some position lies in
      both", so it is also symmetric. */
  lemma OverlapIffSharedPosition(a: Range, b: Range)
    requires a.start <= a.end && b.start <= b.end
    ensures DoRangesOverlap(a, b) <==> exists p :: Contains(a, p) && Contains(b, p)
    ensures DoRangesOverlap(a, b) == DoRangesOverlap(b, a)
  {
    var i := Intersection(a, b);
    if DoRangesOverlap(a, b) {
      assert Contains(a, i.start) && Contains(b, i.start);
    }
  }

  // ---------------------------------------------------------------------
  // Shift-key character tables
  // ---------------------------------------------------------------------

  /** Shifted symbol to the unshifted key that produces it. */
  const ShiftedKeys: map<char, char> := map[
    '~' := '`', '!' := '1', '@' := '2', '#' := '3', '$' := '4', '%' := '5',
    '^' := '6', '&' := '7', '*' := '8', '(' := '9', ')' := '0', '_' := '-',
    '+' := '=', '{' := '[', '}' := ']', '|' := '\\', ':' := ';', '"' := '\'',
    '<' := ',', '>' := '.', '?' := '/']

  /** Unshifted key to the symbol it produces with shift held. */
  const UnshiftedKeys: map<char, char> := map[
    '`' := '~', '1' := '!', '2' := '@', '3' := '#', '4' := '$', '5' := '%',
    '6' := '^', '7' := '&', '8' := '*', '9' := '(', '0' := ')', '-' := '_',
    '=' := '+', '[' := '{', ']' := '}', '\\' := '|', ';' := ':', '\'' := '"',
    ',' := '<', '.' := '>', '/' := '?']

  predicate IsLower(c: char) { 'a' <= c <= 'z' }
  predicate IsUpper(c: char) { 'A' <= c <= 'Z' }

  function ToUpper(c: char): char {
    if IsLower(c) then (c as int - 32) as char else c
  }

  function ToLower(c: char): char {
    if IsUpper(c) then (c as int + 32) as char else c
  }

  /** `apply_shift_key_to_character`: upper-case, then map an unshifted
      symbol key to its shifted symbol. */
  function ApplyShift(c: char): (r: char)
    ensures IsLower(c) ==> IsUpper(r) && ToLower(r) == c
    ensures c in UnshiftedKeys ==> r == UnshiftedKeys[c]
    ensures !IsLower(c) && c !in UnshiftedKeys ==> r == c
  {
    var u := ToUpper(c);
    if u in UnshiftedKeys then UnshiftedKeys[u] else u
  }

  /** `remove_shift_key_from_character`: lower-case, then map a shifted
      symbol to its unshifted key. */
  function RemoveShift(c: char): (r: char)
    ensures IsUpper(c) ==> IsLower(r) && ToUpper(r) == c
    ensures c in ShiftedKeys ==> r == ShiftedKeys[c]
    ensures !IsUpper(c) && c !in ShiftedKeys ==> r == c
  {
    var l := ToLower(c);
    if l in ShiftedKeys then ShiftedKeys[l] else l
  }

  /** Every unshifted key comes back from its shifted symbol. */
  lemma UnshiftedKeysInvertible()
    ensures forall k :: k in UnshiftedKeys ==>
              UnshiftedKeys[k] in ShiftedKeys && ShiftedKeys[UnshiftedKeys[k]] == k
  {
  }

  /** Every shifted symbol comes back from its unshifted key. */
  lemma ShiftedKeysInvertible()
    ensures forall k :: k in ShiftedKeys ==>
              ShiftedKeys[k] in UnshiftedKeys && UnshiftedKeys[ShiftedKeys[k]] == k
  {
  }

  /** Pressing shift and releasing it again gives back the key: removing the
      shift from a shifted character inverts applying it, for lower-case
      letters and for every symbol key, and the other way round. */
  lemma ShiftRoundTrip(c: char)
    ensures IsLower(c) || c in UnshiftedKeys ==> RemoveShift(ApplyShift(c)) == c
    ensures IsUpper(c) || c in ShiftedKeys ==> ApplyShift(RemoveShift(c)) == c
  {
    if c in UnshiftedKeys {
      UnshiftedKeysInvertible();
    }
    if c in ShiftedKeys {
      ShiftedKeysInvertible();
    }
  }

  // ---------------------------------------------------------------------
  // Keeping a position on its character
  // ---------------------------------------------------------------------

  /** `updateTextPositionOnAdd`: a position at or after the insertion point
      moves right by the inserted length. */
  function UpdateOnAdd(position: int, insertPos: int, length: int): (r: int)
    ensures position < insertPos ==> r == position
    ensures insertPos <= position ==> r - position == length
  {
    if insertPos <= position then position + length else position
  }

  /** `updateTextPositionOnDelete` for the deletion of `[startDel, endDel]`:
      positions before are kept, positions inside collapse onto the start,
      positions after move left by the deleted length. The source's comment
      asks callers for `startDel <= endDel`; for other arguments the third
      branch of the source still applies and is modelled as written. */
  function UpdateOnDelete(position: int, startDel: int, endDel: int): (r: int)
    ensures position < startDel ==> r == position
    ensures startDel <= position <= endDel ==> r == startDel
    ensures startDel <= endDel < position ==> r == position - (endDel - startDel + 1)
  {
    if position < startDel then position
    else if startDel <= position && position <= endDel then startDel
    else position - (endDel - startDel + 1)
  }

  /** Deleting exactly the range an insertion of `length > 0` characters at
      `insertPos` created puts every position back where it was. */
  lemma AddThenDeleteRestoresPosition(position: int, insertPos: int, length: int)
    requires length > 0
    ensures UpdateOnDelete(UpdateOnAdd(position, insertPos, length), insertPos, insertPos + length - 1)
            == position
  {
  }

  /** Both updates preserve the order of positions (weakly: positions inside
      a deleted range collapse together). */
  lemma UpdatesAreMonotone(p: int, q: int, insertPos: int, length: int, startDel: int, endDel: int)
    requires p <= q && length >= 0 && startDel <= endDel
    ensures UpdateOnAdd(p, insertPos, length) <= UpdateOnAdd(q, insertPos, length)
    ensures UpdateOnDelete(p, startDel, endDel) <= UpdateOnDelete(q, startDel, endDel)
  {
  }

  /** Inserting `v` at `insertPos` leaves the character that sat at `p` at
      the updated position. */
  lemma UpdateOnAddFollowsCharacter<T>(t: seq<T>, insertPos: int, v: seq<T>, p: int)
    requires 0 <= insertPos <= |t| && 0 <= p < |t|
    ensures var u := t[..insertPos] + v + t[insertPos..];
            0 <= UpdateOnAdd(p, insertPos, |v|) < |u| &&
            u[UpdateOnAdd(p, insertPos, |v|)] == t[p]
  {
    var u := t[..insertPos] + v + t[insertPos..];
    if insertPos <= p {
      assert u[p + |v|] == t[insertPos..][p - insertPos];
    } else {
      assert u[p] == t[..insertPos][p];
    }
  }

  /** Deleting `[s, e]` leaves a character outside the range at the updated
      position; a position inside collapses onto `s`. */
  lemma UpdateOnDeleteFollowsCharacter<T>(t: seq<T>, s: int, e: int, p: int)
    requires 0 <= s <= e < |t| && 0 <= p < |t|
    ensures var u := t[..s] + t[e + 1..];
            (p < s || e < p) ==>
              0 <= UpdateOnDelete(p, s, e) < |u| && u[UpdateOnDelete(p, s, e)] == t[p]
    ensures s <= p <= e ==> UpdateOnDelete(p, s, e) == s
  {
    var u := t[..s] + t[e + 1..];
    if e < p {
      assert u[p - (e - s + 1)] == t[e + 1..][p - e - 1];
    } else if p < s {
      assert u[p] == t[..s][p];
    }
  }

  // ---------------------------------------------------------------------
  // Deleting an inclusive range from a text, style or behavior array
  // ---------------------------------------------------------------------

  /** The clamping every array's `delText(start, end)` applies: nothing is
      deleted when `end < start`, when `start` is past the last position or
      when `end` is negative; otherwise the range is cut down to the
      positions `[0, n-1]` that exist. On an empty array a range reaching
      from a negative start to a non-negative end survives these tests and
      clamps to the empty range `[0, -1]`. */
  function ClampDeletion(start: int, end: int, n: nat): (r: Option<Range>)
    ensures (exists p :: Contains(Range(start, end), p) && 0 <= p < n) ==> r.Some?
    ensures r.Some? ==>
              0 <= r.value.start <= r.value.end + 1 && r.value.end < n &&
              (r.value.start > r.value.end ==> n == 0) &&
              forall p :: Contains(r.value, p) <==> Contains(Range(start, end), p) && 0 <= p < n
  {
    if end < start || n - 1 < start || end < 0 then None
    else
      var s := if start < 0 then 0 else start;
      var e := if n - 1 < end then n - 1 else end;
      Some(Range(s, e))
  }

  /** `delText(start, end)` on an array: the clamped range is cut out. */
  function DeleteRange<T>(a: seq<T>, start: int, end: int): (r: seq<T>)
    ensures ClampDeletion(start, end, |a|).None? ==> r == a
    ensures ClampDeletion(start, end, |a|).Some? ==>
              var k := ClampDeletion(start, end, |a|).value;
              |r| == |a| - (k.end - k.start + 1) && r == a[..k.start] + a[k.end + 1..]
  {
    match ClampDeletion(start, end, |a|)
    case None => a
    case Some(k) => a[..k.start] + a[k.end + 1..]
  }

  /** The elements a deletion keeps stay in order, each moving to the
      position `UpdateOnDelete` gives it. */
  lemma DeleteRangeKeepsOthers<T>(a: seq<T>, start: int, end: int)
    requires ClampDeletion(start, end, |a|).Some?
    ensures var k := ClampDeletion(start, end, |a|).value;
            var r := DeleteRange(a, start, end);
            forall p :: 0 <= p < |a| && !Contains(k, p) ==>
              0 <= UpdateOnDelete(p, k.start, k.end) < |r| &&
              r[UpdateOnDelete(p, k.start, k.end)] == a[p]
  {
    var k := ClampDeletion(start, end, |a|).value;
    var r := DeleteRange(a, start, end);
    assert r == a[..k.start] + a[k.end + 1..];
    forall p | 0 <= p < |a| && !Contains(k, p)
      ensures 0 <= UpdateOnDelete(p, k.start, k.end) < |r| && r[UpdateOnDelete(p, k.start, k.end)] == a[p]
    {
      UpdateOnDeleteFollowsCharacter(a, k.start, k.end, p);
    }
  }

  /** Deleting a range that lies inside the array cuts exactly it out. */
  lemma DeleteRangeIsCut<T>(a: seq<T>, start: int, end: int)
    requires 0 <= start <= end < |a|
    ensures DeleteRange(a, start, end) == a[..start] + a[end + 1..]
  {
    assert ClampDeletion(start, end, |a|) == Some(Range(start, end));
  }

  /** Deleting the block an insertion of `k` elements at `p` produced gives
      back the array it was inserted into. */
  lemma CutInsertedBlock<T>(a: seq<T>, orig: seq<T>, p: int, k: int)
    requires 0 <= p <= |orig| && k > 0 && |a| == |orig| + k
    requires a[..p] == orig[..p] && a[p + k..] == orig[p..]
    ensures DeleteRange(a, p, p + k - 1) == orig
  {
    DeleteRangeIsCut(a, p, p + k - 1);
    assert orig[..p] + orig[p..] == orig;
  }

  /** Putting a deleted block back where it was restores the array. */
  lemma ReinsertDeleted<T>(a: seq<T>, start: int, end: int)
    requires ClampDeletion(start, end, |a|).Some? && |a| > 0
    ensures var k := ClampDeletion(start, end, |a|).value;
            var d := DeleteRange(a, start, end);
            var ip := InsertPoint(k.start, |d|);
            d[..ip] + a[k.start..k.end + 1] + d[ip..] == a
  {
    var k := ClampDeletion(start, end, |a|).value;
    var d := DeleteRange(a, start, end);
    assert d == a[..k.start] + a[k.end + 1..];
    assert InsertPoint(k.start, |d|) == k.start;
    assert d[..k.start] == a[..k.start] && d[k.start..] == a[k.end + 1..];
    assert a[..k.start] + a[k.start..k.end + 1] + a[k.end + 1..] == a;
  }

  /** Where `addText(value, pos)` inserts text of an array of length `n`:
      at `pos` when it is an existing position, at the end otherwise (a
      negative `pos` appends too). */
  function InsertPoint(pos: int, n: nat): (ip: nat)
    ensures ip <= n
    ensures 0 <= pos < n ==> ip == pos
    ensures pos < 0 || n <= pos ==> ip == n
  {
    if pos < 0 || n - 1 < pos then n else pos
  }
}

=== FILE: behavior.dfy ===
/** The behavior store: an action pool, a behavior pool (a behavior is a
    list of action ids, the most recently stacked first) and one behavior id
    per character of the text. */
module Behaviors {
  import opened Wrappers
  import opened Globals
  import opened Handlers
  import PyList
  import Pools
  import Runs

  datatype BehaviorArray = BehaviorArray(
    ids: seq<nat>,                     // one behavior id per character
    actions: seq<Action>,              // the action pool
    behaviors: seq<seq<nat>>,          // the behavior pool
    registry: map<string, Action>,     // registered behaviors by name
    equiv: map<string, seq<Action>>,   // storage variants of a behavior
    defaultBehavior: nat)

  /** What the program maintains: both pools free of duplicates, every id
      and every action id pointing into its pool. */
  ghost predicate Valid(ba: BehaviorArray) {
    Pools.NoDuplicates(ba.actions) && Pools.NoDuplicates(ba.behaviors) &&
    ba.defaultBehavior < |ba.behaviors| &&
    (forall p :: 0 <= p < |ba.ids| ==> ba.ids[p] < |ba.behaviors|) &&
    (forall b :: 0 <= b < |ba.behaviors| ==> ActionIdsOk(ba, ba.behaviors[b]))
  }

  predicate ActionIdsOk(ba: BehaviorArray, b: seq<nat>) {
    forall j :: 0 <= j < |b| ==> b[j] < |ba.actions|
  }

  // ---------------------------------------------------------------------
  // Construction and registration
  // ---------------------------------------------------------------------

  function Fresh(textLength: nat): (ba: BehaviorArray)
    ensures Valid(ba)
  {
    BehaviorArray(PyList.Repeat(0, textLength), [DefaultAction], [[0]], map[], map[], 0)
  }

  /** `registerBehavior(**actionCommands)`: a behavior needs a name not yet
      registered. */
  function RegisterBehavior(ba: BehaviorArray, name: Option<string>, action: Action): (r: Result<BehaviorArray>)
    ensures r.Success? <==> name.Some? && name.value !in ba.registry
    ensures name.None? ==> r == Failure("Trying to register a behavior without a name!")
    ensures name.Some? && name.value in ba.registry ==>
              r == Failure("Trying to register two behaviors with identical names of " + name.value + ".")
    ensures r.Success? ==>
              r.value.registry == ba.registry[name.value := action] &&
              r.value == ba.(registry := r.value.registry)
  {
    if name.None? then Failure("Trying to register a behavior without a name!")
    else if name.value in ba.registry then
      Failure("Trying to register two behaviors with identical names of " + name.value + ".")
    else Success(ba.(registry := ba.registry[name.value := action]))
  }

  /** Registers a list of behaviors in order, stopping at the first
      failure. */
  function RegisterAll(ba: BehaviorArray, regs: seq<Registration>): (r: Result<BehaviorArray>)
    ensures r.Success? ==> r.value == ba.(registry := r.value.registry)
    decreases |regs|
  {
    if |regs| == 0 then Success(ba)
    else
      var ba' :- RegisterBehavior(ba, Some(regs[0].name), regs[0].action);
      RegisterAll(ba', regs[1..])
  }

  /** A successful registration of a list adds exactly its names, each
      with its own action, and keeps what was registered before. */
  lemma {:induction false} RegisterAllRegisters(ba: BehaviorArray, regs: seq<Registration>)
    requires RegisterAll(ba, regs).Success?
    ensures var reg := RegisterAll(ba, regs).value.registry;
            (forall n :: n in ba.registry ==> n in reg && reg[n] == ba.registry[n]) &&
            (forall i :: 0 <= i < |regs| ==>
               regs[i].name !in ba.registry && regs[i].name in reg && reg[regs[i].name] == regs[i].action) &&
            (forall n :: n in reg ==> n in ba.registry || exists i :: 0 <= i < |regs| && regs[i].name == n)
    decreases |regs|
  {
    if |regs| > 0 {
      var ba' := RegisterBehavior(ba, Some(regs[0].name), regs[0].action).value;
      RegisterAllRegisters(ba', regs[1..]);
      assert forall i :: 1 <= i < |regs| ==> regs[i] == regs[1..][i - 1];
    }
  }

  /** `BehaviorArray(textArray)`: every character gets the default behavior
      (id 0, the plain add, delete and style commands) and the hard-coded
      behaviors are registered under their names. */
  function Init(textLength: nat): (ba: BehaviorArray)
    ensures Valid(ba) && |ba.ids| == textLength && ba.defaultBehavior == 0
    ensures ba.actions == [DefaultAction] && ba.behaviors == [[0]]
    ensures forall p :: 0 <= p < |ba.ids| ==> ba.ids[p] == 0
    ensures forall i :: 0 <= i < |HardcodedBehaviors| ==>
              HardcodedBehaviors[i].name in ba.registry &&
              ba.registry[HardcodedBehaviors[i].name] == HardcodedBehaviors[i].action
    ensures forall n :: n in ba.registry ==> exists i :: 0 <= i < |HardcodedBehaviors| && HardcodedBehaviors[i].name == n
    ensures ba.equiv == map[]
  {
    HardcodedRegistration(textLength);
    RegisterAllRegisters(Fresh(textLength), HardcodedBehaviors);
    RegisterAll(Fresh(textLength), HardcodedBehaviors).value
  }

  /** The hard-coded names are distinct, so registering them succeeds. */
  lemma HardcodedRegistration(textLength: nat)
    ensures RegisterAll(Fresh(textLength), HardcodedBehaviors).Success?
  {
    var H := HardcodedBehaviors;
    assert |H[0].name| == 4 && |H[1].name| == 11 && |H[2].name| == 9;
    assert |H[3].name| == 31 && |H[4].name| == 29 && |H[5].name| == 10;
    RegisterAllSucceeds(Fresh(textLength), H);
  }

  /** No two registrations of the list share a name. */
  predicate DistinctNames(regs: seq<Registration>) {
    forall i, j :: 0 <= i < j < |regs| ==> regs[i].name != regs[j].name
  }

  /** A list of distinct names none of which is registered yet registers
      without error: the converse of `RegisterAllRegisters`. */
  lemma {:induction false} RegisterAllSucceeds(ba: BehaviorArray, regs: seq<Registration>)
    requires DistinctNames(regs)
    requires forall i :: 0 <= i < |regs| ==> regs[i].name !in ba.registry
    ensures RegisterAll(ba, regs).Success?
    decreases |regs|
  {
    if |regs| > 0 {
      var ba' := RegisterBehavior(ba, Some(regs[0].name), regs[0].action).value;
      assert forall i :: 0 <= i < |regs| - 1 ==> regs[1..][i] == regs[i + 1];
      assert forall i :: 0 <= i < |regs| - 1 ==> regs[1..][i].name != regs[0].name;
      RegisterAllSucceeds(ba', regs[1..]);
    }
  }

  /** `getBehavior(name)`: the registered action vector. */
  function GetBehavior(ba: BehaviorArray, name: string): Action
    requires name in ba.registry
  {
    ba.registry[name]
  }

  /** `setStorage(name, storage)`: puts a storage instance in the
      behavior's storage slot and records the new variant; the first call
      also records the variant as registered. */
  function SetStorage(ba: BehaviorArray, name: string, storage: Storage): (r: BehaviorArray)
    requires name in ba.registry
    ensures r.registry == ba.registry[name := ba.registry[name].(storage := Some(storage))]
    ensures name in r.equiv
    ensures name in ba.equiv ==> r.equiv[name] == ba.equiv[name] + [r.registry[name]]
    ensures name !in ba.equiv ==> r.equiv[name] == [ba.registry[name], r.registry[name]]
    ensures forall n :: n in ba.equiv && n != name ==> n in r.equiv && r.equiv[n] == ba.equiv[n]
    ensures r.ids == ba.ids && r.actions == ba.actions && r.behaviors == ba.behaviors
  {
    var before := if name in ba.equiv then ba.equiv[name] else [ba.registry[name]];
    var a := ba.registry[name].(storage := Some(storage));
    ba.(registry := ba.registry[name := a], equiv := ba.equiv[name := before + [a]])
  }

  /** `getBehaviorEquivalence(name)` */
  function GetBehaviorEquivalence(ba: BehaviorArray, name: string): (r: Option<seq<Action>>)
    ensures r.Some? <==> name in ba.equiv
    ensures r.Some? ==> r.value == ba.equiv[name]
  {
    if name in ba.equiv then Some(ba.equiv[name]) else None
  }

  /** The equivalence list of a behavior holds its variants in the order
      they were set, ending with the current one, and every variant differs
      from the registered action in its storage slot only. */
  ghost predicate EquivConsistent(ba: BehaviorArray) {
    forall n :: n in ba.equiv ==>
      n in ba.registry && |ba.equiv[n]| >= 2 &&
      ba.equiv[n][|ba.equiv[n]| - 1] == ba.registry[n] &&
      forall j :: 0 <= j < |ba.equiv[n]| ==> ba.equiv[n][j].(storage := None) == ba.registry[n].(storage := None)
  }

  lemma SetStorageKeepsEquivConsistent(ba: BehaviorArray, name: string, storage: Storage)
    requires name in ba.registry && EquivConsistent(ba)
    ensures EquivConsistent(SetStorage(ba, name, storage))
  {
  }

  // ---------------------------------------------------------------------
  // The pools
  // ---------------------------------------------------------------------

  /** `getActionID(**actionCommands)`: interns the action. */
  function GetActionID(ba: BehaviorArray, a: Action): (r: (BehaviorArray, nat))
    requires Valid(ba)
    ensures Valid(r.0) && r.1 < |r.0.actions| && r.0.actions[r.1] == a
    ensures a in ba.actions ==> r.0 == ba
    ensures |ba.actions| <= |r.0.actions| && r.0.actions[..|ba.actions|] == ba.actions
    ensures r.0 == ba.(actions := r.0.actions)
  {
    Pools.InternKeepsPool(ba.actions, a);
    var (pool, id) := Pools.Intern(ba.actions, a);
    var r := ba.(actions := pool);
    assert forall b :: 0 <= b < |r.behaviors| ==> ActionIdsOk(r, r.behaviors[b]) by {
      forall b | 0 <= b < |r.behaviors| ensures ActionIdsOk(r, r.behaviors[b]) {
        assert ActionIdsOk(ba, ba.behaviors[b]);
      }
    }
    (r, id)
  }

  /** `getBehaviorID(actionIDs)`: interns the behavior. */
  function GetBehaviorID(ba: BehaviorArray, b: seq<nat>): (r: (BehaviorArray, nat))
    requires Valid(ba) && ActionIdsOk(ba, b)
    ensures Valid(r.0) && r.1 < |r.0.behaviors| && r.0.behaviors[r.1] == b
    ensures b in ba.behaviors ==> r.0 == ba
    ensures |ba.behaviors| <= |r.0.behaviors| && r.0.behaviors[..|ba.behaviors|] == ba.behaviors
    ensures r.0 == ba.(behaviors := r.0.behaviors)
  {
    Pools.InternKeepsPool(ba.behaviors, b);
    var (pool, id) := Pools.Intern(ba.behaviors, b);
    (ba.(behaviors := pool), id)
  }

  /** The first occurrence of `x` removed (`list.remove`, with a missing
      value ignored): one copy of `x` fewer, nothing else lost. */
  function RemoveFirst(s: seq<nat>, x: nat): (r: seq<nat>)
    ensures x !in s ==> r == s
    ensures x in s ==> |r| == |s| - 1 && multiset(r) == multiset(s) - multiset{x}
  {
    var i := Pools.IndexOf(s, x);
    if i < 0 then s
    else
      assert s == s[..i] + [x] + s[i + 1..];
      s[..i] + s[i + 1..]
  }

  /** Removing what was just pushed on the front gives the list back. */
  lemma RemoveFirstAfterPush(s: seq<nat>, x: nat)
    ensures RemoveFirst([x] + s, x) == s
  {
    assert ([x] + s)[1..] == s;
  }

  /** `merge(oldID, newAction)`: the behavior with the action stacked on top. */
  function Merge(ba: BehaviorArray, oldID: nat, a: nat): (r: (BehaviorArray, nat))
    requires Valid(ba) && oldID < |ba.behaviors| && a < |ba.actions|
    ensures Valid(r.0) && r.1 < |r.0.behaviors| && r.0.behaviors[r.1] == [a] + ba.behaviors[oldID]
    ensures |ba.behaviors| <= |r.0.behaviors| && r.0.behaviors[..|ba.behaviors|] == ba.behaviors
    ensures r.0 == ba.(behaviors := r.0.behaviors)
  {
    assert ActionIdsOk(ba, ba.behaviors[oldID]);
    GetBehaviorID(ba, [a] + ba.behaviors[oldID])
  }

  /** `remove(oldID, action)`: the behavior with the first occurrence of the
      action taken out; an absent action leaves it as it is. */
  function Remove(ba: BehaviorArray, oldID: nat, a: nat): (r: (BehaviorArray, nat))
    requires Valid(ba) && oldID < |ba.behaviors|
    ensures Valid(r.0) && r.1 < |r.0.behaviors| && r.0.behaviors[r.1] == RemoveFirst(ba.behaviors[oldID], a)
    ensures |ba.behaviors| <= |r.0.behaviors| && r.0.behaviors[..|ba.behaviors|] == ba.behaviors
    ensures r.0 == ba.(behaviors := r.0.behaviors)
    ensures a !in ba.behaviors[oldID] ==> r == (ba, oldID)
  {
    assert ActionIdsOk(ba, ba.behaviors[oldID]);
    assert a !in ba.behaviors[oldID] ==> GetBehaviorID(ba, ba.behaviors[oldID]) == (ba, oldID) by {
      Pools.UniqueIndex(ba.behaviors, oldID);
    }
    GetBehaviorID(ba, RemoveFirst(ba.behaviors[oldID], a))
  }

  /** Stacking an action and removing it again gives back the behavior id
      in the same pool. */
  lemma MergeThenRemove(ba: BehaviorArray, oldID: nat, a: nat)
    requires Valid(ba) && oldID < |ba.behaviors| && a < |ba.actions|
    ensures var (ba1, id1) := Merge(ba, oldID, a);
            Remove(ba1, id1, a).1 == oldID
  {
    var (ba1, id1) := Merge(ba, oldID, a);
    RemoveFirstAfterPush(ba.behaviors[oldID], a);
    assert ba1.behaviors[oldID] == ba.behaviors[oldID];
    Pools.UniqueIndex(ba1.behaviors, oldID);
  }

  // ---------------------------------------------------------------------
  // Range operations
  // ---------------------------------------------------------------------

  predicate IsValidPos(ba: BehaviorArray, pos: int) {
    0 <= pos < |ba.ids|
  }

  /** The behavior pool of `r` extends that of `ba`. */
  predicate Grows(ba: BehaviorArray, r: BehaviorArray) {
    |ba.behaviors| <= |r.behaviors| &&
    forall i :: 0 <= i < |ba.behaviors| ==> r.behaviors[i] == ba.behaviors[i]
  }

  /** One step of `addActionInRange`: the action stacked on the behavior
      at one position. */
  function AddActionAt(ba: BehaviorArray, a: nat, pos: int): (r: BehaviorArray)
    requires Valid(ba) && a < |ba.actions| && IsValidPos(ba, pos)
    ensures Valid(r) && |r.ids| == |ba.ids| && r.actions == ba.actions
    ensures r == ba.(ids := r.ids, behaviors := r.behaviors) && Grows(ba, r)
    ensures r.behaviors[r.ids[pos]] == [a] + ba.behaviors[ba.ids[pos]]
    ensures forall p :: 0 <= p < |ba.ids| && p != pos ==> r.ids[p] == ba.ids[p]
  {
    var (ba1, id) := Merge(ba, ba.ids[pos], a);
    ba1.(ids := ba1.ids[pos := id])
  }

  /** The loop of `addActionInRange` from `pos` on. */
  function AddActionFrom(ba: BehaviorArray, a: nat, pos: int, endPos: int): (r: BehaviorArray)
    requires Valid(ba) && a < |ba.actions|
    ensures Valid(r) && |r.ids| == |ba.ids| && r.actions == ba.actions
    ensures r == ba.(ids := r.ids, behaviors := r.behaviors) && Grows(ba, r)
    ensures forall p :: 0 <= p < |ba.ids| ==>
              if pos <= p <= endPos then r.behaviors[r.ids[p]] == [a] + ba.behaviors[ba.ids[p]]
              else r.ids[p] == ba.ids[p]
    decreases endPos + 1 - pos
  {
    if pos > endPos then ba
    else if !IsValidPos(ba, pos) then AddActionFrom(ba, a, pos + 1, endPos)
    else AddActionFrom(AddActionAt(ba, a, pos), a, pos + 1, endPos)
  }

  /** `addActionInRange(action, startPos, endPos)`: the action is stacked
      on the behavior of every existing position of the range; nothing else
      changes. */
  function AddActionInRange(ba: BehaviorArray, a: nat, startPos: int, endPos: int): (r: BehaviorArray)
    requires Valid(ba) && a < |ba.actions|
    ensures Valid(r) && |r.ids| == |ba.ids| && r.actions == ba.actions
    ensures r == ba.(ids := r.ids, behaviors := r.behaviors) && Grows(ba, r)
    ensures forall p :: 0 <= p < |ba.ids| ==>
              if startPos <= p <= endPos then r.behaviors[r.ids[p]] == [a] + ba.behaviors[ba.ids[p]]
              else r.ids[p] == ba.ids[p]
  {
    AddActionFrom(ba, a, startPos, endPos)
  }

  /** One step of `removeActionInRange`. */
  function RemoveActionAt(ba: BehaviorArray, a: nat, pos: int): (r: BehaviorArray)
    requires Valid(ba) && IsValidPos(ba, pos)
    ensures Valid(r) && |r.ids| == |ba.ids| && r.actions == ba.actions
    ensures r == ba.(ids := r.ids, behaviors := r.behaviors) && Grows(ba, r)
    ensures r.behaviors[r.ids[pos]] == RemoveFirst(ba.behaviors[ba.ids[pos]], a)
    ensures forall p :: 0 <= p < |ba.ids| && p != pos ==> r.ids[p] == ba.ids[p]
  {
    var (ba1, id) := Remove(ba, ba.ids[pos], a);
    ba1.(ids := ba1.ids[pos := id])
  }

  /** The loop of `removeActionInRange` from `pos` on. */
  function RemoveActionFrom(ba: BehaviorArray, a: nat, pos: int, endPos: int): (r: BehaviorArray)
    requires Valid(ba)
    ensures Valid(r) && |r.ids| == |ba.ids| && r.actions == ba.actions
    ensures r == ba.(ids := r.ids, behaviors := r.behaviors) && Grows(ba, r)
    ensures forall p :: 0 <= p < |ba.ids| ==>
              if pos <= p <= endPos then r.behaviors[r.ids[p]] == RemoveFirst(ba.behaviors[ba.ids[p]], a)
              else r.ids[p] == ba.ids[p]
    decreases endPos + 1 - pos
  {
    if pos > endPos then ba
    else if !IsValidPos(ba, pos) then RemoveActionFrom(ba, a, pos + 1, endPos)
    else RemoveActionFrom(RemoveActionAt(ba, a, pos), a, pos + 1, endPos)
  }

  /** `removeActionInRange(action, startPos, endPos)` */
  function RemoveActionInRange(ba: BehaviorArray, a: nat, startPos: int, endPos: int): (r: BehaviorArray)
    requires Valid(ba)
    ensures Valid(r) && |r.ids| == |ba.ids| && r.actions == ba.actions
    ensures r == ba.(ids := r.ids, behaviors := r.behaviors) && Grows(ba, r)
    ensures forall p :: 0 <= p < |ba.ids| ==>
              if startPos <= p <= endPos then r.behaviors[r.ids[p]] == RemoveFirst(ba.behaviors[ba.ids[p]], a)
              else r.ids[p] == ba.ids[p]
  {
    RemoveActionFrom(ba, a, startPos, endPos)
  }

  /** Adding an action over a range and removing it over the same range
      gives back every behavior id. */
  lemma AddThenRemoveRestores(ba: BehaviorArray, a: nat, startPos: int, endPos: int)
    requires Valid(ba) && a < |ba.actions|
    ensures RemoveActionInRange(AddActionInRange(ba, a, startPos, endPos), a, startPos, endPos).ids == ba.ids
  {
    var m := AddActionInRange(ba, a, startPos, endPos);
    var r := RemoveActionInRange(m, a, startPos, endPos);
    forall p | 0 <= p < |ba.ids| ensures r.ids[p] == ba.ids[p] {
      if startPos <= p <= endPos {
        var b := ba.behaviors[ba.ids[p]];
        RemoveFirstAfterPush(b, a);
        assert r.behaviors[r.ids[p]] == b;
        assert r.behaviors[ba.ids[p]] == b;
        assert r.ids[p] < |r.behaviors|;
      }
    }
  }

  // ---------------------------------------------------------------------
  // Reading handlers
  // ---------------------------------------------------------------------

  /** The non-empty slots `keys` of one action, in key order. */
  function SlotsOf(act: Action, keys: seq<HandlerSlot>): seq<HandlerClass>
  {
    if |keys| == 0 then []
    else
      var rest := SlotsOf(act, keys[1..]);
      match SlotOf(act, keys[0])
      case Some(h) => [h] + rest
      case None => rest
  }

  lemma {:induction false} SlotsOfMembers(act: Action, keys: seq<HandlerSlot>, h: HandlerClass)
    ensures h in SlotsOf(act, keys) <==> exists k :: k in keys && SlotOf(act, k) == Some(h)
    decreases |keys|
  {
    if |keys| > 0 {
      SlotsOfMembers(act, keys[1..], h);
      assert forall k :: k in keys <==> k == keys[0] || k in keys[1..];
    }
  }

  /** The handlers collected over a list of action ids. */
  function HandlersIn(ba: BehaviorArray, aids: seq<nat>, keys: seq<HandlerSlot>): seq<HandlerClass>
    requires ActionIdsOk(ba, aids)
  {
    if |aids| == 0 then []
    else SlotsOf(ba.actions[aids[0]], keys) + HandlersIn(ba, aids[1..], keys)
  }

  /** A handler is collected exactly when some action of the list fills one
      of the requested slots with it. */
  lemma {:induction false} HandlersInMembers(ba: BehaviorArray, aids: seq<nat>, keys: seq<HandlerSlot>, h: HandlerClass)
    requires ActionIdsOk(ba, aids)
    ensures h in HandlersIn(ba, aids, keys) <==>
              exists j, k :: 0 <= j < |aids| && k in keys && SlotOf(ba.actions[aids[j]], k) == Some(h)
    decreases |aids|
  {
    if |aids| > 0 {
      HandlersInMembers(ba, aids[1..], keys, h);
      SlotsOfMembers(ba.actions[aids[0]], keys, h);
      assert forall j :: 1 <= j < |aids| ==> aids[j] == aids[1..][j - 1];
      if h in HandlersIn(ba, aids[1..], keys) {
        var j, k :| 0 <= j < |aids[1..]| && k in keys && SlotOf(ba.actions[aids[1..][j]], k) == Some(h);
        assert SlotOf(ba.actions[aids[j + 1]], k) == Some(h);
      }
    }
  }

  /** `_getBlankCommands(ID, toGet)`: the non-empty handler slots of the
      behavior, action by action from the most recently stacked one. */
  function HandlersOf(ba: BehaviorArray, id: nat, keys: seq<HandlerSlot>): seq<HandlerClass>
    requires Valid(ba) && id < |ba.behaviors|
  {
    HandlersIn(ba, ba.behaviors[id], keys)
  }

  /** `behaviorHasAction(ID, name)`: some handler of the behavior belongs to
      the named behavior. */
  predicate BehaviorHasAction(ba: BehaviorArray, id: nat, name: string)
    requires Valid(ba) && id < |ba.behaviors|
  {
    exists h :: h in HandlersOf(ba, id, AllHandlerSlots) && BehaviorName(h) == Some(name)
  }

  /** `hasAction(name, pos)`; the index follows Python's wrap-around. */
  predicate HasAction(ba: BehaviorArray, name: string, pos: int)
    requires Valid(ba) && PyList.IndexOk(pos, |ba.ids|)
  {
    BehaviorHasAction(ba, PyList.At(ba.ids, pos), name)
  }

  /** The `get...Behavior(pos)` accessors: the handlers of one key at a
      position. */
  function HandlersAt(ba: BehaviorArray, pos: int, key: HandlerSlot): seq<HandlerClass>
    requires Valid(ba) && PyList.IndexOk(pos, |ba.ids|)
  {
    HandlersOf(ba, PyList.At(ba.ids, pos), [key])
  }

  /** The storage instances of a behavior, most recently stacked first. */
  function StoragesIn(ba: BehaviorArray, aids: seq<nat>): seq<Storage>
    requires ActionIdsOk(ba, aids)
  {
    if |aids| == 0 then []
    else
      var rest := StoragesIn(ba, aids[1..]);
      match ba.actions[aids[0]].storage
      case Some(x) => [x] + rest
      case None => rest
  }

  /** `getStorage(name, pos)`: the first storage at the position that
      belongs to the named behavior. */
  function GetStorage(ba: BehaviorArray, name: string, pos: int): (r: Option<Storage>)
    requires Valid(ba) && PyList.IndexOk(pos, |ba.ids|)
    ensures r.Some? ==> r.value in StoragesIn(ba, ba.behaviors[PyList.At(ba.ids, pos)]) &&
                        StorageBehaviorName(r.value) == name
    ensures r.None? ==> forall x :: x in StoragesIn(ba, ba.behaviors[PyList.At(ba.ids, pos)]) ==>
                          StorageBehaviorName(x) != name
  {
    var id := PyList.At(ba.ids, pos);
    assert ActionIdsOk(ba, ba.behaviors[id]);
    FirstOwned(StoragesIn(ba, ba.behaviors[id]), name)
  }

  function FirstOwned(xs: seq<Storage>, name: string): (r: Option<Storage>)
    ensures r.Some? ==> r.value in xs && StorageBehaviorName(r.value) == name
    ensures r.None? ==> forall x :: x in xs ==> StorageBehaviorName(x) != name
  {
    if |xs| == 0 then None
    else if StorageBehaviorName(xs[0]) == name then Some(xs[0])
    else FirstOwned(xs[1..], name)
  }

  // ---------------------------------------------------------------------
  // The extent of an action around a position
  // ---------------------------------------------------------------------

  /** Whether each position of the array has the named action. */
  function ActionFlags(ba: BehaviorArray, name: string): (has: seq<bool>)
    requires Valid(ba)
    ensures |has| == |ba.ids|
    ensures forall p :: 0 <= p < |has| ==> has[p] == HasAction(ba, name, p)
  {
    seq(|ba.ids|, p requires 0 <= p < |ba.ids| => HasAction(ba, name, p))
  }

  /** The first loop of `findActionExtent`: walk left while the flag is
      set, stopping at the start. */
  function ExtentStart(has: seq<bool>, p: nat): (s: int)
    requires p < |has|
    ensures has[p] ==> 0 <= s <= p && (s == 0 || !has[s - 1]) && forall q :: s <= q <= p ==> has[q]
    ensures !has[p] ==> s == p + 1
    decreases p
  {
    if !has[p] then p + 1
    else if p == 0 then p
    else ExtentStart(has, p - 1)
  }

  /** The second loop: walk right while the flag is set. */
  function ExtentEnd(has: seq<bool>, p: nat): (e: int)
    requires p < |has|
    ensures has[p] ==> p <= e < |has| && (e == |has| - 1 || !has[e + 1]) && forall q :: p <= q <= e ==> has[q]
    ensures !has[p] ==> e == p - 1
    decreases |has| - p
  {
    if !has[p] then p - 1
    else if |has| <= p + 1 then p
    else ExtentEnd(has, p + 1)
  }

  /** `r` is the largest run of set flags around `p`, or `(p + 1, p - 1)`
      when the flag at `p` is clear. */
  ghost predicate IsExtent(has: seq<bool>, p: nat, r: Range)
    requires p < |has|
  {
    if has[p] then
      0 <= r.start <= p <= r.end < |has| &&
      (forall q :: r.start <= q <= r.end ==> has[q]) &&
      (r.start == 0 || !has[r.start - 1]) &&
      (r.end == |has| - 1 || !has[r.end + 1])
    else r == Range(p + 1, p - 1)
  }

  function Extent(has: seq<bool>, p: nat): (r: Range)
    requires p < |has|
    ensures IsExtent(has, p, r)
  {
    var s := ExtentStart(has, p);
    var e := ExtentEnd(has, p);
    assert has[p] ==> forall q :: s <= q <= e ==> has[q] by {
      if has[p] {
        forall q | s <= q <= e ensures has[q] {
          if q <= p { assert s <= q <= p; } else { assert p <= q <= e; }
        }
      }
    }
    Range(s, e)
  }

  /** `findActionExtent(name, pos)`: the largest range around `pos` whose
      every position has the action (`ActionFlags`); when `pos` itself
      lacks it the result is the empty range `(pos + 1, pos - 1)`. */
  function FindActionExtent(ba: BehaviorArray, name: string, pos: nat): (r: Range)
    requires Valid(ba) && pos < |ba.ids|
    ensures IsExtent(ActionFlags(ba, name), pos, r)
  {
    Extent(ActionFlags(ba, name), pos)
  }

  /** The extent is the only range with those properties: any two ranges
      that are both maximal runs around `p` coincide. */
  lemma ExtentUnique(has: seq<bool>, p: nat, r1: Range, r2: Range)
    requires p < |has| && IsExtent(has, p, r1) && IsExtent(has, p, r2)
    ensures r1 == r2
  {
    if has[p] {
      assert r1.start > 0 ==> !has[r1.start - 1];
      assert r2.start > 0 ==> !has[r2.start - 1];
      assert r1.end < |has| - 1 ==> !has[r1.end + 1];
      assert r2.end < |has| - 1 ==> !has[r2.end + 1];
    }
  }

  // ---------------------------------------------------------------------
  // Deletable and styleable ranges
  // ---------------------------------------------------------------------

  datatype Blank = Deletable | Styleable

  /** `_behaviorOverridesDelete` / `_behaviorOverridesStyle`: some delete
      (style) handler of the behavior has its stop bit set. */
  predicate Overrides(ba: BehaviorArray, id: nat, blank: Blank)
    requires Valid(ba) && id < |ba.behaviors|
  {
    var key := if blank == Deletable then DeleteSlot else StyleSlot;
    exists h :: h in HandlersOf(ba, id, [key]) && StopBit(h)
  }

  /** Every position of `[startPos, endPos]` can be read (Python wraps
      negative indices). */
  predicate RangeReadable(ba: BehaviorArray, startPos: int, endPos: int) {
    endPos < startPos || (-(|ba.ids| as int) <= startPos && endPos < |ba.ids|)
  }

  function OverrideFlags(ba: BehaviorArray, blank: Blank, startPos: int, endPos: int): (flags: seq<bool>)
    requires Valid(ba) && RangeReadable(ba, startPos, endPos)
    ensures |flags| == if endPos < startPos then 0 else endPos - startPos + 1
    ensures forall i :: 0 <= i < |flags| ==>
              flags[i] == Overrides(ba, PyList.At(ba.ids, startPos + i), blank)
  {
    if endPos < startPos then []
    else seq(endPos - startPos + 1, i requires 0 <= i < endPos - startPos + 1 =>
               Overrides(ba, PyList.At(ba.ids, startPos + i), blank))
  }

  /** `blankableRanges(theBlank, startPos, endPos)`: the ordered, disjoint,
      maximal runs of `[startPos, endPos]` where no handler of the kind
      stops the chain, covering every such position. */
  function BlankableRanges(ba: BehaviorArray, blank: Blank, startPos: int, endPos: int): (r: seq<Range>)
    requires Valid(ba) && RangeReadable(ba, startPos, endPos)
    ensures Runs.RunsSpec(OverrideFlags(ba, blank, startPos, endPos), startPos, r)
  {
    Runs.BlankRuns(OverrideFlags(ba, blank, startPos, endPos), startPos)
  }

  /** In a document without lock behaviors the whole range is deletable
      and styleable. */
  lemma DefaultBehaviorIsBlankable(ba: BehaviorArray, blank: Blank, startPos: int, endPos: int)
    requires Valid(ba) && 0 <= startPos <= endPos < |ba.ids|
    requires ba.actions == [DefaultAction] && ba.behaviors == [[0]]
    ensures BlankableRanges(ba, blank, startPos, endPos) == [Range(startPos, endPos)]
  {
    var flags := OverrideFlags(ba, blank, startPos, endPos);
    var key := if blank == Deletable then DeleteSlot else StyleSlot;
    assert SlotsOf(DefaultAction, [key]) == [if blank == Deletable then SimpleDeleteText else SimpleStyle] by {
      assert SlotsOf(DefaultAction, []) == [];
    }
    assert HandlersIn(ba, [], [key]) == [];
    assert ba.behaviors[0][1..] == [];
    assert HandlersIn(ba, [0], [key]) == SlotsOf(DefaultAction, [key]) + HandlersIn(ba, [], [key]);
    assert !Overrides(ba, 0, blank);
    forall i | 0 <= i < |flags| ensures !flags[i] {
      assert PyList.At(ba.ids, startPos + i) < 1;
    }
    Runs.AllClearIsOneRun(flags, startPos);
  }

  // ---------------------------------------------------------------------
  // Text edits
  // ---------------------------------------------------------------------

  /** `addText(newString, insertPos)`: the slice assignment
      `[insertPos:insertPos] = [default] * len`, with Python's slice rules. */
  function AddText(ba: BehaviorArray, textLength: nat, insertPos: int): (r: BehaviorArray)
    ensures r == ba.(ids := r.ids) && |r.ids| == |ba.ids| + textLength
    ensures var ip := PyList.SliceBound(insertPos, |ba.ids|);
            r.ids == ba.ids[..ip] + PyList.Repeat(ba.defaultBehavior, textLength) + ba.ids[ip..]
  {
    PyList.InsertAtBound(ba.ids, insertPos, PyList.Repeat(ba.defaultBehavior, textLength));
    ba.(ids := PyList.SliceAssign(ba.ids, insertPos, insertPos, PyList.Repeat(ba.defaultBehavior, textLength)))
  }

  /** `delText(start, end)`: the same clamped inclusive deletion as the
      text array's. */
  function DelText(ba: BehaviorArray, start: int, end: int): (r: BehaviorArray)
    ensures r == ba.(ids := DeleteRange(ba.ids, start, end))
  {
    ba.(ids := DeleteRange(ba.ids, start, end))
  }

  /** Deleting what `addText` inserted gives back the array. */
  lemma AddThenDeleteRestores(ba: BehaviorArray, textLength: nat, insertPos: int)
    requires textLength > 0
    ensures var ip := PyList.SliceBound(insertPos, |ba.ids|);
            DelText(AddText(ba, textLength, insertPos), ip, ip + textLength - 1) == ba
  {
    var ip := PyList.SliceBound(insertPos, |ba.ids|);
    var a := AddText(ba, textLength, insertPos);
    assert ClampDeletion(ip, ip + textLength - 1, |a.ids|) == Some(Range(ip, ip + textLength - 1));
    assert a.ids[..ip] == ba.ids[..ip];
    assert a.ids[ip + textLength..] == ba.ids[ip..];
    assert ba.ids[..ip] + ba.ids[ip..] == ba.ids;
  }

  /** New characters get the default behavior, so insertion keeps the
      array valid. */
  lemma AddTextKeepsValid(ba: BehaviorArray, textLength: nat, insertPos: int)
    requires Valid(ba)
    ensures Valid(AddText(ba, textLength, insertPos))
  {
    var ip := PyList.SliceBound(insertPos, |ba.ids|);
    var r := AddText(ba, textLength, insertPos);
    forall p | 0 <= p < |r.ids|
      ensures r.ids[p] < |r.behaviors|
    {
      if p < ip {
        assert r.ids[p] == ba.ids[p];
      } else if p >= ip + textLength {
        assert r.ids[p] == ba.ids[p - textLength];
      }
    }
  }

  /** Deletion only drops ids, so it keeps the array valid. */
  lemma DelTextKeepsValid(ba: BehaviorArray, start: int, end: int)
    requires Valid(ba)
    ensures Valid(DelText(ba, start, end))
  {
    var r := DelText(ba, start, end);
    match ClampDeletion(start, end, |ba.ids|)
    case None =>
    case Some(k) =>
      assert r.ids == ba.ids[..k.start] + ba.ids[k.end + 1..];
      forall p | 0 <= p < |r.ids|
        ensures r.ids[p] < |r.behaviors|
      {
        if p < k.start {
          assert r.ids[p] == ba.ids[p];
        } else {
          assert r.ids[p] == ba.ids[p + (k.end - k.start + 1)];
        }
      }
  }

  /** `getSubString(startPos, endPos)`: the ids of the range, read one by
      one with Python indexing. */
  function GetSubString(ba: BehaviorArray, startPos: int, endPos: int): (r: seq<nat>)
    requires RangeReadable(ba, startPos, endPos)
    ensures |r| == if endPos < startPos then 0 else endPos - startPos + 1
    ensures forall i :: 0 <= i < |r| ==> r[i] == PyList.At(ba.ids, startPos + i)
  {
    if endPos < startPos then []
    else seq(endPos - startPos + 1, i requires 0 <= i < endPos - startPos + 1 =>
               PyList.At(ba.ids, startPos + i))
  }

  /** Every index `insertPos + i` written by `replaceBehaviors` exists. */
  predicate ReplaceWritable(ba: BehaviorArray, count: nat, insertPos: int) {
    count == 0 || (-(|ba.ids| as int) <= insertPos && insertPos + count <= |ba.ids|)
  }

  function ReplaceFrom(ids: seq<nat>, bs: seq<nat>, insertPos: int, i: nat): (r: seq<nat>)
    requires i <= |bs| && (|bs| == 0 || (-(|ids| as int) <= insertPos && insertPos + |bs| <= |ids|))
    ensures |r| == |ids|
    decreases |bs| - i
  {
    if i == |bs| then ids
    else ReplaceFrom(PyList.Put(ids, insertPos + i, bs[i]), bs, insertPos, i + 1)
  }

  /** `replaceBehaviors(behaviorString, insertPos)`: writes the ids one by
      one from `insertPos` on. Inside the array it overwrites exactly that
      stretch. */
  function ReplaceBehaviors(ba: BehaviorArray, bs: seq<nat>, insertPos: int): (r: BehaviorArray)
    requires ReplaceWritable(ba, |bs|, insertPos)
    ensures r == ba.(ids := r.ids) && |r.ids| == |ba.ids|
    ensures 0 <= insertPos ==>
              forall p :: 0 <= p < |ba.ids| ==>
                r.ids[p] == if insertPos <= p < insertPos + |bs| then bs[p - insertPos] else ba.ids[p]
  {
    assert 0 <= insertPos ==> forall p :: 0 <= p < |ba.ids| ==>
             ReplaceFrom(ba.ids, bs, insertPos, 0)[p] ==
               if insertPos <= p < insertPos + |bs| then bs[p - insertPos] else ba.ids[p] by {
      if 0 <= insertPos { ReplaceFromInside(ba.ids, bs, insertPos, 0); }
    }
    ba.(ids := ReplaceFrom(ba.ids, bs, insertPos, 0))
  }

  lemma {:induction false} ReplaceFromInside(ids: seq<nat>, bs: seq<nat>, insertPos: int, i: nat)
    requires i <= |bs| && 0 <= insertPos && (|bs| == 0 || insertPos + |bs| <= |ids|)
    ensures forall p :: 0 <= p < |ids| ==>
              ReplaceFrom(ids, bs, insertPos, i)[p] ==
                if insertPos + i <= p < insertPos + |bs| then bs[p - insertPos] else ids[p]
    decreases |bs| - i
  {
    if i < |bs| {
      ReplaceFromInside(PyList.Put(ids, insertPos + i, bs[i]), bs, insertPos, i + 1);
    }
  }

  /** Writing back ids that are in the behavior pool keeps the array
      valid, whatever the stretch they land on. */
  lemma ReplaceKeepsValid(ba: BehaviorArray, bs: seq<nat>, insertPos: int)
    requires Valid(ba) && ReplaceWritable(ba, |bs|, insertPos)
    requires forall j :: 0 <= j < |bs| ==> bs[j] < |ba.behaviors|
    ensures Valid(ReplaceBehaviors(ba, bs, insertPos))
  {
    ReplaceFromBounded(ba.ids, bs, insertPos, 0, |ba.behaviors|);
  }

  lemma {:induction false} ReplaceFromBounded(ids: seq<nat>, bs: seq<nat>, insertPos: int, i: nat, bound: nat)
    requires i <= |bs| && (|bs| == 0 || (-(|ids| as int) <= insertPos && insertPos + |bs| <= |ids|))
    requires forall p :: 0 <= p < |ids| ==> ids[p] < bound
    requires forall j :: 0 <= j < |bs| ==> bs[j] < bound
    ensures forall p :: 0 <= p < |ids| ==> ReplaceFrom(ids, bs, insertPos, i)[p] < bound
    decreases |bs| - i
  {
    if i < |bs| {
      ReplaceFromBounded(PyList.Put(ids, insertPos + i, bs[i]), bs, insertPos, i + 1, bound);
    }
  }

  /** Writing back what was read changes nothing, even where Python's
      negative indices make two reads hit the same position. */
  lemma {:induction false} ReplaceFromReadBack(ids: seq<nat>, bs: seq<nat>, startPos: int, i: nat)
    requires i <= |bs| && (|bs| == 0 || (-(|ids| as int) <= startPos && startPos + |bs| <= |ids|))
    requires forall j :: 0 <= j < |bs| ==> bs[j] == PyList.At(ids, startPos + j)
    ensures ReplaceFrom(ids, bs, startPos, i) == ids
    decreases |bs| - i
  {
    if i < |bs| {
      assert PyList.Put(ids, startPos + i, bs[i]) == ids;
      ReplaceFromReadBack(ids, bs, startPos, i + 1);
    }
  }

  /** `replaceBehaviors(getSubString(s, e), s)` is the identity. */
  lemma SubStringRoundTrip(ba: BehaviorArray, startPos: int, endPos: int)
    requires RangeReadable(ba, startPos, endPos)
    ensures ReplaceWritable(ba, |GetSubString(ba, startPos, endPos)|, startPos)
    ensures ReplaceBehaviors(ba, GetSubString(ba, startPos, endPos), startPos) == ba
  {
    ReplaceFromReadBack(ba.ids, GetSubString(ba, startPos, endPos), startPos, 0);
  }
}

=== FILE: behavior_editing.dfy ===
/** What executing and undoing `AddActionCommand` and
    `RemoveActionCommand` (`commands/behavior_editing.py`) does to the
    behavior array. */
module BehaviorEditing {
  import opened Wrappers
  import opened Globals
  import opened Handlers
  import PyList
  import Pools
  import Behaviors
  import Documents
  import opened Commands

  /** The selection of `s` lies inside the text, in order. */
  predicate SelectionOnText(s: Archy) {
    |s.doc.selections| >= 2 &&
    0 <= s.doc.selections[Documents.Selection].start <= s.doc.selections[Documents.Selection].end <
      |s.doc.behaviors.ids|
  }

  /** Writing back the ids read from `[startPos, endPos]` of `ba` into an
      array that differs from `ba` only inside that range, and whose pool
      only grew, gives back the ids of `ba`. */
  lemma WriteBackRestores(ba: Behaviors.BehaviorArray, ba': Behaviors.BehaviorArray, startPos: int, endPos: int)
    requires Behaviors.Valid(ba) && 0 <= startPos <= endPos < |ba.ids| && |ba'.ids| == |ba.ids|
    requires Behaviors.Grows(ba, ba')
    requires forall p :: 0 <= p < |ba.ids| && !(startPos <= p <= endPos) ==> ba'.ids[p] == ba.ids[p]
    ensures var saved := Behaviors.GetSubString(ba, startPos, endPos);
            Behaviors.ReplaceWritable(ba', |saved|, startPos) &&
            (forall j :: 0 <= j < |saved| ==> saved[j] < |ba'.behaviors|) &&
            Behaviors.ReplaceBehaviors(ba', saved, startPos).ids == ba.ids
  {
    var saved := Behaviors.GetSubString(ba, startPos, endPos);
    var r := Behaviors.ReplaceBehaviors(ba', saved, startPos);
    forall p | 0 <= p < |ba.ids| ensures r.ids[p] == ba.ids[p] {
      if startPos <= p <= endPos {
        assert saved[p - startPos] == PyList.At(ba.ids, p);
      }
    }
  }

  /** An action command on a selection inside the text succeeds when the
      behavior is registered. */
  lemma ActionSucceeds(s: Archy, name: string, add: bool)
    requires Sound(s) && name in s.doc.behaviors.registry && SelectionOnText(s)
    ensures ExecAction(s, name, add).Success?
  {
  }

  /** How an action record is undone. */
  lemma UndoActionWas(fuel: nat, p: Archy, start: int, saved: seq<nat>)
    requires Sound(p) && fuel >= 1
    ensures Undo(fuel, p, ActionWas(start, saved)) == UndoAction(p, start, saved)
  {
  }

  /** Undoing `AddActionCommand` or `RemoveActionCommand` on a selection
      inside the text writes back every behavior id it changed; nothing
      but the behavior array differs, and its pools only grew. */
  lemma ActionUndoRestores(fuel: nat, s: Archy, name: string, add: bool)
    requires Sound(s) && fuel >= 1 && name in s.doc.behaviors.registry && SelectionOnText(s)
    ensures ExecAction(s, name, add).Success?
    ensures var ex := ExecAction(s, name, add).value;
            var u := Undo(fuel, ex.0, ex.1);
            u.Success? && u.value.doc.behaviors.ids == s.doc.behaviors.ids &&
            u.value == s.(doc := s.doc.(behaviors := u.value.doc.behaviors)) &&
            Behaviors.Grows(s.doc.behaviors, u.value.doc.behaviors)
  {
    var sel := s.doc.selections[Documents.Selection];
    var ex := ExecAction(s, name, add).value;
    var ba := s.doc.behaviors;
    var ba' := ex.0.doc.behaviors;
    WriteBackRestores(ba, ba', sel.start, sel.end);
    UndoActionWas(fuel, ex.0, sel.start, Behaviors.GetSubString(ba, sel.start, sel.end));
  }

  /** A behavior without storage variants: removing it takes off just the
      registered action. */
  predicate NoVariants(ba: Behaviors.BehaviorArray, name: string) {
    Behaviors.GetBehaviorEquivalence(ba, name) == None || Behaviors.GetBehaviorEquivalence(ba, name) == Some([])
  }

  /** `RemoveActionCommand` right after `AddActionCommand` of the same
      behavior on the same selection gives back every behavior id, when
      the behavior has no storage variants. */
  lemma AddThenRemoveAction(s: Archy, name: string)
    requires Sound(s) && name in s.doc.behaviors.registry && SelectionOnText(s)
    requires NoVariants(s.doc.behaviors, name)
    ensures ExecAction(s, name, true).Success?
    ensures var added := ExecAction(s, name, true).value.0;
            ExecAction(added, name, false).Success? &&
            ExecAction(added, name, false).value.0.doc.behaviors.ids == s.doc.behaviors.ids
  {
    var ba := s.doc.behaviors;
    var sel := s.doc.selections[Documents.Selection];
    var (ba1, a) := Behaviors.GetActionID(ba, ba.registry[name]);
    var added := ExecAction(s, name, true).value.0;
    assert added.doc.behaviors == Behaviors.AddActionInRange(ba1, a, sel.start, sel.end);
    RemoveRegistered(added, name, a);
    Behaviors.AddThenRemoveRestores(ba1, a, sel.start, sel.end);
  }

  /** `RemoveActionCommand` of a behavior without storage variants takes
      its action, interned at `a`, off the selection. */
  lemma RemoveRegistered(s: Archy, name: string, a: nat)
    requires Sound(s) && name in s.doc.behaviors.registry && SelectionOnText(s)
    requires NoVariants(s.doc.behaviors, name)
    requires a < |s.doc.behaviors.actions| && s.doc.behaviors.actions[a] == s.doc.behaviors.registry[name]
    ensures ExecAction(s, name, false).Success?
    ensures var sel := s.doc.selections[Documents.Selection];
            ExecAction(s, name, false).value.0.doc.behaviors ==
            Behaviors.RemoveActionInRange(s.doc.behaviors, a, sel.start, sel.end)
  {
    var ba := s.doc.behaviors;
    var sel := s.doc.selections[Documents.Selection];
    Pools.UniqueIndex(ba.actions, a);
    assert Behaviors.GetActionID(ba, ba.registry[name]) == (ba, a);
    assert RemovalIds(ba, name, a) == (ba, [a]);
    assert RemoveEach(ba, [a], sel.start, sel.end) == Behaviors.RemoveActionInRange(ba, a, sel.start, sel.end) by {
      assert [a][1..] == [];
    }
  }
}

=== FILE: bmh_search.dfy ===
/** Leap's incremental search: Boyer-Moore-Horspool over per-position
    character classes. A lower-case pattern letter matches either case, a
    symbol key also matches its shifted symbol, and an upper-case letter or
    shifted symbol matches only itself. */
module BmhSearch {
  import opened Globals
  import opened Wrappers

  type PatternList = seq<set<char>>

  /** `getPossibleMatchingChars`: the characters a pattern character
      accepts in the text. */
  function MatchingChars(c: char): (r: set<char>)
    ensures r == {c, ApplyShift(c)}
  {
    if IsLower(c) then {c, ToUpper(c)}
    else
      var shifted := ApplyShift(c);
      if shifted != c then {c, shifted} else {c}
  }

  /** `makePatternList` */
  function MakePatternList(pattern: string): (r: PatternList)
    ensures |r| == |pattern|
    ensures forall i :: 0 <= i < |r| ==> r[i] == MatchingChars(pattern[i])
  {
    seq(|pattern|, i requires 0 <= i < |pattern| => MatchingChars(pattern[i]))
  }

  /** The pattern classes accept the text at window start `k`. */
  predicate MatchAt(text: string, pl: PatternList, k: int) {
    0 <= k && k + |pl| <= |text| &&
    forall i :: 0 <= i < |pl| ==> text[k + i] in pl[i]
  }

  /** Every literal occurrence of the pattern is accepted. */
  lemma LiteralOccurrenceMatches(text: string, pattern: string, k: int)
    requires 0 <= k && k + |pattern| <= |text| && text[k..k + |pattern|] == pattern
    ensures MatchAt(text, MakePatternList(pattern), k)
  {
    var pl := MakePatternList(pattern);
    forall i | 0 <= i < |pl|
      ensures text[k + i] in pl[i]
    {
      assert text[k + i] == pattern[i];
    }
  }

  /** `comparePattern`: tests the classes position by position and stops at
      the first mismatch. */
  method ComparePattern(pl: PatternList, text: string, start: int) returns (m: bool)
    requires 0 <= start && start + |pl| <= |text|
    ensures m <==> MatchAt(text, pl, start)
  {
    var i := 0;
    while i < |pl|
      invariant 0 <= i <= |pl|
      invariant forall j :: 0 <= j < i ==> text[start + j] in pl[j]
    {
      if text[start + i] !in pl[i] {
        return false;
      }
      i := i + 1;
    }
    return true;
  }

  /** Reference definition: the last pattern position below `k` whose
      class contains `c`, or -1. */
  function LastClassBefore(pl: PatternList, c: char, k: nat): (j: int)
    requires k <= |pl|
    ensures -1 <= j < k
    ensures j >= 0 ==> c in pl[j]
    ensures forall i :: j < i < k ==> c !in pl[i]
  {
    if k == 0 then -1
    else if c in pl[k - 1] then k - 1
    else LastClassBefore(pl, c, k - 1)
  }

  /** Reference definition: the first pattern position at or after `k`
      whose class contains `c`, or `|pl|` when there is none. */
  function FirstClassFrom(pl: PatternList, c: char, k: nat): (j: int)
    requires k <= |pl|
    ensures k <= j <= |pl|
    ensures j < |pl| ==> c in pl[j]
    ensures forall i :: k <= i < j ==> c !in pl[i]
    decreases |pl| - k
  {
    if k == |pl| then |pl|
    else if c in pl[k] then k
    else FirstClassFrom(pl, c, k + 1)
  }

  /** The forward skip table after the source's loop has processed pattern
      positions `0 .. k-1`: later positions overwrite earlier ones, so each
      character maps to the distance from its last occurrence among those
      positions to the final pattern position. */
  function ForwardTableUpTo(pl: PatternList, k: nat): (t: map<char, int>)
    requires k < |pl|
    ensures forall c :: c in t <==> LastClassBefore(pl, c, k) >= 0
    ensures forall c :: c in t ==> t[c] == |pl| - 1 - LastClassBefore(pl, c, k)
  {
    if k == 0 then map[]
    else
      var s := pl[k - 1];
      ForwardTableUpTo(pl, k - 1) + map c | c in s :: |pl| - (k - 1) - 1
  }

  /** `buildBMHSkipForwardTable`: positions `0 .. |pl|-2` are entered, so
      every shift lies in `[1, |pl|-1]`. */
  function ForwardSkipTable(pl: PatternList): (t: map<char, int>)
    ensures |pl| == 0 ==> t == map[]
    ensures |pl| > 0 ==> forall c :: c in t <==> LastClassBefore(pl, c, |pl| - 1) >= 0
    ensures |pl| > 0 ==> forall c :: c in t ==> t[c] == |pl| - 1 - LastClassBefore(pl, c, |pl| - 1)
    ensures forall c :: c in t ==> 1 <= t[c] <= |pl| - 1
  {
    if |pl| == 0 then map[] else ForwardTableUpTo(pl, |pl| - 1)
  }

  /** The backward skip table after the source's loop has processed pattern
      positions `|pl|-1` down to `k`: smaller positions overwrite larger
      ones, so each character maps to its first occurrence at or after `k`. */
  function BackwardTableFrom(pl: PatternList, k: nat): (t: map<char, int>)
    requires 1 <= k <= |pl|
    ensures forall c :: c in t <==> FirstClassFrom(pl, c, k) < |pl|
    ensures forall c :: c in t ==> t[c] == FirstClassFrom(pl, c, k)
    decreases |pl| - k
  {
    if k == |pl| then map[]
    else
      var s := pl[k];
      BackwardTableFrom(pl, k + 1) + map c | c in s :: k
  }

  /** `buildBMHSkipBackwardTable`: positions `|pl|-1` down to `1` are
      entered, so every shift lies in `[1, |pl|-1]`. */
  function BackwardSkipTable(pl: PatternList): (t: map<char, int>)
    ensures |pl| <= 1 ==> t == map[]
    ensures |pl| > 0 ==> forall c :: c in t <==> FirstClassFrom(pl, c, 1) < |pl|
    ensures |pl| > 0 ==> forall c :: c in t ==> t[c] == FirstClassFrom(pl, c, 1)
    ensures forall c :: c in t ==> 1 <= t[c] <= |pl| - 1
  {
    if |pl| == 0 then map[] else BackwardTableFrom(pl, 1)
  }

  /** No window starting in `[lo, hi)` is accepted. */
  predicate NoMatchBetween(text: string, pl: PatternList, lo: int, hi: int) {
    forall k :: lo <= k < hi ==> !MatchAt(text, pl, k)
  }

  lemma NoMatchJoin(text: string, pl: PatternList, a: int, b: int, c: int)
    requires a <= b <= c
    requires NoMatchBetween(text, pl, a, b) && NoMatchBetween(text, pl, b, c)
    ensures NoMatchBetween(text, pl, a, c)
  {
  }

  /** The forward shift is safe: none of the windows it jumps over can
      match, since each would put the character under the old window's last
      position at a pattern position whose class does not contain it. */
  lemma ForwardSkipSafe(text: string, pl: PatternList, cs: int)
    requires |pl| > 0 && 0 <= cs && cs + |pl| <= |text|
    ensures var c := text[cs + |pl| - 1];
            var t := ForwardSkipTable(pl);
            NoMatchBetween(text, pl, cs + 1,
                           if c in t then cs + t[c] else cs + |pl|)
  {
    var ce := cs + |pl| - 1;
    var c := text[ce];
    var j := LastClassBefore(pl, c, |pl| - 1);
    forall k | cs + 1 <= k < cs + |pl| - 1 - j
      ensures !MatchAt(text, pl, k)
    {
      var i := ce - k;
      assert j < i < |pl| - 1 && c !in pl[i];
      assert k + i == ce;
    }
  }

  /** One failed comparison followed by the forward shift keeps "no match
      since `startPos`" true and makes progress. */
  lemma ForwardStep(text: string, pl: PatternList, startPos: int, cs: int, next: int)
    requires |pl| > 0 && 0 <= startPos <= cs && cs + |pl| <= |text|
    requires NoMatchBetween(text, pl, startPos, cs) && !MatchAt(text, pl, cs)
    requires var c := text[cs + |pl| - 1];
             var t := ForwardSkipTable(pl);
             next == if c in t then cs + t[c] else cs + |pl|
    ensures cs < next && NoMatchBetween(text, pl, startPos, next)
  {
    ForwardSkipSafe(text, pl, cs);
  }

  /** The backward shift is safe: none of the windows it jumps over can
      match, since each would put the character under the old window's
      first position at a pattern position whose class does not contain it. */
  lemma BackwardSkipSafe(text: string, pl: PatternList, cs: int)
    requires |pl| > 0 && 0 <= cs && cs + |pl| <= |text|
    ensures var c := text[cs];
            var t := BackwardSkipTable(pl);
            NoMatchBetween(text, pl, if c in t then cs - t[c] + 1 else cs - |pl| + 1, cs)
  {
    var c := text[cs];
    var j := FirstClassFrom(pl, c, 1);
    forall k | cs - j + 1 <= k < cs
      ensures !MatchAt(text, pl, k)
    {
      var i := cs - k;
      assert 1 <= i < j && c !in pl[i];
      assert k + i == cs;
    }
  }

  /** The forward scan over pattern classes: windows start at `startPos`
      and advance by the forward skip table while they end at or before
      `limit`. */
  method ScanForward(text: string, pl: PatternList, startPos: int, limit: int)
      returns (r: int)
    requires |pl| > 0 && 0 <= startPos && limit < |text|
    ensures r == -1 ==> NoMatchBetween(text, pl, startPos, limit - |pl| + 2)
    ensures r != -1 ==>
              startPos <= r && r + |pl| <= limit + 1 &&
              MatchAt(text, pl, r) && NoMatchBetween(text, pl, startPos, r)
  {
    var table := ForwardSkipTable(pl);
    var compareStart := startPos;
    var compareEnd := compareStart + |pl| - 1;
    while compareEnd <= limit
      invariant startPos <= compareStart
      invariant compareEnd == compareStart + |pl| - 1
      invariant NoMatchBetween(text, pl, startPos, compareStart)
      decreases limit - compareStart
    {
      var res := ComparePattern(pl, text, compareStart);
      if res {
        return compareStart;
      }
      var lastTextChar := text[compareEnd];
      var next := if lastTextChar in table then compareStart + table[lastTextChar]
                  else compareEnd + 1;
      ForwardStep(text, pl, startPos, compareStart, next);
      compareStart := next;
      compareEnd := compareStart + |pl| - 1;
    }
    return -1;
  }

  /** The backward scan over pattern classes: windows end at `limit` first
      and move left by the backward skip table while they start at or after
      `startPos`. */
  method ScanBackward(text: string, pl: PatternList, startPos: int, limit: int)
      returns (r: int)
    requires |pl| > 0 && 0 <= startPos && limit < |text|
    ensures r == -1 ==> NoMatchBetween(text, pl, startPos, limit - |pl| + 2)
    ensures r != -1 ==>
              startPos <= r && r + |pl| <= limit + 1 &&
              MatchAt(text, pl, r) && NoMatchBetween(text, pl, r + 1, limit - |pl| + 2)
  {
    var table := BackwardSkipTable(pl);
    var compareStart := limit - |pl| + 1;
    while startPos <= compareStart
      invariant compareStart + |pl| - 1 <= limit
      invariant NoMatchBetween(text, pl, compareStart + 1, limit - |pl| + 2)
      decreases compareStart - startPos
    {
      var res := ComparePattern(pl, text, compareStart);
      if res {
        return compareStart;
      }
      BackwardSkipSafe(text, pl, compareStart);
      var firstTextChar := text[compareStart];
      if firstTextChar in table {
        compareStart := compareStart - table[firstTextChar];
      } else {
        compareStart := compareStart - |pl|;
      }
    }
    return -1;
  }

  /** The last position (exclusive) a match may reach: `endPos` when given,
      the text length otherwise. */
  function SearchLimit(text: string, endPos: Option<int>): int {
    if endPos.Some? then endPos.value else |text|
  }

  /** `BMHSearchForward(text, pattern, startPos, endPos)`: the leftmost
      window at or after `startPos`, ending before the limit, that the
      pattern accepts; -1 when there is none or the pattern is empty. */
  method SearchForward(text: string, pattern: string, startPos: int, endPos: Option<int>)
      returns (r: int)
    requires 0 <= startPos
    requires SearchLimit(text, endPos) <= |text|
    ensures |pattern| == 0 ==> r == -1
    ensures r == -1 && |pattern| > 0 ==>
              NoMatchBetween(text, MakePatternList(pattern), startPos,
                             SearchLimit(text, endPos) - |pattern| + 1)
    ensures r != -1 ==>
              startPos <= r && r + |pattern| <= SearchLimit(text, endPos) &&
              MatchAt(text, MakePatternList(pattern), r) &&
              NoMatchBetween(text, MakePatternList(pattern), startPos, r)
  {
    if |pattern| == 0 {
      return -1;
    }
    r := ScanForward(text, MakePatternList(pattern), startPos, SearchLimit(text, endPos) - 1);
  }

  /** `BMHSearchBackward(text, pattern, startPos, endPos)`: the rightmost
      window at or after `startPos`, ending before the limit, that the
      pattern accepts; -1 when there is none or the pattern is empty. */
  method SearchBackward(text: string, pattern: string, startPos: int, endPos: Option<int>)
      returns (r: int)
    requires 0 <= startPos
    requires SearchLimit(text, endPos) <= |text|
    ensures |pattern| == 0 ==> r == -1
    ensures r == -1 && |pattern| > 0 ==>
              NoMatchBetween(text, MakePatternList(pattern), startPos,
                             SearchLimit(text, endPos) - |pattern| + 1)
    ensures r != -1 ==>
              startPos <= r && r + |pattern| <= SearchLimit(text, endPos) &&
              MatchAt(text, MakePatternList(pattern), r) &&
              NoMatchBetween(text, MakePatternList(pattern), r + 1,
                             SearchLimit(text, endPos) - |pattern| + 1)
  {
    if |pattern| == 0 {
      return -1;
    }
    r := ScanBackward(text, MakePatternList(pattern), startPos, SearchLimit(text, endPos) - 1);
  }
}

=== FILE: command_engine.dfy ===
/** The command machinery of `commands/__init__.py`: the linear undo
    history with its current index, the UNDO, REDO and CLEAR UNDO HISTORY
    steps, and the command map. The history is generic in its entries; the
    interpreter of the concrete commands supplies them. */
module CommandEngine {
  import opened Wrappers
  import PyList

  const NothingToUndo := "Nothing to undo!"
  const NothingToRedo := "Nothing to redo!"
  const IndexError := "list index out of range"

  /** `_history` and `_lastCommandIndex`: the entries up to `last` have
      been executed, the ones after it undone and redoable. */
  datatype History<E> = History(entries: seq<E>, last: int)

  /** The index invariant the program keeps: `-1 <= last <= len - 1`. */
  predicate Valid<E>(h: History<E>) {
    -1 <= h.last < |h.entries|
  }

  /** The history of a fresh `CommandHistory`. */
  function Empty<E>(): (h: History<E>)
    ensures Valid(h) && |h.entries| == 0 && h.last == -1
  {
    History([], -1)
  }

  // ---------------------------------------------------------------------
  // addToHistory
  // ---------------------------------------------------------------------

  /** `addToHistory(command)`: a command that is not recordable never
      enters the history; any other one replaces the redoable tail and
      becomes the last executed entry. */
  function Add<E>(h: History<E>, e: E, recordable: bool): (r: History<E>)
    ensures !recordable ==> r == h
    ensures recordable && Valid(h) ==>
              Valid(r) && r.entries == h.entries[..h.last + 1] + [e] && r.last == h.last + 1
  {
    if !recordable then h
    else
      var i := h.last + 1;
      History(PyList.Slice(h.entries, 0, i) + [e], i)
  }

  // ---------------------------------------------------------------------
  // UNDO, REDO and CLEAR UNDO HISTORY
  // ---------------------------------------------------------------------

  /** `UndoCommand.execute` before the entry's own undo runs: the entry to
      undo and the history once that undo has succeeded (the index moves
      back only after the undo, so a failing undo leaves it). */
  function UndoStep<E>(h: History<E>): (r: Result<(E, History<E>)>)
    ensures Valid(h) ==> (r.Success? <==> h.last >= 0)
    ensures Valid(h) && r.Failure? ==> r.error == NothingToUndo
    ensures Valid(h) && r.Success? ==>
              r.value.0 == h.entries[h.last] && r.value.1 == h.(last := h.last - 1) && Valid(r.value.1)
  {
    if 0 <= h.last then
      if h.last < |h.entries| then Success((h.entries[h.last], h.(last := h.last - 1)))
      else Failure(IndexError)
    else Failure(NothingToUndo)
  }

  /** `RedoCommand.execute` before the entry is redone: the index moves on
      first, then `history[index]` is redone. The result is that index
      and the moved history. */
  function RedoStep<E>(h: History<E>): (r: Result<(nat, History<E>)>)
    ensures Valid(h) ==> (r.Success? <==> h.last < |h.entries| - 1)
    ensures Valid(h) && r.Failure? ==> r.error == NothingToRedo
    ensures Valid(h) && r.Success? ==>
              r.value.0 == h.last + 1 && r.value.1 == h.(last := h.last + 1) && Valid(r.value.1)
  {
    if h.last < |h.entries| - 1 then
      if h.last + 1 >= 0 then Success((h.last + 1, h.(last := h.last + 1)))
      else Failure(IndexError)
    else Failure(NothingToRedo)
  }

  /** Stores the redone entry's new record in place. */
  function Replace<E>(h: History<E>, i: nat, e: E): (r: History<E>)
    requires i < |h.entries|
    ensures r.last == h.last && |r.entries| == |h.entries| && r.entries[i] == e
    ensures forall j :: 0 <= j < |h.entries| && j != i ==> r.entries[j] == h.entries[j]
  {
    h.(entries := h.entries[i := e])
  }

  /** An UNDO that succeeded is taken back by a REDO of the same entry. */
  lemma UndoThenRedo<E>(h: History<E>)
    requires Valid(h) && h.last >= 0
    ensures var u := UndoStep(h).value;
            RedoStep(u.1) == Success((h.last, h))
  {
  }

  /** A REDO that succeeded is taken back by an UNDO of the same entry. */
  lemma RedoThenUndo<E>(h: History<E>)
    requires Valid(h) && h.last < |h.entries| - 1
    ensures var u := RedoStep(h).value;
            UndoStep(u.1) == Success((h.entries[h.last + 1], h))
  {
  }

  /** Adding an entry discards the redoable tail: nothing is left to redo,
      and the next UNDO undoes the new entry. */
  lemma AddDiscardsRedoable<E>(h: History<E>, e: E)
    requires Valid(h)
    ensures RedoStep(Add(h, e, true)).Failure?
    ensures UndoStep(Add(h, e, true)) == Success((e, History(h.entries[..h.last + 1] + [e], h.last)))
  {
  }

  /** `EmptyCommandHistory.execute` as written: it keeps `history[-1]`, the
      LAST entry, whether or not it has been undone, and declares it
      executed. An empty history raises. */
  function ClearAsWritten<E>(h: History<E>): (r: Result<History<E>>)
    ensures |h.entries| == 0 <==> r.Failure?
    ensures r.Success? ==> r.value == History([h.entries[|h.entries| - 1]], 0)
  {
    if |h.entries| == 0 then Failure(IndexError)
    else Success(History([PyList.At(h.entries, -1)], 0))
  }

  /** With one redoable entry, the history left by CLEAR UNDO HISTORY as
      written offers the undone entry to UNDO: `[1, 2]` with index 0 (the
      2 undone) becomes `[2]` with index 0, and UNDO undoes 2 a second time
      instead of 1. */
  lemma ClearAsWrittenUndoesTwice()
    ensures var h := History([1, 2], 0);
            Valid(h) && UndoStep(h).value.0 == 1 &&
            UndoStep(ClearAsWritten(h).value).value.0 == 2
  {
  }

  /** CLEAR UNDO HISTORY keeping the last EXECUTED entry (none when
      everything has been undone), which is what the index says is done. */
  function Clear<E>(h: History<E>): (r: History<E>)
    requires Valid(h)
    ensures Valid(r) && |r.entries| <= 1
    ensures h.last >= 0 ==> r == History([h.entries[h.last]], 0)
    ensures h.last < 0 ==> r == Empty()
  {
    if h.last >= 0 then History([h.entries[h.last]], 0) else Empty()
  }

  /** After the corrected clear the next UNDO undoes the entry it would
      have undone before, nothing is left to redo, and a second clear
      changes nothing. */
  lemma ClearKeepsNextUndo<E>(h: History<E>)
    requires Valid(h)
    ensures UndoStep(Clear(h)).Success? <==> UndoStep(h).Success?
    ensures UndoStep(h).Success? ==> UndoStep(Clear(h)).value.0 == UndoStep(h).value.0
    ensures RedoStep(Clear(h)).Failure?
    ensures Clear(Clear(h)) == Clear(h)
  {
  }

  /** The sequence worked through in the comment above `CommandHistory`:
      A, B, C, D executed, three UNDOs, one REDO, then E executed leaves
      `[A, B, E]` with E last. */
  lemma CommentedExample()
    ensures var h0 := Add(Add(Add(Add(Empty(), 'A', true), 'B', true), 'C', true), 'D', true);
            var h1 := UndoStep(UndoStep(UndoStep(h0).value.1).value.1).value.1;
            var h2 := RedoStep(h1).value.1;
            var h3 := Add(h2, 'E', true);
            h0 == History(['A', 'B', 'C', 'D'], 3) && h1.last == 0 && h2.last == 1 &&
            h3 == History(['A', 'B', 'E'], 2)
  {
    var a := Add(Empty(), 'A', true);
    var b := Add(a, 'B', true);
    var c := Add(b, 'C', true);
    var h0 := Add(c, 'D', true);
    assert h0 == History(['A', 'B', 'C', 'D'], 3) by {
      assert a == History(['A'], 0);
      assert b == History(['A', 'B'], 1);
      assert c == History(['A', 'B', 'C'], 2);
    }
    var h1 := UndoStep(UndoStep(UndoStep(h0).value.1).value.1).value.1;
    assert h1 == History(['A', 'B', 'C', 'D'], 0);
    var h2 := RedoStep(h1).value.1;
    assert h2.entries[..h2.last + 1] == ['A', 'B'];
  }

  // ---------------------------------------------------------------------
  // The command map
  // ---------------------------------------------------------------------

  /** Whether a registered command runs from the command quasimode
      (`'user'`) or only from code (`'system'`). */
  datatype CommandType = UserCommand | SystemCommand

  datatype MapEntry<C> = MapEntry(cmd: C, kind: CommandType)

  /** `registerCommand(cmd, type)`: a second command under a taken name
      raises. */
  function RegisterCommand<C>(m: map<string, MapEntry<C>>, name: string, cmd: C, kind: CommandType)
    : (r: Result<map<string, MapEntry<C>>>)
    ensures name in m <==> r.Failure?
    ensures r.Failure? ==> r.error == "Tried to register two different objects with same command name =" + name
    ensures r.Success? ==> r.value == m[name := MapEntry(cmd, kind)]
  {
    if name in m then Failure("Tried to register two different objects with same command name =" + name)
    else Success(m[name := MapEntry(cmd, kind)])
  }

  /** `unregisterCommand(cmd)`: removing an absent name does nothing. */
  function UnregisterCommand<C>(m: map<string, MapEntry<C>>, name: string): (r: map<string, MapEntry<C>>)
    ensures name !in r && forall n :: n in m && n != name ==> n in r && r[n] == m[n]
    ensures name !in m ==> r == m
  {
    m - {name}
  }

  /** Registering a fresh name and unregistering it again gives back the
      map; registering under a name just unregistered succeeds. */
  lemma RegisterUnregister<C>(m: map<string, MapEntry<C>>, name: string, cmd: C, kind: CommandType)
    ensures name !in m ==> UnregisterCommand(RegisterCommand(m, name, cmd, kind).value, name) == m
    ensures RegisterCommand(UnregisterCommand(m, name), name, cmd, kind).Success?
  {
  }
}

=== FILE: commands.dfy ===
/** The editing commands of `commands/text_editing.py`, `style_editing.py`,
    `behavior_editing.py`, `lock.py`, `cursor.py` and `spellcheck.py` as
    one interpreter. Executing a command gives the new state and the record
    its undo needs; undoing a record gives a state back. Handler chains
    re-enter the commands (a lock's add handler adds text, the undo of a
    deletion adds the text again, a lock runs the style command), so
    execution and undo are mutually recursive. Each step into another
    command spends one unit of `fuel`; running out is a failure of its own.

    A Python exception raised part-way through a command becomes a
    `Failure` here, and the partial changes made before it are dropped. */
module Commands {
  import opened Wrappers
  import opened Globals
  import opened Handlers
  import PyList
  import TextArrays
  import Styles
  import Behaviors
  import Documents
  import Cursor
  import Spellcheck
  import Recording

  type Doc = Documents.Doc

  /** The part of `archyState` the commands touch: the main text, the style
      pool and the selection anchor kept by the command history. */
  datatype Archy = Archy(doc: Doc, pool: seq<Styles.Style>, anchor: int)

  /** What every command keeps: a well-formed behavior array. */
  ghost predicate Sound(s: Archy) {
    Behaviors.Valid(s.doc.behaviors)
  }

  const IndexError := "list index out of range"
  /** `FinalDocumentCharacterLockCommand.undo()` reaches for `self.theStyle`,
      which `execute()` never sets. */
  const AttributeError := "'FinalDocumentCharacterLockCommand' object has no attribute 'theStyle'"
  const OutOfFuel := "maximum recursion depth exceeded"
  /** A handler found in a slot its class was not written for. */
  const WrongSlot := "handler called with the arguments of another slot"
  /** `AddTextCommand("")` never receives its text (`if text:` is false). */
  const NoText := "AddTextCommand instance has no attribute 'newText'"

  function KeyError(name: string): string {
    "KeyError: " + name
  }

  /** The overlays the lock, unlock and spellcheck commands apply. */
  const LockColours: Styles.Overlay :=
    map["backgroundColor" := Styles.Rgb(245, 245, 245), "foregroundColor" := Styles.Rgb(200, 70, 70)]
  const PlainColours: Styles.Overlay :=
    map["backgroundColor" := Styles.Rgb(255, 255, 255), "foregroundColor" := Styles.Rgb(0, 0, 0)]
  const FlagColour: Styles.Overlay := map["backgroundColor" := Styles.Rgb(255, 100, 100)]

  /** How far past the cursor the replace and learn commands look for the
      next flagged word. */
  const SearchLimit := 2000

  const Spelling := "SPELLCHECK"
  const FinalLockName := "FINAL DOCUMENT CHARACTER LOCK"

  /** The commands, each with the information its `setinfo` or constructor
      receives. `Lock(name)` is `LockCommand`, `SystemLockCommand`,
      `FormLockCommand` and `InitialDocumentCharacterLockCommand`, which
      differ only in the behavior they add. */
  datatype Cmd =
    | SetCursor(pos: int)
    | SetSelection(sel: int, start: int, end: int)
    | SetSelectionList(sels: seq<Range>)
    | Select
    | AddText(text: string, style: Documents.StyleArg)
    | DeleteText
    | Style(overlay: Styles.Overlay)
    | AddAction(name: string)
    | RemoveAction(name: string)
    | Lock(name: string)
    | Unlock
    | SystemUnlock
    | FinalLock
    | CreepLeft
    | CreepRight
    | Leap(target: string, forward: bool)
    | CheckSpelling(dictionary: set<string>)
    | RemoveSpellcheck
    | ReplaceWord(suggestion: string, wordRange: Range)
    | Learn(wordRange: Range)

  /** The arguments a handler is built with: the add handlers get the text
      and its style, the delete handlers nothing, the style handlers the
      overlay. */
  datatype Args = Adding(text: string, style: Documents.StyleArg) | Deleting | Styling(overlay: Styles.Overlay)

  /** What an executed command keeps for its undo. */
  datatype Done =
    | NoOp
    | CursorWas(pos: int)                                // SetCursorCommand
    | SelectionWas(sel: int, was: Range)                 // SetSelectionCommand
    | ListWas(sels: seq<Range>)                          // SetSelectionListCommand
    | SelectWas(cursor: int, sels: seq<Range>)           // SelectCommand
    | Inserted(start: int, length: nat, sels: seq<Range>)  // SimpleAddTextCommand
    | Removed(start: int, text: string, styles: seq<int>)  // SimpleDeleteTextCommand
    | Restyled(start: int, copied: seq<int>)             // SimpleStyleCommandAbstract
    | ActionWas(start: int, saved: seq<nat>)             // AbstractActionCommand
    | FinalLockWas(start: int, saved: seq<nat>)          // FinalDocumentCharacterLockCommand: its action's record
    | MovedFrom(m: Documents.Memento)                    // CREEP and LEAP
    | Undone(parts: seq<Done>)                           // sub-commands, undone in this order
    | UndoneThenSelect(parts: seq<Done>, back: Range)    // ... then the selection set back
    | UndoneThenCursor(parts: seq<Done>, cursor: int)    // ... then the cursor set back

  function WithDoc(s: Archy, d: Doc): (r: Archy)
    requires Behaviors.Valid(d.behaviors)
    ensures Sound(r) && r.doc == d && r.pool == s.pool && r.anchor == s.anchor
  {
    s.(doc := d)
  }

  // ---------------------------------------------------------------------
  // Commands that do not run other commands
  // ---------------------------------------------------------------------

  /** `SetCursorCommand.execute()` */
  function ExecSetCursor(s: Archy, pos: int): (r: (Archy, Done))
    requires Sound(s)
    ensures Sound(r.0) && r.1 == CursorWas(s.doc.cursor)
    ensures r.0 == s.(doc := Documents.SetCursor(s.doc, pos))
  {
    (s.(doc := Documents.SetCursor(s.doc, pos)), CursorWas(s.doc.cursor))
  }

  /** `SetSelectionCommand.execute()`: the named selection is read (an
      index past the list raises) and set. */
  function ExecSetSelection(s: Archy, sel: int, start: int, end: int): (r: Result<(Archy, Done)>)
    requires Sound(s)
    ensures r.Success? <==> PyList.IndexOk(sel, |s.doc.selections|)
    ensures r.Success? ==>
              Sound(r.value.0) && r.value.1 == SelectionWas(sel, PyList.At(s.doc.selections, sel)) &&
              r.value.0 == s.(doc := Documents.SetSelection(s.doc, sel, start, end))
  {
    if !PyList.IndexOk(sel, |s.doc.selections|) then Failure(IndexError)
    else
      var was := Documents.GetSelection(s.doc, sel);
      Success((s.(doc := Documents.SetSelection(s.doc, sel, start, end)), SelectionWas(sel, was)))
  }

  /** `SetSelectionListCommand.execute()` */
  function ExecSetSelectionList(s: Archy, sels: seq<Range>): (r: (Archy, Done))
    requires Sound(s)
    ensures Sound(r.0) && r.0.doc.selections == sels && r.1 == ListWas(s.doc.selections)
    ensures r.0 == s.(doc := s.doc.(selections := sels))
  {
    (s.(doc := Documents.SetSelectionList(s.doc, sels)), ListWas(s.doc.selections))
  }

  /** `SelectCommand.execute()`: the preselection becomes a new selection,
      the cursor and the anchor go just past its end. */
  function ExecSelect(s: Archy): (r: Result<(Archy, Done)>)
    requires Sound(s)
    ensures r.Success? <==> |s.doc.selections| >= 2
    ensures r.Success? ==>
              var pre := s.doc.selections[Documents.Preselection];
              Sound(r.value.0) && r.value.1 == SelectWas(s.doc.cursor, s.doc.selections) &&
              r.value.0.anchor == pre.end + 1 &&
              r.value.0.doc == Documents.SetCursor(Documents.CreateNewSelection(s.doc, pre.start, pre.end), pre.end + 1)
  {
    if |s.doc.selections| < 2 then Failure(IndexError)
    else
      var pre := s.doc.selections[Documents.Preselection];
      var d1 := Documents.CreateNewSelection(s.doc, pre.start, pre.end);
      var d2 := Documents.SetCursor(d1, pre.end + 1);
      Success((Archy(d2, s.pool, pre.end + 1), SelectWas(s.doc.cursor, s.doc.selections)))
  }

  /** `SimpleAddTextCommand.execute()`: the text goes in at the cursor and
      becomes the selection; text of more than one character moves the
      anchor past it; the preselection runs from the anchor to the end of
      the new text. */
  function ExecSimpleAddText(s: Archy, text: string, style: Documents.StyleArg): (r: Result<(Archy, Done)>)
    requires Sound(s)
    ensures r.Success? <==> |s.doc.selections| >= 2
    ensures r.Success? ==>
              var c := s.doc.cursor;
              var added := Documents.AddText(s.doc, text, c, style);
              Sound(r.value.0) && r.value.1 == Inserted(c, |text|, s.doc.selections) &&
              r.value.0.pool == s.pool &&
              r.value.0.anchor == (if |text| > 1 then c + |text| else s.anchor) &&
              r.value.0.doc.(selections := added.selections) == added
  {
    if |s.doc.selections| < 2 then Failure(IndexError)
    else
      var c := s.doc.cursor;
      var d1 := Documents.AddText(s.doc, text, c, style);
      Behaviors.AddTextKeepsValid(s.doc.behaviors, |text|, c);
      var anchor := if |text| > 1 then c + |text| else s.anchor;
      var d2 := Documents.CreateNewSelection(d1, c, c + |text| - 1);
      var d3 := Documents.SetSelection(d2, Documents.Preselection, anchor, c + |text| - 1);
      Success((Archy(d3, s.pool, anchor), Inserted(c, |text|, s.doc.selections)))
  }

  /** `SimpleDeleteTextCommand.execute()`: the selection's characters and
      styles are kept, the selection deleted, the cursor put at its start
      and the selection on the character before. An extended selection
      moves the anchor to its start. */
  function ExecSimpleDeleteText(s: Archy): (r: Result<(Archy, Done)>)
    requires Sound(s)
    ensures r.Success? <==> |s.doc.selections| >= 2
    ensures r.Success? ==>
              var sel := s.doc.selections[Documents.Selection];
              var deleted := Documents.GetStyledText(s.doc, sel.start, sel.end);
              Sound(r.value.0) && r.value.1 == Removed(sel.start, deleted.0, deleted.1) &&
              r.value.0.pool == s.pool &&
              r.value.0.anchor == (if sel.start < sel.end then sel.start else s.anchor) &&
              r.value.0.doc.text == TextArrays.DelText(s.doc.text, sel.start, sel.end)
  {
    if |s.doc.selections| < 2 then Failure(IndexError)
    else
      var sel := s.doc.selections[Documents.Selection];
      var deleted := Documents.GetStyledText(s.doc, sel.start, sel.end);
      var anchor := if Documents.IsExtendedSelection(s.doc) then sel.start else s.anchor;
      var d1 := Documents.DelText(s.doc, sel.start, sel.end);
      Behaviors.DelTextKeepsValid(s.doc.behaviors, sel.start, sel.end);
      var d2 := Documents.SetCursor(d1, sel.start);
      var d3 := Documents.SetSelection(d2, Documents.Selection, d2.cursor - 1, -1);
      Success((Archy(d3, s.pool, anchor), Removed(sel.start, deleted.0, deleted.1)))
  }

  /** `SimpleStyleCommandAbstract.execute()`: the styles of the selection
      are copied, then the overlay is merged into each. */
  function ExecSimpleStyle(s: Archy, overlay: Styles.Overlay): (r: Result<(Archy, Done)>)
    requires Sound(s)
    ensures |s.doc.selections| < 2 ==> r.Failure?
    ensures r.Success? ==>
              var sel := s.doc.selections[Documents.Selection];
              var o := Documents.SetStyleOverlay(s.doc, s.pool, overlay, sel.start, sel.end);
              Sound(r.value.0) && o.Success? && r.value.0.doc == o.value.0.(cursor := r.value.0.doc.cursor) &&
              r.value.0.pool == o.value.1 &&
              r.value.0.anchor == s.anchor &&
              r.value.1 == Restyled(sel.start, Styles.GetSubString(s.doc.styles, sel.start, sel.end))
  {
    if |s.doc.selections| < 2 then Failure(IndexError)
    else
      var sel := s.doc.selections[Documents.Selection];
      var copied := Documents.GetStyledText(s.doc, sel.start, sel.end).1;
      var o :- Documents.SetStyleOverlay(s.doc, s.pool, overlay, sel.start, sel.end);
      var d := Documents.SetCursor(o.0, o.0.cursor);
      Success((Archy(d, o.1, s.anchor), Restyled(sel.start, copied)))
  }

  /** The action ids of a behavior's storage variants, interned in order
      (the `map` over `getBehaviorEquivalence` in the constructor). */
  function InternAll(ba: Behaviors.BehaviorArray, acts: seq<Action>): (r: (Behaviors.BehaviorArray, seq<nat>))
    requires Behaviors.Valid(ba)
    ensures Behaviors.Valid(r.0) && r.0 == ba.(actions := r.0.actions) && |r.1| == |acts|
    ensures |ba.actions| <= |r.0.actions| && r.0.actions[..|ba.actions|] == ba.actions
    ensures forall i :: 0 <= i < |r.1| ==> r.1[i] < |r.0.actions| && r.0.actions[r.1[i]] == acts[i]
    decreases |acts|
  {
    if |acts| == 0 then (ba, [])
    else
      var (ba1, a) := Behaviors.GetActionID(ba, acts[0]);
      var (ba2, rest) := InternAll(ba1, acts[1..]);
      assert ba2.actions[a] == ba2.actions[..|ba1.actions|][a];
      (ba2, [a] + rest)
  }

  /** `removeActionInRange` for each id in turn. */
  function RemoveEach(ba: Behaviors.BehaviorArray, ids: seq<nat>, startPos: int, endPos: int): (r: Behaviors.BehaviorArray)
    requires Behaviors.Valid(ba)
    ensures Behaviors.Valid(r) && |r.ids| == |ba.ids| && r == ba.(ids := r.ids, behaviors := r.behaviors)
    ensures Behaviors.Grows(ba, r)
    ensures forall p :: 0 <= p < |ba.ids| && !(startPos <= p <= endPos) ==> r.ids[p] == ba.ids[p]
    decreases |ids|
  {
    if |ids| == 0 then ba
    else RemoveEach(Behaviors.RemoveActionInRange(ba, ids[0], startPos, endPos), ids[1..], startPos, endPos)
  }

  /** The constructor of both action commands interns the behavior's
      storage variants, when it has any; their ids are the ones
      `RemoveActionCommand` removes, else the registered action's `a`. */
  function RemovalIds(ba: Behaviors.BehaviorArray, name: string, a: nat): (r: (Behaviors.BehaviorArray, seq<nat>))
    requires Behaviors.Valid(ba)
    ensures Behaviors.Valid(r.0) && r.0 == ba.(actions := r.0.actions)
    ensures |ba.actions| <= |r.0.actions| && r.0.actions[..|ba.actions|] == ba.actions
    ensures name in ba.equiv ==> forall v :: v in ba.equiv[name] ==> v in r.0.actions
  {
    match Behaviors.GetBehaviorEquivalence(ba, name)
    case Some(variants) =>
      if |variants| > 0 then InternAll(ba, variants) else (ba, [a])
    case None => (ba, [a])
  }

  /** At position `p`, `after` has `act` stacked on the behavior `before`
      had there. */
  predicate Stacked(before: Behaviors.BehaviorArray, after: Behaviors.BehaviorArray, p: int, act: Action) {
    0 <= p < |before.ids| && p < |after.ids| &&
    before.ids[p] < |before.behaviors| && after.ids[p] < |after.behaviors| &&
    |after.behaviors[after.ids[p]]| > 0 &&
    after.behaviors[after.ids[p]][0] < |after.actions| &&
    after.actions[after.behaviors[after.ids[p]][0]] == act &&
    after.behaviors[after.ids[p]][1..] == before.behaviors[before.ids[p]]
  }

  /** What an action command did to the behavior array: the ids of the
      selection were kept for the undo, positions outside it keep their
      behaviors, the pools only grew, and an added action sits on top of
      every position of the selection. */
  predicate ActionApplied(ba: Behaviors.BehaviorArray, sel: Range, name: string, add: bool,
                          ba': Behaviors.BehaviorArray, d: Done) {
    Behaviors.RangeReadable(ba, sel.start, sel.end) &&
    d == ActionWas(sel.start, Behaviors.GetSubString(ba, sel.start, sel.end)) &&
    |ba'.ids| == |ba.ids| && ba'.registry == ba.registry && ba'.equiv == ba.equiv &&
    ba'.defaultBehavior == ba.defaultBehavior && Behaviors.Grows(ba, ba') &&
    (forall p :: 0 <= p < |ba.ids| && !(sel.start <= p <= sel.end) ==> ba'.ids[p] == ba.ids[p]) &&
    (add ==> name in ba.registry &&
             forall p :: sel.start <= p <= sel.end && 0 <= p < |ba.ids| ==> Stacked(ba, ba', p, ba.registry[name]))
  }

  /** `AddActionCommand` and `RemoveActionCommand`: the constructor looks
      the behavior up (a missing name raises) and interns its action; the
      execution keeps the behavior ids of the selection and stacks the
      action on, or takes it (or every storage variant of it) off, each
      position of the selection. */
  function ExecAction(s: Archy, name: string, add: bool): (r: Result<(Archy, Done)>)
    requires Sound(s)
    ensures name !in s.doc.behaviors.registry ==> r == Failure(KeyError(name))
    ensures r.Success? ==>
              Sound(r.value.0) && |s.doc.selections| >= 2 &&
              r.value.0 == s.(doc := s.doc.(behaviors := r.value.0.doc.behaviors))
    ensures r.Success? ==>
              ActionApplied(s.doc.behaviors, s.doc.selections[Documents.Selection], name, add,
                            r.value.0.doc.behaviors, r.value.1)
    ensures r.Success? && name in s.doc.behaviors.equiv ==>
              forall v :: v in s.doc.behaviors.equiv[name] ==> v in r.value.0.doc.behaviors.actions
  {
    var ba := s.doc.behaviors;
    if name !in ba.registry then Failure(KeyError(name))
    else if |s.doc.selections| < 2 then Failure(IndexError)
    else
      var (ba1, a) := Behaviors.GetActionID(ba, ba.registry[name]);
      var (ba3, ids) := RemovalIds(ba1, name, a);
      assert ba3.actions[a] == ba3.actions[..|ba1.actions|][a];
      var sel := s.doc.selections[Documents.Selection];
      if !Behaviors.RangeReadable(ba, sel.start, sel.end) then Failure(IndexError)
      else
        var saved := Behaviors.GetSubString(ba, sel.start, sel.end);
        var ba2 := if add then Behaviors.AddActionInRange(ba3, a, sel.start, sel.end)
                   else RemoveEach(ba3, ids, sel.start, sel.end);
        Success((s.(doc := s.doc.(behaviors := ba2)), ActionWas(sel.start, saved)))
  }

  /** `CreepLeftCommand` and `CreepRightCommand`: the move and the
      anchor; the undo puts back the cursor and the selections. */
  function ExecCreep(s: Archy, left: bool): (r: Result<(Archy, Done)>)
    requires Sound(s)
    ensures r.Success? <==> |s.doc.selections| >= 2 && s.doc.selections[1].start <= s.doc.selections[1].end
    ensures r.Success? ==>
              var m := if left then Cursor.CreepLeft(s.doc) else Cursor.CreepRight(s.doc);
              Sound(r.value.0) && m.Success? && r.value.0 == Archy(m.value.doc, s.pool, m.value.anchor) &&
              r.value.1 == MovedFrom(Documents.GetNonContentMemento(s.doc))
  {
    var m :- if left then Cursor.CreepLeft(s.doc) else Cursor.CreepRight(s.doc);
    Success((Archy(m.doc, s.pool, m.anchor), MovedFrom(Documents.GetNonContentMemento(s.doc))))
  }

  /** LEAP: a failed search aborts the command with its message. */
  function ExecLeap(s: Archy, target: string, forward: bool): (r: Result<(Archy, Done)>)
    requires Sound(s)
    ensures !Cursor.LeapableSelection(s.doc, forward) ==> r.Failure?
    ensures Cursor.LeapableSelection(s.doc, forward) ==>
              match Cursor.Leap(s.doc, target, forward)
              case Leapt(m) => r == Success((Archy(m.doc, s.pool, m.anchor), MovedFrom(Documents.GetNonContentMemento(s.doc))))
              case LeapFailed(_, message) => r == Failure(message)
    ensures r.Success? ==> Sound(r.value.0)
  {
    if !Cursor.LeapableSelection(s.doc, forward) then Failure(IndexError)
    else
      match Cursor.Leap(s.doc, target, forward)
      case Leapt(m) => Success((Archy(m.doc, s.pool, m.anchor), MovedFrom(Documents.GetNonContentMemento(s.doc))))
      case LeapFailed(_, message) => Failure(message)
  }

  /** The search of `AbstractReplaceCommand` and `AbstractLearnCommand`:
      from `start` on, the first position holding the named behavior, at
      most `SearchLimit` positions on and before the end of the text. */
  function SearchFlag(ba: Behaviors.BehaviorArray, textLength: nat, name: string, start: int, pos: int)
    : (r: Result<Option<int>>)
    requires Behaviors.Valid(ba) && start <= pos
    ensures r.Success? && r.value.Some? ==>
              var q := r.value.value;
              pos <= q < textLength && q - start < SearchLimit &&
              PyList.IndexOk(q, |ba.ids|) && Behaviors.HasAction(ba, name, q)
    ensures r.Success? ==>
              forall q :: pos <= q < textLength && q - start < SearchLimit &&
                          (r.value.None? || q < r.value.value) ==>
                PyList.IndexOk(q, |ba.ids|) && !Behaviors.HasAction(ba, name, q)
    decreases textLength - pos
  {
    if textLength <= pos || SearchLimit <= pos - start then Success(None)
    else if !PyList.IndexOk(pos, |ba.ids|) then Failure(IndexError)
    else if Behaviors.HasAction(ba, name, pos) then Success(Some(pos))
    else SearchFlag(ba, textLength, name, start, pos + 1)
  }

  /** After a replace or a learn: the cursor and the selection go to the
      next flagged word, if the search finds one. */
  function GoToNextFlag(s: Archy): (r: Result<Archy>)
    requires Sound(s)
    ensures r.Success? ==> Sound(r.value) && r.value.pool == s.pool && r.value.anchor == s.anchor &&
                           r.value.doc.text == s.doc.text && r.value.doc.styles == s.doc.styles &&
                           r.value.doc.behaviors == s.doc.behaviors
  {
    var found :- SearchFlag(s.doc.behaviors, Documents.Length(s.doc), Spelling, s.doc.cursor, s.doc.cursor);
    match found
    case None => Success(s)
    case Some(pos) =>
      if |s.doc.selections| < 2 then Failure(IndexError)
      else
        var d1 := Documents.SetCursor(s.doc, pos);
        Success(s.(doc := Documents.SetSelection(d1, Documents.Selection, d1.cursor, -1)))
  }

  /** The corrected undo of `SetSelectionCommand`: the selection it found
      goes back as it was, set or not. */
  function RestoreSelection(d: Doc, sel: int, was: Range): (r: Doc)
    requires PyList.IndexOk(sel, |d.selections|)
    ensures r == d.(selections := PyList.Put(d.selections, sel, was))
  {
    d.(selections := PyList.Put(d.selections, sel, was))
  }

  // ---------------------------------------------------------------------
  // Execution and undo
  // ---------------------------------------------------------------------

  /** `execute()` of a command. */
  function Exec(fuel: nat, s: Archy, c: Cmd): (r: Result<(Archy, Done)>)
    requires Sound(s)
    ensures r.Success? ==> Sound(r.value.0)
    decreases fuel, 0
  {
    if fuel == 0 then Failure(OutOfFuel)
    else
      match c
      case SetCursor(pos) => Success(ExecSetCursor(s, pos))
      case SetSelection(sel, start, end) => ExecSetSelection(s, sel, start, end)
      case SetSelectionList(sels) => Success(ExecSetSelectionList(s, sels))
      case Select => ExecSelect(s)
      case AddText(text, style) => ExecAddText(fuel - 1, s, text, style)
      case DeleteText => ExecDeleteText(fuel - 1, s)
      case Style(overlay) => ExecStyle(fuel - 1, s, overlay)
      case AddAction(name) => ExecAction(s, name, true)
      case RemoveAction(name) => ExecAction(s, name, false)
      case Lock(name) => ExecLock(fuel - 1, s, name)
      case Unlock => ExecUnlock(fuel - 1, s)
      case SystemUnlock => ExecSystemUnlock(fuel - 1, s)
      case FinalLock => ExecFinalLock(s)
      case CreepLeft => ExecCreep(s, true)
      case CreepRight => ExecCreep(s, false)
      case Leap(target, forward) => ExecLeap(s, target, forward)
      case CheckSpelling(dictionary) => ExecCheckSpelling(fuel - 1, s, dictionary)
      case RemoveSpellcheck => ExecRemoveSpellcheck(fuel - 1, s)
      case ReplaceWord(suggestion, wordRange) => ExecReplaceWord(fuel - 1, s, suggestion, wordRange)
      case Learn(wordRange) => ExecLearn(fuel - 1, s, wordRange)
  }

  /** `AddTextCommand.execute()`: the add handlers at the cursor run in
      turn until one stops the chain; each goes to the front of the undo
      list. */
  function ExecAddText(fuel: nat, s: Archy, text: string, style: Documents.StyleArg): (r: Result<(Archy, Done)>)
    requires Sound(s)
    ensures r.Success? ==> Sound(r.value.0)
    decreases fuel, 1
  {
    var ba := s.doc.behaviors;
    if !PyList.IndexOk(s.doc.cursor, |ba.ids|) then Failure(IndexError)
    else
      var ran :- ExecChain(fuel, s, Behaviors.HandlersAt(ba, s.doc.cursor, AddSlot), Adding(text, style));
      Success((ran.0, Undone(Recording.Reverse(ran.1))))
  }

  /** The handlers of a chain executed in order, the first whose stop bit
      is set being the last; the records come back in execution order. */
  function ExecChain(fuel: nat, s: Archy, hs: seq<HandlerClass>, args: Args): (r: Result<(Archy, seq<Done>)>)
    requires Sound(s)
    ensures r.Success? ==> Sound(r.value.0)
    decreases fuel, 0, |hs|
  {
    if |hs| == 0 then Success((s, []))
    else if fuel == 0 then Failure(OutOfFuel)
    else
      var first :- ExecHandler(fuel - 1, s, hs[0], args);
      if StopBit(hs[0]) then Success((first.0, [first.1]))
      else
        var rest :- ExecChain(fuel, first.0, hs[1..], args);
        Success((rest.0, [first.1] + rest.1))
  }

  /** `execute()` of a handler built with the arguments of its slot. The
      delete and style handlers of the locks, and the spellcheck style,
      focus and unfocus handlers, change nothing here. */
  function ExecHandler(fuel: nat, s: Archy, h: HandlerClass, args: Args): (r: Result<(Archy, Done)>)
    requires Sound(s)
    ensures r.Success? ==> Sound(r.value.0)
    decreases fuel, 2
  {
    match h
    case SimpleAddText =>
      if args.Adding? then ExecSimpleAddText(s, args.text, args.style) else Failure(WrongSlot)
    case SimpleDeleteText =>
      if args.Deleting? then ExecSimpleDeleteText(s) else Failure(WrongSlot)
    case SimpleStyle =>
      if args.Styling? then ExecSimpleStyle(s, args.overlay) else Failure(WrongSlot)
    case LockAdd =>
      if args.Adding? then ExecLockAdd(fuel, s, "LOCK", args.text, args.style) else Failure(WrongSlot)
    case SystemLockAdd =>
      if args.Adding? then ExecLockAdd(fuel, s, "SYSTEM LOCK", args.text, args.style) else Failure(WrongSlot)
    case FormLockAdd =>
      if args.Adding? then ExecFormLockAdd(fuel, s, args.text, args.style) else Failure(WrongSlot)
    case SpellcheckModify => ExecSpellcheckModify(fuel, s)
    case _ => Success((s, NoOp))
  }

  /** `LockAddCommand.execute()` (and the system lock's, under its own
      name): typing at the first character of a locked stretch unlocks
      the new text's place, adds the text in plain colours and locks the
      character after it again; typing anywhere else in it adds the text
      after the stretch. */
  function ExecLockAdd(fuel: nat, s: Archy, name: string, text: string, style: Documents.StyleArg)
    : (r: Result<(Archy, Done)>)
    requires Sound(s)
    ensures r.Success? ==> Sound(r.value.0)
    decreases fuel, 1
  {
    var c := s.doc.cursor;
    if !(0 <= c < |s.doc.behaviors.ids|) then Failure(IndexError)
    else
      var ext := Behaviors.FindActionExtent(s.doc.behaviors, name, c);
      if c == ext.start then ExecTypeAtLockStart(fuel, s, name, text, style)
      else ExecTypeAfter(fuel, s, text, style, ext.end + 1)
  }

  /** The `moveOver` branch of `LockAddCommand.execute()`, with the cursor
      at the start of the locked stretch. The undo runs the parts
      backwards, then puts the cursor back. */
  function ExecTypeAtLockStart(fuel: nat, s: Archy, name: string, text: string, style: Documents.StyleArg)
    : (r: Result<(Archy, Done)>)
    requires Sound(s)
    ensures r.Success? ==> Sound(r.value.0)
    decreases fuel, 0
  {
    var c := s.doc.cursor;
    if |s.doc.selections| < 2 || fuel == 0 then Failure(if fuel == 0 then OutOfFuel else IndexError)
    else
      var d1 := Documents.SetCursor(s.doc, c);
      var s1 := s.(doc := Documents.SetSelection(d1, Documents.Selection, c, c));
      var unlocked :- Exec(fuel - 1, s1, RemoveAction(name));
      var added :- Exec(fuel - 1, unlocked.0, AddText(text, style));
      var plain :- Exec(fuel - 1, added.0, Style(PlainColours));
      ExecRelock(fuel - 1, plain.0, name, [plain.1, added.1, unlocked.1], c)
  }

  /** The end of `LockAddCommand.execute()` at the start of a locked
      stretch: the character after the selection gets the lock again and
      the selection is put back. */
  function ExecRelock(fuel: nat, s: Archy, name: string, undone: seq<Done>, cursor: int)
    : (r: Result<(Archy, Done)>)
    requires Sound(s)
    ensures r.Success? ==> Sound(r.value.0)
    decreases fuel, 1
  {
    if |s.doc.selections| < 2 || fuel == 0 then Failure(if fuel == 0 then OutOfFuel else IndexError)
    else
      var sel := s.doc.selections[Documents.Selection];
      var s1 := s.(doc := Documents.SetSelection(s.doc, Documents.Selection, sel.end + 1, sel.end + 1));
      var relocked :- Exec(fuel - 1, s1, AddAction(name));
      if |relocked.0.doc.selections| < 2 then Failure(IndexError)
      else
        var d := Documents.SetSelection(relocked.0.doc, Documents.Selection, sel.start, sel.end);
        Success((relocked.0.(doc := d), UndoneThenCursor([relocked.1] + undone, cursor)))
  }

  /** Typing into a locked stretch anywhere but its start, and typing into
      a form lock: the cursor moves to `pos`, just after the stretch, the
      text goes there, and the undo puts the cursor back. */
  function ExecTypeAfter(fuel: nat, s: Archy, text: string, style: Documents.StyleArg, pos: int)
    : (r: Result<(Archy, Done)>)
    requires Sound(s)
    ensures r.Success? ==> Sound(r.value.0)
    decreases fuel, 0
  {
    if fuel == 0 then Failure(OutOfFuel)
    else
      var s1 := s.(doc := Documents.SetCursor(s.doc, pos));
      var added :- Exec(fuel - 1, s1, AddText(text, style));
      Success((added.0, UndoneThenCursor([added.1], s.doc.cursor)))
  }

  /** `FormLockAddCommand.execute()`: the text always goes after the
      locked stretch. */
  function ExecFormLockAdd(fuel: nat, s: Archy, text: string, style: Documents.StyleArg)
    : (r: Result<(Archy, Done)>)
    requires Sound(s)
    ensures r.Success? ==> Sound(r.value.0)
    decreases fuel, 1
  {
    var c := s.doc.cursor;
    if !(0 <= c < |s.doc.behaviors.ids|) || fuel == 0 then Failure(if fuel == 0 then OutOfFuel else IndexError)
    else
      var ext := Behaviors.FindActionExtent(s.doc.behaviors, "FORM LOCK", c);
      ExecTypeAfter(fuel, s, text, style, ext.end + 1)
  }

  /** `SpellcheckModify.execute()`, the spellcheck behavior's add and
      delete handler: editing a flagged word removes the flag from the
      whole word, then the selection is put back. */
  function ExecSpellcheckModify(fuel: nat, s: Archy): (r: Result<(Archy, Done)>)
    requires Sound(s)
    ensures r.Success? ==> Sound(r.value.0)
    decreases fuel, 1
  {
    var c := s.doc.cursor;
    if !(0 <= c < |s.doc.behaviors.ids|) || |s.doc.selections| < 2 || fuel == 0 then
      Failure(if fuel == 0 then OutOfFuel else IndexError)
    else
      var ext := Behaviors.FindActionExtent(s.doc.behaviors, Spelling, c);
      var was := s.doc.selections[Documents.Selection];
      var s1 := s.(doc := Documents.SetSelection(s.doc, Documents.Selection, ext.start, ext.end));
      var removed :- Exec(fuel - 1, s1, RemoveSpellcheck);
      if |removed.0.doc.selections| < 2 then Failure(IndexError)
      else
        var d := Documents.SetSelection(removed.0.doc, Documents.Selection, was.start, was.end);
        Success((removed.0.(doc := d), removed.1))
  }

  /** `DeleteTextCommand.execute()`: the deletable stretches of the
      selection (those no delete handler stops) are deleted one by one,
      each shifted left by what was deleted before it. */
  function ExecDeleteText(fuel: nat, s: Archy): (r: Result<(Archy, Done)>)
    requires Sound(s)
    ensures r.Success? ==> Sound(r.value.0)
    decreases fuel, 1
  {
    if |s.doc.selections| < 2 then Failure(IndexError)
    else
      var sel := s.doc.selections[Documents.Selection];
      if !Behaviors.RangeReadable(s.doc.behaviors, sel.start, sel.end) then Failure(IndexError)
      else
        var ranges := Behaviors.BlankableRanges(s.doc.behaviors, Behaviors.Deletable, sel.start, sel.end);
        var ran :- DeleteRanges(fuel, s, ranges, 0);
        Success((ran.0, UndoneThenSelect(Recording.Reverse(ran.1), sel)))
  }

  /** The loop of `DeleteTextCommand.execute()` over the stretches, with
      `deleted` characters already gone; the records in execution order. */
  function DeleteRanges(fuel: nat, s: Archy, ranges: seq<Range>, deleted: int): (r: Result<(Archy, seq<Done>)>)
    requires Sound(s)
    ensures r.Success? ==> Sound(r.value.0)
    decreases fuel, 0, |ranges|
  {
    if |ranges| == 0 then Success((s, []))
    else if |s.doc.selections| < 2 || fuel == 0 then Failure(if fuel == 0 then OutOfFuel else IndexError)
    else
      var lo := ranges[0].start - deleted;
      var s1 := s.(doc := Documents.SetSelection(s.doc, Documents.Selection, lo, ranges[0].end - deleted));
      if !PyList.IndexOk(lo, |s1.doc.behaviors.ids|) then Failure(IndexError)
      else
        var hs := Behaviors.HandlersAt(s1.doc.behaviors, lo, DeleteSlot);
        var first :- ExecChain(fuel - 1, s1, hs, Deleting);
        var rest :- DeleteRanges(fuel, first.0, ranges[1..], deleted + (ranges[0].end - ranges[0].start + 1));
        Success((rest.0, first.1 + rest.1))
  }

  /** `StyleCommandAbstract.execute()`: each styleable stretch of the
      selection is selected in turn and the style handlers of the
      character under the cursor run on it; then the selection is put
      back. The undo runs the records in execution order. */
  function ExecStyle(fuel: nat, s: Archy, overlay: Styles.Overlay): (r: Result<(Archy, Done)>)
    requires Sound(s)
    ensures r.Success? ==> Sound(r.value.0)
    decreases fuel, 1
  {
    if |s.doc.selections| < 2 then Failure(IndexError)
    else
      var sel := s.doc.selections[Documents.Selection];
      if !Behaviors.RangeReadable(s.doc.behaviors, sel.start, sel.end) then Failure(IndexError)
      else
        var ranges := Behaviors.BlankableRanges(s.doc.behaviors, Behaviors.Styleable, sel.start, sel.end);
        var ran :- StyleRanges(fuel, s, ranges, s.doc.cursor, overlay);
        if |ran.0.doc.selections| < 2 then Failure(IndexError)
        else
          var d := Documents.SetSelection(ran.0.doc, Documents.Selection, sel.start, sel.end);
          Success((ran.0.(doc := d), Undone(ran.1)))
  }

  /** The loop of `StyleCommandAbstract.execute()`. */
  function StyleRanges(fuel: nat, s: Archy, ranges: seq<Range>, cursor: int, overlay: Styles.Overlay)
    : (r: Result<(Archy, seq<Done>)>)
    requires Sound(s)
    ensures r.Success? ==> Sound(r.value.0)
    decreases fuel, 0, |ranges|
  {
    if |ranges| == 0 then Success((s, []))
    else if |s.doc.selections| < 2 || fuel == 0 then Failure(if fuel == 0 then OutOfFuel else IndexError)
    else
      var s1 := s.(doc := Documents.SetSelection(s.doc, Documents.Selection, ranges[0].start, ranges[0].end));
      if !PyList.IndexOk(cursor, |s1.doc.behaviors.ids|) then Failure(IndexError)
      else
        var hs := Behaviors.HandlersAt(s1.doc.behaviors, cursor, StyleSlot);
        var first :- ExecChain(fuel - 1, s1, hs, Styling(overlay));
        var rest :- StyleRanges(fuel, first.0, ranges[1..], cursor, overlay);
        Success((rest.0, first.1 + rest.1))
  }

  /** `LockCommand` and its variants: the lock colours, then the
      behavior. */
  function ExecLock(fuel: nat, s: Archy, name: string): (r: Result<(Archy, Done)>)
    requires Sound(s)
    ensures r.Success? ==> Sound(r.value.0)
    decreases fuel, 1
  {
    if fuel == 0 then Failure(OutOfFuel)
    else
      var styled :- Exec(fuel - 1, s, Style(LockColours));
      var locked :- Exec(fuel - 1, styled.0, AddAction(name));
      Success((locked.0, Undone([locked.1, styled.1])))
  }

  /** `UnlockCommand`: both the lock and the form lock come off, then the
      plain colours go on. */
  function ExecUnlock(fuel: nat, s: Archy): (r: Result<(Archy, Done)>)
    requires Sound(s)
    ensures r.Success? ==> Sound(r.value.0)
    decreases fuel, 1
  {
    if |s.doc.selections| < 2 then Failure(IndexError)
    else if fuel == 0 then Failure(OutOfFuel)
    else
      var a1 :- Exec(fuel - 1, s, RemoveAction("LOCK"));
      var a2 :- Exec(fuel - 1, a1.0, RemoveAction("FORM LOCK"));
      var plain :- Exec(fuel - 1, a2.0, Style(PlainColours));
      Success((plain.0, Undone([plain.1, a2.1, a1.1])))
  }

  /** `SystemUnlockCommand` */
  function ExecSystemUnlock(fuel: nat, s: Archy): (r: Result<(Archy, Done)>)
    requires Sound(s)
    ensures r.Success? ==> Sound(r.value.0)
    decreases fuel, 1
  {
    if |s.doc.selections| < 2 then Failure(IndexError)
    else if fuel == 0 then Failure(OutOfFuel)
    else
      var a :- Exec(fuel - 1, s, RemoveAction("SYSTEM LOCK"));
      var plain :- Exec(fuel - 1, a.0, Style(PlainColours));
      Success((plain.0, Undone([plain.1, a.1])))
  }

  /** `FinalDocumentCharacterLockCommand.execute()`: the selection is
      read, then `AddActionCommand` puts the final-character lock on it.
      The record keeps the action's record; its `undo()` is in `Undo`. */
  function ExecFinalLock(s: Archy): (r: Result<(Archy, Done)>)
    requires Sound(s)
    ensures |s.doc.selections| < 2 ==> r == Failure(IndexError)
    ensures |s.doc.selections| >= 2 && FinalLockName !in s.doc.behaviors.registry ==>
              r == Failure(KeyError(FinalLockName))
    ensures r.Success? ==>
              Sound(r.value.0) && r.value.1.FinalLockWas? &&
              r.value.0 == s.(doc := s.doc.(behaviors := r.value.0.doc.behaviors)) &&
              ActionApplied(s.doc.behaviors, s.doc.selections[Documents.Selection], FinalLockName, true,
                            r.value.0.doc.behaviors, ActionWas(r.value.1.start, r.value.1.saved))
  {
    if |s.doc.selections| < 2 then Failure(IndexError)
    else
      var a :- ExecAction(s, FinalLockName, true);
      Success((a.0, FinalLockWas(a.1.start, a.1.saved)))
  }

  /** `RemoveSpellcheckCommand`: the spellcheck behavior comes off the
      selection and the plain colours go on. */
  function ExecRemoveSpellcheck(fuel: nat, s: Archy): (r: Result<(Archy, Done)>)
    requires Sound(s)
    ensures r.Success? ==> Sound(r.value.0)
    decreases fuel, 1
  {
    if |s.doc.selections| < 2 then Failure(IndexError)
    else if fuel == 0 then Failure(OutOfFuel)
    else
      var a :- Exec(fuel - 1, s, RemoveAction(Spelling));
      var plain :- Exec(fuel - 1, a.0, Style(PlainColours));
      Success((plain.0, Undone([plain.1, a.1])))
  }

  /** `SpellcheckCommand.execute()`: every word of the selection that the
      dictionary lacks is flagged (red background, the spellcheck behavior
      with the word in its storage); the cursor and a one-character
      selection go to the first flagged word. The record list is reversed
      at the end, and the undo puts the selection back. */
  function ExecCheckSpelling(fuel: nat, s: Archy, dictionary: set<string>): (r: Result<(Archy, Done)>)
    requires Sound(s)
    ensures r.Success? ==> Sound(r.value.0)
    decreases fuel, 1
  {
    if |s.doc.selections| < 2 then Failure(IndexError)
    else
      var orig := s.doc.selections[Documents.Selection];
      var text := TextArrays.GetSubString(s.doc.text, orig.start, orig.end);
      var (words, ranges) := Spellcheck.FindWordsAndRanges(text, orig.start);
      var flagged :- FlagWords(fuel, s, dictionary, words, ranges, None);
      var s2 :- GoToWord(flagged.0, flagged.2);
      Success((s2, UndoneThenSelect(Recording.Reverse(flagged.1), orig)))
  }

  /** The cursor and a one-character selection on the first flagged word,
      if any. */
  function GoToWord(s: Archy, first: Option<int>): (r: Result<Archy>)
    requires Sound(s)
    ensures r.Success? ==> Sound(r.value)
  {
    match first
    case None => Success(s)
    case Some(p) =>
      if |s.doc.selections| < 2 then Failure(IndexError)
      else
        var d := Documents.SetSelection(s.doc, Documents.Selection, p, p);
        Success(s.(doc := Documents.SetCursor(d, p)))
  }

  /** The loop of `SpellcheckCommand.execute()` over the words and their
      ranges; `first` is the start of the first flagged word so far. */
  function FlagWords(fuel: nat, s: Archy, dictionary: set<string>, words: seq<string>, ranges: seq<Range>,
                     first: Option<int>): (r: Result<(Archy, seq<Done>, Option<int>)>)
    requires Sound(s)
    ensures r.Success? ==> Sound(r.value.0)
    decreases fuel, 0, |words|
  {
    if |words| == 0 || |ranges| == 0 then Success((s, [], first))
    else if !Spellcheck.Misspelled(dictionary, words[0]) then
      FlagWords(fuel, s, dictionary, words[1..], ranges[1..], first)
    else if |s.doc.selections| < 2 || fuel == 0 then Failure(if fuel == 0 then OutOfFuel else IndexError)
    else
      var s1 := s.(doc := Documents.SetSelection(s.doc, Documents.Selection, ranges[0].start, ranges[0].end));
      var first' := if first.None? then Some(ranges[0].start) else first;
      var styled :- Exec(fuel - 1, s1, Style(FlagColour));
      var ba := styled.0.doc.behaviors;
      if Spelling !in ba.registry then Failure(KeyError(Spelling))
      else
        var ba' := Behaviors.SetStorage(ba, Spelling, SpellcheckStorage(|ba.actions|, words[0]));
        var s2 := styled.0.(doc := styled.0.doc.(behaviors := ba'));
        var flagged :- Exec(fuel - 1, s2, AddAction(Spelling));
        var rest :- FlagWords(fuel, flagged.0, dictionary, words[1..], ranges[1..], first');
        Success((rest.0, [styled.1, flagged.1] + rest.1, rest.2))
  }

  /** `AbstractReplaceCommand.execute()`: the word's flag comes off, the
      word is deleted and the suggestion typed in its place; then the
      cursor moves on to the next flagged word. */
  function ExecReplaceWord(fuel: nat, s: Archy, suggestion: string, wordRange: Range): (r: Result<(Archy, Done)>)
    requires Sound(s)
    ensures r.Success? ==> Sound(r.value.0)
    decreases fuel, 1
  {
    if |s.doc.selections| < 2 then Failure(IndexError)
    else if fuel == 0 then Failure(OutOfFuel)
    else
      var s1 := s.(doc := Documents.SetSelection(s.doc, Documents.Selection, wordRange.start, wordRange.end));
      var unflagged :- Exec(fuel - 1, s1, RemoveSpellcheck);
      var deleted :- Exec(fuel - 1, unflagged.0, DeleteText);
      var added :- Exec(fuel - 1, deleted.0, AddText(suggestion, Documents.NoStyle));
      var s2 :- GoToNextFlag(added.0);
      Success((s2, Undone([added.1, deleted.1, unflagged.1])))
  }

  /** `AbstractLearnCommand.execute()` once the word is in the dictionary:
      its flag comes off, the selection is put back and the cursor moves
      on to the next flagged word. */
  function ExecLearn(fuel: nat, s: Archy, wordRange: Range): (r: Result<(Archy, Done)>)
    requires Sound(s)
    ensures r.Success? ==> Sound(r.value.0)
    decreases fuel, 1
  {
    if |s.doc.selections| < 2 then Failure(IndexError)
    else if fuel == 0 then Failure(OutOfFuel)
    else
      var was := s.doc.selections[Documents.Selection];
      var s1 := s.(doc := Documents.SetSelection(s.doc, Documents.Selection, wordRange.start, wordRange.end));
      var unflagged :- Exec(fuel - 1, s1, RemoveSpellcheck);
      if |unflagged.0.doc.selections| < 2 then Failure(IndexError)
      else
        var s2 := unflagged.0.(doc := Documents.SetSelection(unflagged.0.doc, Documents.Selection, was.start, was.end));
        var s3 :- GoToNextFlag(s2);
        Success((s3, unflagged.1))
  }

  /** `SimpleAddTextCommand.undo()`: the typed block is deleted and the
      selections it found are put back. */
  function UndoInsertion(d: Doc, start: int, length: nat, sels: seq<Range>): Doc {
    Documents.DelText(d, start, start + length - 1).(selections := sels)
  }

  /** `undo()` of the command that left the record. */
  function Undo(fuel: nat, s: Archy, d: Done): (r: Result<Archy>)
    requires Sound(s)
    ensures r.Success? ==> Sound(r.value)
    decreases fuel, 0
  {
    if fuel == 0 then Failure(OutOfFuel)
    else
      match d
      case NoOp => Success(s)
      case CursorWas(pos) => Success(s.(doc := Documents.SetCursor(s.doc, pos)))
      case SelectionWas(sel, was) =>
        if !PyList.IndexOk(sel, |s.doc.selections|) then Failure(IndexError)
        else Success(s.(doc := RestoreSelection(s.doc, sel, was)))
      case ListWas(sels) => Success(s.(doc := Documents.SetSelectionList(s.doc, sels)))
      case SelectWas(cursor, sels) =>
        Success(s.(doc := Documents.SetCursor(Documents.SetSelectionList(s.doc, sels), cursor)))
      case Inserted(start, length, sels) =>
        Behaviors.DelTextKeepsValid(s.doc.behaviors, start, start + length - 1);
        Success(s.(doc := UndoInsertion(s.doc, start, length, sels)))
      case Removed(start, text, styles) => UndoRemoved(fuel - 1, s, start, text, styles)
      case Restyled(start, copied) =>
        var d1 := Documents.SetStyle(s.doc, Documents.StyleList(copied), start, 0);
        Success(s.(doc := Documents.SetCursor(d1, d1.cursor)))
      case ActionWas(start, saved) => UndoAction(s, start, saved)
      case FinalLockWas(start, saved) =>
        var unlocked :- UndoAction(s, start, saved);
        Failure(AttributeError)
      case MovedFrom(m) =>
        var moved := Cursor.UndoMove(s.doc, m);
        Success(Archy(moved.doc, s.pool, moved.anchor))
      case Undone(parts) => UndoAll(fuel - 1, s, parts)
      case UndoneThenSelect(parts, back) =>
        var s1 :- UndoAll(fuel - 1, s, parts);
        Reselect(s1, back)
      case UndoneThenCursor(parts, cursor) =>
        var s1 :- UndoAll(fuel - 1, s, parts);
        Success(s1.(doc := Documents.SetCursor(s1.doc, cursor)))
  }

  /** The selection put back at the end of an undo. */
  function Reselect(s: Archy, back: Range): Result<Archy> {
    if |s.doc.selections| < 2 then Failure(IndexError)
    else Success(s.(doc := Documents.SetSelection(s.doc, Documents.Selection, back.start, back.end)))
  }

  /** The records undone in order. */
  function UndoAll(fuel: nat, s: Archy, ds: seq<Done>): (r: Result<Archy>)
    requires Sound(s)
    ensures r.Success? ==> Sound(r.value)
    decreases fuel, 0, |ds|
  {
    if |ds| == 0 then Success(s)
    else if fuel == 0 then Failure(OutOfFuel)
    else
      var s1 :- Undo(fuel - 1, s, ds[0]);
      UndoAll(fuel, s1, ds[1..])
  }

  /** `SimpleDeleteTextCommand.undo()`: the cursor goes to where the
      deletion started and a new `AddTextCommand` types the deleted text
      back with its styles. With nothing deleted, that command never gets
      its text and fails as soon as a handler wants it. */
  function UndoRemoved(fuel: nat, s: Archy, start: int, text: string, styles: seq<int>): (r: Result<Archy>)
    requires Sound(s)
    ensures r.Success? ==> Sound(r.value)
    decreases fuel, 1
  {
    var s1 := s.(doc := Documents.SetCursor(s.doc, start));
    if |text| == 0 then
      if !PyList.IndexOk(s1.doc.cursor, |s1.doc.behaviors.ids|) then Failure(IndexError)
      else if Behaviors.HandlersAt(s1.doc.behaviors, s1.doc.cursor, AddSlot) == [] then Success(s1)
      else Failure(NoText)
    else
      var added :- Exec(fuel, s1, AddText(text, Documents.StyleList(styles)));
      Success(added.0)
  }

  /** `AbstractActionCommand.undo()`: the kept behavior ids are written
      back from the start of the range. */
  function UndoAction(s: Archy, start: int, saved: seq<nat>): (r: Result<Archy>)
    requires Sound(s)
    ensures r.Success? ==> Sound(r.value)
    ensures r.Success? <==>
              Behaviors.ReplaceWritable(s.doc.behaviors, |saved|, start) &&
              forall j :: 0 <= j < |saved| ==> saved[j] < |s.doc.behaviors.behaviors|
    ensures r.Success? ==>
              r.value == s.(doc := s.doc.(behaviors := Behaviors.ReplaceBehaviors(s.doc.behaviors, saved, start)))
  {
    var ba := s.doc.behaviors;
    if !Behaviors.ReplaceWritable(ba, |saved|, start) then Failure(IndexError)
    else if exists j :: 0 <= j < |saved| && saved[j] >= |ba.behaviors| then Failure(IndexError)
    else
      Behaviors.ReplaceKeepsValid(ba, saved, start);
      Success(s.(doc := s.doc.(behaviors := Behaviors.ReplaceBehaviors(ba, saved, start))))
  }
}

=== FILE: cursor.dfy ===
/** CREEP and LEAP of `commands/cursor.py`: moving the cursor one character
    left or right with the selection and the preselection dragged along,
    and leaping to the next or previous occurrence of a target, wrapping
    round the ends of the text. Each command remembers the cursor and the
    selection list it found, and its undo puts them back. The selection
    anchor of the command history is returned beside the document. */
module Cursor {
  import opened Wrappers
  import opened Globals
  import BmhSearch
  import TextArrays
  import Documents

  type Doc = Documents.Doc

  const InvalidSelection := "Selection was invalid."
  const IndexError := "list index out of range"

  /** A command that went through: the document and the new selection
      anchor. */
  datatype Moved = Moved(doc: Doc, anchor: int)

  /** `collapseSelection(newCursorPos)` */
  function Collapsed(p: int): Range { Range(p, p) }

  /** The move every creep ends with: `setCursor`, `setSelectionList` and
      `setSelectionAnchor`, all with the new cursor position. */
  function Place(d: Doc, newCursor: int, newSelections: seq<Range>): (r: Moved)
    ensures r.doc == Documents.SetSelectionList(Documents.SetCursor(d, newCursor), newSelections)
    ensures r.anchor == newCursor
  {
    Moved(Documents.SetSelectionList(Documents.SetCursor(d, newCursor), newSelections), newCursor)
  }

  // ---------------------------------------------------------------------
  // CREEP
  // ---------------------------------------------------------------------

  /** `CreepLeftCommand.dragPreselection`: the end of the preselection that
      sat at the old cursor follows it. */
  function DragLeft(oldCursor: int, newCursor: int, pre: Range): Range {
    if pre.start == oldCursor then Range(newCursor, pre.end)
    else if pre.end == oldCursor then Range(pre.start, newCursor)
    else if pre.end == newCursor - 1 then Range(pre.start, newCursor)
    else Collapsed(newCursor)
  }

  /** `CreepRightCommand.dragPreselection`: as on the left, but the end of
      the preselection is tested first. */
  function DragRight(oldCursor: int, newCursor: int, pre: Range): Range {
    if pre.end == oldCursor then Range(pre.start, newCursor)
    else if pre.start == oldCursor then Range(newCursor, pre.end)
    else if pre.end == newCursor - 1 then Range(pre.start, newCursor)
    else Collapsed(newCursor)
  }

  /** `CreepLeftCommand.execute()` */
  function CreepLeft(d: Doc): (r: Result<Moved>)
    ensures |d.selections| < 2 ==> r == Failure(IndexError)
    ensures |d.selections| >= 2 ==>
              var c := d.cursor;
              var pre := d.selections[0];
              var sel := d.selections[1];
              (r.Failure? <==> sel.start > sel.end) &&
              (r.Failure? ==> r.error == InvalidSelection) &&
              (r.Success? ==> r.value.doc == d.(cursor := r.value.doc.cursor, selections := r.value.doc.selections) &&
                              Documents.SetCursor(d, r.value.anchor) == d.(cursor := r.value.doc.cursor)) &&
              (sel.start == sel.end && c == sel.end + 1 ==>
                 r == Success(Place(d, c - 1, [DragLeft(c, c - 1, pre), Collapsed(c - 1)] + d.selections[2..]))) &&
              (sel.start == sel.end && c == sel.start && c != 0 ==>
                 r == Success(Place(d, c - 1, [DragLeft(c, c - 1, pre), Collapsed(c - 1)] + d.selections[2..]))) &&
              (sel.start == sel.end && c != sel.start && c != sel.end + 1 ==>
                 r == Success(Place(d, c, [Collapsed(c), Collapsed(c)] + d.selections[2..]))) &&
              (sel.start == sel.end && c == 0 && sel.start == 0 ==>
                 r == Success(Place(d, c, d.selections))) &&
              (sel.start < sel.end ==>
                 r == Success(Place(d, sel.start, [sel, Collapsed(sel.start), sel] + d.selections[2..])))
  {
    if |d.selections| < 2 then Failure(IndexError)
    else
      var c := d.cursor;
      var pre := d.selections[0];
      var sel := d.selections[1];
      var olds := d.selections[2..];
      if sel.start == sel.end then
        if c == sel.end + 1 then
          Success(Place(d, c - 1, [DragLeft(c, c - 1, pre), Collapsed(c - 1)] + olds))
        else if c == 0 && sel.start == 0 then
          assert [pre, sel] + olds == d.selections;
          Success(Place(d, c, [pre, sel] + olds))
        else if c == sel.start then
          Success(Place(d, c - 1, [DragLeft(c, c - 1, pre), Collapsed(c - 1)] + olds))
        else
          Success(Place(d, c, [Collapsed(c), Collapsed(c)] + olds))
      else if sel.start < sel.end then
        Success(Place(d, sel.start, [sel, Collapsed(sel.start), sel] + olds))
      else Failure(InvalidSelection)
  }

  /** `CreepRightCommand.execute()` */
  function CreepRight(d: Doc): (r: Result<Moved>)
    ensures |d.selections| < 2 ==> r == Failure(IndexError)
    ensures |d.selections| >= 2 ==>
              var c := d.cursor;
              var pre := d.selections[0];
              var sel := d.selections[1];
              var last := Documents.Length(d) - 1;
              (r.Failure? <==> sel.start > sel.end) &&
              (r.Failure? ==> r.error == InvalidSelection) &&
              (r.Success? ==> r.value.doc == d.(cursor := r.value.doc.cursor, selections := r.value.doc.selections) &&
                              Documents.SetCursor(d, r.value.anchor) == d.(cursor := r.value.doc.cursor)) &&
              (sel.start == sel.end && c == sel.end + 1 ==>
                 r == Success(Place(d, c, [DragRight(c, c, pre), Collapsed(c)] + d.selections[2..]))) &&
              (sel.start == sel.end && c == sel.start && c != last ==>
                 r == Success(Place(d, c + 1, [DragRight(c, c + 1, pre), Collapsed(c + 1)] + d.selections[2..]))) &&
              (sel.start == sel.end && c != sel.start && c != sel.end + 1 ==>
                 r == Success(Place(d, c, [Collapsed(c), Collapsed(c)] + d.selections[2..]))) &&
              (sel.start == sel.end && c == last && sel.start == last ==>
                 r == Success(Place(d, c, d.selections))) &&
              (sel.start < sel.end ==>
                 r == Success(Place(d, sel.end, [Range(sel.start, sel.end), Collapsed(sel.end), sel] + d.selections[2..])))
  {
    if |d.selections| < 2 then Failure(IndexError)
    else
      var c := d.cursor;
      var pre := d.selections[0];
      var sel := d.selections[1];
      var olds := d.selections[2..];
      var last := Documents.Length(d) - 1;
      if sel.start == sel.end then
        if c == sel.end + 1 then
          Success(Place(d, c, [DragRight(c, c, pre), Collapsed(c)] + olds))
        else if c == last && sel.start == last then
          assert [pre, sel] + olds == d.selections;
          Success(Place(d, c, [pre, sel] + olds))
        else if c == sel.start then
          Success(Place(d, c + 1, [DragRight(c, c + 1, pre), Collapsed(c + 1)] + olds))
        else
          Success(Place(d, c, [Collapsed(c), Collapsed(c)] + olds))
      else if sel.start < sel.end then
        Success(Place(d, sel.end, [Range(sel.start, sel.end), Collapsed(sel.end), sel] + olds))
      else Failure(InvalidSelection)
  }

  /** The selections from index 2 on come through a creep unchanged: right
      after the preselection and the selection when the selection was a
      single character, after the pushed-down old selection when it was
      extended. */
  lemma CreepKeepsOldSelections(d: Doc)
    requires |d.selections| >= 2
    ensures var sel := d.selections[1];
            var k := if sel.start < sel.end then 3 else 2;
            (CreepLeft(d).Success? ==>
               |CreepLeft(d).value.doc.selections| == |d.selections| + k - 2 &&
               CreepLeft(d).value.doc.selections[k..] == d.selections[2..]) &&
            (CreepRight(d).Success? ==>
               |CreepRight(d).value.doc.selections| == |d.selections| + k - 2 &&
               CreepRight(d).value.doc.selections[k..] == d.selections[2..])
  {
  }

  /** The undo of a creep or a leap: the cursor and the selection list the
      command found, and the anchor at the old cursor. */
  function UndoMove(d: Doc, saved: Documents.Memento): (r: Moved)
    ensures r.doc == Documents.SetNonContentInformation(d, saved) && r.anchor == saved.cursor
  {
    Moved(Documents.SetSelectionList(Documents.SetCursor(d, saved.cursor), saved.selections), saved.cursor)
  }

  /** Undoing a creep gives back the document it started from, anchored at
      its cursor. */
  lemma CreepUndoRestores(d: Doc)
    requires Documents.CursorSettled(d)
    ensures CreepLeft(d).Success? ==>
              UndoMove(CreepLeft(d).value.doc, Documents.GetNonContentMemento(d)) == Moved(d, d.cursor)
    ensures CreepRight(d).Success? ==>
              UndoMove(CreepRight(d).value.doc, Documents.GetNonContentMemento(d)) == Moved(d, d.cursor)
  {
    if CreepLeft(d).Success? {
      Documents.MementoRestores(d, CreepLeft(d).value.doc);
    }
    if CreepRight(d).Success? {
      Documents.MementoRestores(d, CreepRight(d).value.doc);
    }
  }

  // ---------------------------------------------------------------------
  // The searches LEAP runs
  // ---------------------------------------------------------------------

  /** The leftmost window in `[k, last]` the pattern accepts, or -1. */
  function FirstMatch(text: string, pl: BmhSearch.PatternList, k: int, last: int): (r: int)
    ensures r == -1 || (k <= r <= last && BmhSearch.MatchAt(text, pl, r))
    ensures forall j :: k <= j <= last && (r == -1 || j < r) ==> !BmhSearch.MatchAt(text, pl, j)
    decreases last - k
  {
    if k > last then -1
    else if BmhSearch.MatchAt(text, pl, k) then k
    else FirstMatch(text, pl, k + 1, last)
  }

  /** The rightmost window in `[first, k]` the pattern accepts, or -1. */
  function LastMatch(text: string, pl: BmhSearch.PatternList, k: int, first: int): (r: int)
    ensures r == -1 || (first <= r <= k && BmhSearch.MatchAt(text, pl, r))
    ensures forall j :: first <= j <= k && (r == -1 || j > r) ==> !BmhSearch.MatchAt(text, pl, j)
    decreases k - first
  {
    if k < first then -1
    else if BmhSearch.MatchAt(text, pl, k) then k
    else LastMatch(text, pl, k - 1, first)
  }

  /** `find(target, start, _FORWARD)`: the first occurrence at or after
      `start`; never one for an empty target. */
  function FindForward(text: string, target: string, start: int): int {
    if |target| == 0 then -1
    else FirstMatch(text, BmhSearch.MakePatternList(target), start, |text| - |target|)
  }

  /** `find(target, start, _BACKWARD)`: the last occurrence that ends
      before `start`; never one for an empty target. */
  function FindBackward(text: string, target: string, start: int): int {
    if |target| == 0 then -1
    else LastMatch(text, BmhSearch.MakePatternList(target), start - |target|, 0)
  }

  /** The Boyer-Moore-Horspool search of the text array finds what the
      forward reference search finds. */
  method SearchForward(ta: TextArrays.TextArray, target: string, start: int) returns (r: int)
    requires 0 <= start
    ensures r == FindForward(ta.contents, target, start)
  {
    r := TextArrays.Find(ta, target, start, 1);
    if |target| > 0 {
      var pl := BmhSearch.MakePatternList(target);
      var f := FirstMatch(ta.contents, pl, start, |ta.contents| - |target|);
      if r == -1 {
        assert f == -1 || f < |ta.contents| - |target| + 1;
      } else {
        assert !(f != -1 && f < r);
      }
    }
  }

  /** The backward search of the text array finds what the backward
      reference search finds. */
  method SearchBackward(ta: TextArrays.TextArray, target: string, start: int) returns (r: int)
    requires 0 <= start <= |ta.contents|
    ensures r == FindBackward(ta.contents, target, start)
  {
    r := TextArrays.Find(ta, target, start, 0);
    if |target| > 0 {
      var pl := BmhSearch.MakePatternList(target);
      var f := LastMatch(ta.contents, pl, start - |target|, 0);
      if r != -1 {
        assert !(f != -1 && f > r);
      }
    }
  }

  // ---------------------------------------------------------------------
  // LEAP
  // ---------------------------------------------------------------------

  /** `isTargetAllDocs()`: a non-empty target made only of document
      characters. */
  function IsTargetAllDocs(target: string): (r: bool)
    ensures r <==> |target| > 0 && forall i :: 0 <= i < |target| ==> target[i] == '`'
  {
    |target| > 0 && AllDocs(target)
  }

  function AllDocs(s: string): (r: bool)
    ensures r <==> forall i :: 0 <= i < |s| ==> s[i] == '`'
  {
    if |s| == 0 then true else s[0] == '`' && AllDocs(s[1..])
  }

  /** `LeapForwardCommand.findTarget(startPos)`: past the end, the search
      wraps round to the start of the text; a target of document
      characters alone stops on the last character instead, since the text
      is taken to end in endless document characters. */
  function LeapForwardTarget(text: string, target: string, startPos: int): int {
    var found := FindForward(text, target, startPos);
    if found != -1 then found
    else if IsTargetAllDocs(target) then |text| - 1
    else FindForward(text, target, 0)
  }

  /** `LeapBackwardCommand.findTarget(startPos)`: the search runs back from
      the character before `startPos` (from the last character when that
      is before position 1), then wraps round from the end; a target of
      document characters alone stops on the first character. */
  function LeapBackwardTarget(text: string, target: string, startPos: int): int {
    var from := if startPos - 1 < 1 then |text| - 1 else startPos - 1;
    var found := FindBackward(text, target, from);
    if found != -1 then found
    else if IsTargetAllDocs(target) then 0
    else FindBackward(text, target, |text| - 1)
  }

  /** A leap that failed: status 0 for an empty target, -1 otherwise. */
  datatype LeapOutcome = Leapt(moved: Moved) | LeapFailed(status: int, message: string)

  /** `_updateSelections(firstOccurance)`: the preselection spans from the
      old cursor to the new one (or from the new one to the old selection's
      end when leaping back), the selection collapses onto the new cursor,
      and an extended old selection is kept as the first old selection. */
  function UpdateSelections(d: Doc, newCursor: int): (r: Moved)
    requires |d.selections| >= 2
    ensures |r.doc.selections| >= 2 && r.anchor == newCursor && r.doc.selections[1] == Collapsed(newCursor)
    ensures r.doc.selections[0] ==
              if d.cursor <= newCursor then Range(d.cursor, newCursor) else Range(newCursor, d.selections[1].end)
    ensures d.selections[1].start == d.selections[1].end ==> r.doc.selections[2..] == d.selections[2..]
    ensures d.selections[1].start != d.selections[1].end ==> r.doc.selections[2..] == d.selections[1..]
  {
    var sel := d.selections[1];
    var pre := if d.cursor <= newCursor then Range(d.cursor, newCursor) else Range(newCursor, sel.end);
    var olds := if sel.start == sel.end then d.selections[2..] else d.selections[1..];
    Place(d, newCursor, [pre, Collapsed(newCursor)] + olds)
  }

  /** The selection end a leap can start from: -1 for an unset selection
      or any position after it. A forward search from past the end of the
      text finds nothing and wraps round; a backward search must start no
      further out than just past the end, since its first comparison
      reads the characters before its start. */
  predicate LeapableSelection(d: Doc, forward: bool) {
    |d.selections| >= 2 && -1 <= d.selections[1].end &&
    (forward || d.selections[1].end < Documents.Length(d) + 1)
  }

  /** `execute()` of a LEAP: search from just past the selection. */
  function Leap(d: Doc, target: string, forward: bool): (r: LeapOutcome)
    requires LeapableSelection(d, forward)
    ensures var text := d.text.contents;
            var start := d.selections[1].end + 1;
            var found := if forward then LeapForwardTarget(text, target, start)
                         else LeapBackwardTarget(text, target, start);
            (r.LeapFailed? <==> found == -1) &&
            (r.LeapFailed? ==> r.status == (if target == "" then 0 else -1) &&
                               r.message == "Leap to " + target + " failed.") &&
            (r.Leapt? ==> r.moved == UpdateSelections(d, found))
  {
    var text := d.text.contents;
    var start := d.selections[1].end + 1;
    var found := if forward then LeapForwardTarget(text, target, start)
                 else LeapBackwardTarget(text, target, start);
    if found == -1 then LeapFailed(if target == "" then 0 else -1, "Leap to " + target + " failed.")
    else Leapt(UpdateSelections(d, found))
  }

  /** An empty target never leaps and reports status 0. */
  lemma EmptyTargetFails(d: Doc, forward: bool)
    requires LeapableSelection(d, forward)
    ensures Leap(d, "", forward) == LeapFailed(0, "Leap to  failed.")
  {
  }

  /** A forward leap from a selection that ends past the text finds
      nothing before the end and wraps round to the first occurrence in
      the text (the last character for a target of document characters). */
  lemma LeapPastEndWraps(d: Doc, target: string)
    requires |d.selections| >= 2 && d.selections[1].end >= Documents.Length(d) && |target| > 0
    ensures var text := d.text.contents;
            var found := if IsTargetAllDocs(target) then |text| - 1 else FindForward(text, target, 0);
            Leap(d, target, true) ==
              if found == -1 then LeapFailed(-1, "Leap to " + target + " failed.")
              else Leapt(UpdateSelections(d, found))
  {
    var text := d.text.contents;
    assert FindForward(text, target, d.selections[1].end + 1) == -1;
  }

  /** The example of a two-character text whose selection lies past its
      end: a forward leap to its first character lands on position 0. */
  lemma LeapPastEndExample(d: Doc)
    requires d.text.contents == "ab" && |d.selections| >= 2 && d.selections[1] == Range(5, 5)
    ensures Leap(d, "a", true).Leapt? && Leap(d, "a", true).moved.doc.cursor == 0
  {
    LeapPastEndWraps(d, "a");
    assert !IsTargetAllDocs("a");
    assert BmhSearch.MatchAt(d.text.contents, BmhSearch.MakePatternList("a"), 0) by {
      BmhSearch.LiteralOccurrenceMatches(d.text.contents, "a", 0);
    }
  }

  /** A forward leap lands on the first occurrence past the selection when
      there is one, and otherwise on the first occurrence in the text; only
      a target of document characters alone lands where it does not occur,
      on the last character. */
  lemma LeapForwardLands(text: string, target: string, startPos: int)
    requires 0 <= startPos && |target| > 0
    ensures var pl := BmhSearch.MakePatternList(target);
            var r := LeapForwardTarget(text, target, startPos);
            (r != -1 && !(IsTargetAllDocs(target) && r == |text| - 1) ==> BmhSearch.MatchAt(text, pl, r)) &&
            (r != -1 && startPos <= r && BmhSearch.MatchAt(text, pl, r) ==>
               forall j :: startPos <= j < r ==> !BmhSearch.MatchAt(text, pl, j)) &&
            (r != -1 && r < startPos && !IsTargetAllDocs(target) ==>
               forall j :: 0 <= j < r || startPos <= j ==> !BmhSearch.MatchAt(text, pl, j)) &&
            (r == -1 <==> (!IsTargetAllDocs(target) || |text| == 0) && forall j :: 0 <= j ==> !BmhSearch.MatchAt(text, pl, j))
  {
    var pl := BmhSearch.MakePatternList(target);
    var found := FindForward(text, target, startPos);
    if found == -1 {
      assert forall j :: startPos <= j ==> !BmhSearch.MatchAt(text, pl, j) by {
        forall j | startPos <= j ensures !BmhSearch.MatchAt(text, pl, j) {
          if j > |text| - |target| {
            assert !(j + |pl| <= |text|);
          }
        }
      }
      if !IsTargetAllDocs(target) {
        var again := FindForward(text, target, 0);
        assert forall j :: 0 <= j && (again == -1 || j < again) ==> !BmhSearch.MatchAt(text, pl, j) by {
          forall j | 0 <= j && (again == -1 || j < again) ensures !BmhSearch.MatchAt(text, pl, j) {
            if j > |text| - |target| {
              assert !(j + |pl| <= |text|);
            }
          }
        }
      }
    }
  }

  /** A backward leap lands on the last occurrence that ends before the
      character under the cursor when there is one, and otherwise wraps
      round to the last occurrence that ends before the final character;
      only a target of document characters alone lands where it does not
      occur, on the first character. */
  lemma LeapBackwardLands(text: string, target: string, startPos: int)
    requires |target| > 0
    ensures var pl := BmhSearch.MakePatternList(target);
            var from := if startPos - 1 < 1 then |text| - 1 else startPos - 1;
            var r := LeapBackwardTarget(text, target, startPos);
            (r != -1 && !(IsTargetAllDocs(target) && r == 0) ==> BmhSearch.MatchAt(text, pl, r)) &&
            (r != -1 && r + |target| <= from && BmhSearch.MatchAt(text, pl, r) ==>
               forall j :: r < j && j + |target| <= from ==> !BmhSearch.MatchAt(text, pl, j)) &&
            (r != -1 && from < r + |target| && !IsTargetAllDocs(target) ==>
               forall j :: j + |target| <= from || (r < j && j + |target| <= |text| - 1) ==> !BmhSearch.MatchAt(text, pl, j)) &&
            (r == -1 <==>
               (!IsTargetAllDocs(target) &&
                forall j :: j + |target| <= from || j + |target| <= |text| - 1 ==> !BmhSearch.MatchAt(text, pl, j)))
  {
    var pl := BmhSearch.MakePatternList(target);
    var from := if startPos - 1 < 1 then |text| - 1 else startPos - 1;
    var found := FindBackward(text, target, from);
    if found == -1 {
      assert forall j :: j + |target| <= from ==> !BmhSearch.MatchAt(text, pl, j) by {
        forall j | j + |target| <= from ensures !BmhSearch.MatchAt(text, pl, j) {
          if j < 0 {
            assert !(0 <= j);
          }
        }
      }
      if !IsTargetAllDocs(target) {
        var again := FindBackward(text, target, |text| - 1);
        assert forall j :: j + |target| <= |text| - 1 && (again == -1 || j > again) ==> !BmhSearch.MatchAt(text, pl, j) by {
          forall j | j + |target| <= |text| - 1 && (again == -1 || j > again) ensures !BmhSearch.MatchAt(text, pl, j) {
            if j < 0 {
              assert !(0 <= j);
            }
          }
        }
      }
    }
  }

  /** Undoing a leap gives back the document it started from, anchored at
      its cursor. */
  lemma LeapUndoRestores(d: Doc, target: string, forward: bool)
    requires LeapableSelection(d, forward) && Documents.CursorSettled(d)
    ensures Leap(d, target, forward).Leapt? ==>
              UndoMove(Leap(d, target, forward).moved.doc, Documents.GetNonContentMemento(d)) == Moved(d, d.cursor)
  {
    if Leap(d, target, forward).Leapt? {
      Documents.MementoRestores(d, Leap(d, target, forward).moved.doc);
    }
  }
}

=== FILE: documents.dfy ===
/** The editor's document: a text array with a style array and a behavior
    array kept in lock-step beside it, a cursor, and the list of
    selections (preselection, selection, then the old selections, most
    recent first). */
module Documents {
  import opened Wrappers
  import opened Globals
  import PyList
  import TextArrays
  import Styles
  import Behaviors
  import Pools

  datatype Doc = Doc(text: TextArrays.TextArray,
                     styles: Styles.StyleArray,
                     behaviors: Behaviors.BehaviorArray,
                     cursor: int,
                     selections: seq<Range>)

  /** Indices of the named selections. */
  const Preselection := 0
  const Selection := 1
  const OldSelection := 2
  const FirstOldSelection := 3
  const SelectionNames: seq<string> := ["preselection", "selection", "old selection", "first old selection"]

  /** The style argument of `addText` and `setStyle`: none, one id for the
      whole range, or one id per character. */
  datatype StyleArg = NoStyle | OneStyle(id: int) | StyleList(ids: seq<int>)

  /** The state non-content undo restores: the cursor and the selections. */
  datatype Memento = Memento(cursor: int, selections: seq<Range>)

  function Length(d: Doc): nat {
    |d.text.contents|
  }

  predicate InDoc(d: Doc, p: int) {
    0 <= p < Length(d)
  }

  /** One style id and one behavior id per character. */
  predicate LockStep(d: Doc) {
    |d.styles.ids| == Length(d) && |d.behaviors.ids| == Length(d)
  }

  /** A cursor `setCursor` leaves where it is: on a character, or at 0 in
      an empty document. */
  predicate CursorSettled(d: Doc) {
    if Length(d) == 0 then d.cursor == 0 else InDoc(d, d.cursor)
  }

  ghost predicate Valid(d: Doc) {
    LockStep(d) && Behaviors.Valid(d.behaviors)
  }

  /** `HumaneDocumentText()`: an empty document with the four named
      selections unset. */
  function Init(): (d: Doc)
    ensures Valid(d) && Length(d) == 0 && CursorSettled(d)
    ensures |d.selections| == 4
    ensures forall i :: 0 <= i < 4 ==> d.selections[i] == Range(-1, -1)
  {
    Doc(TextArrays.Init(""), Styles.Init(0, 0), Behaviors.Init(0), 0, PyList.Repeat(Range(-1, -1), 4))
  }

  // ---------------------------------------------------------------------
  // The cursor
  // ---------------------------------------------------------------------

  /** `setCursor(newPos)`: clamps to the last character. In an empty
      document the last character is -1, which a positive request gets. */
  function SetCursor(d: Doc, newPos: int): (r: Doc)
    ensures r == d.(cursor := r.cursor)
    ensures Length(d) > 0 ==> r.cursor == Bound(newPos, 0, Length(d) - 1) && InDoc(r, r.cursor)
    ensures Length(d) == 0 ==> r.cursor == (if newPos <= 0 then 0 else -1)
  {
    d.(cursor := ClampCursor(newPos, Length(d)))
  }

  /** The position `setCursor(newPos)` settles on in a text of `n`
      characters. */
  function ClampCursor(newPos: int, n: nat): (c: int)
    ensures n > 0 ==> 0 <= c < n && (0 <= newPos < n ==> c == newPos)
  {
    if newPos <= 0 then 0
    else if newPos >= n - 1 then n - 1
    else newPos
  }

  /** `moveCursor(offset)` */
  function MoveCursor(d: Doc, offset: int): (r: Doc)
    ensures r == d.(cursor := r.cursor)
    ensures Length(d) > 0 ==> r.cursor == Bound(d.cursor + offset, 0, Length(d) - 1)
  {
    SetCursor(d, d.cursor + offset)
  }

  /** Setting the cursor twice to where the first call put it changes
      nothing, except for the -1 an empty document gives a positive
      request, which a second call turns into 0. */
  lemma SetCursorSettles(d: Doc, newPos: int)
    ensures Length(d) > 0 || newPos <= 0 ==> CursorSettled(SetCursor(d, newPos))
    ensures Length(d) > 0 || newPos <= 0 ==>
              SetCursor(SetCursor(d, newPos), SetCursor(d, newPos).cursor) == SetCursor(d, newPos)
    ensures Length(d) == 0 && newPos > 0 ==>
              SetCursor(SetCursor(d, newPos), SetCursor(d, newPos).cursor).cursor == 0 &&
              SetCursor(d, newPos).cursor == -1
  {
  }

  // ---------------------------------------------------------------------
  // Adding and deleting text
  // ---------------------------------------------------------------------

  /** The style array after `addText`'s insertion and the optional restyle
      of the new characters. */
  function AddStyles(st: Styles.StyleArray, textLength: nat, startPos: int, style: StyleArg): Styles.StyleArray {
    var st0 := Styles.AddTextAligned(st, textLength, startPos, None);
    match style
    case NoStyle => st0
    case OneStyle(id) => Styles.SetStyleInRange(st0, id, startPos, startPos + textLength - 1)
    case StyleList(ids) => Styles.ReplaceStyles(st0, ids, startPos)
  }

  /** `onAddText`'s update of the selections. */
  function ShiftOnAdd(sels: seq<Range>, insertPos: int, length: int): (r: seq<Range>)
    ensures |r| == |sels|
  {
    seq(|sels|, i requires 0 <= i < |sels| =>
          Range(UpdateOnAdd(sels[i].start, insertPos, length), UpdateOnAdd(sels[i].end, insertPos, length)))
  }

  /** `onDelText`'s update of the selections. */
  function ShiftOnDelete(sels: seq<Range>, startDel: int, endDel: int): (r: seq<Range>)
    ensures |r| == |sels|
  {
    seq(|sels|, i requires 0 <= i < |sels| =>
          Range(UpdateOnDelete(sels[i].start, startDel, endDel), UpdateOnDelete(sels[i].end, startDel, endDel)))
  }

  /** `addText(newText, startPos, theStyle)` followed by the cursor and
      selection updates of `onAddText`. The style array is the aligned one
      (see `Styles.AddTextAligned`). */
  function AddText(d: Doc, newText: string, startPos: int, style: StyleArg): (r: Doc)
    ensures var ip := InsertPoint(startPos, Length(d));
            r.text.contents == d.text.contents[..ip] + newText + d.text.contents[ip..]
    ensures |r.selections| == |d.selections|
    ensures Length(r) > 0 ==> InDoc(r, r.cursor)
  {
    Doc(TextArrays.AddText(d.text, newText, startPos),
        AddStyles(d.styles, |newText|, startPos, style),
        Behaviors.AddText(d.behaviors, |newText|, startPos),
        ClampCursor(UpdateOnAdd(d.cursor, startPos, |newText|), Length(d) + |newText|),
        ShiftOnAdd(d.selections, startPos, |newText|))
  }

  /** `delText(startPos, endPos)` followed by the cursor and selection
      updates of `onDelText`. */
  function DelText(d: Doc, startPos: int, endPos: int): (r: Doc)
    ensures r.text.contents == DeleteRange(d.text.contents, startPos, endPos)
    ensures |r.selections| == |d.selections|
    ensures Length(r) > 0 ==> InDoc(r, r.cursor)
  {
    var text := TextArrays.DelText(d.text, startPos, endPos);
    Doc(text,
        Styles.DelText(d.styles, startPos, endPos),
        Behaviors.DelText(d.behaviors, startPos, endPos),
        ClampCursor(UpdateOnDelete(d.cursor, startPos, endPos), |text.contents|),
        ShiftOnDelete(d.selections, startPos, endPos))
  }

  /** The style ids after an insertion of `k` ids at `p` and a restyle that
      stays inside the inserted block: the old ids around a block of `k`. */
  lemma AddStylesShape(st: Styles.StyleArray, k: nat, p: int, style: StyleArg)
    requires 0 <= p <= |st.ids|
    requires style.StyleList? ==> |style.ids| <= k
    ensures var a := AddStyles(st, k, p, style);
            a.defaultStyle == st.defaultStyle && |a.ids| == |st.ids| + k &&
            a.ids[..p] == st.ids[..p] && a.ids[p + k..] == st.ids[p..]
  {
    var st0 := Styles.AddTextAligned(st, k, p, None);
    var ip := InsertPoint(p, |st.ids|);
    assert ip == p;
    assert st0.ids == st.ids[..p] + PyList.Repeat(Styles.InheritedStyle(st, p, None), k) + st.ids[p..];
    assert st0.ids[..p] == st.ids[..p];
    assert st0.ids[p + k..] == st.ids[p..];
    var a := AddStyles(st, k, p, style);
    assert a.ids[..p] == st0.ids[..p];
    assert a.ids[p + k..] == st0.ids[p + k..];
  }

  /** Inserting text inside the document or at its end keeps the three
      arrays in lock-step and the behavior array valid. */
  lemma AddTextKeepsValid(d: Doc, newText: string, startPos: int, style: StyleArg)
    requires Valid(d) && 0 <= startPos <= Length(d)
    requires style.StyleList? ==> |style.ids| <= |newText|
    ensures Valid(AddText(d, newText, startPos, style))
  {
    AddStylesShape(d.styles, |newText|, startPos, style);
    Behaviors.AddTextKeepsValid(d.behaviors, |newText|, startPos);
  }

  /** Deleting keeps the three arrays in lock-step and the behavior array
      valid. */
  lemma DelTextKeepsValid(d: Doc, startPos: int, endPos: int)
    requires Valid(d)
    ensures Valid(DelText(d, startPos, endPos))
  {
    Behaviors.DelTextKeepsValid(d.behaviors, startPos, endPos);
  }

  /** Text inserted at or before the cursor moves the cursor with the
      character it was on; so do the other characters' positions. */
  lemma AddTextKeepsCursorOnItsCharacter(d: Doc, newText: string, startPos: int, style: StyleArg)
    requires 0 <= startPos && InDoc(d, d.cursor)
    ensures var r := AddText(d, newText, startPos, style);
            InDoc(r, r.cursor) && r.text.contents[r.cursor] == d.text.contents[d.cursor]
  {
    var ip := InsertPoint(startPos, Length(d));
    var r := AddText(d, newText, startPos, style);
    var c := d.text.contents;
    AddTextCursor(d, newText, startPos, style);
    UpdateOnAddFollowsCharacter(c, ip, newText, d.cursor);
    var p := UpdateOnAdd(d.cursor, ip, |newText|);
    assert UpdateOnAdd(d.cursor, startPos, |newText|) == p;
    assert ClampCursor(p, Length(r)) == p;
  }

  /** Deleting a range of the document that does not hold the cursor keeps
      the cursor on its character. */
  lemma DelTextKeepsCursorOnItsCharacter(d: Doc, startPos: int, endPos: int)
    requires 0 <= startPos <= endPos < Length(d)
    requires InDoc(d, d.cursor) && !(startPos <= d.cursor <= endPos)
    ensures var r := DelText(d, startPos, endPos);
            InDoc(r, r.cursor) && r.text.contents[r.cursor] == d.text.contents[d.cursor]
  {
    var c := d.text.contents;
    DeleteRangeIsCut(c, startPos, endPos);
    DelTextCursor(d, startPos, endPos);
    UpdateOnDeleteFollowsCharacter(c, startPos, endPos, d.cursor);
    var p := UpdateOnDelete(d.cursor, startPos, endPos);
    assert ClampCursor(p, |c[..startPos] + c[endPos + 1..]|) == p;
  }

  /** The arguments of an insertion that a deletion of the inserted block
      undoes: a consistent document, some text, an insertion point inside
      the text or at its end, and no more style ids than characters. */
  predicate RoundTripArgs(d: Doc, newText: string, startPos: int, style: StyleArg) {
    LockStep(d) && CursorSettled(d) && |newText| > 0 && 0 <= startPos <= Length(d) &&
    (style.StyleList? ==> |style.ids| <= |newText|)
  }

  /** Deleting the characters an insertion just added gives back the
      document: contents, styles, behaviors, cursor and selections (the
      text array's "touched" flag stays set). */
  lemma AddThenDeleteRestores(d: Doc, newText: string, startPos: int, style: StyleArg)
    requires LockStep(d) && CursorSettled(d) && |newText| > 0
    requires 0 <= startPos <= Length(d)
    requires style.StyleList? ==> |style.ids| <= |newText|
    ensures var r := DelText(AddText(d, newText, startPos, style), startPos, startPos + |newText| - 1);
            r == d.(text := r.text) && r.text.contents == d.text.contents
  {
    assert RoundTripArgs(d, newText, startPos, style);
    TextPartRestored(d, newText, startPos, style);
    StylePartRestored(d, newText, startPos, style);
    BehaviorPartRestored(d, newText, startPos, style);
    SelectionPartRestored(d, newText, startPos, style);
    CursorPartRestored(d, newText, startPos, style);
  }

  lemma TextPartRestored(d: Doc, newText: string, startPos: int, style: StyleArg)
    requires RoundTripArgs(d, newText, startPos, style)
    ensures var t := TextArrays.AddText(d.text, newText, startPos);
            |t.contents| == Length(d) + |newText| &&
            TextArrays.DelText(t, startPos, startPos + |newText| - 1).contents == d.text.contents
  {
    assert InsertPoint(startPos, Length(d)) == startPos;
    TextArrays.AddThenDeleteRestores(d.text, newText, startPos);
  }

  lemma StylePartRestored(d: Doc, newText: string, startPos: int, style: StyleArg)
    requires RoundTripArgs(d, newText, startPos, style)
    ensures Styles.DelText(AddStyles(d.styles, |newText|, startPos, style), startPos, startPos + |newText| - 1)
            == d.styles
  {
    StylesAddThenDelete(d.styles, |newText|, startPos, style);
  }

  lemma BehaviorPartRestored(d: Doc, newText: string, startPos: int, style: StyleArg)
    requires RoundTripArgs(d, newText, startPos, style)
    ensures Behaviors.DelText(Behaviors.AddText(d.behaviors, |newText|, startPos), startPos, startPos + |newText| - 1)
            == d.behaviors
  {
    assert PyList.SliceBound(startPos, |d.behaviors.ids|) == startPos;
    Behaviors.AddThenDeleteRestores(d.behaviors, |newText|, startPos);
  }

  lemma SelectionPartRestored(d: Doc, newText: string, startPos: int, style: StyleArg)
    requires RoundTripArgs(d, newText, startPos, style)
    ensures ShiftOnDelete(ShiftOnAdd(d.selections, startPos, |newText|), startPos, startPos + |newText| - 1)
            == d.selections
  {
    SelectionsAddThenDelete(d.selections, startPos, |newText|);
  }

  lemma CursorPartRestored(d: Doc, newText: string, startPos: int, style: StyleArg)
    requires RoundTripArgs(d, newText, startPos, style)
    ensures var k := |newText|;
            ClampCursor(UpdateOnDelete(ClampCursor(UpdateOnAdd(d.cursor, startPos, k), Length(d) + k),
                                       startPos, startPos + k - 1), Length(d)) == d.cursor
  {
    CursorRoundTrip(d.cursor, Length(d), startPos, |newText|);
  }

  /** The selection part of the round trip. */
  lemma SelectionsAddThenDelete(sels: seq<Range>, p: int, k: int)
    requires k > 0
    ensures ShiftOnDelete(ShiftOnAdd(sels, p, k), p, p + k - 1) == sels
  {
    var r := ShiftOnDelete(ShiftOnAdd(sels, p, k), p, p + k - 1);
    forall i | 0 <= i < |sels|
      ensures r[i] == sels[i]
    {
      AddThenDeleteRestoresPosition(sels[i].start, p, k);
      AddThenDeleteRestoresPosition(sels[i].end, p, k);
    }
  }

  /** Where `AddText` leaves the cursor. */
  lemma AddTextCursor(d: Doc, newText: string, startPos: int, style: StyleArg)
    ensures var a := AddText(d, newText, startPos, style);
            Length(a) == Length(d) + |newText| &&
            a.cursor == ClampCursor(UpdateOnAdd(d.cursor, startPos, |newText|), Length(a))
  {
  }

  /** Where `DelText` leaves the cursor. */
  lemma DelTextCursor(d: Doc, startPos: int, endPos: int)
    ensures var r := DelText(d, startPos, endPos);
            r.cursor == ClampCursor(UpdateOnDelete(d.cursor, startPos, endPos), Length(r))
  {
  }

  /** The cursor arithmetic of an insertion of `k` characters at `p` into a
      text of `n` followed by the deletion of the inserted block. */
  lemma CursorRoundTrip(c: int, n: nat, p: int, k: nat)
    requires k > 0 && 0 <= p <= n
    requires if n == 0 then c == 0 else 0 <= c < n
    ensures ClampCursor(UpdateOnDelete(ClampCursor(UpdateOnAdd(c, p, k), n + k), p, p + k - 1), n) == c
  {
    AddThenDeleteRestoresPosition(c, p, k);
  }

  /** The style part of the round trip: deleting the inserted block undoes
      the insertion and the restyle inside it. */
  lemma StylesAddThenDelete(st: Styles.StyleArray, k: nat, p: int, style: StyleArg)
    requires 0 <= p <= |st.ids| && k > 0
    requires style.StyleList? ==> |style.ids| <= k
    ensures Styles.DelText(AddStyles(st, k, p, style), p, p + k - 1) == st
  {
    var a := AddStyles(st, k, p, style);
    AddStylesShape(st, k, p, style);
    CutInsertedBlock(a.ids, st.ids, p, k);
  }

  // ---------------------------------------------------------------------
  // Styles
  // ---------------------------------------------------------------------

  /** `getStyledText(start, end)`: the characters and the style ids of a
      range. */
  function GetStyledText(d: Doc, startPos: int, endPos: int): (r: (string, seq<int>))
    ensures 0 <= startPos <= endPos < Length(d) && LockStep(d) ==>
              r.0 == d.text.contents[startPos..endPos + 1] &&
              r.1 == d.styles.ids[startPos..endPos + 1]
  {
    (TextArrays.GetSubString(d.text, startPos, endPos), Styles.GetSubString(d.styles, startPos, endPos))
  }

  /** `setStyle(theStyle, startPos, endPos)`: one id over the range, or a
      list of ids from `startPos` on. */
  function SetStyle(d: Doc, style: StyleArg, startPos: int, endPos: int): (r: Doc)
    ensures r == d.(styles := r.styles)
    ensures style.NoStyle? ==> r == d
    ensures style.OneStyle? && 0 <= startPos <= endPos + 1 <= |d.styles.ids| ==>
              |r.styles.ids| == |d.styles.ids| &&
              forall p :: 0 <= p < |d.styles.ids| ==>
                r.styles.ids[p] == if startPos <= p <= endPos then style.id else d.styles.ids[p]
    ensures style.StyleList? && 0 <= startPos && startPos + |style.ids| <= |d.styles.ids| ==>
              |r.styles.ids| == |d.styles.ids| &&
              forall p :: 0 <= p < |d.styles.ids| ==>
                r.styles.ids[p] == if startPos <= p < startPos + |style.ids| then style.ids[p - startPos]
                                   else d.styles.ids[p]
  {
    match style
    case NoStyle => d
    case OneStyle(id) => d.(styles := Styles.SetStyleInRange(d.styles, id, startPos, endPos))
    case StyleList(ids) => d.(styles := Styles.ReplaceStyles(d.styles, ids, startPos))
  }

  /** The error `setStyleOverlay` raises when a position's style id is not
      in the pool. */
  const NoSuchStyle := "list index out of range"

  /** One step of `setStyleOverlay`: the style at `pos` merged with the
      overlay, interned, and written back when `pos` is on the array. */
  function OverlayAt(st: Styles.StyleArray, pool: seq<Styles.Style>, overlay: Styles.Overlay, pos: int)
    : (r: (Styles.StyleArray, seq<Styles.Style>))
    requires 0 <= Styles.GetCharStyle(st, pos) < |pool|
    ensures r.0.defaultStyle == st.defaultStyle && |r.0.ids| == |st.ids| && Pools.Extends(pool, r.1)
    ensures forall p :: 0 <= p < |st.ids| && p != pos ==> r.0.ids[p] == st.ids[p]
    ensures 0 <= pos < |st.ids| ==>
              0 <= r.0.ids[pos] < |r.1| &&
              r.1[r.0.ids[pos]] == Styles.ApplyOverlay(pool[st.ids[pos]], overlay)
  {
    var (pool1, id) := Styles.MergeStyleWithOverlay(pool, Styles.GetCharStyle(st, pos), overlay);
    assert forall i :: 0 <= i < |pool| ==> pool1[i] == pool1[..|pool|][i];
    (Styles.SetCharStyle(st, pos, id), pool1)
  }

  /** The loop of `setStyleOverlay` from `pos` to `endPos`: each position's
      style merged with the overlay and interned in the pool. Positions off
      the array read the default style and are not written. */
  function OverlayFrom(st: Styles.StyleArray, pool: seq<Styles.Style>, overlay: Styles.Overlay,
                       pos: int, endPos: int): (r: Result<(Styles.StyleArray, seq<Styles.Style>)>)
    decreases endPos + 1 - pos
    ensures (forall p :: pos <= p <= endPos ==> 0 <= Styles.GetCharStyle(st, p) < |pool|) ==> r.Success?
    ensures r.Success? ==>
              var (sa, pool') := r.value;
              sa.defaultStyle == st.defaultStyle && |sa.ids| == |st.ids| && Pools.Extends(pool, pool') &&
              forall p :: 0 <= p < |st.ids| ==>
                if pos <= p <= endPos then
                  0 <= st.ids[p] < |pool'| && 0 <= sa.ids[p] < |pool'| &&
                  pool'[sa.ids[p]] == Styles.ApplyOverlay(pool'[st.ids[p]], overlay)
                else sa.ids[p] == st.ids[p]
  {
    if endPos < pos then Success((st, pool))
    else
      var cur := Styles.GetCharStyle(st, pos);
      if cur < 0 || |pool| <= cur then Failure(NoSuchStyle)
      else
        var (st1, pool1) := OverlayAt(st, pool, overlay, pos);
        assert forall p :: pos + 1 <= p <= endPos ==> Styles.GetCharStyle(st1, p) == Styles.GetCharStyle(st, p);
        OverlayFrom(st1, pool1, overlay, pos + 1, endPos)
  }

  /** `setStyleOverlay(overlay, startPos, endPos)` */
  function SetStyleOverlay(d: Doc, pool: seq<Styles.Style>, overlay: Styles.Overlay, startPos: int, endPos: int)
    : (r: Result<(Doc, seq<Styles.Style>)>)
    ensures (forall p :: startPos <= p <= endPos ==> 0 <= Styles.GetCharStyle(d.styles, p) < |pool|) ==> r.Success?
    ensures r.Success? ==>
              var (d', pool') := r.value;
              d' == d.(styles := d'.styles) && d'.styles.defaultStyle == d.styles.defaultStyle &&
              |d'.styles.ids| == |d.styles.ids| && Pools.Extends(pool, pool') &&
              forall p :: 0 <= p < |d.styles.ids| ==>
                if startPos <= p <= endPos then
                  0 <= d.styles.ids[p] < |pool'| && 0 <= d'.styles.ids[p] < |pool'| &&
                  pool'[d'.styles.ids[p]] == Styles.ApplyOverlay(pool'[d.styles.ids[p]], overlay)
                else d'.styles.ids[p] == d.styles.ids[p]
  {
    var (sa, pool') :- OverlayFrom(d.styles, pool, overlay, startPos, endPos);
    Success((d.(styles := sa), pool'))
  }

  /** Writing back the style ids of a range, copied before an overlay was
      applied to it, restores the style array: `SimpleStyle`'s undo. */
  lemma OverlayThenRestoreStyles(d: Doc, pool: seq<Styles.Style>, overlay: Styles.Overlay, startPos: int, endPos: int)
    requires 0 <= startPos <= endPos + 1 <= |d.styles.ids|
    requires SetStyleOverlay(d, pool, overlay, startPos, endPos).Success?
    ensures var copied := Styles.GetSubString(d.styles, startPos, endPos);
            var d' := SetStyleOverlay(d, pool, overlay, startPos, endPos).value.0;
            SetStyle(d', StyleList(copied), startPos, endPos) == d
  {
    var copied := Styles.GetSubString(d.styles, startPos, endPos);
    var d' := SetStyleOverlay(d, pool, overlay, startPos, endPos).value.0;
    var r := SetStyle(d', StyleList(copied), startPos, endPos);
    assert |copied| == endPos + 1 - startPos;
    assert r.styles.ids == d.styles.ids;
  }

  /** Setting styles and then the cursor reads neither the behavior ids
      nor the pools: it does the same beside any behavior array. */
  lemma RestyleIgnoresBehaviors(d: Doc, ba: Behaviors.BehaviorArray, style: StyleArg, startPos: int, cursor: int)
    ensures SetCursor(SetStyle(d.(behaviors := ba), style, startPos, 0), cursor) ==
            SetCursor(SetStyle(d, style, startPos, 0), cursor).(behaviors := ba)
  {
  }

  // ---------------------------------------------------------------------
  // Selections
  // ---------------------------------------------------------------------

  /** `setSelection(sel, startPos, endPos)`: an `endPos` of -1 means a one
      character selection; a range reaching outside the document is
      ignored; otherwise the selection is stored with its ends in order. */
  function SetSelection(d: Doc, sel: int, startPos: int, endPos: int): (r: Doc)
    requires PyList.IndexOk(sel, |d.selections|)
    ensures r == d.(selections := r.selections) && |r.selections| == |d.selections|
    ensures var e := if endPos == -1 then startPos else endPos;
            if InDoc(d, startPos) && InDoc(d, e) then
              r.selections[PyList.Norm(sel, |d.selections|)] ==
                Range(if startPos < e then startPos else e, if startPos < e then e else startPos) &&
              forall i :: 0 <= i < |d.selections| && i != PyList.Norm(sel, |d.selections|) ==>
                r.selections[i] == d.selections[i]
            else r == d
  {
    var e := if endPos == -1 then startPos else endPos;
    if startPos < 0 || e > Length(d) - 1 then d
    else if e < 0 || startPos > Length(d) - 1 then d
    else
      var lo := if startPos < e then startPos else e;
      var hi := if startPos < e then e else startPos;
      d.(selections := PyList.Put(d.selections, sel, Range(lo, hi)))
  }

  /** `getSelection(sel)` */
  function GetSelection(d: Doc, sel: int): (r: Range)
    requires PyList.IndexOk(sel, |d.selections|)
    ensures r in d.selections
  {
    PyList.At(d.selections, sel)
  }

  /** Reading a selection back after setting it inside the document gives
      the ordered range; setting it again to that range changes nothing. */
  lemma SetSelectionReadBack(d: Doc, sel: int, startPos: int, endPos: int)
    requires PyList.IndexOk(sel, |d.selections|) && InDoc(d, startPos) && InDoc(d, endPos)
    ensures var r := SetSelection(d, sel, startPos, endPos);
            var g := GetSelection(r, sel);
            g.start <= g.end && {g.start, g.end} == {startPos, endPos} &&
            SetSelection(r, sel, g.start, g.end) == r
  {
  }

  /** `selectionExists(sel)`: the index exists and the selection is set. */
  function SelectionExists(d: Doc, sel: int): (r: bool)
    ensures r <==> PyList.IndexOk(sel, |d.selections|) && PyList.At(d.selections, sel) != Range(-1, -1)
  {
    PyList.IndexOk(sel, |d.selections|) && PyList.At(d.selections, sel) != Range(-1, -1)
  }

  /** `setSelectionList(list)` */
  function SetSelectionList(d: Doc, selections: seq<Range>): (r: Doc)
    ensures r.selections == selections && r == d.(selections := selections)
  {
    d.(selections := selections)
  }

  /** `isExtendedSelection()`: the selection covers more than one
      character. */
  function IsExtendedSelection(d: Doc): (r: bool)
    requires |d.selections| >= 2
    ensures r <==> d.selections[Selection].start < d.selections[Selection].end
  {
    d.selections[Selection].end - d.selections[Selection].start + 1 > 1
  }

  /** The old selections (index 2 on) that survive `removeOverlappingOldSelections`. */
  function KeepDisjoint(olds: seq<Range>, r: Range): (kept: seq<Range>)
    ensures |kept| <= |olds|
    ensures forall x :: x in kept <==> x in olds && !DoRangesOverlap(x, r)
    ensures forall x :: multiset(kept)[x] == if DoRangesOverlap(x, r) then 0 else multiset(olds)[x]
  {
    if |olds| == 0 then []
    else
      var rest := KeepDisjoint(olds[1..], r);
      assert olds == [olds[0]] + olds[1..];
      assert forall x :: x in olds <==> x == olds[0] || x in olds[1..];
      if DoRangesOverlap(olds[0], r) then rest else [olds[0]] + rest
  }

  /** The filter keeps the order of the old selections: filtering two
      lists one after the other is filtering their concatenation. */
  lemma {:induction false} KeepDisjointAppend(a: seq<Range>, b: seq<Range>, r: Range)
    ensures KeepDisjoint(a + b, r) == KeepDisjoint(a, r) + KeepDisjoint(b, r)
  {
    if |a| == 0 {
      assert a + b == b;
    } else {
      var ab := a + b;
      assert ab[0] == a[0] && ab[1..] == a[1..] + b;
      KeepDisjointAppend(a[1..], b, r);
      var rest := KeepDisjoint(a[1..], r) + KeepDisjoint(b, r);
      assert KeepDisjoint(ab, r) == if DoRangesOverlap(a[0], r) then rest else [a[0]] + rest;
      if !DoRangesOverlap(a[0], r) {
        assert [a[0]] + rest == ([a[0]] + KeepDisjoint(a[1..], r)) + KeepDisjoint(b, r);
      }
    }
  }

  /** Dropping nothing when no old selection overlaps. */
  lemma {:induction false} KeepDisjointNoOverlap(olds: seq<Range>, r: Range)
    requires forall i :: 0 <= i < |olds| ==> !DoRangesOverlap(olds[i], r)
    ensures KeepDisjoint(olds, r) == olds
  {
    if |olds| > 0 {
      KeepDisjointNoOverlap(olds[1..], r);
    }
  }

  /** `removeOverlappingOldSelections(start, end)`: deletes every old
      selection that overlaps `[start, end]`; the preselection and the
      selection stay. */
  function RemoveOverlappingOldSelections(sels: seq<Range>, startPos: int, endPos: int): (r: seq<Range>)
    ensures |sels| <= 2 ==> r == sels
    ensures |sels| > 2 ==>
              (|r| >= 2 && r[..2] == sels[..2] &&
               forall x :: x in r[2..] <==> x in sels[2..] && !DoRangesOverlap(x, Range(startPos, endPos)))
    ensures |sels| > 2 ==>
              forall x :: multiset(r[2..])[x] ==
                            if DoRangesOverlap(x, Range(startPos, endPos)) then 0 else multiset(sels[2..])[x]
    ensures |sels| > 2 ==> r[2..] == KeepDisjoint(sels[2..], Range(startPos, endPos))
  {
    if |sels| <= 2 then sels
    else
      var kept := KeepDisjoint(sels[2..], Range(startPos, endPos));
      assert (sels[..2] + kept)[2..] == kept;
      sels[..2] + kept
  }

  /** The ends of a new selection clamped to the last character of a text
      of `n` characters and put in order. */
  function ClampedOrdered(startPos: int, endPos: int, n: nat): (k: Range)
    ensures k.start <= k.end
    ensures n > 0 ==>
              k == Range(Bound(if startPos < endPos then startPos else endPos, 0, n - 1),
                         Bound(if startPos < endPos then endPos else startPos, 0, n - 1)) &&
              0 <= k.start && k.end < n
  {
    var s := Bound(startPos, 0, n - 1);
    var e := Bound(endPos, 0, n - 1);
    if s < e then Range(s, e) else Range(e, s)
  }

  /** The first half of `createNewSelection`: an extended current selection
      is pushed down to index 2 and `k` inserted at index 1; otherwise `k`
      overwrites the selection. */
  function PlaceSelection(d: Doc, k: Range): (r: Doc)
    requires |d.selections| >= 2
    ensures r == d.(selections := r.selections) && |r.selections| >= |d.selections|
    ensures r.selections[Preselection] == d.selections[Preselection]
    ensures InDoc(d, k.start) && InDoc(d, k.end) && k.start <= k.end ==> r.selections[Selection] == k
    ensures IsExtendedSelection(d) ==>
              |r.selections| == |d.selections| + 1 && r.selections[OldSelection] == d.selections[Selection]
  {
    if IsExtendedSelection(d)
    then d.(selections := d.selections[..1] + [k] + d.selections[1..])
    else SetSelection(d, Selection, k.start, k.end)
  }

  /** `createNewSelection(startPos, endPos)`: clamps and orders the ends;
      an extended current selection is pushed down to become the first old
      selection (the new one is inserted at index 1), otherwise the
      selection is overwritten. A new selection of more than one character
      then removes the old selections it overlaps. */
  function CreateNewSelection(d: Doc, startPos: int, endPos: int): (r: Doc)
    requires |d.selections| >= 2
    ensures r == d.(selections := r.selections) && |r.selections| >= 2
    ensures r.selections[Preselection] == d.selections[Preselection]
    ensures Length(d) > 0 ==>
              var lo := Bound(if startPos < endPos then startPos else endPos, 0, Length(d) - 1);
              var hi := Bound(if startPos < endPos then endPos else startPos, 0, Length(d) - 1);
              r.selections[Selection] == Range(lo, hi) &&
              (lo < hi ==> forall i :: 2 <= i < |r.selections| ==>
                             !DoRangesOverlap(r.selections[i], Range(lo, hi)))
  {
    var k := ClampedOrdered(startPos, endPos, Length(d));
    var d1 := PlaceSelection(d, k);
    if k.end - k.start + 1 > 1 then
      var sels := RemoveOverlappingOldSelections(d1.selections, k.start, k.end);
      assert forall i :: 2 <= i < |sels| ==> sels[i] == sels[2..][i - 2];
      d1.(selections := sels)
    else d1
  }

  // ---------------------------------------------------------------------
  // Non-content memento
  // ---------------------------------------------------------------------

  /** `getNonContentMemento()` */
  function GetNonContentMemento(d: Doc): (m: Memento)
    ensures m.cursor == d.cursor && m.selections == d.selections
  {
    Memento(d.cursor, d.selections)
  }

  /** `setNonContentInformation(memento)`: `setCursor`, then the selection
      list. */
  function SetNonContentInformation(d: Doc, m: Memento): (r: Doc)
    ensures r.selections == m.selections
    ensures r == d.(cursor := r.cursor, selections := r.selections)
    ensures Length(d) > 0 ==> r.cursor == Bound(m.cursor, 0, Length(d) - 1)
  {
    SetSelectionList(SetCursor(d, m.cursor), m.selections)
  }

  /** A memento taken from a document with a settled cursor puts back its
      cursor and selections on any document with the same contents. */
  lemma MementoRestores(d: Doc, other: Doc)
    requires CursorSettled(d) && Length(other) == Length(d)
    ensures SetNonContentInformation(other, GetNonContentMemento(d)) ==
            other.(cursor := d.cursor, selections := d.selections)
  {
  }
}

=== FILE: handlers.dfy ===
/** The handler classes a behavior's action slots hold. In the program
    these are command classes found by duck typing (`behaviorName` present
    or not, `stopBit` overridden or not); here they are one tagged type. */
module Handlers {
  import opened Wrappers

  datatype HandlerClass =
    // the plain editing commands of the default action
    | SimpleAddText | SimpleDeleteText | SimpleStyle
    // the lock behaviors
    | LockAdd | LockDelete | LockStyle
    | SystemLockAdd | SystemLockDelete | SystemLockStyle
    | FormLockAdd | FormLockDelete | FormLockStyle
    | FinalDocLockDelete | FinalDocLockStyle
    // the spellcheck behavior
    | SpellcheckModify | SpellcheckStyle | SpellcheckFocus | SpellcheckUnfocus

  /** The behavior a handler belongs to. The plain commands have no
      `behaviorName` method at all. */
  function BehaviorName(h: HandlerClass): (r: Option<string>)
    ensures r.None? <==> h in {SimpleAddText, SimpleDeleteText, SimpleStyle}
  {
    match h
    case SimpleAddText => None
    case SimpleDeleteText => None
    case SimpleStyle => None
    case LockAdd => Some("LOCK")
    case LockDelete => Some("LOCK")
    case LockStyle => Some("LOCK")
    case SystemLockAdd => Some("SYSTEM LOCK")
    case SystemLockDelete => Some("SYSTEM LOCK")
    case SystemLockStyle => Some("SYSTEM LOCK")
    case FormLockAdd => Some("FORM LOCK")
    case FormLockDelete => Some("FORM LOCK")
    case FormLockStyle => Some("FORM LOCK")
    case FinalDocLockDelete => Some("FINAL DOCUMENT CHARACTER LOCK")
    case FinalDocLockStyle => Some("FINAL DOCUMENT CHARACTER LOCK")
    case SpellcheckModify => Some("SPELLCHECK")
    case SpellcheckStyle => Some("SPELLCHECK")
    case SpellcheckFocus => Some("SPELLCHECK")
    case SpellcheckUnfocus => Some("SPELLCHECK")
  }

  /** Whether the handler ends the chain of handlers it runs in. Every lock
      handler says so (the system, form and final-character variants
      inherit it); everything else keeps the default of 0. */
  function StopBit(h: HandlerClass): (b: bool)
  {
    match h
    case LockAdd => true
    case LockDelete => true
    case LockStyle => true
    case SystemLockAdd => true
    case SystemLockDelete => true
    case SystemLockStyle => true
    case FormLockAdd => true
    case FormLockDelete => true
    case FormLockStyle => true
    case FinalDocLockDelete => true
    case FinalDocLockStyle => true
    case _ => false
  }

  /** Every lock handler stops its chain and no other handler does: a
      handler stops the chain exactly when it belongs to one of the lock
      behaviors. */
  lemma StopBitIffLock(h: HandlerClass)
    ensures StopBit(h) <==>
              BehaviorName(h) in {Some("LOCK"), Some("SYSTEM LOCK"), Some("FORM LOCK"),
                                  Some("FINAL DOCUMENT CHARACTER LOCK")}
  {
  }

  /** The state a storage slot holds. `SpellcheckStorage` is the only kind;
      Python compares instances by identity, which `token` stands for. */
  datatype Storage = SpellcheckStorage(token: nat, word: string)

  function StorageBehaviorName(s: Storage): string {
    "SPELLCHECK"
  }

  /** An action: one entry per key of `BehaviorArray.keys`, in the order
      add, delete, style, focus, unfocus, storage. */
  datatype Action = Action(add: Option<HandlerClass>, delete: Option<HandlerClass>,
                           style: Option<HandlerClass>, focus: Option<HandlerClass>,
                           unfocus: Option<HandlerClass>, storage: Option<Storage>)

  /** The five handler keys (everything but storage). */
  datatype HandlerSlot = AddSlot | DeleteSlot | StyleSlot | FocusSlot | UnfocusSlot

  function SlotOf(a: Action, k: HandlerSlot): Option<HandlerClass> {
    match k
    case AddSlot => a.add
    case DeleteSlot => a.delete
    case StyleSlot => a.style
    case FocusSlot => a.focus
    case UnfocusSlot => a.unfocus
  }

  const AllHandlerSlots: seq<HandlerSlot> := [AddSlot, DeleteSlot, StyleSlot, FocusSlot, UnfocusSlot]

  /** The action of the default behavior (id 0): plain add, delete and style. */
  const DefaultAction: Action :=
    Action(Some(SimpleAddText), Some(SimpleDeleteText), Some(SimpleStyle), None, None, None)

  /** One registration of the hard-coded behavior table. */
  datatype Registration = Registration(name: string, action: Action)

  function Slots(add: Option<HandlerClass>, delete: Option<HandlerClass>, style: Option<HandlerClass>): Action {
    Action(add, delete, style, None, None, None)
  }

  /** The behaviors the lock and spellcheck command modules register. The
      initial-document-character lock reuses the form-lock handlers, and the
      final-document-character lock has no add handler. */
  const HardcodedBehaviors: seq<Registration> := [
    Registration("LOCK", Slots(Some(LockAdd), Some(LockDelete), Some(LockStyle))),
    Registration("SYSTEM LOCK", Slots(Some(SystemLockAdd), Some(SystemLockDelete), Some(SystemLockStyle))),
    Registration("FORM LOCK", Slots(Some(FormLockAdd), Some(FormLockDelete), Some(FormLockStyle))),
    Registration("INITIAL DOCUMENT CHARACTER LOCK", Slots(Some(FormLockAdd), Some(FormLockDelete), Some(FormLockStyle))),
    Registration("FINAL DOCUMENT CHARACTER LOCK", Slots(None, Some(FinalDocLockDelete), Some(FinalDocLockStyle))),
    Registration("SPELLCHECK", Action(Some(SpellcheckModify), Some(SpellcheckModify), Some(SpellcheckStyle),
                                      Some(SpellcheckFocus), Some(SpellcheckUnfocus), None))
  ]

  /** Each lock behavior's add, delete and style handlers (where present)
      all stop their chains, while the spellcheck handlers never do. */
  lemma HardcodedStopBits()
    ensures forall i, k ::
              (0 <= i < |HardcodedBehaviors| && k in AllHandlerSlots &&
               SlotOf(HardcodedBehaviors[i].action, k).Some?) ==>
              (StopBit(SlotOf(HardcodedBehaviors[i].action, k).value) <==> HardcodedBehaviors[i].name != "SPELLCHECK")
    ensures HardcodedBehaviors[4].name == "FINAL DOCUMENT CHARACTER LOCK" && HardcodedBehaviors[4].action.add.None?
  {
  }
}

=== FILE: journal.dfy ===
/** The journal behind the incremental save of `commands/save_and_load.py`:
    `addToHistory` logs every change as it is made, and `_applyChanges`
    replays a logged batch on load without logging it again. */
module Journal {
  import opened Wrappers
  import CommandEngine
  import Commands
  import Session
  import SaveLoad

  /** What `addToHistory` queues for the incremental save: a recordable
      command, or one of the unrecordable UNDO and REDO commands. */
  datatype Change = Command(cmd: Commands.Cmd) | UndoChange | RedoChange

  /** `command.redo()` followed by `addToHistory(command, incrementalSave=0)`.
      `redo()` is `execute()`; a recordable command then enters the
      history, while UNDO and REDO move the index and stay out of it. */
  function Replay(fuel: nat, st: Session.Session, ch: Change): (r: Result<Session.Session>)
    requires Session.Ready(st)
    ensures r.Success? ==> Session.Ready(r.value)
    ensures ch.Command? ==> r == Session.ExecuteCommand(fuel, st, ch.cmd)
    ensures ch.UndoChange? ==> r == Session.UndoCommand(fuel, st)
    ensures ch.RedoChange? ==> r == Session.RedoCommand(fuel, st)
  {
    match ch
    case Command(c) => Session.ExecuteCommand(fuel, st, c)
    case UndoChange => Session.UndoCommand(fuel, st)
    case RedoChange => Session.RedoCommand(fuel, st)
  }

  /** `executeCommand` with the default `incrementalSave`: the change runs
      as in `Replay` and is then logged for the next save. */
  function Execute(fuel: nat, st: Session.Session, queue: seq<Change>, ch: Change): (r: Result<(Session.Session, seq<Change>)>)
    requires Session.Ready(st)
    ensures Replay(fuel, st, ch).Failure? ==> r == Failure(Replay(fuel, st, ch).error)
    ensures r.Success? ==> Session.Ready(r.value.0) && r.value.1 == queue + [ch]
  {
    var st1 :- Replay(fuel, st, ch);
    Success((st1, SaveLoad.LogChange(queue, ch)))
  }

  /** A session of changes made live, each logged as it is made. */
  function ExecuteAll(fuel: nat, st: Session.Session, queue: seq<Change>, chs: seq<Change>): (r: Result<(Session.Session, seq<Change>)>)
    requires Session.Ready(st)
    ensures r.Success? ==> Session.Ready(r.value.0)
    decreases |chs|
  {
    if |chs| == 0 then Success((st, queue))
    else
      var (st1, q1) :- Execute(fuel, st, queue, chs[0]);
      ExecuteAll(fuel, st1, q1, chs[1..])
  }

  /** `_applyChanges(changeList)`: every change is replayed in order
      without being logged again, so the queue is left as it was; the
      first change that raises stops the replay with its error. */
  function ApplyChanges(fuel: nat, st: Session.Session, queue: seq<Change>, chs: seq<Change>): (r: Result<(Session.Session, seq<Change>)>)
    requires Session.Ready(st)
    ensures r.Success? ==> Session.Ready(r.value.0) && r.value.1 == queue
    ensures |chs| > 0 && Replay(fuel, st, chs[0]).Failure? ==> r == Failure(Replay(fuel, st, chs[0]).error)
    decreases |chs|
  {
    if |chs| == 0 then Success((st, queue))
    else
      var st1 :- Replay(fuel, st, chs[0]);
      ApplyChanges(fuel, st1, queue, chs[1..])
  }

  /** A change that raises partway through a batch stops the replay with
      its error, after the changes before it have been replayed. */
  lemma {:induction false} StopsAtFailure(fuel: nat, st: Session.Session, queue: seq<Change>, chs: seq<Change>, k: nat, sk: Session.Session)
    requires Session.Ready(st) && k < |chs|
    requires ApplyChanges(fuel, st, queue, chs[..k]) == Success((sk, queue))
    requires Session.Ready(sk) && Replay(fuel, sk, chs[k]).Failure?
    ensures ApplyChanges(fuel, st, queue, chs) == Failure(Replay(fuel, sk, chs[k]).error)
    decreases k
  {
    if k == 0 {
      assert chs[..0] == [];
    } else {
      var st1 := Replay(fuel, st, chs[0]).value;
      assert chs[..k][1..] == chs[1..][..k - 1];
      StopsAtFailure(fuel, st1, queue, chs[1..], k - 1, sk);
    }
  }

  /** Replaying recordable commands only: the history keeps its entries up
      to the index and gains one entry per command after them, in the
      order of the list, with nothing left to redo. */
  lemma {:induction false} ReplayedCommandsLast(fuel: nat, st: Session.Session, queue: seq<Change>, chs: seq<Change>)
    requires Session.Ready(st)
    requires forall i :: 0 <= i < |chs| ==> chs[i].Command?
    requires ApplyChanges(fuel, st, queue, chs).Success?
    ensures Appended(st.history, ApplyChanges(fuel, st, queue, chs).value.0.history, chs)
    decreases |chs|
  {
    if |chs| > 0 {
      var st1 := CommandStep(fuel, st, queue, chs);
      TailCommands(chs);
      ReplayedCommandsLast(fuel, st1, queue, chs[1..]);
      AppendedAfterOne(st.history, st1.history, ApplyChanges(fuel, st, queue, chs).value.0.history, chs);
    }
  }

  lemma TailCommands(chs: seq<Change>)
    requires |chs| > 0 && forall i :: 0 <= i < |chs| ==> chs[i].Command?
    ensures forall i :: 0 <= i < |chs[1..]| ==> chs[1..][i].Command?
  {
    assert forall i :: 0 <= i < |chs[1..]| ==> chs[1..][i] == chs[i + 1];
  }

  /** `h` is `h0` up to its index, followed by one entry per change of
      `chs`, holding that change's command, and nothing to redo. */
  ghost predicate Appended(h0: CommandEngine.History<Session.Entry>, h: CommandEngine.History<Session.Entry>, chs: seq<Change>)
    requires forall i :: 0 <= i < |chs| ==> chs[i].Command?
  {
    var n := h0.last + 1;
    h.last == h0.last + |chs| &&
    (|chs| > 0 ==> |h.entries| == h.last + 1) &&
    0 <= n <= |h.entries| && n <= |h0.entries| &&
    h.entries[..n] == h0.entries[..n] &&
    forall i :: 0 <= i < |chs| ==> h.entries[n + i].cmd == chs[i].cmd
  }

  lemma AppendedAfterOne(h0: CommandEngine.History<Session.Entry>, h1: CommandEngine.History<Session.Entry>, h: CommandEngine.History<Session.Entry>, chs: seq<Change>)
    requires |chs| > 0 && forall i :: 0 <= i < |chs| ==> chs[i].Command?
    requires var n := h0.last + 1;
             0 <= n <= |h0.entries| &&
             h1.last == n && |h1.entries| == n + 1 &&
             h1.entries[..n] == h0.entries[..n] &&
             h1.entries[n].cmd == chs[0].cmd
    requires Appended(h1, h, chs[1..])
    requires |chs| == 1 ==> h == h1
    ensures Appended(h0, h, chs)
  {
    var n := h0.last + 1;
    assert h.entries[..n + 1][..n] == h.entries[..n];
    assert h1.entries[..n + 1][..n] == h1.entries[..n];
    forall i | 0 <= i < |chs|
      ensures h.entries[n + i].cmd == chs[i].cmd
    {
      if i == 0 {
        assert h.entries[n] == h.entries[..n + 1][n];
      } else {
        assert chs[1..][i - 1] == chs[i];
      }
    }
  }

  /** The first of the commands enters the history as `executeCommand`
      would put it there, and the replay goes on from there. */
  lemma CommandStep(fuel: nat, st: Session.Session, queue: seq<Change>, chs: seq<Change>) returns (st1: Session.Session)
    requires Session.Ready(st)
    requires |chs| > 0 && chs[0].Command? && ApplyChanges(fuel, st, queue, chs).Success?
    ensures Session.Ready(st1) && ApplyChanges(fuel, st1, queue, chs[1..]) == ApplyChanges(fuel, st, queue, chs)
    ensures var n := st.history.last + 1;
            0 <= n <= |st.history.entries| &&
            st1.history.last == n && |st1.history.entries| == n + 1 &&
            st1.history.entries[..n] == st.history.entries[..n] &&
            st1.history.entries[n].cmd == chs[0].cmd
    ensures |chs| == 1 ==> ApplyChanges(fuel, st, queue, chs) == Success((st1, queue))
  {
    st1 := Session.ExecuteCommand(fuel, st, chs[0].cmd).value;
  }

  /** Replaying what a live session logged, from the session it started
      in, reproduces the session it ended in; the live session's queue
      holds exactly the changes it made. */
  lemma {:induction false} ReplayReproduces(fuel: nat, st: Session.Session, queue: seq<Change>, chs: seq<Change>, other: seq<Change>)
    requires Session.Ready(st)
    requires ExecuteAll(fuel, st, queue, chs).Success?
    ensures ExecuteAll(fuel, st, queue, chs).value.1 == queue + chs
    ensures ApplyChanges(fuel, st, other, chs) == Success((ExecuteAll(fuel, st, queue, chs).value.0, other))
    decreases |chs|
  {
    if |chs| > 0 {
      var st1 := ExecuteStep(fuel, st, queue, chs);
      ApplyStep(fuel, st, other, chs);
      ReplayReproduces(fuel, st1, queue + [chs[0]], chs[1..], other);
      AppendFirst(queue, chs);
    }
  }

  lemma AppendFirst(queue: seq<Change>, chs: seq<Change>)
    requires |chs| > 0
    ensures queue + [chs[0]] + chs[1..] == queue + chs
  {
    assert chs == [chs[0]] + chs[1..];
  }

  /** One live step: the first change succeeds and the rest run from the
      session it leaves. */
  lemma ExecuteStep(fuel: nat, st: Session.Session, queue: seq<Change>, chs: seq<Change>) returns (st1: Session.Session)
    requires Session.Ready(st)
    requires |chs| > 0 && ExecuteAll(fuel, st, queue, chs).Success?
    ensures Replay(fuel, st, chs[0]) == Success(st1) && Session.Ready(st1)
    ensures ExecuteAll(fuel, st, queue, chs) == ExecuteAll(fuel, st1, queue + [chs[0]], chs[1..])
  {
    st1 := Replay(fuel, st, chs[0]).value;
  }

  /** One replayed step, when the first change succeeds. */
  lemma ApplyStep(fuel: nat, st: Session.Session, queue: seq<Change>, chs: seq<Change>)
    requires Session.Ready(st)
    requires |chs| > 0 && Replay(fuel, st, chs[0]).Success?
    ensures ApplyChanges(fuel, st, queue, chs) == ApplyChanges(fuel, Replay(fuel, st, chs[0]).value, queue, chs[1..])
  {
  }

  /** Journaling from an empty queue and saving writes exactly the changes
      made, and loading that batch into the starting session reproduces
      the live one. */
  lemma SavedJournalReplays(fuel: nat, st: Session.Session, chs: seq<Change>)
    requires Session.Ready(st)
    requires |chs| > 0 && ExecuteAll(fuel, st, [], chs).Success?
    ensures var saved := SaveLoad.SaveChanges(ExecuteAll(fuel, st, [], chs).value.1);
            saved.0 == Some(chs) &&
            ApplyChanges(fuel, st, [], saved.0.value) == Success((ExecuteAll(fuel, st, [], chs).value.0, []))
  {
    ReplayReproduces(fuel, st, [], chs, []);
    assert [] + chs == chs;
  }
}

=== FILE: keys.dfy ===
/** The key bindings of `key.py`: the binding table of a quasimode, the
    recorder of the last few key presses, and the match of the recorded
    presses against the bindings, longest suffix first. The name pygame
    gives a key code is a parameter of the model. */
module Keys {
  import opened Wrappers
  import opened PyStr

  /** `KeyRecorder.MAX_PRESSES` */
  const MaxPresses := 5

  datatype Direction = Down | Up

  /** One recorded press: the key code and whether it went down or up. */
  datatype Press = Press(keycode: int, dir: Direction)

  /** What a binding runs. `Null` is `Keybindings.nullAction`, which does
      nothing; the other actions are known by name. */
  datatype Action = Null | Named(name: string)

  type Bindings = map<string, Action>

  // ---------------------------------------------------------------------
  // Keybindings
  // ---------------------------------------------------------------------

  /** `addKeybinding(keyStr, action)`: no action binds the null action,
      and a key bound before is rebound. */
  function AddKeybinding(b: Bindings, keyStr: string, action: Option<Action>): (r: Bindings)
    ensures keyStr in r && r[keyStr] == (if action.Some? then action.value else Null)
    ensures forall k :: k in b && k != keyStr ==> k in r && r[k] == b[k]
    ensures forall k :: k in r ==> k == keyStr || k in b
  {
    b[keyStr := if action.None? then Null else action.value]
  }

  /** `removeKeybinding(keyStr)`: an absent key is left alone. */
  function RemoveKeybinding(b: Bindings, keyStr: string): (r: Bindings)
    ensures keyStr !in r
    ensures forall k :: k in b && k != keyStr ==> k in r && r[k] == b[k]
    ensures forall k :: k in r ==> k in b
  {
    if keyStr in b then b - {keyStr} else b
  }

  /** Binding a fresh key and removing it again gives the table back;
      removing twice is removing once. */
  lemma AddThenRemove(b: Bindings, keyStr: string, action: Option<Action>)
    ensures keyStr !in b ==> RemoveKeybinding(AddKeybinding(b, keyStr, action), keyStr) == b
    ensures RemoveKeybinding(RemoveKeybinding(b, keyStr), keyStr) == RemoveKeybinding(b, keyStr)
  {
  }

  /** `KeyboardState.tryKeybinding(keyStr)`: 1 and the bound action when
      the key is bound, otherwise 0 and no action. */
  function TryKeybinding(b: Bindings, keyStr: string): (r: (int, Option<Action>))
    ensures keyStr in b <==> r.0 == 1
    ensures keyStr !in b <==> r.0 == 0
    ensures r.1 == if keyStr in b then Some(b[keyStr]) else None
  {
    if keyStr in b then (1, Some(b[keyStr])) else (0, None)
  }

  // ---------------------------------------------------------------------
  // The key recorder
  // ---------------------------------------------------------------------

  /** `KeyRecorder.record(keycode, downOrUp)`: a full buffer drops its
      oldest press before the new one goes at the end. */
  function Record(presses: seq<Press>, p: Press): (r: seq<Press>)
    ensures |presses| <= MaxPresses ==> |r| <= MaxPresses
    ensures |r| > 0 && r[|r| - 1] == p
  {
    if |presses| == MaxPresses then presses[1..] + [p] else presses + [p]
  }

  /** The presses recorded one after another from an empty buffer. */
  function RecordAll(presses: seq<Press>, ps: seq<Press>): (r: seq<Press>)
    decreases |ps|
  {
    if |ps| == 0 then presses else RecordAll(Record(presses, ps[0]), ps[1..])
  }

  /** The buffer holds the last `MaxPresses` presses, in order. */
  lemma {:induction false} RecordKeepsLatest(presses: seq<Press>, ps: seq<Press>)
    requires |presses| <= MaxPresses
    ensures var all := presses + ps;
            RecordAll(presses, ps) == all[(if |all| > MaxPresses then |all| - MaxPresses else 0)..]
    decreases |ps|
  {
    var all := presses + ps;
    if |ps| == 0 {
      assert all == presses;
    } else {
      var next := Record(presses, ps[0]);
      RecordKeepsLatest(next, ps[1..]);
      var all' := next + ps[1..];
      if |presses| == MaxPresses {
        assert all' == all[1..];
      } else {
        assert all' == all;
      }
    }
  }

  // ---------------------------------------------------------------------
  // Matching the recorded presses
  // ---------------------------------------------------------------------

  /** `convertToNotation((keycode, downOrUp))`: the key's name followed by
      `/` for a release or `\` for a press. */
  function Notation(keyName: int -> string, p: Press): (r: string)
    ensures |r| == |keyName(p.keycode)| + 1 && r[..|r| - 1] == keyName(p.keycode)
    ensures r[|r| - 1] == (if p.dir == Up then '/' else '\\')
  {
    keyName(p.keycode) + (if p.dir == Up then "/" else "\\")
  }

  /** Two presses have the same notation only when they are the same
      press, given that distinct key codes have distinct names. */
  lemma NotationInjective(keyName: int -> string, p: Press, q: Press)
    requires forall a, b :: keyName(a) == keyName(b) ==> a == b
    ensures Notation(keyName, p) == Notation(keyName, q) ==> p == q
  {
    var np, nq := Notation(keyName, p), Notation(keyName, q);
    if np == nq {
      assert keyName(p.keycode) == np[..|np| - 1] == keyName(q.keycode);
    }
  }

  /** The notations of `presses[start..]`. */
  function Notations(keyName: int -> string, presses: seq<Press>, start: nat): (r: seq<string>)
    requires start <= |presses|
    ensures |r| == |presses| - start
    ensures forall i :: 0 <= i < |r| ==> r[i] == Notation(keyName, presses[start + i])
  {
    seq(|presses| - start, i requires 0 <= i < |presses| - start => Notation(keyName, presses[start + i]))
  }

  /** The key string of the suffix starting at `start`: its notations
      joined with single spaces. */
  function SuffixKey(keyName: int -> string, presses: seq<Press>, start: nat): string
    requires start <= |presses|
  {
    Join(Notations(keyName, presses, start), " ")
  }

  lemma {:induction false} JoinAppend(pieces: seq<string>, x: string, sep: string)
    requires |pieces| > 0
    ensures Join(pieces + [x], sep) == Join(pieces, sep) + sep + x
    decreases |pieces|
  {
    if |pieces| == 1 {
      assert (pieces + [x])[1..] == [x];
    } else {
      assert (pieces + [x])[1..] == pieces[1..] + [x];
      JoinAppend(pieces[1..], x, sep);
    }
  }

  /** The inner loop of `matchKeybinding`: the key string of the presses
      from `start` on, built one notation at a time. */
  method BuildMatchString(keyName: int -> string, presses: seq<Press>, start: nat) returns (s: string)
    requires start <= |presses|
    ensures s == SuffixKey(keyName, presses, start)
  {
    var all := Notations(keyName, presses, start);
    s := "";
    var i := start;
    while i < |presses|
      invariant start <= i <= |presses|
      invariant s == Join(all[..i - start], " ")
    {
      var keyString := Notation(keyName, presses[i]);
      assert all[..i + 1 - start] == all[..i - start] + [keyString];
      if i > start {
        JoinAppend(all[..i - start], keyString, " ");
        keyString := " " + keyString;
      }
      s := s + keyString;
      i := i + 1;
    }
    assert all[..|presses| - start] == all;
  }

  /** `KeyRecorder.matchKeybinding(quasimode)`: the suffixes of the
      recorded presses are tried from the longest down, and the first one
      bound runs its action. With none bound the result is 0 and nothing
      runs. */
  method MatchKeybinding(b: Bindings, keyName: int -> string, presses: seq<Press>)
    returns (status: int, ran: Option<Action>)
    ensures status == 1 <==> exists start :: 0 <= start < |presses| && SuffixKey(keyName, presses, start) in b
    ensures status == 0 <==> ran.None?
    ensures status == 0 || status == 1
    ensures status == 1 ==>
              exists start :: 0 <= start < |presses| && SuffixKey(keyName, presses, start) in b &&
                ran == Some(b[SuffixKey(keyName, presses, start)]) &&
                forall j :: 0 <= j < start ==> SuffixKey(keyName, presses, j) !in b
  {
    var matchStart := 0;
    while matchStart < |presses|
      invariant 0 <= matchStart <= |presses|
      invariant forall j :: 0 <= j < matchStart ==> SuffixKey(keyName, presses, j) !in b
    {
      var matchString := BuildMatchString(keyName, presses, matchStart);
      var tried := TryKeybinding(b, matchString);
      if tried.0 == 1 {
        return 1, tried.1;
      }
      matchStart := matchStart + 1;
    }
    return 0, None;
  }
}

=== FILE: lock.dfy ===
/** The undo order of the lock commands of `commands/lock.py`, and what
    undoing a lock gives back. */
module Lock {
  import opened Wrappers
  import opened Globals
  import opened Handlers
  import PyList
  import Styles
  import Behaviors
  import Documents
  import opened Commands
  import TextEditing
  import BehaviorEditing
  import StyleEditing

  /** Undoing a list of two records undoes the first, then the second. */
  lemma UndoTwo(fuel: nat, s: Archy, a: Done, b: Done)
    requires Sound(s) && fuel >= 2
    ensures Undo(fuel, s, Undone([a, b])) ==
            (var s1 :- Undo(fuel - 2, s, a); Undo(fuel - 2, s1, b))
  {
    assert [a, b][0] == a && [a, b][1..] == [b];
    var r1 := Undo(fuel - 2, s, a);
    if r1.Success? {
      TextEditing.UndoOne(fuel, r1.value, b);
      assert UndoAll(fuel - 1, r1.value, [b]) == Undo(fuel - 2, r1.value, b);
    }
  }

  /** Undoing a list of three records undoes them in list order. */
  lemma UndoThree(fuel: nat, s: Archy, a: Done, b: Done, c: Done)
    requires Sound(s) && fuel >= 2
    ensures Undo(fuel, s, Undone([a, b, c])) ==
            (var s1 :- Undo(fuel - 2, s, a); var s2 :- Undo(fuel - 2, s1, b); Undo(fuel - 2, s2, c))
  {
    assert [a, b, c][0] == a && [a, b, c][1..] == [b, c];
    var r1 := Undo(fuel - 2, s, a);
    if r1.Success? {
      UndoTwo(fuel, r1.value, b, c);
      assert UndoAll(fuel - 1, r1.value, [b, c]) == Undo(fuel, r1.value, Undone([b, c]));
    }
  }

  /** `LockCommand.undo()` undoes the added behavior first and the lock
      colours second: the reverse of `execute()`. */
  lemma LockUndoOrder(fuel: nat, undoFuel: nat, s: Archy, name: string)
    requires Sound(s) && undoFuel >= 2
    ensures var r := ExecLock(fuel, s, name);
            r.Success? ==>
              fuel >= 1 && Exec(fuel - 1, s, Style(LockColours)).Success? &&
              var styled := Exec(fuel - 1, s, Style(LockColours)).value;
              Exec(fuel - 1, styled.0, AddAction(name)).Success? &&
              var locked := Exec(fuel - 1, styled.0, AddAction(name)).value;
              r.value.0 == locked.0 &&
              Undo(undoFuel, r.value.0, r.value.1) ==
              (var u :- Undo(undoFuel - 2, locked.0, locked.1); Undo(undoFuel - 2, u, styled.1))
  {
    var r := ExecLock(fuel, s, name);
    if r.Success? {
      var styled := Exec(fuel - 1, s, Style(LockColours)).value;
      var locked := Exec(fuel - 1, styled.0, AddAction(name)).value;
      UndoTwo(undoFuel, locked.0, locked.1, styled.1);
    }
  }

  /** `UnlockCommand.undo()` puts the colours back first, then the form
      lock, then the lock: the reverse of `execute()`. */
  lemma UnlockUndoOrder(fuel: nat, undoFuel: nat, s: Archy)
    requires Sound(s) && undoFuel >= 2
    ensures var r := ExecUnlock(fuel, s);
            r.Success? ==>
              fuel >= 1 && Exec(fuel - 1, s, RemoveAction("LOCK")).Success? &&
              var a1 := Exec(fuel - 1, s, RemoveAction("LOCK")).value;
              Exec(fuel - 1, a1.0, RemoveAction("FORM LOCK")).Success? &&
              var a2 := Exec(fuel - 1, a1.0, RemoveAction("FORM LOCK")).value;
              Exec(fuel - 1, a2.0, Style(PlainColours)).Success? &&
              var plain := Exec(fuel - 1, a2.0, Style(PlainColours)).value;
              r.value.0 == plain.0 &&
              Undo(undoFuel, r.value.0, r.value.1) ==
              (var u1 :- Undo(undoFuel - 2, plain.0, plain.1);
               var u2 :- Undo(undoFuel - 2, u1, a2.1);
               Undo(undoFuel - 2, u2, a1.1))
  {
    var r := ExecUnlock(fuel, s);
    if r.Success? {
      var a1 := Exec(fuel - 1, s, RemoveAction("LOCK")).value;
      var a2 := Exec(fuel - 1, a1.0, RemoveAction("FORM LOCK")).value;
      var plain := Exec(fuel - 1, a2.0, Style(PlainColours)).value;
      UndoThree(undoFuel, plain.0, plain.1, a2.1, a1.1);
    }
  }

  /** `SystemUnlockCommand.undo()` puts the colours back, then the system
      lock. */
  lemma SystemUnlockUndoOrder(fuel: nat, undoFuel: nat, s: Archy)
    requires Sound(s) && undoFuel >= 2
    ensures var r := ExecSystemUnlock(fuel, s);
            r.Success? ==>
              fuel >= 1 && Exec(fuel - 1, s, RemoveAction("SYSTEM LOCK")).Success? &&
              var a := Exec(fuel - 1, s, RemoveAction("SYSTEM LOCK")).value;
              Exec(fuel - 1, a.0, Style(PlainColours)).Success? &&
              var plain := Exec(fuel - 1, a.0, Style(PlainColours)).value;
              r.value.0 == plain.0 &&
              Undo(undoFuel, r.value.0, r.value.1) ==
              (var u :- Undo(undoFuel - 2, plain.0, plain.1); Undo(undoFuel - 2, u, a.1))
  {
    var r := ExecSystemUnlock(fuel, s);
    if r.Success? {
      var a := Exec(fuel - 1, s, RemoveAction("SYSTEM LOCK")).value;
      var plain := Exec(fuel - 1, a.0, Style(PlainColours)).value;
      UndoTwo(undoFuel, plain.0, plain.1, a.1);
    }
  }

  /** Undoing a record that ends by putting the cursor back undoes its
      parts in order, then sets the cursor. */
  lemma UndoThenCursor(fuel: nat, s: Archy, parts: seq<Done>, cursor: int)
    requires Sound(s) && fuel >= 1
    ensures var u := UndoAll(fuel - 1, s, parts);
            Undo(fuel, s, UndoneThenCursor(parts, cursor)) ==
            (if u.Success? then Success(u.value.(doc := Documents.SetCursor(u.value.doc, cursor))) else u)
  {
  }

  /** The relock at the end of `LockAddCommand.execute()` records itself in
      front of the parts already done, and the cursor to go back to. */
  lemma RelockRecord(fuel: nat, s: Archy, name: string, undone: seq<Done>, cursor: int)
    requires Sound(s)
    ensures var r := ExecRelock(fuel, s, name, undone, cursor);
            r.Success? ==>
              r.value.1.UndoneThenCursor? && r.value.1.cursor == cursor &&
              |r.value.1.parts| == |undone| + 1 && r.value.1.parts[1..] == undone
  {
    var r := ExecRelock(fuel, s, name, undone, cursor);
    if r.Success? {
      var sel := s.doc.selections[Documents.Selection];
      var s1 := s.(doc := Documents.SetSelection(s.doc, Documents.Selection, sel.end + 1, sel.end + 1));
      var relocked := Exec(fuel - 1, s1, AddAction(name)).value;
      assert r.value.1.parts == [relocked.1] + undone;
    }
  }

  /** `LockAddCommand.undo()` at the first character of the locked
      stretch: the parts are undone last first, the unlock at the very end,
      and then the cursor goes back where the typing started (see
      `UndoThenCursor`). */
  lemma LockAddAtStartUndoOrder(fuel: nat, s: Archy, name: string, text: string, style: Documents.StyleArg)
    requires Sound(s)
    ensures var r := ExecTypeAtLockStart(fuel, s, name, text, style);
            r.Success? ==>
              r.value.1.UndoneThenCursor? && r.value.1.cursor == s.doc.cursor && fuel >= 1 &&
              var c := s.doc.cursor;
              var s1 := s.(doc := Documents.SetSelection(Documents.SetCursor(s.doc, c), Documents.Selection, c, c));
              Exec(fuel - 1, s1, RemoveAction(name)).Success? &&
              |r.value.1.parts| == 4 && r.value.1.parts[3] == Exec(fuel - 1, s1, RemoveAction(name)).value.1
  {
    var r := ExecTypeAtLockStart(fuel, s, name, text, style);
    if r.Success? {
      var c := s.doc.cursor;
      var s1 := s.(doc := Documents.SetSelection(Documents.SetCursor(s.doc, c), Documents.Selection, c, c));
      var unlocked := Exec(fuel - 1, s1, RemoveAction(name)).value;
      var added := Exec(fuel - 1, unlocked.0, AddText(text, style)).value;
      var plain := Exec(fuel - 1, added.0, Style(PlainColours)).value;
      RelockRecord(fuel - 1, plain.0, name, [plain.1, added.1, unlocked.1], c);
    }
  }

  /** Typing after a locked stretch is undone by undoing the typed text
      and putting the cursor back where the typing started. */
  lemma TypeAfterUndo(fuel: nat, undoFuel: nat, s: Archy, text: string, style: Documents.StyleArg, pos: int)
    requires Sound(s) && undoFuel >= 2
    ensures var r := ExecTypeAfter(fuel, s, text, style, pos);
            r.Success? ==>
              fuel >= 1 &&
              var s1 := s.(doc := Documents.SetCursor(s.doc, pos));
              Exec(fuel - 1, s1, AddText(text, style)).Success? &&
              var added := Exec(fuel - 1, s1, AddText(text, style)).value;
              r.value.0 == added.0 &&
              Undo(undoFuel, r.value.0, r.value.1) ==
              (var u :- Undo(undoFuel - 2, added.0, added.1);
               Success(u.(doc := Documents.SetCursor(u.doc, s.doc.cursor))))
  {
    var r := ExecTypeAfter(fuel, s, text, style, pos);
    if r.Success? {
      var s1 := s.(doc := Documents.SetCursor(s.doc, pos));
      var added := Exec(fuel - 1, s1, AddText(text, style)).value;
      UndoThenCursor(undoFuel, added.0, [added.1], s.doc.cursor);
      assert [added.1][1..] == [];
      var u := Undo(undoFuel - 2, added.0, added.1);
      if u.Success? {
        assert UndoAll(undoFuel - 1, u.value, []) == u;
      }
      assert UndoAll(undoFuel - 1, added.0, [added.1]) == u;
    }
  }

  /** `LockCommand` once the lock colours are on: the behavior goes on
      the coloured selection and the record lists it before the colours. */
  lemma LockOnStyled(fuel: nat, s: Archy, name: string, sx: (Archy, Done))
    requires Sound(s) && fuel >= 2 && Sound(sx.0)
    requires Exec(fuel - 1, s, Style(LockColours)) == Success((sx.0, Undone([sx.1])))
    requires name in sx.0.doc.behaviors.registry && BehaviorEditing.SelectionOnText(sx.0)
    ensures ExecAction(sx.0, name, true).Success?
    ensures var locked := ExecAction(sx.0, name, true).value;
            ExecLock(fuel, s, name) == Success((locked.0, Undone([locked.1, Undone([sx.1])])))
  {
    BehaviorEditing.ActionSucceeds(sx.0, name, true);
    ExecIsAddAction(fuel - 1, sx.0, name);
  }

  /** `Exec` hands an add-action command to `AddActionCommand`. */
  lemma ExecIsAddAction(fuel: nat, s: Archy, name: string)
    requires Sound(s)
    ensures Exec(fuel, s, AddAction(name)) == (if fuel == 0 then Failure(OutOfFuel) else ExecAction(s, name, true))
  {
  }

  /** Undoing the record of `LockCommand` whose colours went on as one
      `SimpleStyleCommand`: the behavior comes off, then the styles come
      back. */
  lemma LockRecordUndone(fuel: nat, s: Archy, name: string)
    requires Sound(s) && fuel >= 5 && StyleEditing.StylesInPool(s) && Documents.CursorSettled(s.doc)
    requires TextEditing.SelectionInside(s.doc) && name in s.doc.behaviors.registry
    ensures ExecSimpleStyle(s, LockColours).Success?
    ensures var sx := ExecSimpleStyle(s, LockColours).value;
            ExecAction(sx.0, name, true).Success? &&
            var locked := ExecAction(sx.0, name, true).value;
            var u := Undo(fuel, locked.0, Undone([locked.1, Undone([sx.1])]));
            u.Success? && u.value.doc.behaviors.ids == s.doc.behaviors.ids &&
            Behaviors.Grows(s.doc.behaviors, u.value.doc.behaviors) &&
            u.value == s.(doc := s.doc.(behaviors := u.value.doc.behaviors), pool := sx.0.pool)
  {
    var sx := ExecSimpleStyle(s, LockColours).value;
    assert Sound(sx.0) && name in sx.0.doc.behaviors.registry && BehaviorEditing.SelectionOnText(sx.0) by {
      StyleEditing.SimpleStyleOnlyRestyles(s, LockColours);
    }
    assert ExecAction(sx.0, name, true).Success? by {
      BehaviorEditing.ActionSucceeds(sx.0, name, true);
    }
    var locked := ExecAction(sx.0, name, true).value;
    var u1 := Undo(fuel - 2, locked.0, locked.1);
    assert u1.Success? && u1.value.doc.behaviors.ids == s.doc.behaviors.ids &&
           u1.value == sx.0.(doc := sx.0.doc.(behaviors := u1.value.doc.behaviors)) &&
           Behaviors.Grows(s.doc.behaviors, u1.value.doc.behaviors) by {
      StyleEditing.SimpleStyleOnlyRestyles(s, LockColours);
      BehaviorEditing.ActionUndoRestores(fuel - 2, sx.0, name, true);
    }
    var v := u1.value;
    assert Undo(fuel, locked.0, Undone([locked.1, Undone([sx.1])])) == Undo(fuel - 2, v, Undone([sx.1])) by {
      UndoTwo(fuel, locked.0, locked.1, Undone([sx.1]));
    }
    assert Undo(fuel - 2, v, Undone([sx.1])) == Undo(fuel - 4, v, sx.1) by {
      TextEditing.UndoOne(fuel - 2, v, sx.1);
    }
    assert Undo(fuel - 4, v, sx.1) == Success(s.(doc := s.doc.(behaviors := v.doc.behaviors), pool := sx.0.pool)) by {
      StyleEditing.SimpleStyleUndoKeepsBehaviors(fuel - 4, s, LockColours, v.doc.behaviors);
    }
  }

  /** Undoing `LockCommand` on a plain selection gives the document back:
      the behavior ids and the styles are as before, the behavior pools
      only grew and the style pool keeps the lock colours. */
  lemma LockUndoRestores(fuel: nat, s: Archy, name: string)
    requires Sound(s) && fuel >= 5 && TextEditing.Plain(s.doc.behaviors) && TextEditing.SelectionInside(s.doc)
    requires StyleEditing.StylesInPool(s) && Documents.CursorSettled(s.doc) && Documents.Length(s.doc) > 0
    requires name in s.doc.behaviors.registry
    ensures ExecLock(fuel, s, name).Success?
    ensures var ex := ExecLock(fuel, s, name).value;
            var u := Undo(fuel, ex.0, ex.1);
            u.Success? && u.value.doc.behaviors.ids == s.doc.behaviors.ids &&
            Behaviors.Grows(s.doc.behaviors, u.value.doc.behaviors) &&
            u.value == s.(doc := s.doc.(behaviors := u.value.doc.behaviors), pool := ex.0.pool)
  {
    LockStyledInPlainDoc(fuel, s);
    var sx := ExecSimpleStyle(s, LockColours).value;
    assert Sound(sx.0) && name in sx.0.doc.behaviors.registry && BehaviorEditing.SelectionOnText(sx.0) by {
      StyleEditing.SimpleStyleOnlyRestyles(s, LockColours);
    }
    LockOnStyled(fuel, s, name, sx);
    LockRecordUndone(fuel, s, name);
  }

  /** On a plain selection the lock colours go on as one
      `SimpleStyleCommand`. */
  lemma LockStyledInPlainDoc(fuel: nat, s: Archy)
    requires Sound(s) && fuel >= 4 && TextEditing.Plain(s.doc.behaviors) && TextEditing.SelectionInside(s.doc)
    requires StyleEditing.StylesInPool(s) && PyList.IndexOk(s.doc.cursor, |s.doc.behaviors.ids|)
    ensures ExecSimpleStyle(s, LockColours).Success?
    ensures var sx := ExecSimpleStyle(s, LockColours).value;
            Exec(fuel - 1, s, Style(LockColours)) == Success((sx.0, Undone([sx.1])))
  {
    StyleEditing.StyleInPlainDoc(fuel - 2, s, LockColours);
    StyleEditing.ExecIsStyle(fuel - 1, s, LockColours);
  }

  /** Undoing `FinalDocumentCharacterLockCommand` takes the lock off the
      selection again (the behavior ids are back) and then fails: the
      undo asks for a style record the command never made. */
  lemma FinalLockUndoFails(fuel: nat, s: Archy)
    requires Sound(s) && fuel >= 1 && FinalLockName in s.doc.behaviors.registry && BehaviorEditing.SelectionOnText(s)
    ensures Exec(fuel, s, FinalLock).Success?
    ensures var ex := Exec(fuel, s, FinalLock).value;
            ex.1.FinalLockWas? &&
            UndoAction(ex.0, ex.1.start, ex.1.saved).Success? &&
            UndoAction(ex.0, ex.1.start, ex.1.saved).value.doc.behaviors.ids == s.doc.behaviors.ids &&
            Undo(fuel, ex.0, ex.1) == Failure(AttributeError)
  {
    var a := ExecAction(s, FinalLockName, true).value;
    BehaviorEditing.ActionUndoRestores(fuel, s, FinalLockName, true);
    BehaviorEditing.UndoActionWas(fuel, a.0, a.1.start, a.1.saved);
    UndoOfFinalLockWas(fuel, a.0, a.1.start, a.1.saved);
  }

  /** How a final-character lock record is undone. */
  lemma UndoOfFinalLockWas(fuel: nat, p: Archy, start: int, saved: seq<nat>)
    requires Sound(p) && fuel >= 1
    ensures Undo(fuel, p, FinalLockWas(start, saved)) ==
            (var unlocked :- UndoAction(p, start, saved); Failure(AttributeError))
  {
  }
}

=== FILE: pool.dfy ===
/** The append-only interning pool behind style ids, action ids and
    behavior ids: looking a value up returns the index of its first
    occurrence, and a value is appended only when it is absent. */
module Pools {

  predicate NoDuplicates<T(==)>(pool: seq<T>) {
    forall i, j :: 0 <= i < j < |pool| ==> pool[i] != pool[j]
  }

  /** `pool'` keeps every entry of `pool` under the same id: pools only
      grow at the end. */
  ghost predicate Extends<T>(pool: seq<T>, pool': seq<T>) {
    |pool| <= |pool'| && forall i :: 0 <= i < |pool| ==> pool'[i] == pool[i]
  }

  /** Index of the first element equal to `x`, or -1 (`list.index` raising
      `ValueError`). */
  function IndexOf<T(==)>(pool: seq<T>, x: T): (i: int)
    ensures -1 <= i < |pool|
    ensures i == -1 <==> x !in pool
    ensures i >= 0 ==> pool[i] == x && forall j :: 0 <= j < i ==> pool[j] != x
  {
    if |pool| == 0 then -1
    else if pool[0] == x then 0
    else
      var k := IndexOf(pool[1..], x);
      if k == -1 then -1 else k + 1
  }

  /** `Pool.getElementID(elem)`: the pool after the lookup and the id. */
  function Intern<T(==)>(pool: seq<T>, x: T): (r: (seq<T>, nat))
    ensures x in pool ==> r.0 == pool
    ensures x !in pool ==> r.0 == pool + [x] && r.1 == |pool|
    ensures r.1 < |r.0| && r.0[r.1] == x
    ensures forall j :: 0 <= j < r.1 ==> r.0[j] != x
  {
    var i := IndexOf(pool, x);
    if i >= 0 then (pool, i) else (pool + [x], |pool|)
  }

  /** Interning never shrinks the pool, never changes an existing id's
      value and never introduces a duplicate. */
  lemma InternKeepsPool<T>(pool: seq<T>, x: T)
    ensures |Intern(pool, x).0| >= |pool|
    ensures Intern(pool, x).0[..|pool|] == pool
    ensures NoDuplicates(pool) ==> NoDuplicates(Intern(pool, x).0)
  {
  }

  /** Interning is injective: equal ids in the same pool mean equal values,
      and in a duplicate-free pool the id of a present value is its only
      index. */
  lemma InternInjective<T>(pool: seq<T>, x: T, y: T)
    requires Intern(pool, x).0 == pool && Intern(pool, y).0 == pool
    ensures Intern(pool, x).1 == Intern(pool, y).1 <==> x == y
  {
  }

  lemma UniqueIndex<T>(pool: seq<T>, i: nat)
    requires NoDuplicates(pool) && i < |pool|
    ensures Intern(pool, pool[i]) == (pool, i)
  {
  }

  /** Interning the same value twice gives the same id and leaves the pool
      as the first call left it. */
  lemma InternIdempotent<T>(pool: seq<T>, x: T)
    ensures var (p1, id1) := Intern(pool, x);
            Intern(p1, x) == (p1, id1)
  {
  }

  /** `Pool.get(id)` */
  function Get<T>(pool: seq<T>, id: nat): T
    requires id < |pool|
  {
    pool[id]
  }
}

=== FILE: pylist.dfy ===
/** Python list and string slicing, as the program relies on it.
    A slice bound that is negative counts from the end of the sequence and
    every bound is then clipped into `[0, |a|]`; a slice whose lower bound
    passes its upper bound is empty, and assigning to such a slice inserts
    at the lower bound. */
module PyList {

  /** The position a Python slice bound `i` denotes in a sequence of length `n`. */
  function SliceBound(i: int, n: nat): (b: nat)
    ensures b <= n
    ensures 0 <= i <= n ==> b == i
  {
    if i < 0 then (if i + n < 0 then 0 else i + n)
    else if i > n then n
    else i
  }

  /** `a[i:j]` */
  function Slice<T>(a: seq<T>, i: int, j: int): (r: seq<T>)
    ensures |r| <= |a|
    ensures 0 <= i <= j <= |a| ==> r == a[i..j]
  {
    var lo := SliceBound(i, |a|);
    var hi := SliceBound(j, |a|);
    if lo <= hi then a[lo..hi] else []
  }

  /** `a[i:j] = v` */
  function SliceAssign<T>(a: seq<T>, i: int, j: int, v: seq<T>): (r: seq<T>)
    ensures 0 <= i <= j <= |a| ==> r == a[..i] + v + a[j..]
    ensures |r| >= |v|
  {
    var lo := SliceBound(i, |a|);
    var hi := if SliceBound(j, |a|) < lo then lo else SliceBound(j, |a|);
    a[..lo] + v + a[hi..]
  }

  /** `[x] * k`: a negative or zero count gives the empty list. */
  function Repeat<T>(x: T, k: int): (r: seq<T>)
    ensures |r| == (if k < 0 then 0 else k)
    ensures forall i :: 0 <= i < |r| ==> r[i] == x
  {
    seq(if k < 0 then 0 else k, _ => x)
  }

  /** Whether `a[i]` succeeds in Python (negative indices count from the end). */
  predicate IndexOk(i: int, n: nat) {
    -(n as int) <= i < n
  }

  /** `a[i]` for an index Python accepts. */
  function At<T>(a: seq<T>, i: int): T
    requires IndexOk(i, |a|)
  {
    a[Norm(i, |a|)]
  }

  /** `a[i] = x` for an index Python accepts. */
  function Put<T>(a: seq<T>, i: int, x: T): (r: seq<T>)
    requires IndexOk(i, |a|)
    ensures |r| == |a|
    ensures forall k :: 0 <= k < |a| ==> r[k] == if k == Norm(i, |a|) then x else a[k]
  {
    a[Norm(i, |a|) := x]
  }

  /** The non-negative position an accepted index denotes. */
  function Norm(i: int, n: nat): (k: nat)
    requires IndexOk(i, n)
    ensures k < n
    ensures 0 <= i ==> k == i
  {
    if i < 0 then i + n else i
  }

  /** Inserting with `a[i:i] = v` puts `v` at the normalised bound and keeps
      everything else in order. */
  lemma InsertAtBound<T>(a: seq<T>, i: int, v: seq<T>)
    ensures SliceAssign(a, i, i, v)
         == a[..SliceBound(i, |a|)] + v + a[SliceBound(i, |a|)..]
  {
  }

  /** `a[-1:-1] = v` on a non-empty list inserts before the LAST element,
      not after it. */
  lemma MinusOneInsertsBeforeLast<T>(a: seq<T>, v: seq<T>)
    requires |a| > 0
    ensures SliceAssign(a, -1, -1, v) == a[..|a| - 1] + v + [a[|a| - 1]]
  {
    assert a[|a| - 1..] == [a[|a| - 1]];
  }
}

=== FILE: pystring.dfy ===
/** The Python 2 string operations the program relies on: `find`,
    `startswith`, `split`, `join`, `str()` of an integer and `int()` of a
    decimal string. */
module PyStr {
  import opened Wrappers

  const ValueError := "invalid literal for int() with base 10"

  /** `s.startswith(prefix)` */
  predicate StartsWith(s: string, prefix: string) {
    |prefix| <= |s| && s[..|prefix|] == prefix
  }

  /** `s.find(c, from)` for a single character: the first position at or
      after `from` holding `c`, or -1. */
  function Find(s: string, c: char, from: nat): (r: int)
    ensures r == -1 || (from <= r < |s| && s[r] == c)
    ensures forall i :: from <= i < |s| && (r == -1 || i < r) ==> s[i] != c
    decreases |s| - from
  {
    if from >= |s| then -1 else if s[from] == c then from else Find(s, c, from + 1)
  }

  /** The first position at or after `p` holding `c`, or `|s|`. */
  function NextChar(s: string, c: char, p: nat): (k: nat)
    requires p <= |s|
    ensures p <= k <= |s| && (k < |s| ==> s[k] == c)
    ensures forall i :: p <= i < k ==> s[i] != c
    decreases |s| - p
  {
    if p == |s| || s[p] == c then p else NextChar(s, c, p + 1)
  }

  /** `s[p:].split(c)` for a single-character separator: the pieces
      between the separators, empty ones included. */
  function SplitFrom(s: string, c: char, p: nat): (r: seq<string>)
    requires p <= |s|
    ensures |r| >= 1
    decreases |s| - p
  {
    var k := NextChar(s, c, p);
    if k == |s| then [s[p..]] else [s[p..k]] + SplitFrom(s, c, k + 1)
  }

  /** `s.split(c)` */
  function Split(s: string, c: char): (r: seq<string>)
    ensures |r| >= 1
  {
    SplitFrom(s, c, 0)
  }

  /** `sep.join(pieces)` */
  function Join(pieces: seq<string>, sep: string): string {
    if |pieces| == 0 then ""
    else if |pieces| == 1 then pieces[0]
    else pieces[0] + sep + Join(pieces[1..], sep)
  }

  /** Joining the pieces with the separator gives the string back. */
  lemma {:induction false} SplitFromJoin(s: string, c: char, p: nat)
    requires p <= |s|
    ensures Join(SplitFrom(s, c, p), [c]) == s[p..]
    decreases |s| - p
  {
    var k := NextChar(s, c, p);
    if k < |s| {
      SplitFromJoin(s, c, k + 1);
      SplitFromStep(s, c, p, k);
      JoinAtChar(s, c, p, k, SplitFrom(s, c, k + 1));
    } else {
      assert SplitFrom(s, c, p) == [s[p..]];
    }
  }

  lemma JoinAtChar(s: string, c: char, p: nat, k: nat, rest: seq<string>)
    requires p <= k < |s| && s[k] == c
    requires |rest| > 0 && Join(rest, [c]) == s[k + 1..]
    ensures Join([s[p..k]] + rest, [c]) == s[p..]
  {
    JoinCons(s[p..k], rest, [c]);
    assert s[k..k + 1] == [c];
    ThreeSlices(s, p, k, k + 1);
  }

  lemma JoinAtSep(s: string, sep: string, p: nat, k: nat, next: nat, rest: seq<string>)
    requires p <= k && next == k + |sep| <= |s| && s[k..next] == sep
    requires |rest| > 0 && Join(rest, sep) == s[next..]
    ensures Join([s[p..k]] + rest, sep) == s[p..]
  {
    JoinCons(s[p..k], rest, sep);
    ThreeSlices(s, p, k, next);
  }

  lemma JoinCons(head: string, rest: seq<string>, sep: string)
    requires |rest| > 0
    ensures Join([head] + rest, sep) == head + sep + Join(rest, sep)
  {
    assert ([head] + rest)[1..] == rest;
  }

  /** No piece holds the separator. */
  lemma {:induction false} SplitFromAvoids(s: string, c: char, p: nat, i: nat)
    requires p <= |s| && i < |SplitFrom(s, c, p)|
    ensures c !in SplitFrom(s, c, p)[i]
    decreases |s| - p
  {
    var k := NextChar(s, c, p);
    if k < |s| && i > 0 {
      SplitFromAvoids(s, c, k + 1, i - 1);
    } else {
      assert SplitFrom(s, c, p)[i] == s[p..k];
      assert forall j :: 0 <= j < k - p ==> s[p..k][j] == s[p + j];
    }
  }

  lemma SplitJoin(s: string, c: char)
    ensures Join(Split(s, c), [c]) == s
    ensures forall i :: 0 <= i < |Split(s, c)| ==> c !in Split(s, c)[i]
  {
    SplitFromJoin(s, c, 0);
    forall i | 0 <= i < |Split(s, c)| ensures c !in Split(s, c)[i] {
      SplitFromAvoids(s, c, 0, i);
    }
  }

  /** `sub` occurs in `s` at position `i`. */
  predicate OccursAt(s: string, sub: string, i: nat) {
    i + |sub| <= |s| && s[i..i + |sub|] == sub
  }

  /** `s.find(sub, from)`: the first position at or after `from` where
      `sub` occurs, or -1. */
  function FindStr(s: string, sub: string, from: nat): (r: int)
    ensures r == -1 || (from <= r && OccursAt(s, sub, r))
    ensures forall i: nat :: from <= i && (r == -1 || i < r) ==> !OccursAt(s, sub, i)
    decreases |s| - from
  {
    if from + |sub| > |s| then -1
    else if s[from..from + |sub|] == sub then from
    else FindStr(s, sub, from + 1)
  }

  /** `s[p:].split(sep)` for a non-empty separator: occurrences are taken
      from the left without overlap. */
  function SplitStrFrom(s: string, sep: string, p: nat): (r: seq<string>)
    requires |sep| > 0 && p <= |s|
    ensures |r| >= 1
    decreases |s| - p
  {
    var k := FindStr(s, sep, p);
    if k == -1 then [s[p..]] else [s[p..k]] + SplitStrFrom(s, sep, k + |sep|)
  }

  /** `s.split(sep)`; Python raises on an empty separator, which the
      program never passes. */
  function SplitStr(s: string, sep: string): (r: seq<string>)
    requires |sep| > 0
    ensures |r| >= 1
  {
    SplitStrFrom(s, sep, 0)
  }

  /** Joining the pieces with the separator gives the string back. */
  lemma {:induction false} SplitStrFromJoin(s: string, sep: string, p: nat)
    requires |sep| > 0 && p <= |s|
    ensures Join(SplitStrFrom(s, sep, p), sep) == s[p..]
    decreases |s| - p
  {
    var k := FindStr(s, sep, p);
    if k != -1 {
      var next := k + |sep|;
      SplitStrFromJoin(s, sep, next);
      SplitStrFromStep(s, sep, p, k, next);
      JoinAtSep(s, sep, p, k, next, SplitStrFrom(s, sep, next));
    }
  }

  lemma ThreeSlices(s: string, p: nat, k: nat, m: nat)
    requires p <= k <= m <= |s|
    ensures s[p..] == s[p..k] + s[k..m] + s[m..]
  {
    assert s[p..] == s[p..k] + s[k..];
    assert s[k..] == s[k..m] + s[m..];
  }

  /** The first piece ends at the first occurrence of the separator, and
      there is a second piece exactly when the separator occurs. */
  lemma SplitStrHead(s: string, sep: string)
    requires |sep| > 0
    ensures var k := FindStr(s, sep, 0);
            (|SplitStr(s, sep)| >= 2 <==> k != -1) &&
            (k == -1 ==> SplitStr(s, sep) == [s]) &&
            (k != -1 ==> SplitStr(s, sep)[0] == s[..k] &&
                         SplitStr(s, sep)[1] == SplitStrFrom(s, sep, k + |sep|)[0])
  {
  }

  /** The single-character split is the string split with a one-character
      separator. */
  lemma {:induction false} SplitFromIsSplitStr(s: string, c: char, p: nat)
    requires p <= |s|
    ensures SplitFrom(s, c, p) == SplitStrFrom(s, [c], p)
    decreases |s| - p
  {
    var k := NextChar(s, c, p);
    FindOneChar(s, c, p);
    if k < |s| {
      SplitFromIsSplitStr(s, c, k + 1);
      SplitFromStep(s, c, p, k);
      SplitStrFromStep(s, [c], p, k, k + 1);
    } else {
      assert SplitStrFrom(s, [c], p) == [s[p..]];
    }
  }

  lemma SplitFromStep(s: string, c: char, p: nat, k: nat)
    requires p <= |s| && k == NextChar(s, c, p) < |s|
    ensures SplitFrom(s, c, p) == [s[p..k]] + SplitFrom(s, c, k + 1)
  {
  }

  lemma SplitStrFromStep(s: string, sep: string, p: nat, k: nat, next: nat)
    requires |sep| > 0 && p <= |s| && k == FindStr(s, sep, p) && next == k + |sep|
    ensures next <= |s|
    ensures SplitStrFrom(s, sep, p) == [s[p..k]] + SplitStrFrom(s, sep, next)
  {
  }

  lemma {:induction false} FindOneChar(s: string, c: char, p: nat)
    requires p <= |s|
    ensures FindStr(s, [c], p) == (if NextChar(s, c, p) == |s| then -1 else NextChar(s, c, p))
    decreases |s| - p
  {
    if p < |s| {
      assert s[p..p + 1] == [s[p]];
      FindOneChar(s, c, p + 1);
    }
  }

  // ---------------------------------------------------------------------
  // str(n) and int(s)
  // ---------------------------------------------------------------------

  predicate IsDigit(c: char) { '0' <= c <= '9' }

  function DigitValue(c: char): nat
    requires IsDigit(c)
  {
    (c as int) - ('0' as int)
  }

  function DigitChar(d: nat): (c: char)
    requires d < 10
    ensures IsDigit(c) && DigitValue(c) == d
  {
    ('0' as int + d) as char
  }

  predicate AllDigits(s: string) {
    forall i :: 0 <= i < |s| ==> IsDigit(s[i])
  }

  /** The value of a string of decimal digits. */
  function DecimalValue(s: string): nat
    requires AllDigits(s)
  {
    if |s| == 0 then 0 else DecimalValue(s[..|s| - 1]) * 10 + DigitValue(s[|s| - 1])
  }

  /** `str(n)` for a natural number: no leading zeros. */
  function ShowNat(n: nat): (r: string)
    ensures |r| >= 1 && AllDigits(r)
    ensures |r| > 1 ==> r[0] != '0'
  {
    if n < 10 then [DigitChar(n)] else ShowNat(n / 10) + [DigitChar(n % 10)]
  }

  /** `str(i)` */
  function ShowInt(i: int): string {
    if i < 0 then "-" + ShowNat(-i) else ShowNat(i)
  }

  /** The whitespace `int()` strips: `string.whitespace` of Python 2. */
  predicate IsSpace(c: char) {
    c == ' ' || c == '\t' || c == '\n' || c == '\r' || c == '\U{0B}' || c == '\U{0C}'
  }

  function StripLeft(s: string): (r: string)
    ensures |r| <= |s|
    ensures |r| > 0 ==> !IsSpace(r[0])
  {
    if |s| > 0 && IsSpace(s[0]) then StripLeft(s[1..]) else s
  }

  function StripRight(s: string): (r: string)
    ensures |r| <= |s|
    ensures |r| > 0 ==> !IsSpace(r[|r| - 1])
  {
    if |s| > 0 && IsSpace(s[|s| - 1]) then StripRight(s[..|s| - 1]) else s
  }

  /** What follows an optional leading sign. */
  function Unsigned(t: string): string {
    if |t| > 0 && (t[0] == '+' || t[0] == '-') then t[1..] else t
  }

  /** `int(s)` with base 10: surrounding whitespace, an optional sign, then
      one or more digits; anything else raises ValueError. */
  function ParseInt(s: string): (r: Result<int>)
    ensures r.Failure? ==> r.error == ValueError
    ensures r.Success? ==> |StripRight(StripLeft(s))| > 0
  {
    ParseBare(StripRight(StripLeft(s)))
  }

  /** `int()` of a string already stripped of surrounding whitespace. */
  function ParseBare(t: string): (r: Result<int>)
    ensures r.Failure? ==> r.error == ValueError
    ensures r.Success? ==> |t| > 0
  {
    var d := Unsigned(t);
    if |d| > 0 && AllDigits(d) then
      Success(if t[0] == '-' then -(DecimalValue(d) as int) else DecimalValue(d))
    else Failure(ValueError)
  }

  /** A string with no digit at all is not a number. */
  lemma ParseNeedsDigits(s: string)
    requires forall i :: 0 <= i < |s| ==> !IsDigit(s[i])
    ensures ParseInt(s).Failure?
  {
    var t := StripRight(StripLeft(s));
    var d := Unsigned(t);
    if |d| > 0 {
      StripInside(s);
      assert d[0] in t;
    }
  }

  lemma {:induction false} ShowNatValue(n: nat)
    ensures DecimalValue(ShowNat(n)) == n
  {
    if n >= 10 {
      ShowNatValue(n / 10);
      var r := ShowNat(n);
      assert r[..|r| - 1] == ShowNat(n / 10);
    }
  }

  /** Stripping keeps only characters of the string. */
  lemma {:induction false} StripInside(s: string)
    ensures forall c :: c in StripRight(StripLeft(s)) ==> c in s
  {
    StripLeftInside(s);
    StripRightInside(StripLeft(s));
  }

  lemma {:induction false} StripLeftInside(s: string)
    ensures forall c :: c in StripLeft(s) ==> c in s
  {
    if |s| > 0 && IsSpace(s[0]) {
      StripLeftInside(s[1..]);
    }
  }

  lemma {:induction false} StripRightInside(s: string)
    ensures forall c :: c in StripRight(s) ==> c in s
  {
    if |s| > 0 && IsSpace(s[|s| - 1]) {
      StripRightInside(s[..|s| - 1]);
    }
  }

  lemma NoSpaceStrips(s: string)
    requires forall i :: 0 <= i < |s| ==> !IsSpace(s[i])
    ensures StripRight(StripLeft(s)) == s
  {
  }

  /** A sign followed by digits parses to its value. */
  lemma ParseSigned(sign: string, digits: string)
    requires sign == "" || sign == "-"
    requires |digits| > 0 && AllDigits(digits)
    ensures ParseInt(sign + digits) ==
            Success(if sign == "-" then -(DecimalValue(digits) as int) else DecimalValue(digits))
  {
    var s := sign + digits;
    SignedStrips(sign, digits);
    SignedUnsigned(sign, digits);
    ParseStripped(s, digits);
  }

  lemma SignedUnsigned(sign: string, digits: string)
    requires sign == "" || sign == "-"
    requires |digits| > 0 && AllDigits(digits)
    ensures Unsigned(sign + digits) == digits
    ensures (sign + digits)[0] == '-' <==> sign == "-"
  {
    var s := sign + digits;
    if sign == "-" {
      assert s[0] == '-' && s[1..] == digits;
    } else {
      assert s == digits && IsDigit(s[0]);
    }
  }

  lemma SignedStrips(sign: string, digits: string)
    requires sign == "" || sign == "-"
    requires AllDigits(digits)
    ensures StripRight(StripLeft(sign + digits)) == sign + digits
  {
    var s := sign + digits;
    forall i | 0 <= i < |s| ensures !IsSpace(s[i]) {
      if i >= |sign| {
        assert s[i] == digits[i - |sign|];
      }
    }
    NoSpaceStrips(s);
  }

  lemma ParseStripped(s: string, digits: string)
    requires Unsigned(s) == digits && |digits| > 0 && AllDigits(digits)
    ensures ParseBare(s) == Success(if s[0] == '-' then -(DecimalValue(digits) as int) else DecimalValue(digits))
  {
  }

  /** `int(str(i)) == i` */
  lemma ParseShowInt(i: int)
    ensures ParseInt(ShowInt(i)) == Success(i)
  {
    var n: nat := if i < 0 then -i else i;
    ShowNatValue(n);
    if i < 0 {
      ParseSigned("-", ShowNat(n));
    } else {
      ParseSigned("", ShowNat(n));
      assert "" + ShowNat(n) == ShowInt(i);
    }
  }
}

=== FILE: recording.dfy ===
/** The recording stack of `commands/recording.py`: each recording is a
    list of executed commands, most recent first, and recordings nest. The
    stack is generic in its entries; running the commands is the
    interpreter's part. */
module Recording {
  import opened Wrappers

  const PopFromEmpty := "pop from empty list"
  const IndexError := "list index out of range"

  /** `__commandRecording`: the innermost recording is the last list. */
  type Stack<E> = seq<seq<E>>

  /** `start_recording()`: pushes one empty list. */
  function Start<E>(st: Stack<E>): (r: Stack<E>)
    ensures |r| == |st| + 1 && r[..|st|] == st && r[|st|] == []
  {
    st + [[]]
  }

  /** `stop_recording()`: pops the innermost recording, which becomes the
      `RecordedCommandList`; with no recording open the pop raises. */
  function Stop<E>(st: Stack<E>): (r: Result<(seq<E>, Stack<E>)>)
    ensures r.Success? <==> |st| > 0
    ensures r.Failure? ==> r.error == PopFromEmpty
    ensures r.Success? ==> st == r.value.1 + [r.value.0]
  {
    if |st| == 0 then Failure(PopFromEmpty)
    else Success((st[|st| - 1], st[..|st| - 1]))
  }

  /** The recording half of `execute_and_record_command(command)`, run
      after the command executed: the command goes to the FRONT of the
      innermost list; with no recording open `[-1]` raises. */
  function Record<E>(st: Stack<E>, e: E): (r: Result<Stack<E>>)
    ensures r.Success? <==> |st| > 0
    ensures r.Failure? ==> r.error == IndexError
    ensures r.Success? ==>
              |r.value| == |st| && r.value[..|st| - 1] == st[..|st| - 1] &&
              r.value[|st| - 1] == [e] + st[|st| - 1]
  {
    if |st| == 0 then Failure(IndexError)
    else Success(st[..|st| - 1] + [[e] + st[|st| - 1]])
  }

  /** Balanced start and stop give back the stack and an empty recording. */
  lemma StartThenStop<E>(st: Stack<E>)
    ensures Stop(Start(st)) == Success(([], st))
  {
    assert Start(st)[..|st|] == st;
  }

  function Reverse<E>(s: seq<E>): (r: seq<E>)
    ensures |r| == |s|
    ensures forall i :: 0 <= i < |s| ==> r[i] == s[|s| - 1 - i]
  {
    if |s| == 0 then [] else Reverse(s[1..]) + [s[0]]
  }

  lemma {:induction false} ReverseReverse<E>(s: seq<E>)
    ensures Reverse(Reverse(s)) == s
  {
    var r := Reverse(s);
    assert forall i :: 0 <= i < |s| ==> Reverse(r)[i] == s[i];
  }

  /** Records a series of executed commands, oldest first. */
  function RecordAll<E>(st: Stack<E>, es: seq<E>): (r: Result<Stack<E>>)
    ensures r.Success? <==> |st| > 0
    decreases |es|
  {
    if |es| == 0 then (if |st| == 0 then Failure(IndexError) else Success(st))
    else
      match Record(st, es[0])
      case Failure(m) => Failure(m)
      case Success(st') => RecordAll(st', es[1..])
  }

  /** The innermost recording ends up holding the recorded commands most
      recent first, in front of what it held; the outer recordings are
      untouched. */
  lemma {:induction false} RecordAllReverses<E>(st: Stack<E>, es: seq<E>)
    requires |st| > 0
    ensures RecordAll(st, es) == Success(st[..|st| - 1] + [Reverse(es) + st[|st| - 1]])
    decreases |es|
  {
    var n := |st|;
    if |es| == 0 {
      assert Reverse(es) + st[n - 1] == st[n - 1];
      assert st[..n - 1] + [st[n - 1]] == st;
    } else {
      var st' := Record(st, es[0]).value;
      assert RecordAll(st, es) == RecordAll(st', es[1..]);
      RecordAllReverses(st', es[1..]);
      assert st'[..n - 1] == st[..n - 1];
      assert Reverse(es[1..]) + ([es[0]] + st[n - 1]) == Reverse(es) + st[n - 1];
    }
  }

  /** `RecordedCommandList.undo`: the members in list order, most recent
      first. */
  function UndoOrder<E>(recorded: seq<E>): seq<E> {
    recorded
  }

  /** `RecordedCommandList.redo`: the members from the end of the list
      back, oldest first. */
  function RedoOrder<E>(recorded: seq<E>): (r: seq<E>)
    ensures |r| == |recorded|
  {
    if |recorded| == 0 then [] else [recorded[|recorded| - 1]] + RedoOrder(recorded[..|recorded| - 1])
  }

  /** The redo order walks the list backwards. */
  lemma {:induction false} RedoOrderIsReverse<E>(recorded: seq<E>)
    ensures RedoOrder(recorded) == Reverse(recorded)
    decreases |recorded|
  {
    if |recorded| > 0 {
      var n := |recorded|;
      RedoOrderIsReverse(recorded[..n - 1]);
      assert forall i :: 0 <= i < n ==> RedoOrder(recorded)[i] == Reverse(recorded)[i] by {
        forall i | 0 <= i < n ensures RedoOrder(recorded)[i] == Reverse(recorded)[i] {
          if i > 0 {
            assert RedoOrder(recorded)[i] == RedoOrder(recorded[..n - 1])[i - 1];
          }
        }
      }
    }
  }

  /** A recording of `es` stopped right after it started: its redo
      re-executes `es` in the original order and its undo takes them back
      latest first. */
  lemma RecordedOrders<E>(st: Stack<E>, es: seq<E>)
    ensures RecordAll(Start(st), es) == Success(st + [Reverse(es)])
    ensures Stop(st + [Reverse(es)]) == Success((Reverse(es), st))
    ensures RedoOrder(Reverse(es)) == es
    ensures |UndoOrder(Reverse(es))| == |es| &&
            forall i :: 0 <= i < |es| ==> UndoOrder(Reverse(es))[i] == es[|es| - 1 - i]
  {
    var s0 := Start(st);
    RecordAllReverses(s0, es);
    assert s0[..|s0| - 1] == st;
    assert Reverse(es) + [] == Reverse(es);
    assert (st + [Reverse(es)])[..|st|] == st;
    RedoOrderIsReverse(Reverse(es));
    ReverseReverse(es);
  }
}

=== FILE: run.dfy ===
/** The text parsing of `commands/run.py`: cutting the selected text into
    '`'-separated documents, naming the module and command-script
    documents, registering the modules, picking the loose code, reading
    file and line pairs out of a traceback, and decoding the fake file
    names the code objects carry. Compiling and executing the code is not
    modelled. */
module Run {
  import opened Wrappers
  import PyList
  import opened PyStr

  const DocumentSeparator := '`'
  const ModuleDelimiter := "module "
  const CommandScriptDelimiter := "command script "
  const UserWrittenModulePrefix := "<user-written module: "
  const UserWrittenCmdPrefix := "<user-written command: "
  const SelectedTextPrefix := "<selected text @ "
  const FilePrefix := "  File \""
  const LinePrefix := "line "
  const PartSeparator := ", "

  // ---------------------------------------------------------------------
  // Documents
  // ---------------------------------------------------------------------

  /** The pieces that start with `delimiter`, in order. */
  function StartingWith(pieces: seq<string>, delimiter: string): seq<string> {
    if |pieces| == 0 then []
    else if StartsWith(pieces[0], delimiter) then [pieces[0]] + StartingWith(pieces[1..], delimiter)
    else StartingWith(pieces[1..], delimiter)
  }

  /** The pieces that do not start with `delimiter`, in order. */
  function NotStartingWith(pieces: seq<string>, delimiter: string): seq<string> {
    if |pieces| == 0 then []
    else if StartsWith(pieces[0], delimiter) then NotStartingWith(pieces[1..], delimiter)
    else [pieces[0]] + NotStartingWith(pieces[1..], delimiter)
  }

  /** Every piece lands in exactly one of the two selections, and each
      selection holds just the pieces of its kind. */
  lemma {:induction false} PiecesPartition(pieces: seq<string>, delimiter: string)
    ensures |StartingWith(pieces, delimiter)| + |NotStartingWith(pieces, delimiter)| == |pieces|
    ensures forall x :: x in StartingWith(pieces, delimiter) <==> x in pieces && StartsWith(x, delimiter)
    ensures forall x :: x in NotStartingWith(pieces, delimiter) <==> x in pieces && !StartsWith(x, delimiter)
  {
    if |pieces| > 0 {
      PiecesPartition(pieces[1..], delimiter);
      assert pieces == [pieces[0]] + pieces[1..];
    }
  }

  datatype NamedDoc = NamedDoc(name: string, doc: string)

  /** `doc[len(delimiter):first_cr]` as written: when the document holds
      no newline `first_cr` is -1 and the slice stops one short of the
      end. */
  function NameAsWritten(doc: string, delimiter: string): string {
    PyList.Slice(doc, |delimiter|, Find(doc, '\n', 0))
  }

  /** `named_document_iterator(text, delimiter)` as written. */
  function NamedDocumentsAsWritten(text: string, delimiter: string): (r: seq<NamedDoc>)
    ensures var docs := StartingWith(Split(text, DocumentSeparator), delimiter);
            |r| == |docs| && forall k :: 0 <= k < |r| ==> r[k] == NamedDoc(NameAsWritten(docs[k], delimiter), docs[k])
  {
    var docs := StartingWith(Split(text, DocumentSeparator), delimiter);
    seq(|docs|, k requires 0 <= k < |docs| => NamedDoc(NameAsWritten(docs[k], delimiter), docs[k]))
  }

  /** A module document of a single line loses the last character of its
      name: "module foo" is registered as "fo". */
  lemma OneLineNameTruncated()
    ensures NamedDocumentsAsWritten("module foo", ModuleDelimiter) == [NamedDoc("fo", "module foo")]
  {
    var text := "module foo";
    assert DocumentSeparator !in text && '\n' !in text;
    assert NextChar(text, DocumentSeparator, 0) == |text|;
    assert Split(text, DocumentSeparator) == [text];
    assert text[..|ModuleDelimiter|] == ModuleDelimiter;
    assert Find(text, '\n', 0) == -1;
    assert NameAsWritten(text, ModuleDelimiter) == "fo";
    assert StartingWith([text], ModuleDelimiter) == [text];
    assert StartingWith([text], ModuleDelimiter) == [text];
    assert Find(text, '\n', 0) == -1;
  }

  /** The name of a document: the text between the delimiter and the first
      newline, or the end of the document when it has none. */
  function NameOf(doc: string, delimiter: string): (r: string)
    ensures StartsWith(doc, delimiter) && '\n' !in delimiter ==>
              |delimiter| + |r| <= |doc| && doc[..|delimiter| + |r|] == delimiter + r && '\n' !in r &&
              (|delimiter| + |r| == |doc| || doc[|delimiter| + |r|] == '\n')
  {
    var nl := Find(doc, '\n', 0);
    var r := PyList.Slice(doc, |delimiter|, if nl == -1 then |doc| else nl);
    if StartsWith(doc, delimiter) && '\n' !in delimiter then
      assert forall i :: 0 <= i < |delimiter| ==> doc[i] == delimiter[i];
      assert doc[..|delimiter| + |r|] == doc[..|delimiter|] + r;
      r
    else r
  }

  /** `named_document_iterator(text, delimiter)`, with the name running to
      the end of a document that has no newline. */
  function NamedDocuments(text: string, delimiter: string): (r: seq<NamedDoc>)
    ensures var docs := StartingWith(Split(text, DocumentSeparator), delimiter);
            |r| == |docs| && forall k :: 0 <= k < |r| ==> r[k] == NamedDoc(NameOf(docs[k], delimiter), docs[k])
  {
    var docs := StartingWith(Split(text, DocumentSeparator), delimiter);
    seq(|docs|, k requires 0 <= k < |docs| => NamedDoc(NameOf(docs[k], delimiter), docs[k]))
  }

  /** Each named document is a whole '`'-separated segment that starts with
      the delimiter, every such segment is named, and the name follows the
      delimiter up to the line's end. */
  lemma NamedDocumentsAreSegments(text: string, delimiter: string)
    requires '\n' !in delimiter
    ensures var r := NamedDocuments(text, delimiter);
            var segments := Split(text, DocumentSeparator);
            (forall k :: 0 <= k < |r| ==>
               r[k].doc in segments && StartsWith(r[k].doc, delimiter) && DocumentSeparator !in r[k].doc &&
               r[k].doc[..|delimiter| + |r[k].name|] == delimiter + r[k].name && '\n' !in r[k].name) &&
            (forall x :: x in segments && StartsWith(x, delimiter) ==> exists k :: 0 <= k < |r| && r[k].doc == x)
  {
    var r := NamedDocuments(text, delimiter);
    var segments := Split(text, DocumentSeparator);
    var docs := StartingWith(segments, delimiter);
    PiecesPartition(segments, delimiter);
    SplitJoin(text, DocumentSeparator);
    forall k | 0 <= k < |r|
      ensures DocumentSeparator !in r[k].doc
    {
      assert r[k].doc in docs;
      var j :| 0 <= j < |segments| && segments[j] == r[k].doc;
    }
    forall x | x in segments && StartsWith(x, delimiter)
      ensures exists k :: 0 <= k < |r| && r[k].doc == x
    {
      var k :| 0 <= k < |docs| && docs[k] == x;
      assert r[k].doc == x;
    }
  }

  /** `register_modules(text)` folds each module document into a fresh map
      as name to `"#" + doc`, a later document taking over its name. */
  function Register(docs: seq<NamedDoc>): (m: map<string, string>)
    ensures forall k :: 0 <= k < |docs| ==> docs[k].name in m
    ensures forall n :: n in m ==> exists k :: 0 <= k < |docs| && docs[k].name == n
  {
    if |docs| == 0 then map[]
    else
      var last := docs[|docs| - 1];
      var init := docs[..|docs| - 1];
      var m := Register(init);
      assert forall k :: 0 <= k < |docs| - 1 ==> init[k] == docs[k];
      m[last.name := "#" + last.doc]
  }

  /** `register_modules(text)`: the module map is rebuilt from the module
      documents alone. */
  function RegisterModules(text: string): (m: map<string, string>)
    ensures forall d :: d in NamedDocuments(text, ModuleDelimiter) ==> d.name in m
    ensures forall n :: n in m ==> exists d :: d in NamedDocuments(text, ModuleDelimiter) && d.name == n
  {
    Register(NamedDocuments(text, ModuleDelimiter))
  }

  /** The module registered under a name is the last document of that
      name, with its first line commented out. */
  lemma {:induction false} RegisterLastWins(docs: seq<NamedDoc>, k: nat)
    requires k < |docs|
    requires forall j :: k < j < |docs| ==> docs[j].name != docs[k].name
    ensures docs[k].name in Register(docs) && Register(docs)[docs[k].name] == "#" + docs[k].doc
    decreases |docs|
  {
    if k < |docs| - 1 {
      var init := docs[..|docs| - 1];
      assert forall j :: k < j < |init| ==> init[j] == docs[j];
      RegisterLastWins(init, k);
    }
  }

  /** The loose code of `execute_code_in_documents(text, ...)`: every
      segment that is not a module, with a `#` in front. */
  function LooseCode(text: string): (r: seq<string>)
    ensures var loose := NotStartingWith(Split(text, DocumentSeparator), ModuleDelimiter);
            |r| == |loose| && forall k :: 0 <= k < |r| ==> r[k] == "#" + loose[k]
  {
    var loose := NotStartingWith(Split(text, DocumentSeparator), ModuleDelimiter);
    seq(|loose|, k requires 0 <= k < |loose| => "#" + loose[k])
  }

  /** Each segment is either a module or loose code, never both. */
  lemma ModulesAndLooseCodeSplitText(text: string)
    ensures |NamedDocuments(text, ModuleDelimiter)| + |LooseCode(text)| == |Split(text, DocumentSeparator)|
    ensures forall k :: 0 <= k < |LooseCode(text)| ==>
              LooseCode(text)[k][1..] in Split(text, DocumentSeparator) &&
              !StartsWith(LooseCode(text)[k][1..], ModuleDelimiter)
  {
    var segments := Split(text, DocumentSeparator);
    PiecesPartition(segments, ModuleDelimiter);
    var loose := NotStartingWith(segments, ModuleDelimiter);
    forall k | 0 <= k < |LooseCode(text)|
      ensures LooseCode(text)[k][1..] == loose[k]
    {
      assert LooseCode(text)[k] == "#" + loose[k];
    }
  }

  // ---------------------------------------------------------------------
  // Tracebacks
  // ---------------------------------------------------------------------

  datatype FileLine = FileLine(filename: string, line: int)

  /** One line of `get_file_traceback_lines`: a line that starts with
      `  File "` and has at least two `", "` parts gives the file name
      inside the quotes and the integer after `line `; a part that is not
      an integer raises. Other lines give nothing. */
  function TracebackLine(line: string): (r: Result<Option<FileLine>>)
    ensures !StartsWith(line, FilePrefix) || FindStr(line, PartSeparator, 0) == -1 <==> r == Success(None)
    ensures r.Failure? ==> r.error == ValueError
  {
    SplitStrHead(line, PartSeparator);
    if !StartsWith(line, FilePrefix) then Success(None)
    else
      var parts := SplitStr(line, PartSeparator);
      if |parts| < 2 then Success(None)
      else
        var filename := PyList.Slice(parts[0], |FilePrefix|, -1);
        match ParseInt(PyList.Slice(parts[1], |LinePrefix|, |parts[1]|))
        case Failure(e) => Failure(e)
        case Success(n) => Success(Some(FileLine(filename, n)))
  }

  /** `get_file_traceback_lines(text)`: the lines of `text` in order; the
      first line whose number does not parse raises. */
  function TracebackLines(text: string): Result<seq<FileLine>> {
    CollectLines(Split(text, '\n'))
  }

  function CollectLines(lines: seq<string>): (r: Result<seq<FileLine>>)
    ensures r.Success? <==> forall i :: 0 <= i < |lines| ==> TracebackLine(lines[i]).Success?
    ensures r.Success? ==> |r.value| <= |lines|
  {
    if |lines| == 0 then Success([])
    else
      match TracebackLine(lines[0])
      case Failure(e) => Failure(e)
      case Success(found) =>
        match CollectLines(lines[1..])
        case Failure(e) => Failure(e)
        case Success(rest) =>
          assert forall i :: 1 <= i < |lines| ==> lines[i] == lines[1..][i - 1];
          Success(if found.Some? then [found.value] + rest else rest)
  }

  /** The lines a traceback prints for a frame: `  File "name", line n`
      and, inside a function, `, in f`. */
  function FrameLine(filename: string, n: int, rest: string): string {
    FilePrefix + filename + "\"" + PartSeparator + LinePrefix + ShowInt(n) + rest
  }

  /** A frame line whose file name has no comma reads back as its name
      and number. */
  lemma FrameLineRoundTrip(filename: string, n: int, rest: string)
    requires ',' !in filename
    requires rest == "" || StartsWith(rest, PartSeparator)
    ensures TracebackLine(FrameLine(filename, n, rest)) == Success(Some(FileLine(filename, n)))
  {
    var head := FilePrefix + filename + "\"";
    var number := LinePrefix + ShowInt(n);
    FrameLineIs(filename, n, rest);
    FrameLineParts(filename, n, rest);
    Enclosed(FilePrefix, filename, "\"");
    StartsWithAppend(head, FilePrefix, PartSeparator + number + rest);
    AfterPrefix(LinePrefix, ShowInt(n));
    ParseShowInt(n);
  }

  lemma FrameLineIs(filename: string, n: int, rest: string)
    ensures FrameLine(filename, n, rest) ==
              (FilePrefix + filename + "\"") + (PartSeparator + (LinePrefix + ShowInt(n)) + rest)
  {
  }

  lemma StartsWithAppend(s: string, prefix: string, tail: string)
    requires StartsWith(s, prefix)
    ensures StartsWith(s + tail, prefix)
  {
    assert (s + tail)[..|prefix|] == s[..|prefix|];
  }

  lemma AfterPrefix(prefix: string, s: string)
    ensures PyList.Slice(prefix + s, |prefix|, |prefix + s|) == s
  {
    assert (prefix + s)[|prefix|..] == s;
  }

  /** The two parts of a frame line are the quoted name and the number. */
  lemma FrameLineParts(filename: string, n: int, rest: string)
    requires ',' !in filename
    requires rest == "" || StartsWith(rest, PartSeparator)
    ensures var parts := SplitStr(FrameLine(filename, n, rest), PartSeparator);
            |parts| >= 2 && parts[0] == FilePrefix + filename + "\"" && parts[1] == LinePrefix + ShowInt(n)
  {
    var head := FilePrefix + filename + "\"";
    var number := LinePrefix + ShowInt(n);
    assert FrameLine(filename, n, rest) == head + PartSeparator + number + rest by {
      Regroup(FilePrefix, filename, "\"", PartSeparator, LinePrefix, ShowInt(n), rest);
    }
    assert ',' !in head by { QuotedHasNoComma(filename); }
    assert ',' !in number by { NumberHasNoComma(n); }
    TwoParts(head, number, rest);
  }

  lemma Regroup(a: string, b: string, c: string, d: string, e: string, f: string, g: string)
    ensures a + b + c + d + e + f + g == (a + b + c) + d + (e + f) + g
  {
  }

  lemma QuotedHasNoComma(filename: string)
    requires ',' !in filename
    ensures ',' !in FilePrefix + filename + "\""
  {
    var head := FilePrefix + filename + "\"";
    assert forall i :: |FilePrefix| <= i < |FilePrefix| + |filename| ==> head[i] == filename[i - |FilePrefix|];
  }

  lemma TwoParts(head: string, part: string, rest: string)
    requires ',' !in head && ',' !in part
    requires rest == "" || StartsWith(rest, PartSeparator)
    ensures var parts := SplitStr(head + PartSeparator + part + rest, PartSeparator);
            |parts| >= 2 && parts[0] == head && parts[1] == part
  {
    var line := head + PartSeparator + part + rest;
    assert line == head + PartSeparator + (part + rest);
    HeadIsFirstPart(head, part + rest);
    assert line[..|head|] == head;
    SplitStrHead(line, PartSeparator);
    SecondPart(head + PartSeparator, part, rest);
  }

  /** Before a comma-free head, no separator occurs. */
  lemma HeadIsFirstPart(head: string, tail: string)
    requires ',' !in head
    ensures FindStr(head + PartSeparator + tail, PartSeparator, 0) == |head|
  {
    var line := head + PartSeparator + tail;
    assert forall i :: 0 <= i < |head| ==> line[i] == head[i];
    assert line[|head|..|head| + 2] == PartSeparator;
    FirstSeparator(line, 0, |head|);
  }

  /** After the separator, a comma-free part runs to the next separator
      or to the end. */
  lemma SecondPart(lead: string, part: string, rest: string)
    requires ',' !in part
    requires rest == "" || StartsWith(rest, PartSeparator)
    ensures SplitStrFrom(lead + part + rest, PartSeparator, |lead|)[0] == part
  {
    var line := lead + part + rest;
    var after := |lead|;
    var k := after + |part|;
    assert forall i :: after <= i < k ==> line[i] == part[i - after];
    assert line[after..k] == part;
    if rest != "" {
      assert line[k..k + 2] == rest[..2];
    }
    PartUpTo(line, after, k);
  }

  /** A part runs from `from` to the first separator, which starts with
      the first comma. */
  lemma PartUpTo(s: string, from: nat, k: nat)
    requires from <= k <= |s|
    requires forall i :: from <= i < k ==> s[i] != ','
    requires k == |s| || OccursAt(s, PartSeparator, k)
    ensures SplitStrFrom(s, PartSeparator, from)[0] == s[from..k]
  {
    if k == |s| {
      NoSeparator(s, from);
    } else {
      FirstSeparator(s, from, k);
    }
  }

  lemma NumberHasNoComma(n: int)
    ensures ',' !in LinePrefix + ShowInt(n)
  {
    var s := ShowNat(if n < 0 then -n else n);
    assert forall i :: 0 <= i < |s| ==> IsDigit(s[i]);
  }

  /** The separator found first is the first comma that starts one. */
  lemma FirstSeparator(s: string, from: nat, k: nat)
    requires from <= k && OccursAt(s, PartSeparator, k)
    requires forall i :: from <= i < k ==> s[i] != ','
    ensures FindStr(s, PartSeparator, from) == k
  {
    SeparatorStartsWithComma(s);
  }

  lemma SeparatorStartsWithComma(s: string)
    ensures forall i: nat :: OccursAt(s, PartSeparator, i) ==> s[i] == ','
  {
    forall i: nat | OccursAt(s, PartSeparator, i) ensures s[i] == ',' {
      assert s[i] == s[i..i + 2][0];
    }
  }

  lemma NoSeparator(s: string, from: nat)
    requires forall i :: from <= i < |s| ==> s[i] != ','
    ensures FindStr(s, PartSeparator, from) == -1
  {
    SeparatorStartsWithComma(s);
  }

  // ---------------------------------------------------------------------
  // Fake file names
  // ---------------------------------------------------------------------

  /** Where `go_to_position` sends the cursor. */
  datatype Position =
    | InModule(modname: string, line: int)
    | InCommand(cmdname: string, line: int)
    | FromIndex(index: int, line: int)
    | Unrecognized

  /** `go_to_position(filename, line_num)`: the first matching prefix
      decides, the name is what lies between it and the closing `>`, and a
      selected-text index that is not an integer raises. */
  function GoToPosition(filename: string, lineNum: int): (r: Result<Position>)
    ensures r == Success(Unrecognized) <==>
              !StartsWith(filename, UserWrittenModulePrefix) && !StartsWith(filename, UserWrittenCmdPrefix) &&
              !StartsWith(filename, SelectedTextPrefix)
    ensures r.Failure? ==> StartsWith(filename, SelectedTextPrefix) && r.error == ValueError
  {
    if StartsWith(filename, UserWrittenModulePrefix) then
      Success(InModule(PyList.Slice(filename, |UserWrittenModulePrefix|, -1), lineNum))
    else if StartsWith(filename, UserWrittenCmdPrefix) then
      Success(InCommand(PyList.Slice(filename, |UserWrittenCmdPrefix|, -1), lineNum))
    else if StartsWith(filename, SelectedTextPrefix) then
      match ParseInt(PyList.Slice(filename, |SelectedTextPrefix|, -1))
      case Failure(e) => Failure(e)
      case Success(index) => Success(FromIndex(index, lineNum))
    else Success(Unrecognized)
  }

  /** The fake file name of a user-written module, `'%s%s>'`. */
  function ModuleFilename(name: string): string { UserWrittenModulePrefix + name + ">" }

  /** The fake file name of a user-written command, `'%s%s>'`. */
  function CommandFilename(name: string): string { UserWrittenCmdPrefix + name + ">" }

  /** The fake file name of selected text run at `index`, `'%s%d>'`. */
  function SelectedTextFilename(index: int): string { SelectedTextPrefix + ShowInt(index) + ">" }

  /** A name between a prefix and a one-character closing mark: the
      whole starts with the prefix, and the slice between the prefix and
      the last character is the name again. */
  lemma Enclosed(prefix: string, name: string, close: string)
    requires |close| == 1
    ensures StartsWith(prefix + name + close, prefix)
    ensures PyList.Slice(prefix + name + close, |prefix|, -1) == name
  {
    var f := prefix + name + close;
    assert f[..|prefix|] == prefix;
    assert f[|prefix|..|f| - 1] == name;
  }

  /** A string that starts with `p` does not start with a `q` that
      differs from `p` at position `i`. */
  lemma PrefixesDiffer(s: string, p: string, q: string, i: nat)
    requires StartsWith(s, p) && i < |p| && i < |q| && p[i] != q[i]
    ensures !StartsWith(s, q)
  {
    assert s[i] == s[..|p|][i];
  }

  /** A user-written module's file name leads back to the module. */
  lemma ModuleFilenameRoundTrip(name: string, lineNum: int)
    ensures GoToPosition(ModuleFilename(name), lineNum) == Success(InModule(name, lineNum))
  {
    Enclosed(UserWrittenModulePrefix, name, ">");
  }

  /** A user-written command's file name leads back to the command. */
  lemma CommandFilenameRoundTrip(name: string, lineNum: int)
    ensures GoToPosition(CommandFilename(name), lineNum) == Success(InCommand(name, lineNum))
  {
    Enclosed(UserWrittenCmdPrefix, name, ">");
    PrefixesDiffer(CommandFilename(name), UserWrittenCmdPrefix, UserWrittenModulePrefix, 14);
  }

  /** The file name of selected text leads back to its index. */
  lemma SelectedTextFilenameRoundTrip(index: int, lineNum: int)
    ensures GoToPosition(SelectedTextFilename(index), lineNum) == Success(FromIndex(index, lineNum))
  {
    var s := SelectedTextFilename(index);
    Enclosed(SelectedTextPrefix, ShowInt(index), ">");
    PrefixesDiffer(s, SelectedTextPrefix, UserWrittenModulePrefix, 1);
    PrefixesDiffer(s, SelectedTextPrefix, UserWrittenCmdPrefix, 1);
    ParseShowInt(index);
  }
}

=== FILE: runs.dfy ===
/** Splitting a range of positions into the maximal runs whose flag is off,
    with the single left-to-right scan `BehaviorArray.blankableRanges`
    performs. Position `s + i` carries flag `flags[i]`. */
module Runs {
  import opened Globals

  /** Position `p` lies in the scanned range and its flag is off. */
  predicate Off(flags: seq<bool>, s: int, p: int) {
    s <= p < s + |flags| && !flags[p - s]
  }

  /** Position `p` lies in the scanned range and its flag is on. */
  predicate On(flags: seq<bool>, s: int, p: int) {
    s <= p < s + |flags| && flags[p - s]
  }

  ghost predicate AllOff(flags: seq<bool>, s: int, lo: int, hi: int) {
    forall p :: lo <= p <= hi ==> Off(flags, s, p)
  }

  ghost predicate Covered(rs: seq<Range>, p: int) {
    exists i :: 0 <= i < |rs| && rs[i].start <= p <= rs[i].end
  }

  /** A run lies in `[s, hi]`, holds only positions whose flag is off, and
      cannot be extended: the position before it is `s - 1` or flagged, the
      position after it is past the end or flagged. */
  ghost predicate RunOk(flags: seq<bool>, s: int, hi: int, x: Range) {
    s <= x.start <= x.end <= hi &&
    AllOff(flags, s, x.start, x.end) &&
    (x.start == s || On(flags, s, x.start - 1)) &&
    (x.end == s + |flags| - 1 || On(flags, s, x.end + 1))
  }

  ghost predicate MaximalRuns(flags: seq<bool>, s: int, hi: int, rs: seq<Range>) {
    (forall i :: 0 <= i < |rs| ==> RunOk(flags, s, hi, rs[i])) &&
    (forall i :: 0 <= i < |rs| - 1 ==> rs[i].end + 1 < rs[i + 1].start)
  }

  /** The result `blankableRanges` promises: ordered, disjoint, maximal runs
      covering every unflagged position of the range. */
  ghost predicate RunsSpec(flags: seq<bool>, s: int, rs: seq<Range>) {
    MaximalRuns(flags, s, s + |flags| - 1, rs) &&
    forall p :: Off(flags, s, p) ==> Covered(rs, p)
  }

  /** The state of the scan before position `pos`: `last` is the previous
      flag (on before the first position), `open` the start of the run in
      progress, `acc` the runs already closed. */
  ghost predicate ScanInvariant(flags: seq<bool>, s: int, pos: int, last: bool, open: int, acc: seq<Range>)
    requires s <= pos <= s + |flags|
  {
    (last <==> (pos == s || On(flags, s, pos - 1))) &&
    (!last ==> s <= open < pos && AllOff(flags, s, open, pos - 1) &&
               (open == s || On(flags, s, open - 1))) &&
    MaximalRuns(flags, s, pos - 1, acc) &&
    (!last && |acc| > 0 && pos < s + |flags| ==> acc[|acc| - 1].end + 1 < open) &&
    (forall p :: Off(flags, s, p) && p < pos ==> Covered(acc, p) || (!last && open <= p)) &&
    (pos == s + |flags| ==> forall p :: Off(flags, s, p) ==> Covered(acc, p))
  }

  lemma CoveredGrows(acc: seq<Range>, x: Range, p: int)
    requires Covered(acc, p) || x.start <= p <= x.end
    ensures Covered(acc + [x], p)
  {
    if Covered(acc, p) {
      var i :| 0 <= i < |acc| && acc[i].start <= p <= acc[i].end;
      assert (acc + [x])[i] == acc[i];
    } else {
      assert (acc + [x])[|acc|] == x;
    }
  }

  /** Appending a maximal run that starts past the last run keeps the list
      maximal. */
  lemma AppendRun(flags: seq<bool>, s: int, hi: int, acc: seq<Range>, x: Range)
    requires MaximalRuns(flags, s, hi, acc) && RunOk(flags, s, hi, x)
    requires |acc| > 0 ==> acc[|acc| - 1].end + 1 < x.start
    ensures MaximalRuns(flags, s, hi, acc + [x])
  {
    var r := acc + [x];
    forall i | 0 <= i < |r| ensures RunOk(flags, s, hi, r[i]) {
      if i < |acc| { assert r[i] == acc[i]; }
    }
  }

  lemma MaximalRunsWiden(flags: seq<bool>, s: int, hi: int, hi': int, acc: seq<Range>)
    requires MaximalRuns(flags, s, hi, acc) && hi <= hi'
    ensures MaximalRuns(flags, s, hi', acc)
  {
    forall i | 0 <= i < |acc| ensures RunOk(flags, s, hi', acc[i]) {
      assert RunOk(flags, s, hi, acc[i]);
    }
  }

  /** A closed run that ends at a position whose successor is flagged. */
  lemma CloseRun(flags: seq<bool>, s: int, pos: int, open: int)
    requires s <= open < pos < s + |flags| && AllOff(flags, s, open, pos - 1)
    requires open == s || On(flags, s, open - 1)
    requires flags[pos - s]
    ensures RunOk(flags, s, pos, Range(open, pos - 1))
  {
  }

  /** The final run, ending at the last position. */
  lemma FinalRun(flags: seq<bool>, s: int, pos: int, open: int)
    requires s <= open <= pos == s + |flags| - 1 && AllOff(flags, s, open, pos - 1)
    requires open == s || On(flags, s, open - 1)
    requires !flags[pos - s]
    ensures RunOk(flags, s, pos, Range(open, pos))
  {
  }

  /** The closed runs stay maximal after one iteration. */
  lemma StepKeepsRunsMaximal(flags: seq<bool>, s: int, pos: int, last: bool, open: int, acc: seq<Range>)
    requires s <= pos < s + |flags|
    requires ScanInvariant(flags, s, pos, last, open, acc)
    ensures var f := flags[pos - s];
            var open' := if last && !f then pos else open;
            var acc1 := if !last && f then acc + [Range(open', pos - 1)] else acc;
            var acc2 := if !f && pos == s + |flags| - 1 then acc1 + [Range(open', pos)] else acc1;
            MaximalRuns(flags, s, pos, acc2) &&
            (!f && |acc2| > 0 && pos + 1 < s + |flags| ==> acc2[|acc2| - 1].end + 1 < open')
  {
    var e := s + |flags| - 1;
    var f := flags[pos - s];
    MaximalRunsWiden(flags, s, pos - 1, pos, acc);
    if !last && f {
      CloseRun(flags, s, pos, open);
      AppendRun(flags, s, pos, acc, Range(open, pos - 1));
    } else if !f && pos == e {
      var open' := if last then pos else open;
      if last && |acc| > 0 {
        // the last closed run ends on an unflagged position, so before pos - 1
        assert RunOk(flags, s, pos - 1, acc[|acc| - 1]);
        assert Off(flags, s, acc[|acc| - 1].end);
      }
      FinalRun(flags, s, pos, open');
      AppendRun(flags, s, pos, acc, Range(open', pos));
    } else if last && !f && |acc| > 0 {
      assert RunOk(flags, s, pos - 1, acc[|acc| - 1]);
      assert Off(flags, s, acc[|acc| - 1].end);
    }
  }

  /** Every unflagged position seen so far is in a closed run or in the run
      in progress, and at the end in a closed run. */
  lemma StepKeepsCoverage(flags: seq<bool>, s: int, pos: int, last: bool, open: int, acc: seq<Range>)
    requires s <= pos < s + |flags|
    requires ScanInvariant(flags, s, pos, last, open, acc)
    ensures var f := flags[pos - s];
            var open' := if last && !f then pos else open;
            var acc1 := if !last && f then acc + [Range(open', pos - 1)] else acc;
            var acc2 := if !f && pos == s + |flags| - 1 then acc1 + [Range(open', pos)] else acc1;
            (forall p :: Off(flags, s, p) && p < pos + 1 ==> Covered(acc2, p) || (!f && open' <= p)) &&
            (pos + 1 == s + |flags| ==> forall p :: Off(flags, s, p) ==> Covered(acc2, p))
  {
    var e := s + |flags| - 1;
    var f := flags[pos - s];
    var open' := if last && !f then pos else open;
    var acc1 := if !last && f then acc + [Range(open', pos - 1)] else acc;
    var acc2 := if !f && pos == e then acc1 + [Range(open', pos)] else acc1;
    forall p | Off(flags, s, p) && p < pos + 1
      ensures Covered(acc2, p) || (!f && open' <= p)
    {
      if p == pos {
        if !f && acc2 != acc1 {
          CoveredGrows(acc1, Range(open', pos), p);
        }
      } else if Covered(acc, p) {
        CoveredGrows(acc, Range(open', pos - 1), p);
        if acc2 != acc1 { CoveredGrows(acc1, Range(open', pos), p); }
      } else {
        assert !last && open <= p;
        if f {
          CoveredGrows(acc, Range(open', pos - 1), p);
        } else if acc2 != acc1 {
          CoveredGrows(acc1, Range(open', pos), p);
        }
      }
    }
    if pos == e {
      forall p | Off(flags, s, p)
        ensures Covered(acc2, p)
      {
        assert p < pos + 1;
        if !f {
          assert acc2 == acc1 + [Range(open', pos)];
          assert open' <= pos;
          if !Covered(acc1, p) {
            if p < open' {
              assert Covered(acc2, p);
            } else {
              CoveredGrows(acc1, Range(open', pos), p);
            }
          }
          else {
            CoveredGrows(acc1, Range(open', pos), p);
          }
        }
      }
    }
  }

  lemma ScanStep(flags: seq<bool>, s: int, pos: int, last: bool, open: int, acc: seq<Range>)
    requires s <= pos < s + |flags|
    requires ScanInvariant(flags, s, pos, last, open, acc)
    ensures var f := flags[pos - s];
            var open' := if last && !f then pos else open;
            var acc1 := if !last && f then acc + [Range(open', pos - 1)] else acc;
            var acc2 := if !f && pos == s + |flags| - 1 then acc1 + [Range(open', pos)] else acc1;
            ScanInvariant(flags, s, pos + 1, f, open', acc2)
  {
    StepKeepsRunsMaximal(flags, s, pos, last, open, acc);
    StepKeepsCoverage(flags, s, pos, last, open, acc);
  }

  /** One iteration of the loop, followed by the rest of the loop. */
  function Scan(flags: seq<bool>, s: int, pos: int, last: bool, open: int, acc: seq<Range>): (r: seq<Range>)
    requires s <= pos <= s + |flags|
    requires ScanInvariant(flags, s, pos, last, open, acc)
    ensures RunsSpec(flags, s, r)
    decreases s + |flags| - pos
  {
    if pos == s + |flags| then acc
    else
      var f := flags[pos - s];
      var open' := if last && !f then pos else open;
      var acc1 := if !last && f then acc + [Range(open', pos - 1)] else acc;
      var acc2 := if !f && pos == s + |flags| - 1 then acc1 + [Range(open', pos)] else acc1;
      ScanStep(flags, s, pos, last, open, acc);
      Scan(flags, s, pos + 1, f, open', acc2)
  }

  /** `blankableRanges(theBlank, s, s + |flags| - 1)` over the given flags. */
  function BlankRuns(flags: seq<bool>, s: int): (r: seq<Range>)
    ensures RunsSpec(flags, s, r)
  {
    Scan(flags, s, s, true, s, [])
  }

  lemma RunEnds(flags: seq<bool>, s: int, hi: int, rs: seq<Range>)
    requires MaximalRuns(flags, s, hi, rs)
    ensures |rs| > 0 ==> Off(flags, s, rs[0].start)
    ensures |rs| > 1 ==> rs[0].end + 1 < rs[1].start
  {
    if |rs| > 0 { assert RunOk(flags, s, hi, rs[0]); }
  }

  /** With no flag set the whole range is one run; with every flag set there
      is none. */
  lemma AllClearIsOneRun(flags: seq<bool>, s: int)
    requires |flags| > 0 && forall i :: 0 <= i < |flags| ==> !flags[i]
    ensures BlankRuns(flags, s) == [Range(s, s + |flags| - 1)]
  {
    var r := BlankRuns(flags, s);
    assert Off(flags, s, s);
    assert Covered(r, s);
    forall i | 0 <= i < |r| ensures r[i] == Range(s, s + |flags| - 1) {
      assert RunOk(flags, s, s + |flags| - 1, r[i]);
    }
    RunEnds(flags, s, s + |flags| - 1, r);
  }

  lemma AllSetIsNoRun(flags: seq<bool>, s: int)
    requires forall i :: 0 <= i < |flags| ==> flags[i]
    ensures BlankRuns(flags, s) == []
  {
    RunEnds(flags, s, s + |flags| - 1, BlankRuns(flags, s));
  }
}

=== FILE: save_and_load.dfy ===
/** The pure parts of `commands/save_and_load.py`: the run-length coding of
    the style list, the capping of the undo history when the state is
    saved, and the queue of changes awaiting an incremental save. */
module SaveLoad {
  import opened Wrappers
  import PyList
  import CommandEngine

  const IndexError := "list index out of range"

  /** `COMMAND_HISTORY_LIMIT`: at most this many history entries are saved. */
  const HistoryLimit := 10000

  // ---------------------------------------------------------------------
  // compressList / decompressList
  // ---------------------------------------------------------------------

  /** One `(same_i_count, last_i)` pair of a compressed list. */
  datatype Run<T> = Run(count: int, value: T)

  /** What `compressList` promises of its pairs: every count is positive
      and neighbouring pairs hold different values. */
  predicate WellFormed<T(==)>(rs: seq<Run<T>>) {
    (forall i :: 0 <= i < |rs| ==> rs[i].count >= 1) &&
    (forall i :: 0 < i < |rs| ==> rs[i - 1].value != rs[i].value)
  }

  /** The number of list elements the pairs stand for. */
  function Total<T>(rs: seq<Run<T>>): int {
    if |rs| == 0 then 0 else rs[0].count + Total(rs[1..])
  }

  /** The loop of `compressList` from the pair being counted, `cur`, over
      the elements not yet looked at. */
  function CompressRuns<T(==)>(cur: Run<T>, rest: seq<T>): (r: seq<Run<T>>)
    requires cur.count >= 1
    ensures |r| >= 1 && r[0].value == cur.value
    ensures WellFormed(r) && Total(r) == cur.count + |rest|
    decreases |rest|
  {
    if |rest| == 0 then [cur]
    else if rest[0] == cur.value then CompressRuns(Run(cur.count + 1, cur.value), rest[1..])
    else
      var tail := CompressRuns(Run(1, rest[0]), rest[1..]);
      assert forall i :: 0 < i < |tail| ==> tail[i - 1].value != tail[i].value;
      [cur] + tail
  }

  /** `compressList(theList)`: an empty list fails on `theList[0]`. */
  function Compress<T(==)>(xs: seq<T>): (r: Result<seq<Run<T>>>)
    ensures r.Success? <==> |xs| > 0
    ensures r.Failure? ==> r.error == IndexError
    ensures r.Success? ==> |r.value| >= 1 && WellFormed(r.value) && Total(r.value) == |xs|
  {
    if |xs| == 0 then Failure(IndexError) else Success(CompressRuns(Run(1, xs[0]), xs[1..]))
  }

  /** `decompressList(compressedArray)`: each pair expands to `[i] * i_count`. */
  function Decompress<T>(rs: seq<Run<T>>): (r: seq<T>)
  {
    if |rs| == 0 then [] else PyList.Repeat(rs[0].value, rs[0].count) + Decompress(rs[1..])
  }

  lemma {:induction false} CompressRunsDecompress<T>(cur: Run<T>, rest: seq<T>)
    requires cur.count >= 1
    ensures Decompress(CompressRuns(cur, rest)) == PyList.Repeat(cur.value, cur.count) + rest
    decreases |rest|
  {
    if |rest| > 0 {
      if rest[0] == cur.value {
        CompressRunsDecompress(Run(cur.count + 1, cur.value), rest[1..]);
        assert PyList.Repeat(cur.value, cur.count + 1) == PyList.Repeat(cur.value, cur.count) + [rest[0]];
        assert rest == [rest[0]] + rest[1..];
      } else {
        var tail := CompressRuns(Run(1, rest[0]), rest[1..]);
        CompressRunsDecompress(Run(1, rest[0]), rest[1..]);
        assert ([cur] + tail)[1..] == tail;
        assert PyList.Repeat(rest[0], 1) == [rest[0]];
        assert rest == [rest[0]] + rest[1..];
      }
    } else {
      assert Decompress([cur]) == PyList.Repeat(cur.value, cur.count) + Decompress([cur][1..]);
    }
  }

  /** Decompressing a compressed list gives the list back. */
  lemma CompressRoundTrip<T>(xs: seq<T>)
    requires |xs| > 0
    ensures Decompress(Compress(xs).value) == xs
  {
    CompressRunsDecompress(Run(1, xs[0]), xs[1..]);
    assert PyList.Repeat(xs[0], 1) == [xs[0]];
    assert xs == [xs[0]] + xs[1..];
  }

  lemma {:induction false} CompressRunsAbsorbs<T>(k: int, v: T, m: nat, ys: seq<T>)
    requires k >= 1
    ensures CompressRuns(Run(k, v), PyList.Repeat(v, m) + ys) == CompressRuns(Run(k + m, v), ys)
    decreases m
  {
    if m > 0 {
      var zs := PyList.Repeat(v, m) + ys;
      assert zs[0] == v;
      assert zs[1..] == PyList.Repeat(v, m - 1) + ys;
      CompressRunsAbsorbs(k + 1, v, m - 1, ys);
    } else {
      assert PyList.Repeat(v, m) + ys == ys;
    }
  }

  lemma {:induction false} CompressRunsOfDecompress<T>(k: int, rs: seq<Run<T>>)
    requires |rs| >= 1 && WellFormed(rs) && 1 <= k <= rs[0].count
    ensures CompressRuns(Run(k, rs[0].value), PyList.Repeat(rs[0].value, rs[0].count - k) + Decompress(rs[1..]))
         == [rs[0]] + rs[1..]
    decreases |rs|
  {
    var v := rs[0].value;
    var ys := Decompress(rs[1..]);
    CompressRunsAbsorbs(k, v, rs[0].count - k, ys);
    if |rs| == 1 {
      assert ys == [];
    } else {
      var rs' := rs[1..];
      assert WellFormed(rs') by {
        assert forall i :: 0 < i < |rs'| ==> rs'[i - 1] == rs[i] && rs'[i] == rs[i + 1];
      }
      CompressRunsOfDecompress(1, rs');
      assert ys == PyList.Repeat(rs'[0].value, rs'[0].count) + Decompress(rs'[1..]);
      assert ys[0] == rs'[0].value && ys[0] != v;
      assert ys[1..] == PyList.Repeat(rs'[0].value, rs'[0].count - 1) + Decompress(rs'[1..]);
      assert [rs'[0]] + rs'[1..] == rs';
    }
  }

  /** Compressing the expansion of well-formed pairs gives the same pairs:
      the coding is one-to-one on what `compressList` can produce. */
  lemma DecompressRoundTrip<T>(rs: seq<Run<T>>)
    requires |rs| >= 1 && WellFormed(rs)
    ensures Compress(Decompress(rs)) == Success(rs)
  {
    var v := rs[0].value;
    var xs := Decompress(rs);
    assert xs == PyList.Repeat(v, rs[0].count) + Decompress(rs[1..]);
    assert xs[0] == v;
    assert xs[1..] == PyList.Repeat(v, rs[0].count - 1) + Decompress(rs[1..]);
    CompressRunsOfDecompress(1, rs);
    assert [rs[0]] + rs[1..] == rs;
  }

  // ---------------------------------------------------------------------
  // The saved history
  // ---------------------------------------------------------------------

  /** The history `_ArchyState.save` stores: within the limit, the live
      one; beyond it, the window of at most `HistoryLimit` entries ending at
      the last executed command, then as many redoable entries as still
      fit. */
  function SaveHistory<E>(h: CommandEngine.History<E>): (r: CommandEngine.History<E>)
    requires CommandEngine.Valid(h)
    ensures |h.entries| <= HistoryLimit ==> r == h
    ensures CommandEngine.Valid(r) && |r.entries| <= HistoryLimit
    ensures r.last >= 0 <==> h.last >= 0
    ensures h.last >= 0 ==> r.entries[r.last] == h.entries[h.last]
  {
    if |h.entries| > HistoryLimit then
      var first := if h.last - HistoryLimit + 1 < 0 then 0 else h.last - HistoryLimit + 1;
      var window := PyList.Slice(h.entries, first, h.last + 1);
      if |window| < HistoryLimit then
        var roomLeft := HistoryLimit - |window|;
        var redoable := PyList.Slice(h.entries, h.last + 1, h.last + 1 + roomLeft);
        CommandEngine.History(window + redoable, |window| - 1)
      else CommandEngine.History(window, |window| - 1)
    else h
  }

  function Min(a: int, b: int): int {
    if a < b then a else b
  }

  /** Beyond the limit, the saved history reaches back exactly as far as
      the limit allows undoing: its executed part is the last
      `min(last + 1, HistoryLimit)` executed entries, and its redoable part
      is the start of the live redoable tail, as long as room allows. */
  lemma SaveHistoryWindow<E>(h: CommandEngine.History<E>)
    requires CommandEngine.Valid(h) && |h.entries| > HistoryLimit
    ensures var r := SaveHistory(h);
            var undoable := Min(h.last + 1, HistoryLimit);
            var redoable := Min(|h.entries| - h.last - 1, HistoryLimit - undoable);
            r.last + 1 == undoable &&
            r.entries[..r.last + 1] == h.entries[h.last + 1 - undoable..h.last + 1] &&
            |r.entries| == undoable + redoable &&
            r.entries[r.last + 1..] == h.entries[h.last + 1..h.last + 1 + redoable]
  {
    var r := SaveHistory(h);
    var undoable := Min(h.last + 1, HistoryLimit);
    var first := h.last + 1 - undoable;
    var window := h.entries[first..h.last + 1];
    assert PyList.Slice(h.entries, first, h.last + 1) == window;
    if undoable < HistoryLimit {
      var redoable := Min(|h.entries| - h.last - 1, HistoryLimit - undoable);
      assert PyList.Slice(h.entries, h.last + 1, h.last + 1 + HistoryLimit - undoable)
          == h.entries[h.last + 1..h.last + 1 + redoable];
      assert r.entries == window + h.entries[h.last + 1..h.last + 1 + redoable];
      assert r.entries[..r.last + 1] == window;
    } else {
      assert r.entries == window;
    }
  }

  /** Restoring the saved history and undoing from it walks back through
      the same commands as the live history, up to the window's start. */
  lemma SavedUndoesAgree<E>(h: CommandEngine.History<E>, k: nat)
    requires CommandEngine.Valid(h) && k < Min(h.last + 1, HistoryLimit)
    ensures var r := SaveHistory(h);
            0 <= r.last - k && r.entries[r.last - k] == h.entries[h.last - k]
  {
    if |h.entries| > HistoryLimit {
      SaveHistoryWindow(h);
      var r := SaveHistory(h);
      var undoable := Min(h.last + 1, HistoryLimit);
      assert r.entries[..r.last + 1][r.last - k] == r.entries[r.last - k];
      assert h.entries[h.last + 1 - undoable..h.last + 1][r.last - k] == h.entries[h.last - k];
    }
  }

  // ---------------------------------------------------------------------
  // The change queue
  // ---------------------------------------------------------------------

  /** `logChange(command)`: the command joins the end of the queue. The
      text backup it may trigger is file output and not modelled. */
  function LogChange<C>(queue: seq<C>, c: C): (r: seq<C>)
    ensures |r| == |queue| + 1 && r[..|queue|] == queue && r[|queue|] == c
  {
    queue + [c]
  }

  /** `saveChanges()` and `saveState()` write the queue out and empty it;
      `saveChanges` with an empty queue writes nothing. The first result
      is the batch written, if any. */
  function SaveChanges<C>(queue: seq<C>): (r: (Option<seq<C>>, seq<C>))
    ensures r.1 == []
    ensures r.0.Some? <==> |queue| > 0
    ensures r.0.Some? ==> r.0.value == queue
  {
    if |queue| == 0 then (None, []) else (Some(queue), [])
  }

  /** Logging commands one by one queues them in order, and the next save
      writes exactly them. */
  function LogAll<C>(queue: seq<C>, cs: seq<C>): (r: seq<C>)
    decreases |cs|
  {
    if |cs| == 0 then queue else LogAll(LogChange(queue, cs[0]), cs[1..])
  }

  lemma {:induction false} LogAllAppends<C>(queue: seq<C>, cs: seq<C>)
    ensures LogAll(queue, cs) == queue + cs
    decreases |cs|
  {
    if |cs| > 0 {
      LogAllAppends(queue + [cs[0]], cs[1..]);
      assert queue + [cs[0]] + cs[1..] == queue + cs;
    }
  }

  /** What a save writes is what was logged since the previous save, in
      the order it was logged, and the queue is empty again. */
  lemma LoggedThenSaved<C>(cs: seq<C>)
    requires |cs| > 0
    ensures SaveChanges(LogAll(SaveChanges([]).1, cs)) == (Some(cs), [])
  {
    LogAllAppends([], cs);
    assert [] + cs == cs;
  }
}

=== FILE: session.dfy ===
/** `CommandHistory.executeCommand` and the UNDO and REDO commands of
    `commands/__init__.py` run over the command interpreter: the history
    holds each executed command together with the record its undo uses,
    undoing runs that record's undo, and redoing runs the command's
    `execute()` again and keeps the new record in its place. */
module Session {
  import opened Wrappers
  import CommandEngine
  import Commands
  import TextEditing
  import Globals

  /** A command object once executed: its arguments and what it saved. */
  datatype Entry = Entry(cmd: Commands.Cmd, done: Commands.Done)

  /** `archyState` with its `commandHistory`. */
  datatype Session = Session(state: Commands.Archy, history: CommandEngine.History<Entry>)

  ghost predicate Ready(st: Session) {
    Commands.Sound(st.state) && CommandEngine.Valid(st.history)
  }

  /** `executeCommand(commandObject)`: the command runs, then enters the
      history (every command modelled here keeps the default
      `recordable()`, which is true). A command that raises never
      reaches the history. */
  function ExecuteCommand(fuel: nat, st: Session, c: Commands.Cmd): (r: Result<Session>)
    requires Ready(st)
    ensures Commands.Exec(fuel, st.state, c).Failure? ==> r == Failure(Commands.Exec(fuel, st.state, c).error)
    ensures r.Success? ==>
              var h := r.value.history;
              Ready(r.value) && h.last == st.history.last + 1 && |h.entries| == h.last + 1 &&
              h.entries[..h.last] == st.history.entries[..st.history.last + 1] &&
              h.entries[h.last].cmd == c &&
              CommandEngine.RedoStep(h).Failure?
  {
    var ex :- Commands.Exec(fuel, st.state, c);
    Success(Session(ex.0, CommandEngine.Add(st.history, Entry(c, ex.1), true)))
  }

  /** `UndoCommand.execute()`: the last executed entry is undone, and only
      then does the index move back past it. */
  function UndoCommand(fuel: nat, st: Session): (r: Result<Session>)
    requires Ready(st)
    ensures st.history.last < 0 ==> r == Failure(CommandEngine.NothingToUndo)
    ensures r.Success? ==> Ready(r.value) && r.value.history == st.history.(last := st.history.last - 1)
  {
    var (e, h) :- CommandEngine.UndoStep(st.history);
    var s :- Commands.Undo(fuel, st.state, e.done);
    Success(Session(s, h))
  }

  /** `RedoCommand.execute()`: the index moves on to the first undone
      entry and that command's `execute()` runs again, leaving a fresh
      record for its next undo. */
  function RedoCommand(fuel: nat, st: Session): (r: Result<Session>)
    requires Ready(st)
    ensures st.history.last >= |st.history.entries| - 1 ==> r == Failure(CommandEngine.NothingToRedo)
    ensures r.Success? ==>
              var i := st.history.last + 1;
              Ready(r.value) && r.value.history.last == i &&
              |r.value.history.entries| == |st.history.entries| &&
              r.value.history.entries[i].cmd == st.history.entries[i].cmd &&
              forall j :: 0 <= j < |st.history.entries| && j != i ==>
                r.value.history.entries[j] == st.history.entries[j]
  {
    var (i, h) :- CommandEngine.RedoStep(st.history);
    var e := h.entries[i];
    var ex :- Commands.Exec(fuel, st.state, e.cmd);
    Success(Session(ex.0, CommandEngine.Replace(h, i, Entry(e.cmd, ex.1))))
  }

  /** An UNDO straight after a command runs exactly the undo of the record
      that command left, and puts the index back where it was. */
  lemma UndoAfterExecute(fuel: nat, st: Session, c: Commands.Cmd)
    requires Ready(st) && ExecuteCommand(fuel, st, c).Success?
    ensures var ex := Commands.Exec(fuel, st.state, c).value;
            var after := ExecuteCommand(fuel, st, c).value;
            UndoCommand(fuel, after) ==
              (var s :- Commands.Undo(fuel, ex.0, ex.1);
               Success(Session(s, after.history.(last := st.history.last))))
  {
  }

  /** An UNDO that succeeded is taken back by a REDO that executes the
      undone command again on the state the undo left. */
  lemma RedoAfterUndo(fuel: nat, st: Session)
    requires Ready(st) && UndoCommand(fuel, st).Success?
    ensures var u := UndoCommand(fuel, st).value;
            var e := st.history.entries[st.history.last];
            RedoCommand(fuel, u) ==
              (var ex :- Commands.Exec(fuel, u.state, e.cmd);
               Success(Session(ex.0, st.history.(entries := st.history.entries[st.history.last := Entry(e.cmd, ex.1)]))))
  {
  }

  /** Setting the selection list, undoing and redoing it: the undo gives
      back the state before the command and the redo sets the list again. */
  lemma SelectionListRoundTrip(fuel: nat, st: Session, sels: seq<Globals.Range>)
    requires Ready(st) && fuel >= 1
    ensures ExecuteCommand(fuel, st, Commands.SetSelectionList(sels)).Success?
    ensures var after := ExecuteCommand(fuel, st, Commands.SetSelectionList(sels)).value;
            UndoCommand(fuel, after).Success? &&
            UndoCommand(fuel, after).value.state == st.state &&
            RedoCommand(fuel, UndoCommand(fuel, after).value).Success? &&
            RedoCommand(fuel, UndoCommand(fuel, after).value).value.state.doc.selections == sels &&
            RedoCommand(fuel, UndoCommand(fuel, after).value).value.history == after.history
  {
    var c := Commands.SetSelectionList(sels);
    TextEditing.SetSelectionListUndoRestores(fuel, st.state, sels);
    var after := ExecuteCommand(fuel, st, c).value;
    UndoAfterExecute(fuel, st, c);
    RedoAfterUndo(fuel, after);
  }
}

=== FILE: spellcheck.dfy ===
/** How the SPELLCHECK command of `commands/spellcheck.py` cuts the
    selected text into words: every character outside its letter set
    becomes a space, the result is split at single spaces, empty pieces are
    dropped, and each word is then located in the text. */
module Spellcheck {
  import opened Globals
  import opened PyStr

  /** Membership in `alpha` of `_stripPunctuation`, which holds the 52
      ASCII letters and the apostrophe. */
  predicate IsLetter(c: char) {
    'a' <= c <= 'z' || 'A' <= c <= 'Z' || c == '\''
  }

  /** `_stripPunctuation(x)`: a letter stays, anything else is a space. */
  function StripPunctuation(c: char): (r: char)
    ensures IsLetter(c) ==> r == c
    ensures !IsLetter(c) ==> r == ' '
    ensures r == ' ' <==> !IsLetter(c)
  {
    if IsLetter(c) then c else ' '
  }

  /** `f` is `text` with every character passed through
      `_stripPunctuation`. */
  predicate FilterOf(text: string, f: string) {
    |f| == |text| && forall i :: 0 <= i < |text| ==> f[i] == StripPunctuation(text[i])
  }

  /** `"".join(map(self._stripPunctuation, text))` */
  function Filtered(text: string): (f: string)
    ensures FilterOf(text, f)
  {
    seq(|text|, i requires 0 <= i < |text| => StripPunctuation(text[i]))
  }

  // ---------------------------------------------------------------------
  // str.split(' ') and the filter of empty pieces
  // ---------------------------------------------------------------------

  /** `filter(lambda c: c <> '', pieces)` */
  function NonEmpty(pieces: seq<string>): (r: seq<string>)
    ensures forall i :: 0 <= i < |r| ==> |r[i]| > 0
  {
    if |pieces| == 0 then []
    else if |pieces[0]| > 0 then [pieces[0]] + NonEmpty(pieces[1..])
    else NonEmpty(pieces[1..])
  }

  // ---------------------------------------------------------------------
  // Reference: the maximal runs of non-space characters
  // ---------------------------------------------------------------------

  /** The first position at or after `p` holding something other than a
      space, or `|s|`. */
  function NextWord(s: string, p: nat): (k: nat)
    requires p <= |s|
    ensures p <= k <= |s| && (k < |s| ==> s[k] != ' ')
    ensures forall i :: p <= i < k ==> s[i] == ' '
    decreases |s| - p
  {
    if p == |s| || s[p] != ' ' then p else NextWord(s, p + 1)
  }

  /** No position of the range holds a space. */
  predicate NoSpace(s: string, x: Range)
    requires 0 <= x.start && x.end < |s|
  {
    forall j :: x.start <= j <= x.end ==> s[j] != ' '
  }

  /** The runs of non-space characters of `s` from `p` on, as closed ranges,
      left to right. */
  function Spans(s: string, p: nat): (r: seq<Range>)
    requires p <= |s|
    ensures forall i :: 0 <= i < |r| ==> p <= r[i].start <= r[i].end < |s|
    decreases |s| - p
  {
    var a := NextWord(s, p);
    if a == |s| then [] else
      var b := NextChar(s, ' ', a);
      [Range(a, b - 1)] + Spans(s, b)
  }

  /** Whether every word has a first character. */
  predicate AllNonEmpty(words: seq<string>) {
    forall i :: 0 <= i < |words| ==> |words[i]| > 0
  }

  /** The text of each run of `Spans(s, p)`, in the same order. */
  function Words(s: string, p: nat): (r: seq<string>)
    requires p <= |s|
    ensures |r| == |Spans(s, p)| && AllNonEmpty(r)
    decreases |s| - p
  {
    var a := NextWord(s, p);
    if a == |s| then [] else
      var b := NextChar(s, ' ', a);
      [s[a..b]] + Words(s, b)
  }

  /** The runs and words from `q` on, when a word starts at `NextWord(f, q)`. */
  lemma UnfoldAtWord(f: string, q: nat, a: nat, b: nat)
    requires q <= |f| && a == NextWord(f, q) < |f| && b == NextChar(f, ' ', a)
    ensures Spans(f, q) == [Range(a, b - 1)] + Spans(f, b)
    ensures Words(f, q) == [f[a..b]] + Words(f, b)
    ensures |f[a..b]| > 0 && f[a..b][0] == f[a] && a + |f[a..b]| == b
  {
  }

  lemma ConsAt<T>(whole: seq<T>, head: T, tail: seq<T>, i: nat)
    requires whole == [head] + tail && 0 < i < |whole|
    ensures whole[i] == tail[i - 1]
  {
  }

  /** `w` is what the range `x` of `s` holds. */
  predicate HoldsText(s: string, x: Range, w: string) {
    0 <= x.start <= x.end < |s| && w == s[x.start..x.end + 1]
  }

  /** The `i`-th word is what the `i`-th run holds. */
  lemma {:induction false} WordIsSpanText(s: string, p: nat, i: nat)
    requires p <= |s| && i < |Spans(s, p)|
    ensures HoldsText(s, Spans(s, p)[i], Words(s, p)[i])
    decreases i
  {
    var a := NextWord(s, p);
    var b := NextChar(s, ' ', a);
    UnfoldAtWord(s, p, a, b);
    if i > 0 {
      WordIsSpanText(s, b, i - 1);
      ConsAt(Words(s, p), s[a..b], Words(s, b), i);
      ConsAt(Spans(s, p), Range(a, b - 1), Spans(s, b), i);
    }
  }

  /** The range holds no space and is bounded by spaces or by the ends of
      the part of `s` from `from` on: a maximal run of non-spaces there. */
  predicate RunFrom(s: string, from: nat, x: Range) {
    from <= x.start <= x.end < |s| && NoSpace(s, x) &&
    (x.start == from || s[x.start - 1] == ' ') &&
    (x.end + 1 == |s| || s[x.end + 1] == ' ')
  }

  /** Each run is a maximal run of non-spaces of the scanned part. */
  lemma {:induction false} SpanIsRun(s: string, p: nat, i: nat)
    requires p <= |s| && i < |Spans(s, p)|
    ensures RunFrom(s, p, Spans(s, p)[i])
    decreases i
  {
    var a := NextWord(s, p);
    var b := NextChar(s, ' ', a);
    var rs := Spans(s, p);
    UnfoldAtWord(s, p, a, b);
    if i > 0 {
      SpanIsRun(s, b, i - 1);
      ConsAt(rs, Range(a, b - 1), Spans(s, b), i);
      RunAfterSpace(s, p, b, rs[i]);
    } else {
      FirstRun(s, p, a, b);
    }
  }

  lemma FirstRun(s: string, p: nat, a: nat, b: nat)
    requires p <= |s| && a == NextWord(s, p) < |s| && b == NextChar(s, ' ', a)
    ensures RunFrom(s, p, Range(a, b - 1))
  {
  }

  /** A run of the part from the space at `b` is one of the part from `p`. */
  lemma RunAfterSpace(s: string, p: nat, b: nat, x: Range)
    requires p <= b < |s| && s[b] == ' ' && RunFrom(s, b, x)
    ensures RunFrom(s, p, x)
  {
    assert s[x.start] != ' ';
  }

  /** Neighbouring runs leave at least one position between them. */
  lemma {:induction false} SpansApart(s: string, p: nat, i: nat)
    requires p <= |s| && 0 < i < |Spans(s, p)|
    ensures Spans(s, p)[i - 1].end + 1 < Spans(s, p)[i].start
    decreases i
  {
    var a := NextWord(s, p);
    var b := NextChar(s, ' ', a);
    var rs := Spans(s, p);
    UnfoldAtWord(s, p, a, b);
    assert rs[i] == Spans(s, b)[i - 1];
    assert rs[i - 1] == if i == 1 then rs[0] else Spans(s, b)[i - 2];
    if i > 1 {
      SpansApart(s, b, i - 1);
    } else {
      assert NextWord(s, b) > b;
    }
  }

  /** Every non-space position from `p` on lies in one of the runs. */
  lemma {:induction false} SpansCover(s: string, p: nat, q: nat)
    requires p <= q < |s| && s[q] != ' '
    ensures exists i :: 0 <= i < |Spans(s, p)| && Spans(s, p)[i].start <= q <= Spans(s, p)[i].end
    decreases |s| - p
  {
    var a := NextWord(s, p);
    var b := NextChar(s, ' ', a);
    var rs := Spans(s, p);
    UnfoldAtWord(s, p, a, b);
    assert rs[0] == Range(a, b - 1);
    if q >= b {
      SpansCover(s, b, q);
      var i :| 0 <= i < |Spans(s, b)| && Spans(s, b)[i].start <= q <= Spans(s, b)[i].end;
      ConsAt(rs, Range(a, b - 1), Spans(s, b), i + 1);
    }
  }

  lemma NonEmptyCons(x: string, rest: seq<string>)
    ensures NonEmpty([x] + rest) == (if |x| > 0 then [x] else []) + NonEmpty(rest)
  {
    assert ([x] + rest)[0] == x && ([x] + rest)[1..] == rest;
  }

  /** Spaces before the next run do not change the words. */
  lemma WordsSkipSpace(s: string, k: nat)
    requires k < |s| && s[k] == ' '
    ensures Words(s, k) == Words(s, k + 1)
  {
    assert NextWord(s, k) == NextWord(s, k + 1);
  }

  /** The last piece of the split is the last run, if it is not empty. */
  lemma SplitLastPiece(s: string, p: nat)
    requires p <= |s| && NextChar(s, ' ', p) == |s|
    ensures NonEmpty(SplitFrom(s, ' ', p)) == Words(s, p)
  {
    assert SplitFrom(s, ' ', p) == [s[p..]] + [];
    NonEmptyCons(s[p..], []);
    assert NonEmpty([]) == [];
    if p < |s| {
      assert NextWord(s, p) == p;
      assert Words(s, p) == [s[p..|s|]] + Words(s, |s|);
      assert Words(s, |s|) == [];
      assert s[p..|s|] == s[p..];
    } else {
      assert NextWord(s, p) == |s|;
    }
  }

  /** A piece ending at a space contributes its run, if it is not empty,
      in front of the runs after that space. */
  lemma SplitPieceStep(s: string, p: nat)
    requires p <= |s| && NextChar(s, ' ', p) < |s|
    requires NonEmpty(SplitFrom(s, ' ', NextChar(s, ' ', p) + 1)) == Words(s, NextChar(s, ' ', p) + 1)
    ensures NonEmpty(SplitFrom(s, ' ', p)) == Words(s, p)
  {
    var k := NextChar(s, ' ', p);
    assert SplitFrom(s, ' ', p) == [s[p..k]] + SplitFrom(s, ' ', k + 1);
    NonEmptyCons(s[p..k], SplitFrom(s, ' ', k + 1));
    WordsSkipSpace(s, k);
    if k == p {
      assert NextWord(s, p) == NextWord(s, k + 1);
      assert Words(s, p) == Words(s, k + 1);
    } else {
      assert NextWord(s, p) == p;
      assert Words(s, p) == [s[p..k]] + Words(s, k);
    }
  }

  /** Splitting at single spaces and dropping the empty pieces gives
      exactly the runs of non-space characters. */
  lemma {:induction false} SplitIsSpans(s: string, p: nat)
    requires p <= |s|
    ensures NonEmpty(SplitFrom(s, ' ', p)) == Words(s, p)
    decreases |s| - p
  {
    var k := NextChar(s, ' ', p);
    if k == |s| {
      SplitLastPiece(s, p);
    } else {
      SplitIsSpans(s, k + 1);
      SplitPieceStep(s, p);
    }
  }

  // ---------------------------------------------------------------------
  // The loop of _findWordsAndRanges
  // ---------------------------------------------------------------------

  /** The loop of `_findWordsAndRanges` from `offset` on: each word is
      looked for by its first character, and the search for the next one
      starts just past it. */
  function LocateFrom(text: string, words: seq<string>, offset: nat, textOffset: int): (r: seq<Range>)
    requires AllNonEmpty(words)
    ensures |r| == |words|
    decreases |words|
  {
    if |words| == 0 then [] else
      var startPos := Find(text, words[0][0], offset);
      var endPos := startPos + |words[0]|;
      [Range(textOffset + startPos, textOffset + endPos - 1)] +
        LocateFrom(text, words[1..], endPos, textOffset)
  }

  function ShiftAll(rs: seq<Range>, d: int): (r: seq<Range>)
    ensures |r| == |rs|
    ensures forall i :: 0 <= i < |rs| ==> r[i] == Range(rs[i].start + d, rs[i].end + d)
  {
    seq(|rs|, i requires 0 <= i < |rs| => Range(rs[i].start + d, rs[i].end + d))
  }

  lemma ShiftCons(x: Range, rest: seq<Range>, d: int)
    ensures ShiftAll([x] + rest, d) == [Range(x.start + d, x.end + d)] + ShiftAll(rest, d)
  {
    var l, r := ShiftAll([x] + rest, d), [Range(x.start + d, x.end + d)] + ShiftAll(rest, d);
    forall i | 0 < i < |l| ensures l[i] == r[i] {
      assert ([x] + rest)[i] == rest[i - 1];
    }
  }

  /** In the text, the first character of the run starting at `a` occurs
      nowhere between `q` and `a`: those positions hold non-letters. */
  lemma FindReachesRun(text: string, f: string, q: nat)
    requires FilterOf(text, f) && q <= |text| && NextWord(f, q) < |f|
    ensures Find(text, f[NextWord(f, q)], q) == NextWord(f, q)
  {
    var a := NextWord(f, q);
    assert forall i :: q <= i < a ==> !IsLetter(text[i]);
    assert IsLetter(text[a]) && f[a] == text[a];
  }

  lemma LocateCons(text: string, w: string, rest: seq<string>, q: nat, t: int, at: nat)
    requires |w| > 0 && AllNonEmpty(rest) && Find(text, w[0], q) == at
    ensures LocateFrom(text, [w] + rest, q, t) ==
              [Range(t + at, t + at + |w| - 1)] + LocateFrom(text, rest, at + |w|, t)
  {
    assert ([w] + rest)[0] == w && ([w] + rest)[1..] == rest;
  }

  /** One step of the search: when the run at the next word is found where
      it stands, the search goes on from its end. */
  lemma LocateStep(text: string, f: string, q: nat, t: int)
    requires q <= |f| && NextWord(f, q) < |f|
    requires Find(text, f[NextWord(f, q)], q) == NextWord(f, q)
    requires var b := NextChar(f, ' ', NextWord(f, q));
             LocateFrom(text, Words(f, b), b, t) == ShiftAll(Spans(f, b), t)
    ensures LocateFrom(text, Words(f, q), q, t) == ShiftAll(Spans(f, q), t)
  {
    var a := NextWord(f, q);
    var b := NextChar(f, ' ', a);
    UnfoldAtWord(f, q, a, b);
    LocateJoin(text, f[a..b], Words(f, b), Range(a, b - 1), Spans(f, b), q, a, b, t);
  }

  lemma LocateJoin(text: string, w: string, ws: seq<string>, x: Range, xs: seq<Range>, q: nat, a: nat, b: nat, t: int)
    requires |w| > 0 && AllNonEmpty(ws) && Find(text, w[0], q) == a
    requires b == a + |w| && x == Range(a, b - 1)
    requires LocateFrom(text, ws, b, t) == ShiftAll(xs, t)
    ensures LocateFrom(text, [w] + ws, q, t) == ShiftAll([x] + xs, t)
  {
    LocateCons(text, w, ws, q, t, a);
    ShiftCons(x, xs, t);
  }

  /** Locating the runs of the filtered text in the text finds each at its
      own place: no letter can occur before a run's start in the text,
      because the filtered text has spaces exactly at the non-letters. */
  lemma {:induction false} LocateFindsSpans(text: string, f: string, q: nat, t: int)
    requires FilterOf(text, f) && q <= |text|
    ensures LocateFrom(text, Words(f, q), q, t) == ShiftAll(Spans(f, q), t)
    decreases |text| - q
  {
    var a := NextWord(f, q);
    if a < |f| {
      LocateFindsSpans(text, f, NextChar(f, ' ', a), t);
      FindReachesRun(text, f, q);
      LocateStep(text, f, q, t);
    } else {
      assert Spans(f, q) == [] && Words(f, q) == [];
    }
  }

  /** `_findWordsAndRanges(text, textOffset)`: the words of the text and
      the closed ranges, shifted by `textOffset`, where they stand. */
  function FindWordsAndRanges(text: string, textOffset: int): (r: (seq<string>, seq<Range>))
    ensures |r.0| == |r.1|
  {
    var words := NonEmpty(SplitFrom(Filtered(text), ' ', 0));
    (words, LocateFrom(text, words, 0, textOffset))
  }

  /** In the text, each run of the filtered text holds its word. */
  lemma RunHoldsWord(text: string, f: string, i: nat)
    requires FilterOf(text, f) && i < |Spans(f, 0)|
    ensures HoldsText(text, Spans(f, 0)[i], Words(f, 0)[i])
  {
    var x := Spans(f, 0)[i];
    SpanIsRun(f, 0, i);
    WordIsSpanText(f, 0, i);
    FilterKeepsRun(text, f, x);
  }

  /** Where the filtered text holds no space it agrees with the text. */
  lemma FilterKeepsRun(text: string, f: string, x: Range)
    requires FilterOf(text, f) && 0 <= x.start <= x.end < |f| && NoSpace(f, x)
    ensures f[x.start..x.end + 1] == text[x.start..x.end + 1]
  {
    var w, v := f[x.start..x.end + 1], text[x.start..x.end + 1];
    forall j | 0 <= j < |w| ensures w[j] == v[j] {
      assert f[x.start + j] != ' ';
    }
  }

  /** A run of the filtered text covers only letters of the text, and the
      characters just outside it are not letters. */
  lemma RunIsLetters(text: string, f: string, i: nat)
    requires FilterOf(text, f) && i < |Spans(f, 0)|
    ensures LetterRun(text, Spans(f, 0)[i].start, Spans(f, 0)[i].end)
  {
    SpanIsRun(f, 0, i);
  }

  /** Positions `lo` to `hi` of the text hold letters, and the characters
      just outside them, if any, are not letters: a maximal run. */
  predicate LetterRun(text: string, lo: int, hi: int) {
    0 <= lo <= hi < |text| &&
    (forall j :: lo <= j <= hi ==> IsLetter(text[j])) &&
    (lo == 0 || !IsLetter(text[lo - 1])) &&
    (hi + 1 == |text| || !IsLetter(text[hi + 1]))
  }

  /** The runs of letters of the text, each as the closed range it covers
      shifted by `t`, left to right. */
  function LetterRuns(text: string, t: int): (r: seq<Range>)
  {
    ShiftAll(Spans(Filtered(text), 0), t)
  }

  /** What each of the runs of letters holds. */
  function LetterWords(text: string): (r: seq<string>)
    ensures |r| == |Spans(Filtered(text), 0)|
  {
    Words(Filtered(text), 0)
  }

  /** `_findWordsAndRanges` returns exactly the runs of letters of the text
      and what they hold. */
  lemma FindWordsAndRangesIsRuns(text: string, t: int)
    ensures FindWordsAndRanges(text, t) == (LetterWords(text), LetterRuns(text, t))
  {
    var f := Filtered(text);
    SplitIsSpans(f, 0);
    LocateFindsSpans(text, f, 0, t);
  }

  /** Each run lies in the text and holds its word there. */
  lemma WordStandsInRange(text: string, t: int, i: nat)
    requires i < |LetterRuns(text, t)|
    ensures var x := LetterRuns(text, t)[i];
            0 <= x.start - t <= x.end - t < |text| &&
            LetterWords(text)[i] == text[x.start - t..x.end - t + 1]
  {
    var f := Filtered(text);
    var y := Spans(f, 0)[i];
    RunHoldsWord(text, f, i);
    var x := LetterRuns(text, t)[i];
    assert x.start - t == y.start && x.end - t == y.end;
    assert LetterWords(text)[i] == Words(f, 0)[i];
  }

  /** A run covers only letters, and the characters just outside it are
      not letters: the runs are maximal. */
  lemma WordIsMaximal(text: string, t: int, i: nat)
    requires i < |LetterRuns(text, t)|
    ensures LetterRun(text, LetterRuns(text, t)[i].start - t, LetterRuns(text, t)[i].end - t)
  {
    var f := Filtered(text);
    var y := Spans(f, 0)[i];
    RunIsLetters(text, f, i);
    var x := LetterRuns(text, t)[i];
    assert x.start - t == y.start && x.end - t == y.end;
  }

  /** The runs come left to right, with at least one non-letter between
      neighbours. */
  lemma RangesIncrease(text: string, t: int, i: nat)
    requires 0 < i < |LetterRuns(text, t)|
    ensures LetterRuns(text, t)[i - 1].end + 1 < LetterRuns(text, t)[i].start
  {
    SpansApart(Filtered(text), 0, i);
  }

  /** Every letter of the text lies in one of the runs. */
  lemma LettersCovered(text: string, t: int, q: nat)
    requires q < |text| && IsLetter(text[q])
    ensures exists i :: 0 <= i < |LetterRuns(text, t)| &&
              LetterRuns(text, t)[i].start <= q + t <= LetterRuns(text, t)[i].end
  {
    var f := Filtered(text);
    var rs := Spans(f, 0);
    SpansCover(f, 0, q);
    var i :| 0 <= i < |rs| && rs[i].start <= q <= rs[i].end;
    assert LetterRuns(text, t)[i] == Range(rs[i].start + t, rs[i].end + t);
  }

  // ---------------------------------------------------------------------
  // The dictionary test
  // ---------------------------------------------------------------------

  function LowerChar(c: char): char {
    if 'A' <= c <= 'Z' then (c as int + 32) as char else c
  }

  function UpperChar(c: char): char {
    if 'a' <= c <= 'z' then (c as int - 32) as char else c
  }

  predicate IsCased(c: char) {
    'a' <= c <= 'z' || 'A' <= c <= 'Z'
  }

  /** `word.lower()` over the letters a word can hold. */
  function Lower(w: string): (r: string)
    ensures |r| == |w| && forall i :: 0 <= i < |w| ==> r[i] == LowerChar(w[i])
  {
    seq(|w|, i requires 0 <= i < |w| => LowerChar(w[i]))
  }

  /** `word.title()`: a letter following a letter is lower-cased, any
      other letter upper-cased; the apostrophe is not a letter, so the one
      in "don't" starts a new word ("Don'T"). */
  function Title(w: string): (r: string)
    ensures |r| == |w|
    ensures forall i :: 0 <= i < |w| ==>
              r[i] == if i > 0 && IsCased(w[i - 1]) then LowerChar(w[i]) else UpperChar(w[i])
  {
    seq(|w|, i requires 0 <= i < |w| => if i > 0 && IsCased(w[i - 1]) then LowerChar(w[i]) else UpperChar(w[i]))
  }

  /** The test in `SpellcheckCommand.execute`: a word is flagged when the
      dictionary holds neither its lower-case nor its title-case form. The
      dictionary stands for the external checker. */
  predicate Misspelled(dictionary: set<string>, word: string) {
    Lower(word) !in dictionary && Title(word) !in dictionary
  }
}

=== FILE: spellcheck_commands.dfy ===
/** What the spellcheck commands of `commands/spellcheck.py` record, and
    the order in which their undo takes the records back. */
module SpellcheckCommands {
  import opened Wrappers
  import opened Globals
  import TextArrays
  import Behaviors
  import opened Handlers
  import Documents
  import Spellcheck
  import Recording
  import opened Commands
  import Lock

  /** The ranges of the words the dictionary lacks, in text order: the
      words `SpellcheckCommand` flags. */
  function Flagged(dictionary: set<string>, words: seq<string>, ranges: seq<Range>): (r: seq<Range>)
    ensures |r| <= |words| && |r| <= |ranges|
  {
    if |words| == 0 || |ranges| == 0 then []
    else if Spellcheck.Misspelled(dictionary, words[0]) then
      [ranges[0]] + Flagged(dictionary, words[1..], ranges[1..])
    else Flagged(dictionary, words[1..], ranges[1..])
  }

  /** The start of the first flagged word: the one found before, or else
      the start of the first of `flagged`. */
  function FirstStart(first: Option<int>, flagged: seq<Range>): Option<int> {
    if first.Some? then first
    else if |flagged| > 0 then Some(flagged[0].start)
    else None
  }

  /** The loop of `SpellcheckCommand.execute()` leaves two records per
      misspelled word (its colour and its behavior) and remembers the start
      of the first misspelled word. */
  lemma {:induction false} FlagWordsRecords(fuel: nat, s: Archy, dictionary: set<string>, words: seq<string>,
                                            ranges: seq<Range>, first: Option<int>)
    requires Sound(s)
    ensures var r := FlagWords(fuel, s, dictionary, words, ranges, first);
            var flagged := Flagged(dictionary, words, ranges);
            r.Success? ==> |r.value.1| == 2 * |flagged| && r.value.2 == FirstStart(first, flagged)
    decreases |words|
  {
    var r := FlagWords(fuel, s, dictionary, words, ranges, first);
    if |words| == 0 || |ranges| == 0 {
    } else if !Spellcheck.Misspelled(dictionary, words[0]) {
      FlagWordsRecords(fuel, s, dictionary, words[1..], ranges[1..], first);
    } else if r.Success? {
      var s1 := s.(doc := Documents.SetSelection(s.doc, Documents.Selection, ranges[0].start, ranges[0].end));
      var first' := if first.None? then Some(ranges[0].start) else first;
      var styled := Exec(fuel - 1, s1, Style(FlagColour)).value;
      var ba := styled.0.doc.behaviors;
      var ba' := Behaviors.SetStorage(ba, Spelling, SpellcheckStorage(|ba.actions|, words[0]));
      var flagged := Exec(fuel - 1, styled.0.(doc := styled.0.doc.(behaviors := ba')), AddAction(Spelling)).value;
      FlagWordsRecords(fuel, flagged.0, dictionary, words[1..], ranges[1..], first');
    }
  }

  /** A loop over words the dictionary all has changes nothing and
      records nothing. */
  lemma {:induction false} CleanWordsUnchanged(fuel: nat, s: Archy, dictionary: set<string>, words: seq<string>,
                                               ranges: seq<Range>, first: Option<int>)
    requires Sound(s) && Flagged(dictionary, words, ranges) == []
    ensures FlagWords(fuel, s, dictionary, words, ranges, first) == Success((s, [], first))
    decreases |words|
  {
    if |words| > 0 && |ranges| > 0 {
      assert !Spellcheck.Misspelled(dictionary, words[0]);
      CleanWordsUnchanged(fuel, s, dictionary, words[1..], ranges[1..], first);
    }
  }

  /** The words of the selection, with their ranges, that
      `SpellcheckCommand` checks. */
  function SelectedWords(s: Archy): (r: (seq<string>, seq<Range>))
    requires |s.doc.selections| >= 2
    ensures |r.0| == |r.1|
  {
    var orig := s.doc.selections[Documents.Selection];
    Spellcheck.FindWordsAndRanges(TextArrays.GetSubString(s.doc.text, orig.start, orig.end), orig.start)
  }

  /** Setting an ordered selection inside the text to what it already is
      changes nothing. */
  lemma SelectAgain(d: Documents.Doc)
    requires |d.selections| >= 2
    requires 0 <= d.selections[Documents.Selection].start <= d.selections[Documents.Selection].end < Documents.Length(d)
    ensures var sel := d.selections[Documents.Selection];
            Documents.SetSelection(d, Documents.Selection, sel.start, sel.end) == d
  {
    var sel := d.selections[Documents.Selection];
    var e := Documents.SetSelection(d, Documents.Selection, sel.start, sel.end);
    assert e.selections == d.selections by {
      forall i | 0 <= i < |d.selections| ensures e.selections[i] == d.selections[i] { }
    }
  }

  /** `SpellcheckCommand` on a selection whose words the dictionary all has
      changes nothing, and its undo gives the document back. */
  lemma CleanSelectionUnchanged(fuel: nat, s: Archy, dictionary: set<string>)
    requires Sound(s) && |s.doc.selections| >= 2
    requires Flagged(dictionary, SelectedWords(s).0, SelectedWords(s).1) == []
    ensures var orig := s.doc.selections[Documents.Selection];
            ExecCheckSpelling(fuel, s, dictionary) == Success((s, UndoneThenSelect([], orig)))
    ensures var orig := s.doc.selections[Documents.Selection];
            fuel >= 1 && 0 <= orig.start <= orig.end < Documents.Length(s.doc) ==>
              Undo(fuel, s, UndoneThenSelect([], orig)) == Success(s)
  {
    var orig := s.doc.selections[Documents.Selection];
    var (words, ranges) := SelectedWords(s);
    CleanWordsUnchanged(fuel, s, dictionary, words, ranges, None);
    if fuel >= 1 && 0 <= orig.start <= orig.end < Documents.Length(s.doc) {
      SelectAgain(s.doc);
    }
  }

  /** `SpellcheckCommand` flags each misspelled word of the selection with
      two records, reverses the list so that its undo takes the latest
      first, puts the selection back last, and sends the cursor to the
      first misspelled word. */
  lemma CheckSpellingRecord(fuel: nat, s: Archy, dictionary: set<string>)
    requires Sound(s)
    ensures var r := ExecCheckSpelling(fuel, s, dictionary);
            r.Success? ==>
              |s.doc.selections| >= 2 &&
              var (words, ranges) := SelectedWords(s);
              var flagged := Flagged(dictionary, words, ranges);
              FlagWords(fuel, s, dictionary, words, ranges, None).Success? &&
              var loop := FlagWords(fuel, s, dictionary, words, ranges, None).value;
              |loop.1| == 2 * |flagged| &&
              r.value.1 == UndoneThenSelect(Recording.Reverse(loop.1), s.doc.selections[Documents.Selection]) &&
              GoToWord(loop.0, FirstStart(None, flagged)) == Success(r.value.0)
  {
    var r := ExecCheckSpelling(fuel, s, dictionary);
    if r.Success? {
      var (words, ranges) := SelectedWords(s);
      FlagWordsRecords(fuel, s, dictionary, words, ranges, None);
    }
  }

  /** Reversing a list that ends in `x` puts `x` first. */
  lemma ReverseLast(recs: seq<Done>, x: Done)
    ensures Recording.Reverse(recs + [x]) == [x] + Recording.Reverse(recs)
  {
    var a := Recording.Reverse(recs + [x]);
    var b := [x] + Recording.Reverse(recs);
    assert forall i :: 0 <= i < |a| ==> a[i] == b[i];
  }

  /** The undo of `SpellcheckCommand` takes back the record made last
      before the others. */
  lemma LatestUndoneFirst(fuel: nat, s: Archy, recs: seq<Done>, x: Done, back: Range)
    requires Sound(s) && fuel >= 2
    ensures Undo(fuel, s, UndoneThenSelect(Recording.Reverse(recs + [x]), back)) ==
            (var s1 :- Undo(fuel - 2, s, x); Undo(fuel, s1, UndoneThenSelect(Recording.Reverse(recs), back)))
  {
    ReverseLast(recs, x);
    var rest := Recording.Reverse(recs);
    UndoThenSelectIs(fuel, s, [x] + rest, back);
    UndoAllFirst(fuel - 1, s, x, rest);
    var s1 := Undo(fuel - 2, s, x);
    if s1.Success? {
      UndoThenSelectIs(fuel, s1.value, rest, back);
    }
  }

  /** A record that undoes parts and then sets the selection. */
  lemma UndoThenSelectIs(fuel: nat, s: Archy, parts: seq<Done>, back: Range)
    requires Sound(s) && fuel >= 1
    ensures Undo(fuel, s, UndoneThenSelect(parts, back)) ==
            (var s1 :- UndoAll(fuel - 1, s, parts); Reselect(s1, back))
  {
  }

  /** Undoing a list undoes its first record, then the rest. */
  lemma UndoAllFirst(fuel: nat, s: Archy, x: Done, rest: seq<Done>)
    requires Sound(s) && fuel >= 1
    ensures UndoAll(fuel, s, [x] + rest) == (var s1 :- Undo(fuel - 1, s, x); UndoAll(fuel, s1, rest))
  {
    assert ([x] + rest)[0] == x && ([x] + rest)[1..] == rest;
  }

  /** `RemoveSpellcheckCommand.undo()` puts the colours back first, then
      the behavior: the reverse of `execute()`. */
  lemma RemoveSpellcheckUndoOrder(fuel: nat, undoFuel: nat, s: Archy)
    requires Sound(s) && undoFuel >= 2
    ensures var r := ExecRemoveSpellcheck(fuel, s);
            r.Success? ==>
              fuel >= 1 && Exec(fuel - 1, s, RemoveAction(Spelling)).Success? &&
              var a := Exec(fuel - 1, s, RemoveAction(Spelling)).value;
              Exec(fuel - 1, a.0, Style(PlainColours)).Success? &&
              var plain := Exec(fuel - 1, a.0, Style(PlainColours)).value;
              r.value.0 == plain.0 &&
              Undo(undoFuel, r.value.0, r.value.1) ==
              (var u :- Undo(undoFuel - 2, plain.0, plain.1); Undo(undoFuel - 2, u, a.1))
  {
    var r := ExecRemoveSpellcheck(fuel, s);
    if r.Success? {
      var a := Exec(fuel - 1, s, RemoveAction(Spelling)).value;
      var plain := Exec(fuel - 1, a.0, Style(PlainColours)).value;
      Lock.UndoTwo(undoFuel, plain.0, plain.1, a.1);
    }
  }

  /** `AbstractReplaceCommand.undo()` takes the typed suggestion out, puts
      the deleted word back and then its flag: the reverse of `execute()`. */
  lemma ReplaceUndoOrder(fuel: nat, undoFuel: nat, s: Archy, suggestion: string, wordRange: Range)
    requires Sound(s) && undoFuel >= 2
    ensures var r := ExecReplaceWord(fuel, s, suggestion, wordRange);
            r.Success? ==>
              fuel >= 1 && |s.doc.selections| >= 2 &&
              var s1 := s.(doc := Documents.SetSelection(s.doc, Documents.Selection, wordRange.start, wordRange.end));
              Exec(fuel - 1, s1, RemoveSpellcheck).Success? &&
              var unflagged := Exec(fuel - 1, s1, RemoveSpellcheck).value;
              Exec(fuel - 1, unflagged.0, DeleteText).Success? &&
              var deleted := Exec(fuel - 1, unflagged.0, DeleteText).value;
              Exec(fuel - 1, deleted.0, AddText(suggestion, Documents.NoStyle)).Success? &&
              var added := Exec(fuel - 1, deleted.0, AddText(suggestion, Documents.NoStyle)).value;
              r.value.0.doc.text == added.0.doc.text && r.value.0.doc.behaviors == added.0.doc.behaviors &&
              Undo(undoFuel, r.value.0, r.value.1) ==
              (var u1 :- Undo(undoFuel - 2, r.value.0, added.1);
               var u2 :- Undo(undoFuel - 2, u1, deleted.1);
               Undo(undoFuel - 2, u2, unflagged.1))
  {
    var r := ExecReplaceWord(fuel, s, suggestion, wordRange);
    if r.Success? {
      var s1 := s.(doc := Documents.SetSelection(s.doc, Documents.Selection, wordRange.start, wordRange.end));
      var unflagged := Exec(fuel - 1, s1, RemoveSpellcheck).value;
      var deleted := Exec(fuel - 1, unflagged.0, DeleteText).value;
      var added := Exec(fuel - 1, deleted.0, AddText(suggestion, Documents.NoStyle)).value;
      Lock.UndoThree(undoFuel, r.value.0, added.1, deleted.1, unflagged.1);
    }
  }

  /** `AbstractLearnCommand.undo()` puts back the flag of the learnt word
      and nothing else. */
  lemma LearnUndo(fuel: nat, s: Archy, wordRange: Range)
    requires Sound(s)
    ensures var r := ExecLearn(fuel, s, wordRange);
            r.Success? ==>
              fuel >= 1 && |s.doc.selections| >= 2 &&
              var s1 := s.(doc := Documents.SetSelection(s.doc, Documents.Selection, wordRange.start, wordRange.end));
              Exec(fuel - 1, s1, RemoveSpellcheck).Success? &&
              var unflagged := Exec(fuel - 1, s1, RemoveSpellcheck).value;
              r.value.1 == unflagged.1 &&
              r.value.0.doc.text == unflagged.0.doc.text && r.value.0.doc.behaviors == unflagged.0.doc.behaviors
  {
  }

  /** Editing a flagged word (`SpellcheckModify`) takes the flag off the
      whole word and records just that removal; only the selection is
      put back afterwards. */
  lemma ModifyUndo(fuel: nat, s: Archy)
    requires Sound(s)
    ensures var r := ExecSpellcheckModify(fuel, s);
            r.Success? ==>
              fuel >= 1 && 0 <= s.doc.cursor < |s.doc.behaviors.ids| && |s.doc.selections| >= 2 &&
              var ext := Behaviors.FindActionExtent(s.doc.behaviors, Spelling, s.doc.cursor);
              var s1 := s.(doc := Documents.SetSelection(s.doc, Documents.Selection, ext.start, ext.end));
              Exec(fuel - 1, s1, RemoveSpellcheck).Success? &&
              var removed := Exec(fuel - 1, s1, RemoveSpellcheck).value;
              r.value.1 == removed.1 && r.value.0.pool == removed.0.pool &&
              r.value.0.doc.text == removed.0.doc.text && r.value.0.doc.behaviors == removed.0.doc.behaviors
  {
  }
}

=== FILE: style.dfy ===
/** Styles, the style pool and the per-character style array. */
module Styles {
  import opened Wrappers
  import opened Globals
  import PyList
  import Pools

  /** The values a style attribute takes: a name, a number or an RGB triple. */
  datatype AttrValue = Str(s: string) | Num(n: int) | Rgb(r: int, g: int, b: int)

  /** A style is the dictionary of its attributes; two styles are the same
      style exactly when their dictionaries are equal. */
  datatype Style = Style(attrs: map<string, AttrValue>)

  type Overlay = map<string, AttrValue>

  const AttributeNames: set<string> :=
    {"type", "font", "size", "italic", "bold", "underline", "outline",
     "backgroundColor", "foregroundColor"}

  /** `Style()`: Courier New 16, plain, black on white. */
  function DefaultStyle(): (s: Style)
    ensures s.attrs.Keys == AttributeNames
    ensures s.attrs["font"] == Str("Courier New") && s.attrs["size"] == Num(16)
    ensures s.attrs["backgroundColor"] == Rgb(255, 255, 255)
    ensures s.attrs["foregroundColor"] == Rgb(0, 0, 0)
  {
    Style(map["type" := Str("Font"), "font" := Str("Courier New"), "size" := Num(16),
              "italic" := Num(0), "bold" := Num(0), "underline" := Num(0), "outline" := Num(0),
              "backgroundColor" := Rgb(255, 255, 255), "foregroundColor" := Rgb(0, 0, 0)])
  }

  function NotAnAttribute(name: string): string {
    "'" + name + "' is not a style attribute name."
  }

  /** `Style.get`: the attribute's value, or the error an unknown name raises. */
  function Get(s: Style, name: string): (r: Result<AttrValue>)
    ensures r.Success? <==> name in s.attrs
    ensures r.Success? ==> r.value == s.attrs[name]
    ensures r.Failure? ==> r.error == NotAnAttribute(name)
  {
    if name in s.attrs then Success(s.attrs[name]) else Failure(NotAnAttribute(name))
  }

  /** `Style.setStyle(**args)`: sets the given attributes in order and fails
      at the first name that is not already an attribute of the style. */
  function SetStyle(s: Style, args: seq<(string, AttrValue)>): (r: Result<Style>)
    ensures r.Success? <==> forall i :: 0 <= i < |args| ==> args[i].0 in s.attrs
    ensures r.Success? ==> r.value.attrs.Keys == s.attrs.Keys
    ensures r.Success? ==>
              forall k :: k in s.attrs ==>
                (r.value.attrs[k] == s.attrs[k] ||
                 exists i :: 0 <= i < |args| && args[i] == (k, r.value.attrs[k]))
    ensures r.Failure? ==>
              exists i :: 0 <= i < |args| && args[i].0 !in s.attrs &&
                r.error == NotAnAttribute(args[i].0)
    decreases |args|
  {
    if |args| == 0 then Success(s)
    else if args[0].0 !in s.attrs then Failure(NotAnAttribute(args[0].0))
    else
      var t := Style(s.attrs[args[0].0 := args[0].1]);
      var rest := SetStyle(t, args[1..]);
      assert forall i :: 1 <= i < |args| ==> args[i] == args[1..][i - 1];
      rest
  }

  /** Applying a dictionary of attributes on top of a style, as the
      `setAttribute` loops of `newStyle` and `mergeStyleWithOverlay` do. */
  function ApplyOverlay(s: Style, overlay: Overlay): (r: Style)
    ensures r.attrs.Keys == s.attrs.Keys + overlay.Keys
    ensures forall k :: k in overlay ==> r.attrs[k] == overlay[k]
    ensures forall k :: k in s.attrs && k !in overlay ==> r.attrs[k] == s.attrs[k]
  {
    Style(s.attrs + overlay)
  }

  // ---------------------------------------------------------------------
  // The style pool: style ids are indices into it.
  // ---------------------------------------------------------------------

  /** A pool as the program keeps it: the default style at id 0 and no style
      stored twice. */
  predicate ValidPool(pool: seq<Style>) {
    |pool| > 0 && pool[0] == DefaultStyle() && Pools.NoDuplicates(pool)
  }

  /** `StylePool()` */
  function InitPool(): (pool: seq<Style>)
    ensures ValidPool(pool) && |pool| == 1
  {
    [DefaultStyle()]
  }

  /** `_findStyle`: the first id holding an equal style, or -1. */
  function FindStyle(pool: seq<Style>, s: Style): (i: int)
    ensures -1 <= i < |pool|
    ensures i == -1 <==> s !in pool
    ensures i >= 0 ==> pool[i] == s && forall j :: 0 <= j < i ==> pool[j] != s
  {
    Pools.IndexOf(pool, s)
  }

  /** `newStyle(**dict)`: the default style with the given attributes set,
      interned in the pool. The dictionary is the one `newStyle` ends up
      with after unwrapping a `style=` keyword. */
  function NewStyle(pool: seq<Style>, dict: Overlay): (r: (seq<Style>, nat))
    ensures r.1 < |r.0| && r.0[r.1] == ApplyOverlay(DefaultStyle(), dict)
    ensures |pool| <= |r.0| <= |pool| + 1 && r.0[..|pool|] == pool
    ensures ValidPool(pool) ==> ValidPool(r.0)
  {
    Pools.InternKeepsPool(pool, ApplyOverlay(DefaultStyle(), dict));
    Pools.Intern(pool, ApplyOverlay(DefaultStyle(), dict))
  }

  /** `mergeStyleWithOverlay(oldStyleNum, overlay)`: the style `oldStyleNum`
      with the overlay applied, interned in the pool. */
  function MergeStyleWithOverlay(pool: seq<Style>, oldStyleNum: nat, overlay: Overlay): (r: (seq<Style>, nat))
    requires oldStyleNum < |pool|
    ensures r.1 < |r.0| && r.0[r.1] == ApplyOverlay(pool[oldStyleNum], overlay)
    ensures |pool| <= |r.0| <= |pool| + 1 && r.0[..|pool|] == pool
    ensures ValidPool(pool) ==> ValidPool(r.0)
  {
    Pools.InternKeepsPool(pool, ApplyOverlay(pool[oldStyleNum], overlay));
    Pools.Intern(pool, ApplyOverlay(pool[oldStyleNum], overlay))
  }

  /** An empty overlay maps a style id of a valid pool to itself, without
      growing the pool. */
  lemma EmptyOverlayIsIdentity(pool: seq<Style>, id: nat)
    requires ValidPool(pool) && id < |pool|
    ensures MergeStyleWithOverlay(pool, id, map[]) == (pool, id)
  {
    assert ApplyOverlay(pool[id], map[]) == pool[id];
    Pools.UniqueIndex(pool, id);
  }

  /** Merging the same overlay a second time changes nothing: the pool stays
      as the first merge left it and the id is the same. */
  lemma {:induction false} MergeIdempotent(pool: seq<Style>, id: nat, overlay: Overlay)
    requires ValidPool(pool) && id < |pool|
    ensures var (p1, id1) := MergeStyleWithOverlay(pool, id, overlay);
            MergeStyleWithOverlay(p1, id1, overlay) == (p1, id1)
  {
    var (p1, id1) := MergeStyleWithOverlay(pool, id, overlay);
    var s := ApplyOverlay(pool[id], overlay);
    assert p1[id1] == s;
    assert ApplyOverlay(s, overlay) == s;
    Pools.UniqueIndex(p1, id1);
  }

  /** `newStyle` with no attributes is the default style, id 0. */
  lemma NewDefaultStyleIsZero(pool: seq<Style>)
    requires ValidPool(pool)
    ensures NewStyle(pool, map[]) == (pool, 0)
  {
    assert ApplyOverlay(DefaultStyle(), map[]) == DefaultStyle();
    Pools.UniqueIndex(pool, 0);
  }

  // ---------------------------------------------------------------------
  // StyleArray: one style id per character of the text.
  // ---------------------------------------------------------------------

  datatype StyleArray = StyleArray(ids: seq<int>, defaultStyle: int)

  /** `StyleArray(textArray, defaultStyleNumber)` and `clear(textArray)`:
      every position gets the default style. */
  function Init(textLength: nat, defaultStyle: int): (r: StyleArray)
    ensures |r.ids| == textLength && r.defaultStyle == defaultStyle
    ensures forall i :: 0 <= i < |r.ids| ==> r.ids[i] == defaultStyle
  {
    StyleArray(PyList.Repeat(defaultStyle, textLength), defaultStyle)
  }

  function Clear(sa: StyleArray, textLength: nat): (r: StyleArray)
    ensures |r.ids| == textLength && r.defaultStyle == sa.defaultStyle
    ensures forall i :: 0 <= i < |r.ids| ==> r.ids[i] == sa.defaultStyle
  {
    Init(textLength, sa.defaultStyle)
  }

  predicate IsValidPos(sa: StyleArray, pos: int) {
    0 <= pos < |sa.ids|
  }

  /** `setStyleInRange(styleID, startPos, endPos)`: the Python slice
      assignment `[startPos:endPos+1] = [styleID] * (endPos+1-startPos)`.
      On a range inside the array it sets exactly that range. */
  function SetStyleInRange(sa: StyleArray, styleID: int, startPos: int, endPos: int): (r: StyleArray)
    ensures r.defaultStyle == sa.defaultStyle
    ensures 0 <= startPos <= endPos + 1 <= |sa.ids| ==>
              |r.ids| == |sa.ids| &&
              forall i :: 0 <= i < |sa.ids| ==>
                r.ids[i] == if startPos <= i <= endPos then styleID else sa.ids[i]
  {
    sa.(ids := PyList.SliceAssign(sa.ids, startPos, endPos + 1,
                                  PyList.Repeat(styleID, endPos + 1 - startPos)))
  }

  /** `setDefaultStyle(styleID)`: also restyles every existing position. */
  function SetDefaultStyle(sa: StyleArray, styleID: int): (r: StyleArray)
    ensures r.defaultStyle == styleID && |r.ids| == |sa.ids|
    ensures forall i :: 0 <= i < |r.ids| ==> r.ids[i] == styleID
  {
    StyleArray(PyList.Repeat(styleID, |sa.ids|), styleID)
  }

  /** `getCharStyle(position)`: the default style off the array. */
  function GetCharStyle(sa: StyleArray, position: int): (id: int)
    ensures IsValidPos(sa, position) ==> id == sa.ids[position]
    ensures !IsValidPos(sa, position) ==> id == sa.defaultStyle
  {
    if position < 0 || |sa.ids| - 1 < position then sa.defaultStyle else sa.ids[position]
  }

  /** `setCharStyle(position, styleID)`: ignored off the array. */
  function SetCharStyle(sa: StyleArray, position: int, styleID: int): (r: StyleArray)
    ensures |r.ids| == |sa.ids| && r.defaultStyle == sa.defaultStyle
    ensures forall i :: 0 <= i < |sa.ids| ==>
              GetCharStyle(r, i) == if i == position then styleID else GetCharStyle(sa, i)
  {
    if position < 0 || |sa.ids| - 1 < position then sa
    else sa.(ids := sa.ids[position := styleID])
  }

  /** `getSubString(startPos, endPos)`: the slice `[startPos:endPos+1]`. */
  function GetSubString(sa: StyleArray, startPos: int, endPos: int): (r: seq<int>)
    ensures 0 <= startPos <= endPos + 1 <= |sa.ids| ==>
              |r| == endPos + 1 - startPos &&
              forall i :: 0 <= i < |r| ==> r[i] == GetCharStyle(sa, startPos + i)
  {
    PyList.Slice(sa.ids, startPos, endPos + 1)
  }

  /** `replaceStyles(styleString, insertPos)`: overwrites the ids from
      `insertPos` on with the given ones. */
  function ReplaceStyles(sa: StyleArray, styles: seq<int>, insertPos: int): (r: StyleArray)
    ensures r.defaultStyle == sa.defaultStyle
    ensures 0 <= insertPos && insertPos + |styles| <= |sa.ids| ==>
              |r.ids| == |sa.ids| &&
              forall i :: 0 <= i < |sa.ids| ==>
                r.ids[i] == if insertPos <= i < insertPos + |styles| then styles[i - insertPos]
                            else sa.ids[i]
  {
    sa.(ids := PyList.SliceAssign(sa.ids, insertPos, insertPos + |styles|, styles))
  }

  /** Writing back the styles of a range restores the array. */
  lemma ReplaceSubStringRestores(sa: StyleArray, startPos: int, endPos: int)
    requires 0 <= startPos <= endPos + 1 <= |sa.ids|
    ensures ReplaceStyles(sa, GetSubString(sa, startPos, endPos), startPos) == sa
  {
    var sub := GetSubString(sa, startPos, endPos);
    assert sub == sa.ids[startPos..endPos + 1];
    var r := ReplaceStyles(sa, sub, startPos);
    assert r.ids == sa.ids;
  }

  /** The style id `addText` gives new characters when no style is passed:
      the style of the character at the insertion point, or the default
      style when the point is off the array. */
  function InheritedStyle(sa: StyleArray, insertPos: int, styleID: Option<int>): (id: int)
    ensures styleID.Some? ==> id == styleID.value
    ensures styleID.None? && IsValidPos(sa, insertPos) ==> id == sa.ids[insertPos]
    ensures styleID.None? && !IsValidPos(sa, insertPos) ==> id == sa.defaultStyle
  {
    match styleID
    case Some(id) => id
    case None =>
      if insertPos < 0 || |sa.ids| - 1 < insertPos then sa.defaultStyle else sa.ids[insertPos]
  }

  /** `addText(newString, insertPos, styleID)` as written: an insertion
      point off the array becomes -1, and the slice `[-1:-1]` then inserts
      BEFORE the last id instead of after it. */
  function AddText(sa: StyleArray, textLength: nat, insertPos: int, styleID: Option<int>): (r: StyleArray)
    ensures r.defaultStyle == sa.defaultStyle && |r.ids| == |sa.ids| + textLength
    ensures IsValidPos(sa, insertPos) ==>
              r.ids == sa.ids[..insertPos] + PyList.Repeat(InheritedStyle(sa, insertPos, styleID), textLength)
                       + sa.ids[insertPos..]
    ensures !IsValidPos(sa, insertPos) && |sa.ids| > 0 ==>
              r.ids == sa.ids[..|sa.ids| - 1] + PyList.Repeat(InheritedStyle(sa, insertPos, styleID), textLength)
                       + [sa.ids[|sa.ids| - 1]]
  {
    var ip := if insertPos < 0 || |sa.ids| - 1 < insertPos then -1 else insertPos;
    var id := InheritedStyle(sa, insertPos, styleID);
    PyList.InsertAtBound(sa.ids, ip, PyList.Repeat(id, textLength));
    assert |sa.ids| > 0 && ip == -1 ==>
             PyList.SliceAssign(sa.ids, ip, ip, PyList.Repeat(id, textLength))
             == sa.ids[..|sa.ids| - 1] + PyList.Repeat(id, textLength) + [sa.ids[|sa.ids| - 1]] by {
      if |sa.ids| > 0 && ip == -1 {
        PyList.MinusOneInsertsBeforeLast(sa.ids, PyList.Repeat(id, textLength));
      }
    }
    sa.(ids := PyList.SliceAssign(sa.ids, ip, ip, PyList.Repeat(id, textLength)))
  }

  /** `addText` as evidently intended: the new ids go where the text array
      puts the new characters, so the ids stay aligned with the text. */
  function AddTextAligned(sa: StyleArray, textLength: nat, insertPos: int, styleID: Option<int>): (r: StyleArray)
    ensures r.defaultStyle == sa.defaultStyle && |r.ids| == |sa.ids| + textLength
    ensures var ip := InsertPoint(insertPos, |sa.ids|);
            r.ids == sa.ids[..ip] + PyList.Repeat(InheritedStyle(sa, insertPos, styleID), textLength) + sa.ids[ip..]
  {
    var ip := InsertPoint(insertPos, |sa.ids|);
    sa.(ids := sa.ids[..ip] + PyList.Repeat(InheritedStyle(sa, insertPos, styleID), textLength) + sa.ids[ip..])
  }

  /** The aligned insertion gives the new positions the inherited style and
      keeps every old id on its character. */
  lemma AlignedKeepsOldIds(sa: StyleArray, textLength: nat, insertPos: int, styleID: Option<int>)
    ensures var r := AddTextAligned(sa, textLength, insertPos, styleID);
            var ip := InsertPoint(insertPos, |sa.ids|);
            (forall i :: ip <= i < ip + textLength ==> r.ids[i] == InheritedStyle(sa, insertPos, styleID)) &&
            (forall p :: 0 <= p < |sa.ids| ==>
               0 <= UpdateOnAdd(p, ip, textLength) < |r.ids| &&
               r.ids[UpdateOnAdd(p, ip, textLength)] == sa.ids[p])
  {
    var ip := InsertPoint(insertPos, |sa.ids|);
    var v := PyList.Repeat(InheritedStyle(sa, insertPos, styleID), textLength);
    var r := AddTextAligned(sa, textLength, insertPos, styleID).ids;
    forall i | ip <= i < ip + textLength
      ensures r[i] == InheritedStyle(sa, insertPos, styleID)
    {
      assert r[i] == v[i - ip];
    }
    forall p | 0 <= p < |sa.ids|
      ensures 0 <= UpdateOnAdd(p, ip, textLength) < |r|
      ensures r[UpdateOnAdd(p, ip, textLength)] == sa.ids[p]
    {
      UpdateOnAddFollowsCharacter(sa.ids, ip, v, p);
    }
  }

  /** The two agree except when a non-empty array receives text at a
      position off its end. */
  lemma AlignedAgreesInside(sa: StyleArray, textLength: nat, insertPos: int, styleID: Option<int>)
    requires IsValidPos(sa, insertPos) || |sa.ids| == 0
    ensures AddTextAligned(sa, textLength, insertPos, styleID) == AddText(sa, textLength, insertPos, styleID)
  {
    var id := InheritedStyle(sa, insertPos, styleID);
    PyList.InsertAtBound(sa.ids, -1, PyList.Repeat(id, textLength));
  }

  /** The discrepancy: one id of style 5, one character appended at
      position 1 with no style given. The text becomes "ab"; the ids become
      [0, 5], so the old character now has the default style and the new
      one style 5. The aligned version gives [5, 0]. */
  lemma AppendMisalignsStyles()
    ensures AddText(StyleArray([5], 0), 1, 1, None).ids == [0, 5]
    ensures AddTextAligned(StyleArray([5], 0), 1, 1, None).ids == [5, 0]
  {
    PyList.MinusOneInsertsBeforeLast([5], [0]);
    assert PyList.Repeat(0, 1) == [0];
  }

  /** `delText(start, end)`: the same clamped inclusive deletion as the text
      array's. */
  function DelText(sa: StyleArray, start: int, end: int): (r: StyleArray)
    ensures r.defaultStyle == sa.defaultStyle && r.ids == DeleteRange(sa.ids, start, end)
  {
    sa.(ids := DeleteRange(sa.ids, start, end))
  }

  /** Deleting the ids just inserted by the aligned `addText` gives back the
      original array. */
  lemma {:induction false} AddThenDeleteRestores(sa: StyleArray, textLength: nat, insertPos: int, styleID: Option<int>)
    requires textLength > 0
    ensures var ip := InsertPoint(insertPos, |sa.ids|);
            DelText(AddTextAligned(sa, textLength, insertPos, styleID), ip, ip + textLength - 1) == sa
  {
    var ip := InsertPoint(insertPos, |sa.ids|);
    var a := AddTextAligned(sa, textLength, insertPos, styleID);
    var v := PyList.Repeat(InheritedStyle(sa, insertPos, styleID), textLength);
    assert a.ids == sa.ids[..ip] + v + sa.ids[ip..];
    assert ClampDeletion(ip, ip + textLength - 1, |a.ids|) == Some(Range(ip, ip + textLength - 1));
    assert a.ids[..ip] == sa.ids[..ip];
    assert a.ids[ip + textLength..] == sa.ids[ip..];
    assert sa.ids[..ip] + sa.ids[ip..] == sa.ids;
  }
}

=== FILE: style_editing.dfy ===
/** What executing and undoing the style commands of
    `commands/style_editing.py` does to the document. */
module StyleEditing {
  import opened Wrappers
  import opened Globals
  import opened Handlers
  import PyList
  import Pools
  import Styles
  import Behaviors
  import Documents
  import opened Commands
  import TextEditing

  /** Every character of the selection has a style id inside the pool,
      and the selection lies inside the style array. */
  predicate StylesInPool(s: Archy) {
    |s.doc.selections| >= 2 &&
    var sel := s.doc.selections[Documents.Selection];
    0 <= sel.start <= sel.end < |s.doc.styles.ids| &&
    forall p :: sel.start <= p <= sel.end ==> 0 <= Styles.GetCharStyle(s.doc.styles, p) < |s.pool|
  }

  /** `SimpleStyleCommandAbstract` merges the overlay into the style of
      every selected character, leaves the others alone and only adds to
      the style pool. */
  lemma SimpleStyleOverlays(s: Archy, overlay: Styles.Overlay)
    requires Sound(s) && StylesInPool(s)
    ensures ExecSimpleStyle(s, overlay).Success?
    ensures var sel := s.doc.selections[Documents.Selection];
            var r := ExecSimpleStyle(s, overlay).value.0;
            Pools.Extends(s.pool, r.pool) && |r.doc.styles.ids| == |s.doc.styles.ids| &&
            r.doc.text == s.doc.text && r.doc.behaviors == s.doc.behaviors &&
            r.doc.selections == s.doc.selections &&
            forall p :: 0 <= p < |s.doc.styles.ids| ==>
              if sel.start <= p <= sel.end then
                0 <= r.doc.styles.ids[p] < |r.pool| && 0 <= s.doc.styles.ids[p] < |r.pool| &&
                r.pool[r.doc.styles.ids[p]] == Styles.ApplyOverlay(r.pool[s.doc.styles.ids[p]], overlay)
              else r.doc.styles.ids[p] == s.doc.styles.ids[p]
  {
  }

  /** Undoing `SimpleStyleCommandAbstract` writes the copied style ids
      back: the document is as before, only the style pool keeps what the
      overlay added. */
  lemma SimpleStyleUndoRestores(fuel: nat, s: Archy, overlay: Styles.Overlay)
    requires Sound(s) && fuel >= 1 && StylesInPool(s) && Documents.CursorSettled(s.doc)
    ensures ExecSimpleStyle(s, overlay).Success?
    ensures var ex := ExecSimpleStyle(s, overlay).value;
            var u := Undo(fuel, ex.0, ex.1);
            u.Success? && u.value == s.(pool := ex.0.pool)
  {
    var sel := s.doc.selections[Documents.Selection];
    var ex := ExecSimpleStyle(s, overlay).value;
    var copied := Styles.GetSubString(s.doc.styles, sel.start, sel.end);
    CopiedStylesRestore(s, overlay);
    UndoRestyled(fuel, ex.0, sel.start, copied, s.doc.cursor);
  }

  /** The document side of the round trip above. */
  lemma CopiedStylesRestore(s: Archy, overlay: Styles.Overlay)
    requires Sound(s) && StylesInPool(s) && Documents.CursorSettled(s.doc)
    ensures ExecSimpleStyle(s, overlay).Success?
    ensures var sel := s.doc.selections[Documents.Selection];
            var ex := ExecSimpleStyle(s, overlay).value;
            var copied := Styles.GetSubString(s.doc.styles, sel.start, sel.end);
            ex.0.doc.cursor == s.doc.cursor && ex.1 == Restyled(sel.start, copied) &&
            Documents.SetCursor(Documents.SetStyle(ex.0.doc, Documents.StyleList(copied), sel.start, 0), s.doc.cursor) == s.doc
  {
    var sel := s.doc.selections[Documents.Selection];
    var ex := ExecSimpleStyle(s, overlay).value;
    var copied := Styles.GetSubString(s.doc.styles, sel.start, sel.end);
    RestoreCopied(s.doc, ex.0.doc, s.pool, overlay, sel.start, sel.end);
  }

  /** Writing the copied ids back into a restyled document whose cursor
      may have moved gives back the document. */
  lemma RestoreCopied(d: Documents.Doc, e: Documents.Doc, pool: seq<Styles.Style>, overlay: Styles.Overlay,
                      startPos: int, endPos: int)
    requires 0 <= startPos <= endPos + 1 <= |d.styles.ids| && Documents.CursorSettled(d)
    requires Documents.SetStyleOverlay(d, pool, overlay, startPos, endPos).Success?
    requires e == Documents.SetStyleOverlay(d, pool, overlay, startPos, endPos).value.0.(cursor := e.cursor)
    ensures var copied := Styles.GetSubString(d.styles, startPos, endPos);
            Documents.SetCursor(Documents.SetStyle(e, Documents.StyleList(copied), startPos, 0), d.cursor) == d
  {
    Documents.OverlayThenRestoreStyles(d, pool, overlay, startPos, endPos);
    var copied := Styles.GetSubString(d.styles, startPos, endPos);
    assert Documents.SetStyle(e, Documents.StyleList(copied), startPos, 0) ==
           Documents.SetStyle(e, Documents.StyleList(copied), startPos, endPos);
  }

  /** How a restyle record is undone when the cursor sits where it was. */
  lemma UndoRestyled(fuel: nat, p: Archy, start: int, copied: seq<int>, cursor: int)
    requires Sound(p) && fuel >= 1 && p.doc.cursor == cursor
    ensures Undo(fuel, p, Restyled(start, copied)) ==
            Success(p.(doc := Documents.SetCursor(Documents.SetStyle(p.doc, Documents.StyleList(copied), start, 0), cursor)))
  {
  }

  /** Where the selection is one styleable stretch and the cursor's only
      style handler is `SimpleStyleCommand`, `StyleCommand` is that handler
      on the whole selection. */
  lemma StyleAtPlainPosition(fuel: nat, s: Archy, overlay: Styles.Overlay)
    requires Sound(s) && fuel >= 2 && TextEditing.SelectionInside(s.doc)
    requires ExecSimpleStyle(s, overlay).Success? && PyList.IndexOk(s.doc.cursor, |s.doc.behaviors.ids|)
    requires Behaviors.HandlersAt(s.doc.behaviors, s.doc.cursor, StyleSlot) == [SimpleStyle]
    requires var sel := s.doc.selections[Documents.Selection];
             Behaviors.BlankableRanges(s.doc.behaviors, Behaviors.Styleable, sel.start, sel.end) == [Range(sel.start, sel.end)]
    ensures var ex := ExecSimpleStyle(s, overlay).value;
            ExecStyle(fuel, s, overlay) == Success((ex.0, Undone([ex.1])))
  {
    var sel := s.doc.selections[Documents.Selection];
    var ex := ExecSimpleStyle(s, overlay).value;
    assert Documents.SetSelection(s.doc, Documents.Selection, sel.start, sel.end) == s.doc by {
      assert PyList.Put(s.doc.selections, Documents.Selection, sel) == s.doc.selections;
    }
    assert ExecChain(fuel - 1, s, [SimpleStyle], Styling(overlay)) == Success((ex.0, [ex.1])) by {
      TextEditing.ChainOfOne(fuel - 1, s, SimpleStyle, Styling(overlay));
      assert ExecHandler(fuel - 2, s, SimpleStyle, Styling(overlay)) == ExecSimpleStyle(s, overlay);
    }
    StyleRangesSingle(fuel, s, Range(sel.start, sel.end), s.doc.cursor, overlay, (ex.0, [ex.1]));
    ExecStyleFrom(fuel, s, overlay, (ex.0, [ex.1]));
    assert Documents.SetSelection(ex.0.doc, Documents.Selection, sel.start, sel.end) == ex.0.doc by {
      assert PyList.Put(ex.0.doc.selections, Documents.Selection, sel) == ex.0.doc.selections;
    }
  }

  /** `StyleCommand` once its loop over the styleable stretches is known. */
  lemma ExecStyleFrom(fuel: nat, s: Archy, overlay: Styles.Overlay, ran: (Archy, seq<Done>))
    requires Sound(s) && |s.doc.selections| >= 2
    requires var sel := s.doc.selections[Documents.Selection];
             Behaviors.RangeReadable(s.doc.behaviors, sel.start, sel.end) &&
             StyleRanges(fuel, s, Behaviors.BlankableRanges(s.doc.behaviors, Behaviors.Styleable, sel.start, sel.end),
                         s.doc.cursor, overlay) == Success(ran)
    requires |ran.0.doc.selections| >= 2
    ensures var sel := s.doc.selections[Documents.Selection];
            ExecStyle(fuel, s, overlay) ==
            Success((ran.0.(doc := Documents.SetSelection(ran.0.doc, Documents.Selection, sel.start, sel.end)), Undone(ran.1)))
  {
  }

  /** `SimpleStyleCommandAbstract` succeeds on styles inside the pool and
      leaves the selections and the behaviors alone. */
  lemma SimpleStyleOnlyRestyles(s: Archy, overlay: Styles.Overlay)
    requires Sound(s) && StylesInPool(s)
    ensures ExecSimpleStyle(s, overlay).Success?
    ensures var r := ExecSimpleStyle(s, overlay).value.0;
            r.doc.selections == s.doc.selections && r.doc.behaviors == s.doc.behaviors
  {
  }

  /** The loop of `StyleCommand` over a single stretch that is already the
      selection runs the chain of style handlers once. */
  lemma StyleRangesSingle(fuel: nat, s: Archy, range: Range, cursor: int, overlay: Styles.Overlay, first: (Archy, seq<Done>))
    requires Sound(s) && fuel >= 1 && |s.doc.selections| >= 2
    requires Documents.SetSelection(s.doc, Documents.Selection, range.start, range.end) == s.doc
    requires PyList.IndexOk(cursor, |s.doc.behaviors.ids|)
    requires ExecChain(fuel - 1, s, Behaviors.HandlersAt(s.doc.behaviors, cursor, StyleSlot), Styling(overlay)) == Success(first)
    ensures StyleRanges(fuel, s, [range], cursor, overlay) == Success(first)
  {
    assert s.(doc := Documents.SetSelection(s.doc, Documents.Selection, range.start, range.end)) == s;
    assert [range][1..] == [];
    assert [range][0] == range;
    assert StyleRanges(fuel, first.0, [], cursor, overlay) == Success((first.0, []));
    assert first.1 + [] == first.1;
  }

  /** In a plain document `StyleCommand` is `SimpleStyleCommand` on the
      whole selection. */
  lemma StyleInPlainDoc(fuel: nat, s: Archy, overlay: Styles.Overlay)
    requires Sound(s) && fuel >= 2 && TextEditing.Plain(s.doc.behaviors) && TextEditing.SelectionInside(s.doc)
    requires StylesInPool(s) && PyList.IndexOk(s.doc.cursor, |s.doc.behaviors.ids|)
    ensures ExecSimpleStyle(s, overlay).Success?
    ensures var ex := ExecSimpleStyle(s, overlay).value;
            ExecStyle(fuel, s, overlay) == Success((ex.0, Undone([ex.1])))
  {
    SimpleStyleOnlyRestyles(s, overlay);
    var sel := s.doc.selections[Documents.Selection];
    TextEditing.PlainHandlers(s.doc.behaviors, s.doc.cursor);
    Behaviors.DefaultBehaviorIsBlankable(s.doc.behaviors, Behaviors.Styleable, sel.start, sel.end);
    StyleAtPlainPosition(fuel, s, overlay);
  }

  /** `Exec` hands a style command to `StyleCommand`. */
  lemma ExecIsStyle(fuel: nat, s: Archy, overlay: Styles.Overlay)
    requires Sound(s) && fuel >= 1
    ensures Exec(fuel, s, Cmd.Style(overlay)) == ExecStyle(fuel - 1, s, overlay)
  {
  }

  /** Undoing `SimpleStyleCommandAbstract` after the behaviors changed: the
      styles come back all the same, and the behaviors stay as they are. */
  lemma SimpleStyleUndoKeepsBehaviors(fuel: nat, s: Archy, overlay: Styles.Overlay, ba: Behaviors.BehaviorArray)
    requires Sound(s) && fuel >= 1 && StylesInPool(s) && Documents.CursorSettled(s.doc) && Behaviors.Valid(ba)
    ensures ExecSimpleStyle(s, overlay).Success?
    ensures var ex := ExecSimpleStyle(s, overlay).value;
            Undo(fuel, ex.0.(doc := ex.0.doc.(behaviors := ba)), ex.1) ==
            Success(s.(doc := s.doc.(behaviors := ba), pool := ex.0.pool))
  {
    var sel := s.doc.selections[Documents.Selection];
    var ex := ExecSimpleStyle(s, overlay).value;
    var copied := Styles.GetSubString(s.doc.styles, sel.start, sel.end);
    var p := ex.0.(doc := ex.0.doc.(behaviors := ba));
    CopiedStylesRestore(s, overlay);
    UndoRestyled(fuel, p, sel.start, copied, s.doc.cursor);
    Documents.RestyleIgnoresBehaviors(ex.0.doc, ba, Documents.StyleList(copied), sel.start, s.doc.cursor);
  }

  /** In a plain document, undoing `StyleCommand` gives back the document;
      only the style pool keeps what the overlay added. */
  lemma StyleUndoRestores(fuel: nat, s: Archy, overlay: Styles.Overlay)
    requires Sound(s) && fuel >= 3 && TextEditing.Plain(s.doc.behaviors) && TextEditing.SelectionInside(s.doc)
    requires StylesInPool(s) && Documents.CursorSettled(s.doc) && Documents.Length(s.doc) > 0
    ensures ExecStyle(fuel, s, overlay).Success?
    ensures var ex := ExecStyle(fuel, s, overlay).value;
            var u := Undo(fuel, ex.0, ex.1);
            u.Success? && u.value == s.(pool := ex.0.pool)
  {
    StyleInPlainDoc(fuel, s, overlay);
    var ex := ExecSimpleStyle(s, overlay).value;
    assert Undo(fuel - 2, ex.0, ex.1) == Success(s.(pool := ex.0.pool)) by {
      SimpleStyleUndoRestores(fuel - 2, s, overlay);
    }
    TextEditing.UndoOne(fuel, ex.0, ex.1);
  }
}

=== FILE: text_array.dfy ===
/** The character store of a document: a string plus a "touched" flag that
    records whether it changed since the flag was last read. */
module TextArrays {
  import opened Wrappers
  import opened Globals
  import PyList
  import BmhSearch

  datatype TextArray = TextArray(contents: string, touched: bool)

  /** `TextArray(contents)` / `initialize(contents)` */
  function Init(contents: string): (r: TextArray)
    ensures r.contents == contents && !r.touched
  {
    TextArray(contents, false)
  }

  /** `clearText` */
  function ClearText(ta: TextArray): (r: TextArray)
    ensures r.contents == [] && !r.touched
  {
    Init("")
  }

  /** `addText(value, pos)`: `value` is spliced in at the insertion point. */
  function AddText(ta: TextArray, value: string, pos: int): (r: TextArray)
    ensures r.touched
    ensures |r.contents| == |ta.contents| + |value|
    ensures var ip := InsertPoint(pos, |ta.contents|);
            r.contents == ta.contents[..ip] + value + ta.contents[ip..]
  {
    var ip := InsertPoint(pos, |ta.contents|);
    TextArray(ta.contents[..ip] + value + ta.contents[ip..], true)
  }

  /** `value` lands at the insertion point and every old character moves to
      the position `UpdateOnAdd` gives it. */
  lemma AddTextKeepsCharacters(ta: TextArray, value: string, pos: int)
    ensures var r := AddText(ta, value, pos);
            var ip := InsertPoint(pos, |ta.contents|);
            r.contents[ip..ip + |value|] == value &&
            forall p :: 0 <= p < |ta.contents| ==>
              0 <= UpdateOnAdd(p, ip, |value|) < |r.contents| &&
              r.contents[UpdateOnAdd(p, ip, |value|)] == ta.contents[p]
  {
    var c := ta.contents;
    var ip := InsertPoint(pos, |c|);
    var r := AddText(ta, value, pos).contents;
    assert r[ip..ip + |value|] == value;
    forall p | 0 <= p < |c|
      ensures 0 <= UpdateOnAdd(p, ip, |value|) < |r|
      ensures r[UpdateOnAdd(p, ip, |value|)] == c[p]
    {
      UpdateOnAddFollowsCharacter(c, ip, value, p);
    }
  }

  /** `delText(start, end)`: removes the inclusive range after clamping it
      to the existing positions; the flag is set whenever the clamped range
      exists. */
  function DelText(ta: TextArray, start: int, end: int): (r: TextArray)
    ensures r.contents == DeleteRange(ta.contents, start, end)
    ensures r.touched == (ta.touched || ClampDeletion(start, end, |ta.contents|).Some?)
  {
    match ClampDeletion(start, end, |ta.contents|)
    case None => ta
    case Some(k) => TextArray(ta.contents[..k.start] + ta.contents[k.end + 1..], true)
  }

  /** `wasTouched`: reports the flag and clears it. */
  function WasTouched(ta: TextArray): (r: (TextArray, bool))
    ensures r.1 == ta.touched
    ensures r.0.contents == ta.contents && !r.0.touched
  {
    (ta.(touched := false), ta.touched)
  }

  /** `getChar(pos)` is the Python slice `contents[pos:pos+1]`: one
      character for an existing position, nothing past the end, and for a
      negative position the Python wrap-around (except `-1`, whose slice
      `[-1:0]` is empty). */
  function GetChar(ta: TextArray, pos: int): (r: string)
    ensures 0 <= pos < |ta.contents| ==> r == [ta.contents[pos]]
    ensures pos >= |ta.contents| || pos == -1 || pos < -|ta.contents| ==> r == []
    ensures -|ta.contents| <= pos < -1 ==> r == [ta.contents[pos + |ta.contents|]]
  {
    PyList.Slice(ta.contents, pos, pos + 1)
  }

  /** `getSubString(start, end)`: the characters of the inclusive range that
      exist; empty when the range is empty or lies outside the text. */
  function GetSubString(ta: TextArray, start: int, end: int): (r: string)
    ensures ClampDeletion(start, end, |ta.contents|).None? ==> r == []
    ensures ClampDeletion(start, end, |ta.contents|).Some? ==>
              var k := ClampDeletion(start, end, |ta.contents|).value;
              |r| == k.end - k.start + 1 &&
              forall i :: 0 <= i < |r| ==> r[i] == ta.contents[k.start + i]
  {
    var n := |ta.contents| - 1;
    if end < 0 || n < start || end < start then ""
    else
      var s := Bound(start, 0, n);
      var e := Bound(end, 0, n);
      ta.contents[s..e + 1]
  }

  lemma GetSubStringIsSlice(ta: TextArray, start: int, end: int)
    requires ClampDeletion(start, end, |ta.contents|).Some? && |ta.contents| > 0
    ensures var k := ClampDeletion(start, end, |ta.contents|).value;
            GetSubString(ta, start, end) == ta.contents[k.start..k.end + 1]
  {
  }

  /** Inserting text and deleting the range it now occupies restores the
      characters: the inverse pair `SimpleAddTextCommand` relies on. */
  lemma AddThenDeleteRestores(ta: TextArray, value: string, pos: int)
    ensures var ip := InsertPoint(pos, |ta.contents|);
            DelText(AddText(ta, value, pos), ip, ip + |value| - 1).contents == ta.contents
  {
    var c := ta.contents;
    var ip := InsertPoint(pos, |c|);
    var added := AddText(ta, value, pos).contents;
    if |value| > 0 {
      assert added[..ip] == c[..ip];
      assert added[ip + |value|..] == c[ip..];
      assert c[..ip] + c[ip..] == c;
    }
  }

  /** Deleting a range and inserting the deleted characters at its start
      restores the text: the inverse pair `SimpleDeleteTextCommand` relies on. */
  lemma DeleteThenReinsertRestores(ta: TextArray, start: int, end: int)
    requires ClampDeletion(start, end, |ta.contents|).Some?
    ensures var k := ClampDeletion(start, end, |ta.contents|).value;
            AddText(DelText(ta, start, end), GetSubString(ta, start, end), k.start).contents
              == ta.contents
  {
    var c := ta.contents;
    var k := ClampDeletion(start, end, |c|).value;
    if |c| > 0 {
      GetSubStringIsSlice(ta, start, end);
      ReinsertDeleted(c, start, end);
    }
  }

  /** `find(pattern, start, direction)`: direction 1 searches forward from
      `start` for the leftmost match; any other direction searches backward
      for the rightmost match that ends before `start`. */
  method Find(ta: TextArray, pattern: string, start: int, direction: int) returns (r: int)
    requires 0 <= start
    requires direction != 1 ==> start <= |ta.contents|
    ensures |pattern| == 0 ==> r == -1
    ensures var pl := BmhSearch.MakePatternList(pattern);
            var lo := if direction == 1 then start else 0;
            var hi := if direction == 1 then |ta.contents| else start;
            (r == -1 && |pattern| > 0 ==> BmhSearch.NoMatchBetween(ta.contents, pl, lo, hi - |pattern| + 1)) &&
            (r != -1 ==> lo <= r && r + |pattern| <= hi && BmhSearch.MatchAt(ta.contents, pl, r)) &&
            (r != -1 && direction == 1 ==> BmhSearch.NoMatchBetween(ta.contents, pl, lo, r)) &&
            (r != -1 && direction != 1 ==> BmhSearch.NoMatchBetween(ta.contents, pl, r + 1, hi - |pattern| + 1))
  {
    if direction == 1 {
      r := BmhSearch.SearchForward(ta.contents, pattern, start, None);
    } else {
      r := BmhSearch.SearchBackward(ta.contents, pattern, 0, Some(start));
    }
  }
}

=== FILE: text_editing.dfy ===
/** What executing and undoing the commands of `commands/text_editing.py`
    does to the document. */
module TextEditing {
  import opened Wrappers
  import opened Globals
  import opened Handlers
  import PyList
  import Behaviors
  import Documents
  import Recording
  import opened Commands

  // ---------------------------------------------------------------------
  // SetCursor, SetSelection, SetSelectionList, Select
  // ---------------------------------------------------------------------

  /** Undoing `SetCursorCommand` puts a settled cursor back. */
  lemma SetCursorUndoRestores(fuel: nat, s: Archy, pos: int)
    requires Sound(s) && Documents.CursorSettled(s.doc) && fuel >= 1
    ensures Exec(fuel, s, Cmd.SetCursor(pos)).Success?
    ensures var ex := Exec(fuel, s, Cmd.SetCursor(pos)).value;
            Undo(fuel, ex.0, ex.1) == Success(s)
  {
    var ex := ExecSetCursor(s, pos);
    assert Documents.Length(ex.0.doc) == Documents.Length(s.doc);
  }

  /** Undoing `SetSelectionCommand` puts back the selection it found,
      whether or not that selection was set. */
  lemma SetSelectionUndoRestores(fuel: nat, s: Archy, sel: int, start: int, end: int)
    requires Sound(s) && fuel >= 1 && PyList.IndexOk(sel, |s.doc.selections|)
    ensures Exec(fuel, s, Cmd.SetSelection(sel, start, end)).Success?
    ensures var ex := Exec(fuel, s, Cmd.SetSelection(sel, start, end)).value;
            Undo(fuel, ex.0, ex.1) == Success(s)
  {
    var ex := ExecSetSelection(s, sel, start, end).value;
    var d := ex.0.doc;
    var k := PyList.Norm(sel, |s.doc.selections|);
    assert RestoreSelection(d, sel, PyList.At(s.doc.selections, sel)).selections == s.doc.selections;
  }

  /** The undo of `SetSelectionCommand` as the program has it: the old
      ends go through `setSelection`, which ignores a range outside the
      document. */
  function SetSelectionUndoAsWritten(d: Documents.Doc, sel: int, was: Range): (r: Documents.Doc)
    requires PyList.IndexOk(sel, |d.selections|)
    ensures Documents.InDoc(d, was.start) && Documents.InDoc(d, was.end) && was.start <= was.end ==>
              r == RestoreSelection(d, sel, was)
    ensures !Documents.InDoc(d, was.start) ==> r == d
  {
    Documents.SetSelection(d, sel, was.start, was.end)
  }

  /** A three-character document whose selections are all unset. */
  function Unset(): Documents.Doc {
    var d := Documents.Init();
    Documents.AddText(d, "abc", 0, Documents.NoStyle).(cursor := 0, selections := d.selections)
  }

  /** Setting the selection of a document where it was unset, then undoing
      as the program does, leaves the new selection in place. */
  lemma UnsetSelectionNotRestored()
    ensures var d := Unset();
            var moved := Documents.SetSelection(d, Documents.Selection, 0, 1);
            d.selections[Documents.Selection] == Range(-1, -1) &&
            SetSelectionUndoAsWritten(moved, Documents.Selection, d.selections[Documents.Selection])
              .selections[Documents.Selection] == Range(0, 1)
  {
    var d := Unset();
    assert Documents.Length(d) == 3;
  }

  /** Undoing `SetSelectionListCommand` puts the list back. */
  lemma SetSelectionListUndoRestores(fuel: nat, s: Archy, sels: seq<Range>)
    requires Sound(s) && fuel >= 1
    ensures Exec(fuel, s, Cmd.SetSelectionList(sels)).Success?
    ensures var ex := Exec(fuel, s, Cmd.SetSelectionList(sels)).value;
            ex.0.doc.selections == sels && Undo(fuel, ex.0, ex.1) == Success(s)
  {
  }

  /** `SelectCommand` on a preselection inside the text selects it, puts
      the cursor after it; its undo gives back the cursor and the
      selections, though not the anchor. */
  lemma SelectThenUndo(fuel: nat, s: Archy)
    requires Sound(s) && fuel >= 1 && |s.doc.selections| >= 2 && Documents.CursorSettled(s.doc)
    ensures Exec(fuel, s, Cmd.Select).Success?
    ensures var pre := s.doc.selections[Documents.Preselection];
            var ex := Exec(fuel, s, Cmd.Select).value;
            (Documents.InDoc(s.doc, pre.start) && Documents.InDoc(s.doc, pre.end) && pre.start <= pre.end ==>
               ex.0.doc.selections[Documents.Selection] == pre) &&
            ex.0.anchor == pre.end + 1 &&
            Undo(fuel, ex.0, ex.1) == Success(s.(anchor := pre.end + 1))
  {
    ExecOfSelect(fuel, s);
    var ex := ExecSelect(s).value;
    UndoOfSelectWas(fuel, ex.0, s.doc.cursor, s.doc.selections);
    SelectionListThenCursor(s.doc, ex.0.doc);
    SelectKeepsPreselection(s.doc);
  }

  lemma ExecOfSelect(fuel: nat, s: Archy)
    requires Sound(s) && fuel >= 1
    ensures Exec(fuel, s, Cmd.Select) == ExecSelect(s)
  {
  }

  lemma UndoOfSelectWas(fuel: nat, s: Archy, cursor: int, sels: seq<Range>)
    requires Sound(s) && fuel >= 1
    ensures Undo(fuel, s, SelectWas(cursor, sels)) ==
            Success(s.(doc := Documents.SetCursor(Documents.SetSelectionList(s.doc, sels), cursor)))
  {
  }

  /** Selecting an ordered preselection inside the text makes it the
      selection. */
  lemma SelectKeepsPreselection(d: Documents.Doc)
    requires |d.selections| >= 2
    ensures var pre := d.selections[Documents.Preselection];
            Documents.InDoc(d, pre.start) && Documents.InDoc(d, pre.end) && pre.start <= pre.end ==>
              Documents.SetCursor(Documents.CreateNewSelection(d, pre.start, pre.end), pre.end + 1)
                .selections[Documents.Selection] == pre
  {
  }

  /** Putting back the selection list and then the cursor of a document
      with the same text gives that document back. */
  lemma SelectionListThenCursor(d: Documents.Doc, e: Documents.Doc)
    requires Documents.CursorSettled(d) && e.(selections := d.selections, cursor := d.cursor) == d
    ensures Documents.SetCursor(Documents.SetSelectionList(e, d.selections), d.cursor) == d
  {
    assert Documents.Length(e) == Documents.Length(d);
  }

  // ---------------------------------------------------------------------
  // Adding text
  // ---------------------------------------------------------------------

  /** `SimpleAddTextCommand` selects the text it typed. */
  lemma SimpleAddTextSelectsIt(s: Archy, text: string, style: Documents.StyleArg)
    requires Sound(s) && |s.doc.selections| >= 2
    requires Documents.RoundTripArgs(s.doc, text, s.doc.cursor, style)
    ensures ExecSimpleAddText(s, text, style).Success?
    ensures var c := s.doc.cursor;
            var d := ExecSimpleAddText(s, text, style).value.0.doc;
            d.selections[Documents.Selection] == Range(c, c + |text| - 1) &&
            d.text.contents[c..c + |text|] == text
  {
    var c := s.doc.cursor;
    var d1 := Documents.AddText(s.doc, text, c, style);
    assert InsertPoint(c, Documents.Length(s.doc)) == c;
  }

  /** Undoing `SimpleAddTextCommand` deletes what it typed and gives back
      the document (its "touched" flag aside); the anchor stays moved. */
  lemma SimpleAddTextUndoRestores(fuel: nat, s: Archy, text: string, style: Documents.StyleArg)
    requires Sound(s) && fuel >= 1 && |s.doc.selections| >= 2
    requires Documents.RoundTripArgs(s.doc, text, s.doc.cursor, style)
    ensures ExecSimpleAddText(s, text, style).Success?
    ensures var ex := ExecSimpleAddText(s, text, style).value;
            Undo(fuel, ex.0, ex.1).Success? &&
            Restored(s, Undo(fuel, ex.0, ex.1).value, ex.0.anchor)
  {
    var ex := ExecSimpleAddText(s, text, style).value;
    SimpleAddTextInsertion(s, text, style);
    UndoOfInserted(fuel, ex.0, s.doc.cursor, |text|, s.doc.selections);
  }

  /** An insertion record is undone by `UndoInsertion`. */
  lemma UndoOfInserted(fuel: nat, p: Archy, c: int, n: nat, sels: seq<Range>)
    requires Sound(p) && fuel >= 1
    ensures Undo(fuel, p, Inserted(c, n, sels)) == Success(p.(doc := UndoInsertion(p.doc, c, n, sels)))
  {
  }

  /** `SimpleAddTextCommand` leaves an insertion record whose undo gives
      back the document before it. */
  lemma SimpleAddTextInsertion(s: Archy, text: string, style: Documents.StyleArg)
    requires Sound(s) && |s.doc.selections| >= 2
    requires Documents.RoundTripArgs(s.doc, text, s.doc.cursor, style)
    ensures ExecSimpleAddText(s, text, style).Success?
    ensures var ex := ExecSimpleAddText(s, text, style).value;
            var c := s.doc.cursor;
            ex.1 == Inserted(c, |text|, s.doc.selections) && ex.0.pool == s.pool &&
            SameDoc(s.doc, UndoInsertion(ex.0.doc, c, |text|, s.doc.selections))
  {
    var ex := ExecSimpleAddText(s, text, style).value;
    InsertionUndone(s.doc, ex.0.doc, text, s.doc.cursor, style);
  }

  /** `UndoInsertion` on the document an insertion left gives back the
      document before it. */
  lemma InsertionUndone(d: Documents.Doc, e: Documents.Doc, text: string, c: int, style: Documents.StyleArg)
    requires Documents.RoundTripArgs(d, text, c, style)
    requires var added := Documents.AddText(d, text, c, style);
             e.(selections := added.selections) == added
    ensures SameDoc(d, UndoInsertion(e, c, |text|, d.selections))
  {
    DeleteWhatWasAdded(d, e, text, c, style);
  }

  /** Deleting the block an insertion added, from the insertion's result
      with any selections, and putting the old selections back, gives back
      the document. */
  lemma DeleteWhatWasAdded(d: Documents.Doc, e: Documents.Doc, text: string, c: int, style: Documents.StyleArg)
    requires Documents.RoundTripArgs(d, text, c, style)
    requires var added := Documents.AddText(d, text, c, style);
             e.(selections := added.selections) == added
    ensures SameDoc(d, Documents.DelText(e, c, c + |text| - 1).(selections := d.selections))
  {
    var added := Documents.AddText(d, text, c, style);
    Documents.AddThenDeleteRestores(d, text, c, style);
    DeleteIgnoresSelections(added, e, c, c + |text| - 1, d.selections);
  }

  /** A deletion followed by a new selection list does not depend on the
      selections it started from. */
  lemma DeleteIgnoresSelections(d: Documents.Doc, e: Documents.Doc, startPos: int, endPos: int, sels: seq<Range>)
    requires e.(selections := d.selections) == d
    ensures Documents.DelText(e, startPos, endPos).(selections := sels) ==
            Documents.DelText(d, startPos, endPos).(selections := sels)
  {
  }

  /** `back` is `s` again apart from the text array's "touched" flag and
      the anchor. */
  predicate Restored(s: Archy, back: Archy, anchor: int) {
    SameDoc(s.doc, back.doc) && back.pool == s.pool && back.anchor == anchor
  }

  /** `back` is `d` again apart from the text array's "touched" flag. */
  predicate SameDoc(d: Documents.Doc, back: Documents.Doc) {
    back == d.(text := back.text) && back.text.contents == d.text.contents
  }

  /** At a position whose only add handler is the plain one, `AddTextCommand`
      is `SimpleAddTextCommand` under one more level of undo. */
  lemma AddTextAtPlainPosition(fuel: nat, s: Archy, text: string, style: Documents.StyleArg)
    requires Sound(s) && fuel >= 2 && |s.doc.selections| >= 2
    requires PyList.IndexOk(s.doc.cursor, |s.doc.behaviors.ids|)
    requires Behaviors.HandlersAt(s.doc.behaviors, s.doc.cursor, AddSlot) == [SimpleAddText]
    ensures ExecSimpleAddText(s, text, style).Success?
    ensures var ex := ExecSimpleAddText(s, text, style).value;
            Exec(fuel, s, Cmd.AddText(text, style)) == Success((ex.0, Undone([ex.1])))
  {
    var ex := ExecSimpleAddText(s, text, style).value;
    ChainOfOne(fuel - 1, s, SimpleAddText, Adding(text, style));
    assert Recording.Reverse([ex.1]) == [ex.1];
  }

  /** A chain of one handler that does not stop it runs that handler. */
  lemma ChainOfOne(fuel: nat, s: Archy, h: HandlerClass, args: Args)
    requires Sound(s) && fuel >= 1
    ensures ExecHandler(fuel - 1, s, h, args).Success? ==>
              ExecChain(fuel, s, [h], args) ==
              Success((ExecHandler(fuel - 1, s, h, args).value.0, [ExecHandler(fuel - 1, s, h, args).value.1]))
  {
    assert [h][1..] == [];
    var first := ExecHandler(fuel - 1, s, h, args);
    if first.Success? {
      assert ExecChain(fuel, first.value.0, [], args) == Success((first.value.0, []));
      assert [first.value.1] + [] == [first.value.1];
      assert [h][0] == h;
    }
  }

  /** A record holding one part is undone by undoing that part. */
  lemma UndoOne(fuel: nat, s: Archy, d: Done)
    requires Sound(s) && fuel >= 2
    ensures Undo(fuel, s, Undone([d])) == Undo(fuel - 2, s, d)
  {
    assert [d][1..] == [];
    var s1 := Undo(fuel - 2, s, d);
    if s1.Success? {
      assert UndoAll(fuel - 1, s1.value, []) == s1;
    }
    assert UndoAll(fuel - 1, s, [d]) == Undo(fuel - 2, s, d);
  }

  /** Undoing `AddTextCommand` at a plain position gives back the document
      it was typed into. */
  lemma AddTextUndoRestores(fuel: nat, s: Archy, text: string, style: Documents.StyleArg)
    requires Sound(s) && fuel >= 3 && |s.doc.selections| >= 2
    requires Documents.RoundTripArgs(s.doc, text, s.doc.cursor, style)
    requires PyList.IndexOk(s.doc.cursor, |s.doc.behaviors.ids|)
    requires Behaviors.HandlersAt(s.doc.behaviors, s.doc.cursor, AddSlot) == [SimpleAddText]
    ensures Exec(fuel, s, Cmd.AddText(text, style)).Success?
    ensures var ex := Exec(fuel, s, Cmd.AddText(text, style)).value;
            Undo(fuel, ex.0, ex.1).Success? && Restored(s, Undo(fuel, ex.0, ex.1).value, ex.0.anchor)
  {
    AddTextAtPlainPosition(fuel, s, text, style);
    SimpleAddTextUndoRestores(fuel - 2, s, text, style);
    var ex := ExecSimpleAddText(s, text, style).value;
    UndoOne(fuel, ex.0, ex.1);
  }

  // ---------------------------------------------------------------------
  // Deleting text in a document without locks or flags
  // ---------------------------------------------------------------------

  /** A behavior array in which every character has the default behavior,
      whose one action holds the plain add, delete and style handlers. */
  predicate Plain(ba: Behaviors.BehaviorArray) {
    ba.actions == [DefaultAction] && ba.behaviors == [[0]] && ba.defaultBehavior == 0
  }

  /** Every position of a plain array has the plain handlers only. */
  lemma PlainHandlers(ba: Behaviors.BehaviorArray, pos: int)
    requires Behaviors.Valid(ba) && Plain(ba) && PyList.IndexOk(pos, |ba.ids|)
    ensures Behaviors.HandlersAt(ba, pos, AddSlot) == [SimpleAddText]
    ensures Behaviors.HandlersAt(ba, pos, DeleteSlot) == [SimpleDeleteText]
    ensures Behaviors.HandlersAt(ba, pos, StyleSlot) == [SimpleStyle]
  {
    assert PyList.At(ba.ids, pos) == 0;
    assert ba.behaviors[0][1..] == [];
    assert Behaviors.HandlersIn(ba, [], [AddSlot]) == [];
    assert Behaviors.HandlersIn(ba, [], [DeleteSlot]) == [];
    assert Behaviors.HandlersIn(ba, [], [StyleSlot]) == [];
    assert Behaviors.SlotsOf(DefaultAction, [AddSlot]) == [SimpleAddText] by {
      assert Behaviors.SlotsOf(DefaultAction, []) == [];
    }
    assert Behaviors.SlotsOf(DefaultAction, [DeleteSlot]) == [SimpleDeleteText] by {
      assert Behaviors.SlotsOf(DefaultAction, []) == [];
    }
    assert Behaviors.SlotsOf(DefaultAction, [StyleSlot]) == [SimpleStyle] by {
      assert Behaviors.SlotsOf(DefaultAction, []) == [];
    }
  }

  /** The selection of `s`, inside its text and in order. */
  predicate SelectionInside(d: Documents.Doc) {
    |d.selections| >= 2 && Documents.LockStep(d) &&
    0 <= d.selections[Documents.Selection].start <= d.selections[Documents.Selection].end < Documents.Length(d)
  }

  /** In a plain document `DeleteTextCommand` is `SimpleDeleteTextCommand`
      on the whole selection. */
  lemma DeleteTextInPlainDoc(fuel: nat, s: Archy)
    requires Sound(s) && fuel >= 3 && Plain(s.doc.behaviors) && SelectionInside(s.doc)
    ensures ExecSimpleDeleteText(s).Success?
    ensures var ex := ExecSimpleDeleteText(s).value;
            Exec(fuel, s, Cmd.DeleteText) ==
            Success((ex.0, UndoneThenSelect([ex.1], s.doc.selections[Documents.Selection])))
  {
    var sel := s.doc.selections[Documents.Selection];
    var ba := s.doc.behaviors;
    assert Behaviors.BlankableRanges(ba, Behaviors.Deletable, sel.start, sel.end) == [Range(sel.start, sel.end)] by {
      Behaviors.DefaultBehaviorIsBlankable(ba, Behaviors.Deletable, sel.start, sel.end);
    }
    assert Behaviors.HandlersAt(ba, sel.start, DeleteSlot) == [SimpleDeleteText] by {
      PlainHandlers(ba, sel.start);
    }
    DeleteTextAtPlainPosition(fuel, s);
  }

  /** `DeleteTextCommand` on a selection that is one deletable stretch
      whose first character has only the plain delete handler. */
  lemma DeleteTextAtPlainPosition(fuel: nat, s: Archy)
    requires Sound(s) && fuel >= 3 && SelectionInside(s.doc)
    requires var sel := s.doc.selections[Documents.Selection];
             Behaviors.HandlersAt(s.doc.behaviors, sel.start, DeleteSlot) == [SimpleDeleteText] &&
             Behaviors.BlankableRanges(s.doc.behaviors, Behaviors.Deletable, sel.start, sel.end) == [Range(sel.start, sel.end)]
    ensures ExecSimpleDeleteText(s).Success?
    ensures var ex := ExecSimpleDeleteText(s).value;
            Exec(fuel, s, Cmd.DeleteText) ==
            Success((ex.0, UndoneThenSelect([ex.1], s.doc.selections[Documents.Selection])))
  {
    var sel := s.doc.selections[Documents.Selection];
    assert Documents.SetSelection(s.doc, Documents.Selection, sel.start, sel.end) == s.doc by {
      assert PyList.Put(s.doc.selections, Documents.Selection, sel) == s.doc.selections;
    }
    ChainOfOne(fuel - 2, s, SimpleDeleteText, Deleting);
    var ex := ExecSimpleDeleteText(s).value;
    assert DeleteRanges(fuel - 1, ex.0, [], sel.end - sel.start + 1) == Success((ex.0, []));
    assert [Range(sel.start, sel.end)][1..] == [];
    assert DeleteRanges(fuel - 1, s, [Range(sel.start, sel.end)], 0) == Success((ex.0, [ex.1]));
    assert Recording.Reverse([ex.1]) == [ex.1];
  }

  /** What `SimpleDeleteTextCommand` leaves in a plain document whose
      selection stops short of the last character. */
  lemma SimpleDeleteInPlainDoc(s: Archy)
    requires Sound(s) && Plain(s.doc.behaviors) && SelectionInside(s.doc)
    requires s.doc.selections[Documents.Selection].end < Documents.Length(s.doc) - 1
    ensures ExecSimpleDeleteText(s).Success?
    ensures var sel := s.doc.selections[Documents.Selection];
            var c := s.doc.text.contents;
            var ex := ExecSimpleDeleteText(s).value;
            Plain(ex.0.doc.behaviors) && Documents.LockStep(ex.0.doc) && |ex.0.doc.selections| >= 2 &&
            sel.start < Documents.Length(ex.0.doc) &&
            ex.0.doc.text.contents == c[..sel.start] + c[sel.end + 1..] &&
            ex.1 == Removed(sel.start, c[sel.start..sel.end + 1], s.doc.styles.ids[sel.start..sel.end + 1])
  {
    var sel := s.doc.selections[Documents.Selection];
    assert ClampDeletion(sel.start, sel.end, Documents.Length(s.doc)) == Some(sel);
    Documents.DelTextKeepsValid(s.doc, sel.start, sel.end);
  }

  /** Undoing a deletion record at a position of a plain document types
      the deleted text back in there. */
  lemma UndoRemovedInPlainDoc(fuel: nat, p: Archy, start: int, text: string, styles: seq<int>)
    requires Sound(p) && fuel >= 3 && Plain(p.doc.behaviors) && Documents.LockStep(p.doc)
    requires |p.doc.selections| >= 2 && 0 <= start < Documents.Length(p.doc) && |text| > 0
    ensures Undo(fuel, p, Removed(start, text, styles)).Success?
    ensures var c := p.doc.text.contents;
            var back := Undo(fuel, p, Removed(start, text, styles)).value;
            back.doc.text.contents == c[..start] + text + c[start..] && |back.doc.selections| >= 2
  {
    var s1 := p.(doc := Documents.SetCursor(p.doc, start));
    var styled := Documents.StyleList(styles);
    assert ExecSimpleAddText(s1, text, styled).Success? &&
           Exec(fuel - 1, s1, Cmd.AddText(text, styled)) ==
           Success((ExecSimpleAddText(s1, text, styled).value.0, Undone([ExecSimpleAddText(s1, text, styled).value.1]))) by {
      PlainHandlers(s1.doc.behaviors, start);
      AddTextAtPlainPosition(fuel - 1, s1, text, styled);
    }
    assert Undo(fuel, p, Removed(start, text, styles)) == Success(ExecSimpleAddText(s1, text, styled).value.0) by {
      UndoRemovedIs(fuel, p, start, text, styles);
    }
    assert InsertPoint(start, Documents.Length(p.doc)) == start;
  }

  /** A deletion record holding some text is undone by typing that text
      back where the deletion started. */
  lemma UndoRemovedIs(fuel: nat, p: Archy, start: int, text: string, styles: seq<int>)
    requires Sound(p) && fuel >= 2 && |text| > 0
    ensures var s1 := p.(doc := Documents.SetCursor(p.doc, start));
            Undo(fuel, p, Removed(start, text, styles)) ==
            (var added :- Exec(fuel - 1, s1, Cmd.AddText(text, Documents.StyleList(styles))); Success(added.0))
  {
  }

  /** A record holding one part, then the selection, is undone by undoing
      that part and setting the selection. */
  lemma UndoOneThenSelect(fuel: nat, p: Archy, d: Done, back: Range)
    requires Sound(p) && fuel >= 2
    ensures var u := Undo(fuel - 2, p, d);
            u.Success? && |u.value.doc.selections| >= 2 ==>
              Undo(fuel, p, UndoneThenSelect([d], back)) ==
              Success(u.value.(doc := Documents.SetSelection(u.value.doc, Documents.Selection, back.start, back.end)))
  {
    assert [d][1..] == [];
    var u := Undo(fuel - 2, p, d);
    if u.Success? {
      assert UndoAll(fuel - 1, u.value, []) == u;
    }
    assert UndoAll(fuel - 1, p, [d]) == u;
  }

  /** In a plain document, undoing `DeleteTextCommand` types the deleted
      characters back where they were and selects them again, provided
      the selection stopped short of the last character. (When it did
      not, the undo's `setCursor` lands one character early; the final
      character lock keeps that from happening in the editor.) */
  lemma DeleteTextUndoRestoresText(fuel: nat, s: Archy)
    requires Sound(s) && fuel >= 5 && Plain(s.doc.behaviors) && SelectionInside(s.doc)
    requires s.doc.selections[Documents.Selection].end < Documents.Length(s.doc) - 1
    ensures Exec(fuel, s, Cmd.DeleteText).Success?
    ensures var ex := Exec(fuel, s, Cmd.DeleteText).value;
            var u := Undo(fuel, ex.0, ex.1);
            u.Success? && TextAndSelectionBack(s.doc, u.value.doc)
  {
    DeleteTextInPlainDoc(fuel, s);
    SimpleDeleteUndone(fuel, s);
  }

  /** Undoing the record `DeleteTextCommand` leaves in a document without
      behaviours puts the deleted text and the selection back. */
  lemma SimpleDeleteUndone(fuel: nat, s: Archy)
    requires Sound(s) && fuel >= 5 && Plain(s.doc.behaviors) && SelectionInside(s.doc)
    requires s.doc.selections[Documents.Selection].end < Documents.Length(s.doc) - 1
    ensures ExecSimpleDeleteText(s).Success?
    ensures var ex := ExecSimpleDeleteText(s).value;
            var u := Undo(fuel, ex.0, UndoneThenSelect([ex.1], s.doc.selections[Documents.Selection]));
            u.Success? && TextAndSelectionBack(s.doc, u.value.doc)
  {
    var sel := s.doc.selections[Documents.Selection];
    var c := s.doc.text.contents;
    var ex := ExecSimpleDeleteText(s).value;
    SimpleDeleteInPlainDoc(s);
    UndoDeletion(fuel, ex.0, s.doc, c[sel.start..sel.end + 1], s.doc.styles.ids[sel.start..sel.end + 1]);
  }

  /** `back` has the text of `d` and its selection. */
  predicate TextAndSelectionBack(d: Documents.Doc, back: Documents.Doc) {
    |d.selections| >= 2 && |back.selections| >= 2 &&
    back.text.contents == d.text.contents &&
    back.selections[Documents.Selection] == d.selections[Documents.Selection]
  }

  /** Undoing the record of a deletion of the selection of `d` from a plain
      state holding what the deletion left. */
  lemma UndoDeletion(fuel: nat, p: Archy, d: Documents.Doc, text: string, styles: seq<int>)
    requires Sound(p) && fuel >= 5 && Plain(p.doc.behaviors) && Documents.LockStep(p.doc)
    requires SelectionInside(d) && |p.doc.selections| >= 2
    requires var sel := d.selections[Documents.Selection];
             var c := d.text.contents;
             sel.start < Documents.Length(p.doc) && text == c[sel.start..sel.end + 1] &&
             p.doc.text.contents == c[..sel.start] + c[sel.end + 1..]
    ensures var u := Undo(fuel, p, UndoneThenSelect([Removed(d.selections[Documents.Selection].start, text, styles)],
                                                    d.selections[Documents.Selection]));
            u.Success? && TextAndSelectionBack(d, u.value.doc)
  {
    var sel := d.selections[Documents.Selection];
    var c := d.text.contents;
    UndoRemovedInPlainDoc(fuel - 2, p, sel.start, text, styles);
    UndoOneThenSelect(fuel, p, Removed(sel.start, text, styles), sel);
    var rest := c[..sel.start] + c[sel.end + 1..];
    assert rest[..sel.start] + text + rest[sel.start..] == c by {
      assert rest[..sel.start] == c[..sel.start];
      assert rest[sel.start..] == c[sel.end + 1..];
      assert c == c[..sel.start] + c[sel.start..sel.end + 1] + c[sel.end + 1..];
    }
  }
}

=== FILE: wrappers.dfy ===
/** Failure-carrying return types shared by every module of the model.
    Python exceptions and `None` results of the program become
    `Failure` and `None` values here. */
module Wrappers {

  datatype Option<+T> = None | Some(value: T) {
    predicate IsFailure() { None? }

    function PropagateFailure<U>(): Option<U>
      requires None?
    {
      None
    }

    function Extract(): T
      requires Some?
    {
      value
    }
  }

  /** The outcome of an operation that may raise: `Failure` carries the
      message of the exception the program raises. */
  datatype Result<+R> = Success(value: R) | Failure(error: string) {
    predicate IsFailure() { Failure? }

    function PropagateFailure<U>(): Result<U>
      requires Failure?
    {
      Failure(error)
    }

    function Extract(): R
      requires Success?
    {
      value
    }
  }
}
